=== FILE: README.md ===
# Nepal bill tracker: a verified model of the core

This project models the core of a tracker for bills in Nepal's federal
parliament in Dafny, and proves properties of that model. The two houses are
the House of Representatives (Pratinidhi Sabha) and the National Assembly
(Rastriya Sabha). The core has these parts:

- **The bill lifecycle state machine.** Twenty statuses, from draft to
  implementation monitoring, plus lapsed, withdrawn and fast track. Each
  transition is guarded by the acting role and the bill type.
- **The deadline engine.** Creating a deadline, breaking the time left into
  days, hours and minutes, the remaining-time text and the urgency tier.
- **The enumerations.** Statuses, roles and bill types, the lifecycle order
  and the role permissions, the demo accounts and `hasPermission`.
- **The import mapping.** Scraped JSON bills become database rows.
- **The two Python cleaners.** One for scraped bills and one for committees.
- **The API side.** The fixed-window rate limiter, the query validation
  schema, and the filter, order and paging arithmetic of `GET /api/bills`.
- **The pages.** The bills list page's paging state, the roadmap of the bill
  detail page, the landing page's shared helpers, the display formatters and
  the dashboard figures over the mock data.
- **The scraper.** How bill identifiers are cut from the parliament site's
  links and collected.

Every operation is a pure function or a short method over immutable values.
State that the program keeps elsewhere becomes a parameter and a result:
- the clock reading (`now`, in milliseconds);
- the rate limiter's bucket map;
- React component state;
- the rows the database returns;
- the calendar behind Python's `strptime`.

Whole-day date arithmetic adds multiples of 86 400 000 ms.

The modules follow the source files:

| module | source |
|---|---|
| `Types` | src/types/index.ts |
| `BillMachine` | src/lib/state-machine/bill-machine.ts |
| `Deadlines` | src/lib/rules-engine/deadlines.ts |
| `Auth` | src/lib/auth.ts |
| `ImportBills` | src/scripts/importBillsFromJson.ts |
| `LibTypes` | src/lib/types.ts |
| `CleanBills` | services/python/scraper/bills/clean_and_insert_bills.py |
| `CleanCommittees` | services/python/scraper/committees/clean_and_insert.py |
| `RateLimit` | src/lib/server/rate-limit.ts |
| `ApiValidation` | src/lib/validation/api.ts |
| `BillsRoute` | src/app/api/bills/route.ts |
| `BillsClient` | src/components/bills/BillsClient.tsx |
| `BillDetail` | src/components/bills/BillDetail.tsx |
| `LandingShared` | src/components/landingpage/shared.tsx |
| `MockData` | src/lib/mock-data.ts |
| `ScraperIds` | services/python/scraper/bills/scraper_bills.py |
| `JsLookup` | indexing of plain JavaScript objects, used by four of the files above |

Shared helpers:
- `Wrappers` holds `Option` and `Result`.
- `Seqs` holds subsequences, first positions, counting and keep-first deduplication.
- `Strings` holds JavaScript and Python whitespace, trimming, searching, splitting and number-to-text conversion.
- `JsNum` holds JavaScript's truncating `%`, `Math.floor` and `Math.ceil` division, `min` and `max`.
- `JsNumber` holds JavaScript's `Number(text)` over exact values.
- `PyJson` holds loaded JSON values, Python truthiness and `dict.get`.

## Model

| member | source | states |
|---|---|---|
| Types.StatusKeyInjective | src/types/index.ts:13-20 | the twenty stored status identifiers are pairwise different |
| Types.OrdinalIndexes | src/types/index.ts:13-20 | the status list holds every status, each at its declaration position |
| Types.AllStatusesComplete | src/types/index.ts:13-20 | every status value occurs in the status list |
| Types.FindStatus | src/types/index.ts:13-20 | a found status is in the searched list and has the identifier; no result means no listed status has it |
| Types.ParseStatusKey | src/types/index.ts:13-20 | reading a stored identifier gives back its status, and a status is read only from its own identifier |
| Types.AllStatusesDistinct | src/types/index.ts:13-20 | there are exactly twenty statuses, none repeated |
| Types.StatusLabelsDistinct | src/types/index.ts:27-48 | no two statuses share a display label |
| Types.BadgeClassesWellFormed | src/types/index.ts:50-71 | every status's badge class is a non-empty member of the `badge-` family |
| Types.OtherLabelsDistinct | src/types/index.ts:73-95 | role, bill-type and house labels are each pairwise different |
| Types.LifecycleOrderShape | src/types/index.ts:99-117 | the timeline holds 17 distinct statuses from DRAFT to IMPLEMENTATION_MONITORING and leaves out exactly LAPSED, WITHDRAWN and FAST_TRACK |
| Types.RolePermissionsShape | src/types/index.ts:121-130 | only ADMIN holds the wildcard, PUBLIC holds only the public-view permission and no other role holds it, every role holds at least one |
| BillMachine.Permitted | src/lib/state-machine/bill-machine.ts:407-413 | the kept transitions are a subsequence of the input, and a transition is kept exactly when its roles include the caller's role and any bill-type restriction includes the bill's type |
| BillMachine.AvailableTransitions | src/lib/state-machine/bill-machine.ts:400-415 | `getAvailableTransitions` on a status: exactly the catalogue transitions whose guard admits role and bill type, in catalogue order |
| BillMachine.LeadsTo | src/lib/state-machine/bill-machine.ts:424 | true exactly when some transition of the list goes to the target |
| BillMachine.PermittedLeadsTo | src/lib/state-machine/bill-machine.ts:407-424 | filtering and then searching for a target finds a transition exactly when some admitted transition goes there |
| BillMachine.CanTransition | src/lib/state-machine/bill-machine.ts:417-425 | `canTransition` holds exactly when some available transition, equivalently some catalogue transition with an admitting guard, goes to the target |
| BillMachine.AvailableForKey | src/lib/state-machine/bill-machine.ts:405-406 | own-key reading of a status key: a key that names no status yields no transitions, and a status's own key yields that status's available transitions |
| BillMachine.DeadlinesFor | src/lib/state-machine/bill-machine.ts:25-30 | the kept deadline specs are a subsequence, and a spec is kept exactly when it has no bill-type restriction or the restriction includes the bill's type |
| BillMachine.ApplicableDeadlines | src/lib/state-machine/bill-machine.ts:25-30 | the deadline specs of a status that apply to a bill type, in catalogue order and nothing else |
| BillMachine.GovernmentNotice | src/lib/state-machine/bill-machine.ts:110-113 | a government or money bill at REGISTERED gets exactly the 2-day government notice |
| BillMachine.PrivateNotice | src/lib/state-machine/bill-machine.ts:110-113 | a private bill at REGISTERED gets exactly the 4-day private notice |
| BillMachine.NoNoticeForOtherTypes | src/lib/state-machine/bill-machine.ts:110-113 | constitutional amendments and ordinance replacements get no notice at REGISTERED |
| BillMachine.StateSpecsAgree | src/lib/state-machine/bill-machine.ts:110-113 | each deadline spec of a status has the DEADLINE_DURATIONS length of its kind, is not the presidential return window, and any automatic transition it names is an edge of that status |
| BillMachine.SpecDurationsAgree | src/lib/state-machine/bill-machine.ts:433-441 | the same agreement for every status of the catalogue at once |
| BillMachine.StateWellFormed | src/lib/state-machine/bill-machine.ts:35-395 | every transition of a status names at least one role and never PUBLIC, has a non-empty bill-type restriction if any, logs itself first and leaves the status |
| BillMachine.GuardsWellFormed | src/lib/state-machine/bill-machine.ts:35-395 | every transition of the catalogue is well formed and goes to a status whose key is a catalogue key |
| BillMachine.TerminalStatus | src/lib/state-machine/bill-machine.ts:340-344 | IMPLEMENTATION_MONITORING is exactly the status with no outgoing transitions |
| BillMachine.SingleExit | src/lib/state-machine/bill-machine.ts:407-424 | a status with one transition can reach a target exactly through that transition's guard |
| BillMachine.LapsedOnlyBackToDraft | src/lib/state-machine/bill-machine.ts:346-357 | a lapsed bill has one way out, back to DRAFT, taken only by a ministry or an MP, for every bill type |
| BillMachine.WithdrawnOnlyBackToDraft | src/lib/state-machine/bill-machine.ts:359-370 | a withdrawn bill has one way out, back to DRAFT, taken only by a ministry or an MP, for every bill type |
| BillMachine.OnlyPresidentActsOnReview | src/lib/state-machine/bill-machine.ts:288-307 | at PRESIDENTIAL_REVIEW no role other than the President has any transition |
| BillMachine.MoneyBillOnlyAssented | src/lib/state-machine/bill-machine.ts:288-307 | a money bill under presidential review can only be assented |
| BillMachine.OtherBillsMayBeReturned | src/lib/state-machine/bill-machine.ts:288-307 | any other bill under presidential review can be assented or returned to GENERAL_DISCUSSION, the return carrying the no-double-return check |
| BillMachine.NextInLifecycleFollowsOrder | src/types/index.ts:99-117 | the timeline is the chain of next-step links from DRAFT, ending at IMPLEMENTATION_MONITORING |
| BillMachine.NextInLifecycleIsEdge | src/lib/state-machine/bill-machine.ts:35-340 | each next step on the timeline is a transition of the catalogue |
| BillMachine.LifecycleFollowsCatalogue | src/lib/state-machine/bill-machine.ts:35-340 | consecutive statuses of BILL_LIFECYCLE_ORDER are joined by a catalogue transition |
| Deadlines.DurationsPositive | src/lib/state-machine/bill-machine.ts:433-441 | every length in the duration table is positive, so the `|| 7` fallback never replaces a listed kind |
| Deadlines.DurationFor | src/lib/rules-engine/deadlines.ts:29 | own-key reading of the length: positive, the table's entry for a listed kind and 7 days for any other |
| Deadlines.AddDays | src/lib/rules-engine/deadlines.ts:30 | the expiry lies a whole number of days, exactly the given count, after the start |
| Deadlines.CreateDeadline | src/lib/rules-engine/deadlines.ts:24-39 | `createDeadline` keeps kind, start and automatic action, takes the kind's length and expires that many days after the start |
| Deadlines.CreatedLengthMatchesSpec | src/lib/rules-engine/deadlines.ts:29 | a deadline a status declares is created with the length the status declares for it |
| Deadlines.UnknownKindLastsAWeek | src/lib/rules-engine/deadlines.ts:29-30 | a kind missing from the table expires seven days after its start |
| Deadlines.CheckDeadline | src/lib/rules-engine/deadlines.ts:44-67 | `checkDeadline`: expired exactly once the expiry is reached; the time left is never negative, zero when expired, and splits into days, hours below 24 and minutes below 60 that add up to it to within a minute |
| Deadlines.Breakdown | src/lib/rules-engine/deadlines.ts:50-52 | for a positive time the floor and truncating-remainder steps give hours below 24 and minutes below 60 that recompose the time to within a minute |
| Deadlines.RemainingTextReadsBack | src/lib/rules-engine/deadlines.ts:72-83 | `formatRemainingTime` is "Expired" exactly for an expired deadline; otherwise its leading number, read back, is the days, else the hours, else the minutes, and the number after "d " is the hours, and the number after "h " the minutes |
| Deadlines.UrgencyTiers | src/lib/rules-engine/deadlines.ts:88-95 | `getDeadlineUrgency` is expired at no time left, critical below six hours, warning below two days, normal from two days on |
| Deadlines.UrgencyMonotone | src/lib/rules-engine/deadlines.ts:88-95 | as time passes a deadline's urgency never decreases |
| Deadlines.RuleKindsCoverTable | src/lib/rules-engine/deadlines.ts:100-110 | the seven rule rows describe exactly the seven kinds of the duration table |
| Deadlines.RuleTextsAreSpans | src/lib/rules-engine/deadlines.ts:102-108 | each rule row states its length as days, whole-day hours or months |
| Deadlines.RuleSpansMatchTable | src/lib/rules-engine/deadlines.ts:102-108 | each rule row's length, in days, is the duration table's length for its kind |
| Auth.DemoUserIdsDistinct | src/lib/auth.ts:17-78 | no two demo accounts share an id |
| Auth.DemoUserEmailsDistinct | src/lib/auth.ts:17-78 | no two demo accounts share an e-mail address |
| Auth.DemoRoles | src/lib/auth.ts:17-78 | the roles of the demo accounts, one per account in order |
| Auth.DemoUserRoles | src/lib/auth.ts:17-78 | the demo accounts cover exactly the roles other than PUBLIC |
| Auth.HasPermission | src/lib/auth.ts:109-117 | `hasPermission`: false with nobody signed in, true for a role holding the wildcard, otherwise true exactly when the role lists the permission |
| Auth.PermissionByRole | src/lib/auth.ts:109-117 | against the role table: ADMIN may do anything, PUBLIC exactly views public bills, and any other role exactly what it lists |
| ImportBills.NormalizeYear | src/scripts/importBillsFromJson.ts:45-53 | `normalizeYear`: a non-empty Sambat year wins; no year gives nothing; otherwise the result is the year's part before its first "-" or "/" (a separator-free prefix that is all of the year or is followed by a separator), and nothing exactly when the year opens with "-" or "/" |
| ImportBills.YearPartUnique | src/scripts/importBillsFromJson.ts:51 | a year has one such part: two separator-free prefixes that each end at a separator or at the end of the year are equal |
| ImportBills.NormalizeYearPlain | src/scripts/importBillsFromJson.ts:51-52 | a non-empty year without separators is kept whole |
| ImportBills.MapHouse | src/scripts/importBillsFromJson.ts:55-59 | `mapHouse` gives the lower house exactly for "HoR" and the upper house exactly for "NA" |
| ImportBills.MapHouseInvertsShortName | src/scripts/importBillsFromJson.ts:55-59 | `mapHouse` reads back every short house name the formatter writes |
| ImportBills.MapBillType | src/scripts/importBillsFromJson.ts:61-66 | `mapBillType` is "original" exactly when the text holds the word for original, and "amendment" exactly when it holds only the word for amendment |
| ImportBills.MapCategory | src/scripts/importBillsFromJson.ts:68-72 | `mapCategory` gives nothing exactly for a missing or empty text, and non-governmental exactly when the text holds that word |
| ImportBills.RawStatusMapStopsAtJointSitting | src/scripts/importBillsFromJson.ts:90-109 | no scraped label maps past JOINT_SITTING in the enum order |
| ImportBills.RawStatusLabelsOfSecondHouse | src/scripts/importBillsFromJson.ts:103-105 | exactly three labels map to the second-house status |
| ImportBills.MapRawStatus | src/scripts/importBillsFromJson.ts:111-115 | own-key reading of `mapRawStatus`: a missing or empty label maps to nothing, and any other label maps to the table entry of its trimmed, lower-cased text (nothing when the table has no such key) |
| ImportBills.ListedLabelMaps | src/scripts/importBillsFromJson.ts:90-115 | a label whose lower-cased text is a key of the status table maps to that key's status, whatever JavaScript whitespace surrounds it |
| ImportBills.MapRawStatusIgnoresPadding | src/scripts/importBillsFromJson.ts:113 | surrounding JavaScript whitespace does not change the mapped status |
| ImportBills.MapRawStatusIgnoresCase | src/scripts/importBillsFromJson.ts:113 | lower-casing the label first does not change the mapped status |
| ImportBills.StatusToPhase | src/scripts/importBillsFromJson.ts:120-137 | `statusToPhase` gives a roadmap phase from 2 to 6 |
| ImportBills.StatusToPhaseMonotone | src/scripts/importBillsFromJson.ts:120-137 | the phase never decreases along the status enum order |
| ImportBills.ImportableBills | src/scripts/importBillsFromJson.ts:161 | the imported records are those with a non-empty bill id and registration number, in input order |
| ImportBills.ToBillRow | src/scripts/importBillsFromJson.ts:173-196 | the upserted row keeps id and registration number; its year is the normalised year or empty text; the titles default to empty text; session, presenter, ministry and link are copied; house, bill type, category and status are mapped; the year text is the BS date; and the phase is the status's phase exactly when there is a status |
| ImportBills.RowOf | src/scripts/importBillsFromJson.ts:238-249 | a history row holds the mapped status and the raw label, and no date exactly for an empty date |
| ImportBills.TimelineHistory | src/scripts/importBillsFromJson.ts:237-252 | one history row per timeline entry whose label maps, in timeline order, and none for the others |
| LibTypes.AllDbStatusesIndexed | src/lib/types.ts:3-16 | the stored-status list has thirteen entries and holds every status at its enum position |
| LibTypes.DbStatusKeyInjective | src/lib/types.ts:3-16 | no two stored statuses share an identifier |
| LibTypes.ParseDbStatus | src/lib/types.ts:3-16 | a parsed identifier is the status's own identifier, and no result means no status has it |
| LibTypes.ParseDbStatusKey | src/lib/types.ts:3-16 | parsing a status's identifier gives the status back |
| LibTypes.StatusTextsDistinct | src/lib/types.ts:118-132 | no two statuses are shown alike and none as the dash placeholder |
| LibTypes.FormatBillStatus | src/lib/types.ts:115-135 | `formatBillStatus` shows the dash exactly for a missing status |
| LibTypes.FormatBillStatusInjective | src/lib/types.ts:115-135 | two statuses shown alike are the same |
| LibTypes.ColorTableTotal | src/lib/types.ts:142-169 | the partial colour table has a non-slate entry for every status |
| LibTypes.StatusPalette | src/lib/types.ts:138-175 | `getStatusColor` picks the neutral slate classes for no status and the table entry for a listed one |
| LibTypes.NeutralColorIffMissing | src/lib/types.ts:138-175 | the neutral colour is used exactly for a missing status |
| LibTypes.FormatHouse | src/lib/types.ts:178-187 | `formatHouse`: the dash exactly for no house, and the full name of each house |
| LibTypes.FormatHouseShort | src/lib/types.ts:189-198 | `formatHouseShort`: the dash exactly for no house, "HoR" and "NA" otherwise |
| LibTypes.FormatBillType | src/lib/types.ts:201-210 | `formatBillType` shows the dash exactly for no type |
| LibTypes.FormatCategory | src/lib/types.ts:213-222 | `formatCategory` shows the dash exactly for no category |
| LibTypes.FormattersInjective | src/lib/types.ts:178-222 | the house, short-house, bill-type and category formatters each tell their values apart |
| CleanBills.FieldNamesDistinct | services/python/scraper/bills/clean_and_insert_bills.py:64-87 | the keys the cleaner reads and writes are pairwise different |
| CleanBills.Clean | services/python/scraper/bills/clean_and_insert_bills.py:64-87 | the cleaned copy has exactly the twenty-two keys of the cleaned dictionary |
| CleanBills.CleanIsIdempotent | services/python/scraper/bills/clean_and_insert_bills.py:64-87 | cleaning a cleaned bill again changes nothing |
| CleanBills.CleanCopies | services/python/scraper/bills/clean_and_insert_bills.py:64-87 | every field other than the titles and the English presenter and ministry is copied, with null for a missing key |
| CleanBills.SambatOverridesYear | services/python/scraper/bills/clean_and_insert_bills.py:95 | with the same registration number and a truthy sambat, the plain year does not affect the dedup key |
| CleanBills.YearWithoutSambat | services/python/scraper/bills/clean_and_insert_bills.py:95 | without a sambat, the registration number and the plain year decide the dedup key |
| CleanBills.CleanAll | services/python/scraper/bills/clean_and_insert_bills.py:62-87 | every raw bill is cleaned, in order |
| CleanBills.ReferenceFacts | services/python/scraper/bills/clean_and_insert_bills.py:89-101 | the cleaner's result holds identified bills only, at most one per dedup key, every first occurrence of a key, in input order, and is no longer than the input |
| CleanBills.CleanAndNormalize | services/python/scraper/bills/clean_and_insert_bills.py:48-104 | `clean_and_normalize`'s seen-set loop computes the clean, filter and keep-first pipeline, with all the properties above |
| CleanBills.InsertToDatabase | services/python/scraper/bills/clean_and_insert_bills.py:107-116 | `insert_to_database` reports success and zero inserted rows |
| CleanCommittees.CollapseWhitespace | services/python/scraper/committees/clean_and_insert.py:36 | collapsing whitespace runs keeps text empty exactly when it was empty, and keeps whether it opens with whitespace |
| CleanCommittees.CollapseIsSingleSpaced | services/python/scraper/committees/clean_and_insert.py:36 | after collapsing, whitespace occurs only as single plain spaces |
| CleanCommittees.CollapseSingleSpaced | services/python/scraper/committees/clean_and_insert.py:36 | collapsing leaves already single-spaced text unchanged |
| CleanCommittees.CollapseKeepsClass | services/python/scraper/committees/clean_and_insert.py:36 | collapsing introduces no character outside a class that holds the space |
| CleanCommittees.StripTrailingPunct | services/python/scraper/committees/clean_and_insert.py:42 | the trailing-punctuation substitution keeps a prefix and removes exactly one comma or full stop followed only by whitespace, or nothing when there is none |
| CleanCommittees.CleanText | services/python/scraper/committees/clean_and_insert.py:30-44 | `clean_text` gives empty text for empty input and otherwise text with no whitespace at either end, no zero-width character and no whitespace but the plain space |
| CleanCommittees.CleanTextFixedPoint | services/python/scraper/committees/clean_and_insert.py:30-44 | text that is already stripped, single-spaced, free of zero-width characters and not ending in punctuation is left unchanged |
| CleanCommittees.SpaceBeforeOpenSpaced | services/python/scraper/committees/clean_and_insert.py:83 | after the opening-parenthesis substitution every `(` follows a space |
| CleanCommittees.SpaceBeforeOpenKeepsClass | services/python/scraper/committees/clean_and_insert.py:83 | that substitution introduces no character outside a class that holds the space |
| CleanCommittees.SpaceAfterCloseSpaced | services/python/scraper/committees/clean_and_insert.py:84 | after the closing-parenthesis substitution every `)` is followed by a space |
| CleanCommittees.SpaceAfterCloseKeepsClass | services/python/scraper/committees/clean_and_insert.py:84 | that substitution introduces no character outside a class that holds the space |
| CleanCommittees.SpaceAfterCloseKeepsOpenSpacing | services/python/scraper/committees/clean_and_insert.py:83-84 | the closing-parenthesis pass keeps the space the opening pass put before each `(` |
| CleanCommittees.NormalizeName | services/python/scraper/committees/clean_and_insert.py:74-87 | `normalize_committee_name` fails for a falsy name and for a truthy non-text value; a non-empty text name becomes its normalised text, which is tidy and stripped, with a space before every inner `(` and after every inner `)` |
| CleanCommittees.NormalizeNameFixedPoint | services/python/scraper/committees/clean_and_insert.py:79-85 | a name that is already stripped, single-spaced, free of zero-width characters and a final comma or full stop, with every `(` after a space and before a non-space and every `)` after a non-space and before a space or the end, comes back unchanged |
| CleanCommittees.NormalizeNameSpacesParen | services/python/scraper/committees/clean_and_insert.py:83-85 | a parenthesis glued to the word before it, as in "Committee(Finance)", gets a space inserted before it and nothing else changes |
| CleanCommittees.DropHeader | services/python/scraper/committees/clean_and_insert.py:96-98 | a header substitution drops the header and the whitespace after it exactly when the text opens with the header |
| CleanCommittees.CleanIntroductionText | services/python/scraper/committees/clean_and_insert.py:90-103 | `clean_introduction` gives empty text for empty input and otherwise clean text |
| CleanCommittees.PlainIntroduction | services/python/scraper/committees/clean_and_insert.py:95-101 | an introduction opening with no header is only cleaned |
| CleanCommittees.HeaderIsDropped | services/python/scraper/committees/clean_and_insert.py:95-101 | each of the three headers, with the whitespace after it, makes no difference to the cleaned introduction |
| CleanCommittees.CleanIntroduction | services/python/scraper/committees/clean_and_insert.py:90-93 | a falsy introduction cleans to empty text; a truthy non-text value is an error |
| CleanCommittees.FirstParse | services/python/scraper/committees/clean_and_insert.py:63-71 | the result is the first format that parses, reformatted, and nothing exactly when no format parses |
| CleanCommittees.ParseDateText | services/python/scraper/committees/clean_and_insert.py:52-71 | a valid `YYYY-MM-DD` date is kept as written; any other text gets the result of the six-format loop, the first format that parses, reformatted; nothing exactly when every format fails |
| CleanCommittees.ParseDate | services/python/scraper/committees/clean_and_insert.py:47-52 | a falsy value or any casing of "null" gives no date; a truthy non-text value is an error |
| CleanCommittees.ValidateCommittee | services/python/scraper/committees/clean_and_insert.py:106-124 | validation passes exactly for a present name, type and introduction with the type "HoR" or "NA"; otherwise it names exactly the missing fields, or else the invalid type |
| CleanCommittees.CleanCommittee | services/python/scraper/committees/clean_and_insert.py:131-154 | a committee survives cleaning exactly when its name, both dates and introduction clean without error and the cleaned name and introduction are non-empty and the type is a house; the survivor passes validation and holds the normalised name, the raw type, both parsed dates and the cleaned introduction |
| CleanCommittees.CleanCommitteeRejects | services/python/scraper/committees/clean_and_insert.py:136-152 | a scraped committee without a name, or with a type other than a house, is skipped |
| CleanCommittees.CleanCommitteeData | services/python/scraper/committees/clean_and_insert.py:127-160 | `clean_committee_data` keeps exactly the committees that clean, all of them valid |
| CleanCommittees.CleanCommitteeDataAppend | services/python/scraper/committees/clean_and_insert.py:131-154 | the loop keeps input order: the cleaned committees of two lists one after the other are those of the first list followed by those of the second |
| CleanCommittees.CleanCommitteeDataOne | services/python/scraper/committees/clean_and_insert.py:131-158 | one scraped committee contributes its cleaned record when it cleans and nothing when cleaning raises |
| CleanCommittees.CleanCommitteeDataCount | services/python/scraper/committees/clean_and_insert.py:127-160 | one committee is kept for each scraped committee that cleans |
| CleanCommittees.DeduplicateCommittees | services/python/scraper/committees/clean_and_insert.py:163-176 | `deduplicate_committees` keeps an ordered subsequence with distinct names that holds the first committee of each name |
| CleanCommittees.FirstToCleanIsLoaded | services/python/scraper/committees/clean_and_insert.py:127-176 | the first scraped committee that cleans to a given name is the committee loaded for that name, and no other loaded committee has that name |
| CleanCommittees.CleanedCommitteesAreValid | services/python/scraper/committees/clean_and_insert.py:127-176 | the committees loaded are valid and have distinct names; every name that cleans is represented, by the committee cleaned from the first scraped committee with that name |
| RateLimit.RetryAfterSeconds | src/lib/server/rate-limit.ts:55-58 | the retry delay is the whole seconds left in the window rounded up, and 0 once the window has ended |
| RateLimit.RateLimit | src/lib/server/rate-limit.ts:31-63 | `rateLimit` counts the request in its identifier's bucket only, refuses it exactly when the count exceeds the limit, and reports the limit, the non-negative requests left, the window end, and a retry delay exactly when refused |
| RateLimit.FreshWindow | src/lib/server/rate-limit.ts:38-42 | a request with no bucket, or after its window, counts 1 and ends the window `windowMs` later |
| RateLimit.SameWindow | src/lib/server/rate-limit.ts:38-45 | a request up to and including the window's last instant raises the count by one and keeps the window end |
| RateLimit.Flags | src/lib/server/rate-limit.ts:31-63 | a run of requests gives one `limited` flag per request |
| RateLimit.RunInWindow | src/lib/server/rate-limit.ts:38-53 | requests that all fall inside an open window raise the count one at a time and are refused exactly once the count passes the limit |
| RateLimit.FirstMaxRequestsAllowed | src/lib/server/rate-limit.ts:38-53 | a client whose requests all fall in one window has exactly its first `max` requests let through |
| RateLimit.RunKeepsOthers | src/lib/server/rate-limit.ts:36-45 | requests from one identifier never touch another identifier's bucket |
| RateLimit.RateLimitOrJson | src/lib/server/rate-limit.ts:65-80 | `rateLimitOrJson` answers nothing for an allowed request and a 429 with the headers, including `Retry-After`, for a refused one |
| RateLimit.ClientIdentifier | src/lib/server/rate-limit.ts:25-29 | the identifier is the request address when present and "unknown" with no address and no forwarded header; it is never empty, and a forwarded identifier holds no comma and has no whitespace at its ends; which entry it is, is stated by RateLimit.ForwardedEntryTrimmed and RateLimit.BlankForwardedEntry |
| RateLimit.ForwardedEntryTrimmed | src/lib/server/rate-limit.ts:25-29 | without an address, a non-empty first forwarded entry padded with any JavaScript whitespace comes back trimmed, whether a comma or the end follows it |
| RateLimit.BlankForwardedEntry | src/lib/server/rate-limit.ts:25-29 | without an address, a first forwarded entry that is empty or all whitespace gives "unknown" |
| RateLimit.ForwardedFirstEntry | src/lib/server/rate-limit.ts:27 | without an address, a trimmed first forwarded entry is the identifier whatever follows the first comma |
| ApiValidation.FromEntries | src/lib/validation/api.ts:37 | `Object.fromEntries` has exactly the names that occur among the parameters |
| ApiValidation.FromEntriesLastWins | src/lib/validation/api.ts:37 | a name takes the value of its last occurrence |
| ApiValidation.FromEntriesConsistent | src/lib/validation/api.ts:37 | a name whose occurrences all carry one value takes that value |
| ApiValidation.ParseHouse | src/lib/validation/api.ts:20 | a house value is accepted exactly when it is the identifier of a house, and reads as that house |
| ApiValidation.ParseCategory | src/lib/validation/api.ts:22 | a category value is accepted exactly when it is the identifier of a category, and reads as that category |
| ApiValidation.ParseSort | src/lib/validation/api.ts:29 | a sort value is accepted exactly when it is "newest", "oldest" or "status", and reads as that order |
| ApiValidation.Utf16Length | src/lib/validation/api.ts:23-28 | a text's length in UTF-16 code units lies between its length in characters and twice that |
| ApiValidation.KindsForIffOk | src/lib/validation/api.ts:19-31 | a field value reports no issue exactly when it meets the field's constraint |
| ApiValidation.HouseIssueIffOk | src/lib/validation/api.ts:20 | the house enum accepts exactly the house identifiers |
| ApiValidation.StatusIssueIffOk | src/lib/validation/api.ts:3-21 | the status enum accepts exactly the thirteen stored status identifiers |
| ApiValidation.CategoryIssueIffOk | src/lib/validation/api.ts:22 | the category enum accepts exactly the category identifiers |
| ApiValidation.SortIssueIffOk | src/lib/validation/api.ts:29 | the sort enum accepts exactly the three orders |
| ApiValidation.IssuesOf | src/lib/validation/api.ts:19-31 | every issue a field reports is about that field |
| ApiValidation.IssuesOfIffOk | src/lib/validation/api.ts:19-31 | a field reports no issue exactly when it is absent or its value meets its constraint |
| ApiValidation.IssuesOfAll | src/lib/validation/api.ts:19-38 | the schema reports no issue exactly when no field does, and every issue comes from a field that fails |
| ApiValidation.NoIssuesIffAllOk | src/lib/validation/api.ts:19-38 | the schema reports no issue exactly when every present field meets its constraint |
| ApiValidation.IssuesNameFailingFields | src/lib/validation/api.ts:19-38 | every reported issue names a present field whose value fails its constraint |
| ApiValidation.IntegerField | src/lib/validation/api.ts:30-31 | limit and offset read as whole numbers within their bounds, taking the default when absent and otherwise the number the text coerces to |
| ApiValidation.TextField | src/lib/validation/api.ts:23-28 | ministry, year and search are passed through as given, each meeting its constraint |
| ApiValidation.HouseOf | src/lib/validation/api.ts:20 | the accepted house is present exactly when given, and is the house the text names |
| ApiValidation.StatusOf | src/lib/validation/api.ts:21 | the accepted status is present exactly when given, and is the status the text names |
| ApiValidation.CategoryOf | src/lib/validation/api.ts:22 | the accepted category is present exactly when given, and is the category the text names |
| ApiValidation.SortOf | src/lib/validation/api.ts:29 | the accepted sort is present exactly when given, and is the order the text names |
| ApiValidation.Accepted | src/lib/validation/api.ts:19-38 | a map whose fields all pass parses to a valid query that reflects every field of the map |
| ApiValidation.ValidateBillQuery | src/lib/validation/api.ts:36-39 | `validateBillQuery` succeeds exactly when every present field meets its constraint, with a valid query reflecting the parameters; otherwise it fails with a non-empty list of issues, each naming a present field that fails |
| ApiValidation.SanitizeErrorMessage | src/lib/validation/api.ts:42-47 | the error's own message is shown only in development and only for an Error; otherwise a fixed generic text |
| ApiValidation.KeyNameInjective | src/lib/validation/api.ts:19-31 | distinct fields have distinct parameter names |
| ApiValidation.ReflectsDetermines | src/lib/validation/api.ts:19-38 | at most one query reflects a given parameter map |
| ApiValidation.EncodedFieldsOk | src/lib/validation/api.ts:19-31 | the parameters a valid query encodes to all pass the schema |
| ApiValidation.EncodedLookups | src/lib/validation/api.ts:37 | each field of the encoded parameters reads back as the query's own text for it |
| ApiValidation.EncodeThenValidate | src/lib/validation/api.ts:36-39 | validating the parameters a valid query encodes to gives back that query |
| ApiValidation.EmptyQueryDefaults | src/lib/validation/api.ts:30-39 | no parameters give the query with every filter absent, limit 25 and offset 0 |
| ApiValidation.NonIntegerLimitRefused | src/lib/validation/api.ts:30 | a limit that does not coerce to a whole number is refused |
| ApiValidation.SingleFieldRefused | src/lib/validation/api.ts:19-39 | a single parameter whose value fails its field's constraint is refused |
| ApiValidation.FractionalLimitRefused | src/lib/validation/api.ts:30 | the limit "2.5" is refused |
| ApiValidation.EmptyOffsetIsZero | src/lib/validation/api.ts:31 | an empty offset coerces to 0 and is accepted |
| BillsRoute.Get | src/app/api/bills/route.ts:26-31 | a parameter reads as the value of its first occurrence, and as null exactly when the name is absent |
| BillsRoute.OrText | src/app/api/bills/route.ts:32 | a missing or empty parameter falls back to the default text, any other value is kept |
| BillsRoute.OrNumber | src/app/api/bills/route.ts:33-34 | a number that is zero or NaN falls back to the default, any other is kept |
| BillsRoute.MinNumber | src/app/api/bills/route.ts:33 | capping keeps a number at or below the cap, lowers a larger one to the cap and keeps negative infinity |
| BillsRoute.EffectiveLimit | src/app/api/bills/route.ts:33 | the page limit is never NaN and never above 500; it is 100 when the parameter reads as zero or NaN, and otherwise the number read, capped at 500 |
| BillsRoute.EffectiveOffset | src/app/api/bills/route.ts:34 | the offset is never NaN; it is 0 when the parameter reads as zero or NaN, and otherwise the number read |
| BillsRoute.OrderFor | src/app/api/bills/route.ts:67-72 | every order puts nulls last; only "status" orders by phase, and only "oldest" and "status" ascend |
| BillsRoute.Optional | src/app/api/bills/route.ts:39-62 | a filter adds one condition on its text exactly when its parameter is given |
| BillsRoute.QueryOf | src/app/api/bills/route.ts:24-72 | the query takes its conditions, order, limit and offset from the request's parameters as above |
| BillsRoute.Total | src/app/api/bills/route.ts:89 | the total is the first count row, 0 when there is none |
| BillsRoute.MetaOf | src/app/api/bills/route.ts:89-108 | `meta` reports the total, the rows returned, the limit and offset used, whether rows lie beyond the page, and the echoed filters |
| BillsRoute.Echo | src/app/api/bills/route.ts:101-106 | a filter is echoed as its value when given and as null otherwise |
| BillsRoute.FailureOf | src/app/api/bills/route.ts:112-120 | any failure answers 500 with "Failed to fetch bills" and the error's message, or "Unknown error" for a non-error value |
| BillsRoute.MissingLimitIsDefault | src/app/api/bills/route.ts:33 | a missing limit, or one reading as zero or NaN, becomes 100 |
| BillsRoute.NaturalLimit | src/app/api/bills/route.ts:33 | a positive whole-number limit is used as it is, up to 500 |
| BillsRoute.NaturalOffset | src/app/api/bills/route.ts:34 | a whole-number offset is used as it is, and a missing one is 0 |
| BillsRoute.FilterRead | src/app/api/bills/route.ts:26-107 | each filter is read from the parameter of its own name and echoed from it |
| BillsRoute.ConditionsOverFacts | src/app/api/bills/route.ts:37-62 | the conditions are exactly one per given filter, each on that filter's text |
| BillsRoute.EchoMatchesConditions | src/app/api/bills/route.ts:39-107 | a filter is echoed with a text exactly when the query holds that filter's condition on that text |
| BillsRoute.SchemaSortsOrder | src/app/api/bills/route.ts:67-72 | of the sort values the API schema accepts, only "newest" sorts descending and only "status" sorts by phase |
| BillsRoute.DefaultSortIsNewest | src/app/api/bills/route.ts:32-72 | a missing or empty `sort` orders by registration date, newest first |
| BillsRoute.HasMoreIffNextPage | src/app/api/bills/route.ts:99 | when the full window comes back, `hasMore` holds exactly when rows lie beyond the window |
| BillsClient.Defined | src/components/bills/BillsClient.tsx:204-207 | a filter text is sent when non-empty and left undefined when empty |
| BillsClient.FiltersOf | src/components/bills/BillsClient.tsx:203-211 | the request asks for 25 bills from offset `page * 25`, with the chosen sort, and with each filter exactly when its text is set |
| BillsClient.TotalOf | src/components/bills/BillsClient.tsx:216 | the total is the answer's total, 0 before an answer arrives |
| BillsClient.TotalPages | src/components/bills/BillsClient.tsx:217 | the page count is the fewest pages of 25 that hold the total |
| BillsClient.ClampPage | src/components/bills/BillsClient.tsx:228-229 | a page change lands on a real page: a page in range is kept, one below is raised to 0, one above lowered to the last |
| BillsClient.ApplyKeepsPageInRange | src/components/bills/BillsClient.tsx:219-290 | every user action leaves the page within the range the clamp allows |
| BillsClient.PageStaysInRange | src/components/bills/BillsClient.tsx:219-290 | from a page in range, any sequence of actions keeps the page in range |
| BillsClient.ResetClears | src/components/bills/BillsClient.tsx:201-226 | reset clears the four filters, sorts newest first, goes to the first page, and leaves nothing that counts as a filter |
| BillsClient.FilterChangeGoesToFirstPage | src/components/bills/BillsClient.tsx:259-262 | choosing a house sets only the house and goes back to the first page |
| BillsClient.PageWindow | src/components/bills/BillsClient.tsx:376-384 | the pager shows at most seven page numbers, as many as there are pages up to seven |
| BillsClient.PageWindowFacts | src/components/bills/BillsClient.tsx:376-384 | the shown numbers are consecutive real pages, and they include the current page exactly when it is a real page |
| BillsClient.ButtonsMoveOnePage | src/components/bills/BillsClient.tsx:366-406 | an enabled Previous or Next button moves exactly one page |
| BillsClient.RouteReadsClientPage | src/components/bills/BillsClient.tsx:209-210 | with a hook that sends limit and offset as decimal text, the route reads them as the numbers the client meant |
| BillsClient.NextEnabledIffHasMore | src/components/bills/BillsClient.tsx:406 | with a hook that forwards the offset and hands back the total, Next is enabled exactly when the route, returning the page's rows, reports more rows |
| BillDetail.FlatAt | src/components/bills/BillDetail.tsx:83 | step `j` of phase `k` sits at the phase's start plus `j` in the flattened list |
| BillDetail.OrderedIsEnumOrder | src/components/bills/BillDetail.tsx:38-83 | the flattened roadmap is the thirteen stored statuses in their enum order |
| BillDetail.OrderedDistinct | src/components/bills/BillDetail.tsx:38-83 | no status appears twice on the roadmap |
| BillDetail.OrderedPosition | src/components/bills/BillDetail.tsx:83-90 | each stored status is found at its enum position |
| BillDetail.OrderedNonEmpty | src/components/bills/BillDetail.tsx:38-80 | no roadmap status is empty text |
| BillDetail.GetStepState | src/components/bills/BillDetail.tsx:85-89 | with no current status every step is upcoming; the states for a known status are stated by BillDetail.StepStates and for an unlisted one by BillDetail.UnknownStatusAllUpcoming |
| BillDetail.StepStates | src/components/bills/BillDetail.tsx:85-95 | for a current status on the roadmap, a step is done before it, current at it and upcoming after it, so exactly one step is current |
| BillDetail.UnknownStatusAllUpcoming | src/components/bills/BillDetail.tsx:89-94 | a current status that is not on the roadmap leaves every step upcoming |
| BillDetail.CurrentIndexIn | src/components/bills/BillDetail.tsx:382-384 | the current position is -1 or a position holding the current status |
| BillDetail.PhaseRuns | src/components/bills/BillDetail.tsx:385-388 | every phase has steps and covers its own consecutive run of the flattened list, right after the previous phase |
| BillDetail.PhaseAgreesWithSteps | src/components/bills/BillDetail.tsx:380-395 | a phase is done exactly when all its steps are done, active exactly when one of its steps is current, and upcoming exactly when all its steps are upcoming |
| BillDetail.AtMostOneActive | src/components/bills/BillDetail.tsx:380-395 | at most one phase is active |
| LandingShared.KeysAreRoadmapOrder | src/components/landingpage/shared.tsx:35-65 | the landing page's status table lists the roadmap's statuses in the same order |
| LandingShared.StatusToStepIndex | src/components/landingpage/shared.tsx:67-70 | the step index is -1 for no status, otherwise a position holding that key, and -1 exactly when no row has that key |
| LandingShared.StepIndexOfStatus | src/components/landingpage/shared.tsx:67-70 | each stored status is found at its enum position, which is also its place on the bill detail roadmap |
| LandingShared.SourceCaption | src/components/landingpage/shared.tsx:75-79 | a caption exists exactly for the identifiers of the three status sources |
| LandingShared.SourceDisplayName | src/components/landingpage/shared.tsx:72-81 | a source's caption for one of the three sources, any other text unchanged, and "Unknown" for no source |
| LandingShared.SourceNamesDistinct | src/components/landingpage/shared.tsx:72-81 | the three sources get three different captions, none of them a source identifier or "Unknown" |
| LandingShared.TimeAgo | src/components/landingpage/shared.tsx:83-93 | no date, or an empty date text, gives empty text, and an invalid date gives "NaNd ago"; the text for a valid date is stated by LandingShared.TimeAgoUnits |
| LandingShared.FloorOfFloor | src/components/landingpage/shared.tsx:88-92 | flooring twice in turn is flooring once by the product of the divisors |
| LandingShared.TimeAgoUnits | src/components/landingpage/shared.tsx:83-94 | a valid date reads as whole minutes under an hour, whole hours under a day, and whole days otherwise, each measured from the difference itself |
| MockData.RecentTransitions | src/lib/mock-data.ts:390 | the recent transitions are the last five (or fewer) entries, newest first |
| MockData.GetDashboardStats | src/lib/mock-data.ts:377-392 | the dashboard counts the bills, bounds each other count by its list, reports 334 members and at most five recent transitions |
| MockData.AddBillStats | src/lib/mock-data.ts:378-385 | one more bill raises the total by one, the active count by one exactly when it is active and the passed count by one exactly when it has passed, and changes no other figure |
| MockData.AddVoteStats | src/lib/mock-data.ts:379-386 | one more vote session raises the pending count by one exactly when it is active, and changes no other figure |
| MockData.AddCommitteeStats | src/lib/mock-data.ts:387 | one more committee raises the active count by one exactly when it is active, and changes no other figure |
| MockData.AddDeadlineStats | src/lib/mock-data.ts:380-388 | one more deadline raises the upcoming count by one exactly when it is neither expired nor completed, and changes no other figure |
| MockData.BillsPartition | src/lib/mock-data.ts:378-385 | active, passed, lapsed and withdrawn bills together make up all bills, each counted once |
| MockData.DeadlinesSplit | src/lib/mock-data.ts:380 | each deadline is either upcoming or expired or completed |
| MockData.RecentTransitionsAreLast | src/lib/mock-data.ts:390 | with five or more transitions, the recent ones are exactly the last five in reverse |
| ScraperIds.ExtractBillId | services/python/scraper/bills/scraper_bills.py:54-68 | an identifier is found exactly for a non-empty link holding "/np/bills/"; it holds neither "?" nor the marker, and it is the text after the first marker cut at the next marker or the first "?", whichever comes first, or at the end |
| ScraperIds.Segment | services/python/scraper/bills/scraper_bills.py:65-67 | the segment after the first separator holds no "?" and no separator, and ends where the text after the first separator reaches its end, a "?" or the next separator |
| ScraperIds.CutUnique | services/python/scraper/bills/scraper_bills.py:65-67 | that cut point is unique, so the identifier is fully determined by the link |
| ScraperIds.ExtractIsCut | services/python/scraper/bills/scraper_bills.py:54-68 | any cut of the text after the first marker is the identifier the link gives |
| ScraperIds.ExtractKeepsPath | services/python/scraper/bills/scraper_bills.py:65-67 | with no second marker the identifier runs to the first "?" or the end, "/" included, so "…/np/bills/A/x" gives "A/x" |
| ScraperIds.SecondMarkerEndsId | services/python/scraper/bills/scraper_bills.py:65-67 | a second marker ends the identifier, so "…/np/bills/A/np/bills/B" gives "A" |
| ScraperIds.ExtractFromLink | services/python/scraper/bills/scraper_bills.py:54-68 | a link built from a base, the marker, an identifier without "/" or "?" and an optional query gives back that identifier |
| ScraperIds.Found | services/python/scraper/bills/scraper_bills.py:107-113 | each row's link yields the identifier extracted from it, in row order |
| ScraperIds.CollectStep | services/python/scraper/bills/scraper_bills.py:113-116 | one more row appends a new non-empty identifier and skips anything else |
| ScraperIds.CollectDone | services/python/scraper/bills/scraper_bills.py:113-116 | at the end the kept identifiers are distinct, are exactly the non-empty ones found, and follow the order of first appearance |
| ScraperIds.CollectBillIds | services/python/scraper/bills/scraper_bills.py:106-116 | the collection loop keeps every non-empty identifier exactly once, in the order of first appearance |
| JsLookup.Lookup | src/lib/state-machine/bill-machine.ts:405 | indexing a plain object reads the own entry when there is one, an inherited member exactly for an inherited name without an own entry, and nothing otherwise |
| JsLookup.LookupIsOwnElsewhere | src/lib/state-machine/bill-machine.ts:405 | outside the inherited names, indexing reads exactly the own entries |
| JsLookup.AvailableAsWritten | src/lib/state-machine/bill-machine.ts:400-415 | `getAvailableTransitions` as written throws exactly for an inherited name, and gives a status's transitions for its identifier |
| JsLookup.AvailableFollowsLookup | src/lib/state-machine/bill-machine.ts:405-408 | the as-written transitions throw exactly when the lookup reads an inherited member, and are empty when it reads nothing |
| JsLookup.ToStringStatusThrows | src/lib/state-machine/bill-machine.ts:405-408 | "toString" throws as written, where the own-key lookup gives no transitions |
| JsLookup.AvailableAgreesElsewhere | src/lib/state-machine/bill-machine.ts:400-415 | outside the inherited names the as-written transitions are the own-key ones |
| JsLookup.DurationAsWritten | src/lib/rules-engine/deadlines.ts:29 | the duration as written is an inherited member exactly when the kind reads one, and otherwise a positive number of days |
| JsLookup.ExpiryAsWritten | src/lib/rules-engine/deadlines.ts:29-30 | the expiry as written is an invalid date exactly when the duration is an inherited member, and otherwise that many days after the start |
| JsLookup.ConstructorKindHasNoExpiry | src/lib/rules-engine/deadlines.ts:29-30 | a "constructor" deadline gets no valid expiry as written, and a week with the own-key lookup |
| JsLookup.DurationAgreesElsewhere | src/lib/rules-engine/deadlines.ts:29-30 | outside the inherited names the as-written duration and expiry are the own-key ones |
| JsLookup.MapRawStatusAsWritten | src/scripts/importBillsFromJson.ts:111-115 | `mapRawStatus` as written yields an inherited member exactly when the label's key is an inherited name that is no own entry |
| JsLookup.InheritedLabelMapsToMember | src/scripts/importBillsFromJson.ts:113-114 | such a label maps to the member as written, and to no status with the own-key lookup |
| JsLookup.ConstructorLabelMapsToMember | src/scripts/importBillsFromJson.ts:113-114 | the label "constructor" is one of them |
| JsLookup.MapRawStatusAgreesElsewhere | src/scripts/importBillsFromJson.ts:111-115 | for every other label the as-written mapping is the own-key one |
| JsLookup.SourceDisplayNameAsWritten | src/components/landingpage/shared.tsx:72-81 | `sourceDisplayName` as written returns an inherited member exactly for an inherited name that is no source |
| JsLookup.ToStringSourceShowsMember | src/components/landingpage/shared.tsx:80 | the source "toString" shows a function as written, and its own text with the own-key lookup |
| JsLookup.SourceDisplayNameAgreesElsewhere | src/components/landingpage/shared.tsx:72-81 | for every other source the as-written text is the own-key one |
| JsNum.JsRem | src/lib/rules-engine/deadlines.ts:51-52 | JavaScript's `%` truncates: the remainder is smaller than the divisor, has the sign of the dividend, and agrees with the mathematical remainder for a non-negative dividend |
| JsNum.JsRemOdd | src/lib/rules-engine/deadlines.ts:51-52 | negating the dividend negates the remainder |
| JsNum.FloorDiv | src/components/landingpage/shared.tsx:88 | `Math.floor(a / b)` is the largest whole number whose multiple of `b` does not exceed `a` |
| JsNum.CeilDiv | src/components/bills/BillsClient.tsx:217 | `Math.ceil(a / b)` is the smallest whole number whose multiple of `b` reaches `a` |
| JsNumber.StringToNumber | src/app/api/bills/route.ts:33-34 | `Number(text)` is 0 for blank text and, when not NaN, comes from a decimal or a `0x`/`0o`/`0b` literal |
| JsNumber.ToNumber | src/app/api/bills/route.ts:33-34 | `Number(null)` is 0 |
| JsNumber.NatToNumber | src/app/api/bills/route.ts:33-34 | the decimal text of a natural number reads back as that number |
| JsNumber.IntToNumber | src/app/api/bills/route.ts:33-34 | the decimal text of any integer reads back as that integer |
| JsNumber.PaddingIgnored | src/app/api/bills/route.ts:33-34 | white space around the text does not change the number read |
| JsNumber.FractionSample | src/app/api/bills/route.ts:33 | "2.5" reads as 2.5 |
| JsNumber.WordSample | src/app/api/bills/route.ts:33 | "abc" reads as NaN |
| JsNumber.HexToNumber | src/app/api/bills/route.ts:33 | a `0x` literal reads as its hexadecimal value |

## Left out

- **Reading the clock.** `Date.now()` and `new Date()` in deadlines.ts, `timeAgo` and `rateLimit` are read outside the model; the reading is the parameter `now`.
- **Local-time dates.** `addDays` follows local time and daylight saving. The model adds whole days of 86 400 000 ms instead.
- **`percentElapsed` in `checkDeadline`.** It is floating-point progress-bar arithmetic over a fixed 30-day lookback, and no other value depends on it.
- **Malformed timestamps.** An invalid date makes `checkDeadline` produce NaN fields. Instants here are whole milliseconds, so NaN cannot arise.
- **Guard flags.** `requiresQuorum`, `requiresDeadlineExpiry`, `customCheck` and the side-effect strings are carried as data only, because `getAvailableTransitions` never evaluates them.
- **Session storage in auth.ts.** `getSession`, `setSession` and `clearSession` work through the browser's localStorage, which is I/O.
- **The index.ts interfaces.** The record interfaces of src/types/index.ts describe shapes and carry no logic.
- **The database.** The SQL of `GET /api/bills` is out, and so are the importer's upsert and history delete and the Python cleaners' database connections and inserts. The route is modelled by the query it describes and by the rows and count it gets back.
- **File and console I/O in the Python scripts.** Loading and saving JSON files and printing progress are out. The cleaners take the loaded values as parameters.
- **Network and HTML parsing in the scraper.** Fetching pages, finding the table cells and following the pagination are out. The collection loop takes the links in page and row order.
- **The rate limiter's process-wide map.** Its sharing through `globalThis` across hot reloads is out. The bucket map is passed in and returned.
- **zod's internals.** Only the constraints of `billQuerySchema` are modelled. The wording and shape of zod's error objects are out; an issue names the field and the kind of failure.
- **React.** Rendering, the `useBills` data hook, and the lag of `useDeferredValue` are out. The deferred search text is a parameter of the filters object.
- **The `useBills` hook the list page expects.** BillsClient.tsx:22 imports a `BillFilters` type, and BillsClient.tsx:213-216 reads `data.data` and `data.meta.total` from the hook. The hook in src/lib/hooks/use-bills.ts:9-22 and 41-53 exports no such type. It sends only `limit`, `house`, `status` and `ministry`, so `offset`, `search`, `category` and `sort` never reach the route. It also returns `json.data` alone, with no `meta`. BillsClient.RouteReadsClientPage and BillsClient.NextEnabledIffHasMore therefore describe the client against an assumed hook. That hook sends every filter, writes `limit` and `offset` as `String(n)`, and returns the whole response body. As the source wires it, the page always asks for the first 25 rows and gets back a plain array. That array has no `data` field, and reading `meta.total` from its missing `meta` throws a TypeError.
- JsNumber.StringToNumber: keeps finite results as exact reals. It does not round them to the nearest double or tell negative zero from zero, because every number the routes read is a small whole number or a plain decimal.
- CleanCommittees.ParseDateText: treats `\d`, `strptime` and `strftime` as parameters, because the calendar rules of Python's `datetime` are library behaviour.
- ImportBills.MapRawStatus: lower-cases ASCII letters only, because full Unicode case mapping is library behaviour. The keys of the status map are lower-case ASCII, and every non-ASCII character but one lower-cases to text that still holds a non-ASCII character. The exception is the Kelvin sign, which becomes "k", and no key holds a "k".
- LandingShared.TimeAgo: takes the instant a date text stands for as part of its argument, because JavaScript's date-text parser is not part of this model.

## Findings

| source | as written | input that shows it | evidently intended | confidence | as-written member | corrected member |
|---|---|---|---|---|---|---|
| src/lib/state-machine/bill-machine.ts:405-406 | `BILL_STATE_MACHINE[currentStatus]` also finds the members a plain object inherits, so `state.transitions.filter` throws a TypeError | the status text "toString" | a status with no catalogue entry gives no transitions | not executed | JsLookup.ToStringStatusThrows | BillMachine.AvailableForKey |
| src/lib/rules-engine/deadlines.ts:29-30 | `DEADLINE_DURATIONS[type] \|\| 7` keeps an inherited member, which is truthy, so `addDays` gets a function and the expiry is an invalid date | the deadline kind "constructor" | an unlisted kind lasts 7 days | not executed | JsLookup.ConstructorKindHasNoExpiry | Deadlines.CreateDeadline |
| src/scripts/importBillsFromJson.ts:113-114 | `RAW_STATUS_MAP[key] ?? null` lets an inherited member through as the bill's status | the raw status label "constructor" | an unknown label maps to null | not executed | JsLookup.ConstructorLabelMapsToMember | ImportBills.MapRawStatus |
| src/components/landingpage/shared.tsx:80 | `map[src ?? ""]` finds an inherited member, and `??` returns it, so a function is shown instead of text | the source text "toString" | any other text is shown unchanged | not executed | JsLookup.ToStringSourceShowsMember | LandingShared.SourceDisplayName |

=== FILE: api_validation.dfy ===
/**
 * The query-parameter schema of the bill listing (src/lib/validation/api.ts):
 * the parameters are collected into an object (the last value of a repeated
 * name wins), every schema field is checked, and the query is accepted only
 * when no field has an issue. The schema library itself is not modelled,
 * only the constraints it is given.
 */
module ApiValidation {
  import opened Wrappers
  import opened Strings
  import opened JsNumber
  import opened LibTypes

  /** The query string as the list of its name/value pairs, in order. */
  type Params = seq<(string, string)>

  /** `Object.fromEntries(params.entries())`: a repeated name keeps its last value. */
  function FromEntries(params: Params): (m: map<string, string>)
    ensures forall k :: k in m <==> exists i :: 0 <= i < |params| && params[i].0 == k
    decreases |params|
  {
    if params == [] then map[]
    else
      var init := params[..|params| - 1];
      var last := params[|params| - 1];
      assert forall i :: 0 <= i < |init| ==> init[i] == params[i];
      FromEntries(init)[last.0 := last.1]
  }

  /** The value kept for a name is the one of its last occurrence. */
  lemma {:induction false} FromEntriesLastWins(params: Params, i: nat)
    requires i < |params|
    requires forall j :: i < j < |params| ==> params[j].0 != params[i].0
    ensures params[i].0 in FromEntries(params) && FromEntries(params)[params[i].0] == params[i].1
    decreases |params|
  {
    if i < |params| - 1 {
      var init := params[..|params| - 1];
      assert init[i] == params[i];
      FromEntriesLastWins(init, i);
    }
  }

  /** The fields of the schema, in its order. */
  datatype QueryKey =
    | HouseParam | StatusParam | CategoryParam | MinistryParam | YearParam
    | SearchParam | SortParam | LimitParam | OffsetParam

  function KeyName(k: QueryKey): string
  {
    match k
    case HouseParam => "house"
    case StatusParam => "status"
    case CategoryParam => "category"
    case MinistryParam => "ministry"
    case YearParam => "year"
    case SearchParam => "search"
    case SortParam => "sort"
    case LimitParam => "limit"
    case OffsetParam => "offset"
  }

  const SchemaKeys: seq<QueryKey> := [
    HouseParam, StatusParam, CategoryParam, MinistryParam, YearParam,
    SearchParam, SortParam, LimitParam, OffsetParam
  ]

  /** The listing orders a query may ask for. */
  datatype Sort = Newest | Oldest | ByStatus

  function SortKey(s: Sort): string
  {
    match s
    case Newest => "newest"
    case Oldest => "oldest"
    case ByStatus => "status"
  }

  function ParseSort(v: string): (r: Option<Sort>)
    ensures r.Some? ==> SortKey(r.value) == v
    ensures r.None? ==> forall s :: SortKey(s) != v
  {
    if v == "newest" then Some(Newest)
    else if v == "oldest" then Some(Oldest)
    else if v == "status" then Some(ByStatus)
    else None
  }

  function HouseKey(h: BillHouse): string
  {
    match h
    case PratinidhiSabha => "pratinidhi_sabha"
    case RastriyaSabha => "rastriya_sabha"
  }

  function ParseHouse(v: string): (r: Option<BillHouse>)
    ensures r.Some? ==> HouseKey(r.value) == v
    ensures r.None? ==> forall h :: HouseKey(h) != v
  {
    if v == "pratinidhi_sabha" then Some(PratinidhiSabha)
    else if v == "rastriya_sabha" then Some(RastriyaSabha)
    else None
  }

  function CategoryKey(c: BillCategory): string
  {
    match c
    case Governmental => "governmental"
    case NonGovernmental => "non_governmental"
  }

  function ParseCategory(v: string): (r: Option<BillCategory>)
    ensures r.Some? ==> CategoryKey(r.value) == v
    ensures r.None? ==> forall c :: CategoryKey(c) != v
  {
    if v == "governmental" then Some(Governmental)
    else if v == "non_governmental" then Some(NonGovernmental)
    else None
  }

  /** The length JavaScript reports for a string: its UTF-16 code units. */
  function Utf16Length(s: string): (n: nat)
    ensures |s| <= n <= 2 * |s|
    decreases |s|
  {
    if s == [] then 0 else (if s[0] as int > 0xFFFF then 2 else 1) + Utf16Length(s[1..])
  }

  /** The longest `ministry` and `search` accepted. */
  const MaxTextLength: nat := 200

  /** The bounds and the default of `limit` and `offset`. */
  const LimitMin: int := 1
  const LimitMax: int := 100
  const LimitDefault: int := 25
  const OffsetMin: int := 0
  const OffsetMax: int := 10000
  const OffsetDefault: int := 0

  /** `^\d{4}$` without flags: exactly four ASCII digits, nothing before or after. */
  predicate IsFourDigitYear(v: string)
  {
    |v| == 4 && AllAsciiDigits(v)
  }

  /** The ways a field can fail. */
  datatype IssueKind = InvalidEnumValue | TooLong | BadYear | NotANumber | NotAnInteger | TooSmall | TooBig

  datatype Issue = Issue(key: QueryKey, kind: IssueKind)

  /** A coerced number is below `lo` (as the `min` check compares). */
  predicate Below(n: Number, lo: int)
  {
    n.NegInf? || (n.Finite? && n.value < lo as real)
  }

  /** A coerced number is above `hi` (as the `max` check compares). */
  predicate Above(n: Number, hi: int)
  {
    n.PosInf? || (n.Finite? && n.value > hi as real)
  }

  /**
   * The issues of a coerced integer field: NaN fails the type check and
   * nothing else is checked; otherwise each of the integer, minimum and
   * maximum checks reports its own issue.
   */
  function NumberIssues(v: string, lo: int, hi: int): seq<IssueKind>
  {
    var n := StringToNumber(v);
    if n.NaN? then [NotANumber]
    else
      (if IsInteger(n) then [] else [NotAnInteger])
      + (if Below(n, lo) then [TooSmall] else [])
      + (if Above(n, hi) then [TooBig] else [])
  }

  /** The issues the schema reports for the value given for one field. */
  function KindsFor(k: QueryKey, v: string): seq<IssueKind>
  {
    match k
    case HouseParam => if ParseHouse(v).Some? then [] else [InvalidEnumValue]
    case StatusParam => if ParseDbStatus(v).Some? then [] else [InvalidEnumValue]
    case CategoryParam => if ParseCategory(v).Some? then [] else [InvalidEnumValue]
    case MinistryParam => if Utf16Length(v) <= MaxTextLength then [] else [TooLong]
    case YearParam => if IsFourDigitYear(v) then [] else [BadYear]
    case SearchParam => if Utf16Length(v) <= MaxTextLength then [] else [TooLong]
    case SortParam => if ParseSort(v).Some? then [] else [InvalidEnumValue]
    case LimitParam => NumberIssues(v, LimitMin, LimitMax)
    case OffsetParam => NumberIssues(v, OffsetMin, OffsetMax)
  }

  /** An integer field is accepted when its coerced value is an integer within the bounds. */
  predicate NumberOk(v: string, lo: int, hi: int)
  {
    var n := StringToNumber(v);
    IsInteger(n) && lo as real <= n.value <= hi as real
  }

  /** The constraint the schema puts on the value given for a field. */
  predicate FieldOk(k: QueryKey, v: string)
  {
    match k
    case HouseParam => exists h :: HouseKey(h) == v
    case StatusParam => exists s :: DbStatusKey(s) == v
    case CategoryParam => exists c :: CategoryKey(c) == v
    case MinistryParam => Utf16Length(v) <= MaxTextLength
    case YearParam => IsFourDigitYear(v)
    case SearchParam => Utf16Length(v) <= MaxTextLength
    case SortParam => exists s :: SortKey(s) == v
    case LimitParam => NumberOk(v, LimitMin, LimitMax)
    case OffsetParam => NumberOk(v, OffsetMin, OffsetMax)
  }

  /** A field reports no issue exactly when its value meets the field's constraint. */
  lemma KindsForIffOk(k: QueryKey, v: string)
    ensures KindsFor(k, v) == [] <==> FieldOk(k, v)
  {
    match k
    case HouseParam => HouseIssueIffOk(v);
    case StatusParam => StatusIssueIffOk(v);
    case CategoryParam => CategoryIssueIffOk(v);
    case SortParam => SortIssueIffOk(v);
    case _ =>
  }

  lemma HouseIssueIffOk(v: string)
    ensures ParseHouse(v).Some? <==> exists h :: HouseKey(h) == v
  {
    if ParseHouse(v).Some? { assert HouseKey(ParseHouse(v).value) == v; }
  }

  lemma StatusIssueIffOk(v: string)
    ensures ParseDbStatus(v).Some? <==> exists s :: DbStatusKey(s) == v
  {
    if ParseDbStatus(v).Some? { assert DbStatusKey(ParseDbStatus(v).value) == v; }
  }

  lemma CategoryIssueIffOk(v: string)
    ensures ParseCategory(v).Some? <==> exists c :: CategoryKey(c) == v
  {
    if ParseCategory(v).Some? { assert CategoryKey(ParseCategory(v).value) == v; }
  }

  lemma SortIssueIffOk(v: string)
    ensures ParseSort(v).Some? <==> exists s :: SortKey(s) == v
  {
    if ParseSort(v).Some? { assert SortKey(ParseSort(v).value) == v; }
  }

  /** The issues of one field: none when the field is absent. */
  function IssuesOf(m: map<string, string>, k: QueryKey): (r: seq<Issue>)
    ensures forall i :: 0 <= i < |r| ==> r[i].key == k
  {
    if KeyName(k) !in m then []
    else
      var kinds := KindsFor(k, m[KeyName(k)]);
      seq(|kinds|, i requires 0 <= i < |kinds| => Issue(k, kinds[i]))
  }

  /** The lists one after another. */
  function Concat(lists: seq<seq<Issue>>): (r: seq<Issue>)
    ensures r == [] <==> forall i :: 0 <= i < |lists| ==> lists[i] == []
    decreases |lists|
  {
    if lists == [] then []
    else
      assert forall i :: 1 <= i < |lists| ==> lists[i] == lists[1..][i - 1];
      lists[0] + Concat(lists[1..])
  }

  /** Each entry of the joined lists comes from one of them. */
  lemma {:induction false} ConcatFrom(lists: seq<seq<Issue>>, j: nat)
    requires j < |Concat(lists)|
    ensures exists i :: 0 <= i < |lists| && Concat(lists)[j] in lists[i]
    decreases |lists|
  {
    var rest := Concat(lists[1..]);
    assert Concat(lists) == lists[0] + rest;
    if j < |lists[0]| {
      assert Concat(lists)[j] == lists[0][j];
    } else {
      assert Concat(lists)[j] == rest[j - |lists[0]|];
      ConcatFrom(lists[1..], j - |lists[0]|);
      var i :| 0 <= i < |lists[1..]| && rest[j - |lists[0]|] in lists[1..][i];
      assert lists[1..][i] == lists[i + 1];
    }
  }

  /** Every issue belongs to a listed field that has issues. */
  predicate FromFailingKeys(m: map<string, string>, keys: seq<QueryKey>, r: seq<Issue>)
  {
    forall j :: 0 <= j < |r| ==> r[j].key in keys && IssuesOf(m, r[j].key) != []
  }

  /** The issues of the listed fields, field by field. */
  function IssuesOfAll(m: map<string, string>, keys: seq<QueryKey>): (r: seq<Issue>)
    ensures r == [] <==> forall i :: 0 <= i < |keys| ==> IssuesOf(m, keys[i]) == []
    ensures FromFailingKeys(m, keys, r)
  {
    var lists := seq(|keys|, i requires 0 <= i < |keys| => IssuesOf(m, keys[i]));
    IssuesComeFromKeys(m, keys, lists);
    Concat(lists)
  }

  /** Each issue of the joined lists belongs to a listed field that has issues. */
  lemma IssuesComeFromKeys(m: map<string, string>, keys: seq<QueryKey>, lists: seq<seq<Issue>>)
    requires |lists| == |keys| && forall i :: 0 <= i < |keys| ==> lists[i] == IssuesOf(m, keys[i])
    ensures FromFailingKeys(m, keys, Concat(lists))
  {
    var r := Concat(lists);
    ListsKeyed(m, keys, lists);
    KeyedConcat(keys, lists);
    forall j | 0 <= j < |r| ensures r[j].key in keys && IssuesOf(m, r[j].key) != [] {
      var i :| 0 <= i < |keys| && r[j].key == keys[i] && lists[i] != [];
    }
  }

  /** The issue list of each field carries that field's key. */
  lemma ListsKeyed(m: map<string, string>, keys: seq<QueryKey>, lists: seq<seq<Issue>>)
    requires |lists| == |keys| && forall i :: 0 <= i < |keys| ==> lists[i] == IssuesOf(m, keys[i])
    ensures forall i, j :: 0 <= i < |lists| && 0 <= j < |lists[i]| ==> lists[i][j].key == keys[i]
  {
    forall i, j | 0 <= i < |lists| && 0 <= j < |lists[i]| ensures lists[i][j].key == keys[i] {
      assert lists[i] == IssuesOf(m, keys[i]);
    }
  }

  /** Joined lists whose entries carry their list's key: each entry's key has a non-empty list. */
  lemma KeyedConcat(keys: seq<QueryKey>, lists: seq<seq<Issue>>)
    requires |lists| == |keys|
    requires forall i, j :: 0 <= i < |lists| && 0 <= j < |lists[i]| ==> lists[i][j].key == keys[i]
    ensures forall j :: 0 <= j < |Concat(lists)| ==>
      exists i :: 0 <= i < |keys| && Concat(lists)[j].key == keys[i] && lists[i] != []
  {
    var r := Concat(lists);
    forall j | 0 <= j < |r| ensures exists i :: 0 <= i < |keys| && r[j].key == keys[i] && lists[i] != [] {
      ConcatFrom(lists, j);
      var i :| 0 <= i < |lists| && r[j] in lists[i];
    }
  }

  /** A query the schema has accepted. */
  datatype BillQuery = BillQuery(
    house: Option<BillHouse>, status: Option<DbStatus>, category: Option<BillCategory>,
    ministry: Option<string>, year: Option<string>, search: Option<string>, sort: Option<Sort>,
    limit: int, offset: int)

  /** What any accepted query satisfies. */
  predicate ValidQuery(q: BillQuery)
  {
    && (q.ministry.Some? ==> Utf16Length(q.ministry.value) <= MaxTextLength)
    && (q.year.Some? ==> IsFourDigitYear(q.year.value))
    && (q.search.Some? ==> Utf16Length(q.search.value) <= MaxTextLength)
    && LimitMin <= q.limit <= LimitMax
    && OffsetMin <= q.offset <= OffsetMax
  }

  function Lookup(m: map<string, string>, k: QueryKey): Option<string>
  {
    if KeyName(k) in m then Some(m[KeyName(k)]) else None
  }

  /** Every present field meets its constraint. */
  predicate AllFieldsOk(m: map<string, string>)
  {
    forall k :: KeyName(k) in m ==> FieldOk(k, m[KeyName(k)])
  }

  /**
   * A query holds the values of the object's fields: an enum value stands
   * for the text given, a text field is the text given, an integer field is
   * what `Number` reads from the text given, and an absent integer field
   * has its default.
   */
  predicate Reflects(m: map<string, string>, q: BillQuery)
  {
    ReflectsChoices(m, q) && ReflectsTexts(m, q) && ReflectsNumbers(m, q)
  }

  predicate ReflectsChoices(m: map<string, string>, q: BillQuery)
  {
    var house := Lookup(m, HouseParam);
    var status := Lookup(m, StatusParam);
    var category := Lookup(m, CategoryParam);
    var sort := Lookup(m, SortParam);
    && (q.house.Some? <==> house.Some?) && (q.house.Some? ==> HouseKey(q.house.value) == house.value)
    && (q.status.Some? <==> status.Some?) && (q.status.Some? ==> DbStatusKey(q.status.value) == status.value)
    && (q.category.Some? <==> category.Some?) && (q.category.Some? ==> CategoryKey(q.category.value) == category.value)
    && (q.sort.Some? <==> sort.Some?) && (q.sort.Some? ==> SortKey(q.sort.value) == sort.value)
  }

  predicate ReflectsTexts(m: map<string, string>, q: BillQuery)
  {
    && q.ministry == Lookup(m, MinistryParam)
    && q.year == Lookup(m, YearParam)
    && q.search == Lookup(m, SearchParam)
  }

  predicate ReflectsNumbers(m: map<string, string>, q: BillQuery)
  {
    && ReadsAs(Lookup(m, LimitParam), LimitDefault, q.limit)
    && ReadsAs(Lookup(m, OffsetParam), OffsetDefault, q.offset)
  }

  /** An integer field holds `n`: the default when it is absent, what `Number` reads from its text otherwise. */
  predicate ReadsAs(v: Option<string>, default: int, n: int)
  {
    match v
    case None => n == default
    case Some(t) => StringToNumber(t) == Finite(n as real)
  }

  /** The value of an accepted integer field, or its default when it is absent. */
  function IntegerOr(v: Option<string>, default: int, lo: int, hi: int): (r: int)
    requires v.Some? ==> NumberOk(v.value, lo, hi)
    requires lo <= default <= hi
    ensures lo <= r <= hi
    ensures v.None? ==> r == default
    ensures v.Some? ==> StringToNumber(v.value) == Finite(r as real)
  {
    match v
    case None => default
    case Some(t) => StringToNumber(t).value.Floor
  }

  function HouseOf(m: map<string, string>): (r: Option<BillHouse>)
    requires AllFieldsOk(m)
    ensures r.Some? <==> Lookup(m, HouseParam).Some?
    ensures r.Some? ==> HouseKey(r.value) == Lookup(m, HouseParam).value
  {
    var v := Lookup(m, HouseParam);
    if v.None? then None
    else
      assert FieldOk(HouseParam, v.value);
      HouseIssueIffOk(v.value);
      ParseHouse(v.value)
  }

  function StatusOf(m: map<string, string>): (r: Option<DbStatus>)
    requires AllFieldsOk(m)
    ensures r.Some? <==> Lookup(m, StatusParam).Some?
    ensures r.Some? ==> DbStatusKey(r.value) == Lookup(m, StatusParam).value
  {
    var v := Lookup(m, StatusParam);
    if v.None? then None
    else
      assert FieldOk(StatusParam, v.value);
      StatusIssueIffOk(v.value);
      ParseDbStatus(v.value)
  }

  function CategoryOf(m: map<string, string>): (r: Option<BillCategory>)
    requires AllFieldsOk(m)
    ensures r.Some? <==> Lookup(m, CategoryParam).Some?
    ensures r.Some? ==> CategoryKey(r.value) == Lookup(m, CategoryParam).value
  {
    var v := Lookup(m, CategoryParam);
    if v.None? then None
    else
      assert FieldOk(CategoryParam, v.value);
      CategoryIssueIffOk(v.value);
      ParseCategory(v.value)
  }

  function SortOf(m: map<string, string>): (r: Option<Sort>)
    requires AllFieldsOk(m)
    ensures r.Some? <==> Lookup(m, SortParam).Some?
    ensures r.Some? ==> SortKey(r.value) == Lookup(m, SortParam).value
  {
    var v := Lookup(m, SortParam);
    if v.None? then None
    else
      assert FieldOk(SortParam, v.value);
      SortIssueIffOk(v.value);
      ParseSort(v.value)
  }

  /** The value of an accepted integer field, or its default when it is absent. */
  function IntegerField(m: map<string, string>, k: QueryKey, default: int, lo: int, hi: int): (r: int)
    requires AllFieldsOk(m)
    requires k == LimitParam || k == OffsetParam
    requires k == LimitParam ==> default == LimitDefault && lo == LimitMin && hi == LimitMax
    requires k == OffsetParam ==> default == OffsetDefault && lo == OffsetMin && hi == OffsetMax
    ensures lo <= r <= hi
    ensures Lookup(m, k).None? ==> r == default
    ensures Lookup(m, k).Some? ==> StringToNumber(Lookup(m, k).value) == Finite(r as real)
  {
    var v := Lookup(m, k);
    assert v.Some? ==> FieldOk(k, v.value);
    IntegerOr(v, default, lo, hi)
  }

  /** A text field of an acceptable object meets its constraint. */
  function TextField(m: map<string, string>, k: QueryKey): (r: Option<string>)
    requires AllFieldsOk(m)
    requires k == MinistryParam || k == YearParam || k == SearchParam
    ensures r == Lookup(m, k)
    ensures r.Some? ==> FieldOk(k, r.value)
  {
    Lookup(m, k)
  }

  /** The query an object whose every field is acceptable stands for. */
  function Accepted(m: map<string, string>): (q: BillQuery)
    requires AllFieldsOk(m)
    ensures ValidQuery(q) && Reflects(m, q)
  {
    BillQuery(
      HouseOf(m), StatusOf(m), CategoryOf(m),
      TextField(m, MinistryParam), TextField(m, YearParam), TextField(m, SearchParam),
      SortOf(m),
      IntegerField(m, LimitParam, LimitDefault, LimitMin, LimitMax),
      IntegerField(m, OffsetParam, OffsetDefault, OffsetMin, OffsetMax))
  }

  /** A field has no issue when it is absent or meets its constraint. */
  lemma IssuesOfIffOk(m: map<string, string>, k: QueryKey)
    ensures IssuesOf(m, k) == [] <==> (KeyName(k) in m ==> FieldOk(k, m[KeyName(k)]))
  {
    if KeyName(k) in m {
      KindsForIffOk(k, m[KeyName(k)]);
    }
  }

  /** The issue list of the whole schema is empty exactly when every present field is acceptable. */
  lemma NoIssuesIffAllOk(m: map<string, string>)
    ensures IssuesOfAll(m, SchemaKeys) == [] <==> AllFieldsOk(m)
  {
    forall i | 0 <= i < |SchemaKeys| {
      IssuesOfIffOk(m, SchemaKeys[i]);
    }
    if IssuesOfAll(m, SchemaKeys) == [] {
      forall k | KeyName(k) in m ensures FieldOk(k, m[KeyName(k)]) {
        var i := match k
          case HouseParam => 0 case StatusParam => 1 case CategoryParam => 2
          case MinistryParam => 3 case YearParam => 4 case SearchParam => 5
          case SortParam => 6 case LimitParam => 7 case OffsetParam => 8;
        assert SchemaKeys[i] == k;
      }
    }
  }

  /** Every issue of the schema names a present field whose value fails its constraint. */
  lemma IssuesNameFailingFields(m: map<string, string>)
    ensures var issues := IssuesOfAll(m, SchemaKeys);
      forall j :: 0 <= j < |issues| ==>
        KeyName(issues[j].key) in m && !FieldOk(issues[j].key, m[KeyName(issues[j].key)])
  {
    var issues := IssuesOfAll(m, SchemaKeys);
    forall j | 0 <= j < |issues|
      ensures KeyName(issues[j].key) in m && !FieldOk(issues[j].key, m[KeyName(issues[j].key)])
    {
      IssuesOfIffOk(m, issues[j].key);
    }
  }

  /**
   * `validateBillQuery`: the object built from the parameters, checked field
   * by field. It is accepted exactly when every present field meets its
   * constraint, and the accepted query holds the fields' values and the
   * defaults; a refusal lists only present fields that fail.
   */
  function ValidateBillQuery(params: Params): (r: Result<BillQuery, seq<Issue>>)
    ensures r.Success? <==> AllFieldsOk(FromEntries(params))
    ensures r.Success? ==> ValidQuery(r.value) && Reflects(FromEntries(params), r.value)
    ensures r.Failure? ==> r.error != [] && forall j :: 0 <= j < |r.error| ==>
      KeyName(r.error[j].key) in FromEntries(params)
      && !FieldOk(r.error[j].key, FromEntries(params)[KeyName(r.error[j].key)])
  {
    var m := FromEntries(params);
    var issues := IssuesOfAll(m, SchemaKeys);
    NoIssuesIffAllOk(m);
    IssuesNameFailingFields(m);
    if issues != [] then Failure(issues) else Success(Accepted(m))
  }

  /** `sanitizeErrorMessage`: an error's own message only in development, a fixed text otherwise. */
  function SanitizeErrorMessage(development: bool, errorMessage: Option<string>): (r: string)
    ensures !development || errorMessage.None? ==> r == "An internal server error occurred"
    ensures development && errorMessage.Some? ==> r == errorMessage.value
  {
    if development && errorMessage.Some? then errorMessage.value else "An internal server error occurred"
  }

  /** The text a query gives for a field: the enum key, the text itself, or the integer in decimal. */
  function FieldText(q: BillQuery, k: QueryKey): Option<string>
  {
    if k == LimitParam then Some(IntToString(q.limit))
    else if k == OffsetParam then Some(IntToString(q.offset))
    else if k == HouseParam then (if q.house.Some? then Some(HouseKey(q.house.value)) else None)
    else if k == StatusParam then (if q.status.Some? then Some(DbStatusKey(q.status.value)) else None)
    else if k == CategoryParam then (if q.category.Some? then Some(CategoryKey(q.category.value)) else None)
    else if k == SortParam then (if q.sort.Some? then Some(SortKey(q.sort.value)) else None)
    else if k == MinistryParam then q.ministry
    else if k == YearParam then q.year
    else q.search
  }

  /** `pair` is the name/value pair a query gives for field `k`. */
  predicate PairOf(q: BillQuery, k: QueryKey, pair: (string, string))
  {
    FieldText(q, k).Some? && pair == (KeyName(k), FieldText(q, k).value)
  }

  /** The name/value pairs of the listed fields a query gives, in the order listed. */
  function EncodeKeys(q: BillQuery, keys: seq<QueryKey>): Params
    decreases |keys|
  {
    if keys == [] then []
    else
      var head := FieldText(q, keys[0]);
      (if head.Some? then [(KeyName(keys[0]), head.value)] else []) + EncodeKeys(q, keys[1..])
  }

  /** Each pair is the pair of one of the listed fields. */
  predicate FromListed(q: BillQuery, keys: seq<QueryKey>, p: Params)
  {
    forall i :: 0 <= i < |p| ==> exists j :: 0 <= j < |keys| && PairOf(q, keys[j], p[i])
  }

  /** Each pair under the name of `k` is the pair of `k`. */
  predicate OwnPairsUnder(q: BillQuery, k: QueryKey, p: Params)
  {
    forall i :: 0 <= i < |p| && p[i].0 == KeyName(k) ==> PairOf(q, k, p[i])
  }

  /** Each encoded pair comes from a listed field. */
  lemma {:induction false} EncodedFromListed(q: BillQuery, keys: seq<QueryKey>)
    ensures FromListed(q, keys, EncodeKeys(q, keys))
    decreases |keys|
  {
    if keys != [] {
      var p := EncodeKeys(q, keys);
      var rest := EncodeKeys(q, keys[1..]);
      EncodedFromListed(q, keys[1..]);
      assert forall j :: 1 <= j < |keys| ==> keys[j] == keys[1..][j - 1];
      var head := FieldText(q, keys[0]);
      var first: Params := if head.Some? then [(KeyName(keys[0]), head.value)] else [];
      assert p == first + rest;
      forall i | 0 <= i < |p| ensures exists j :: 0 <= j < |keys| && PairOf(q, keys[j], p[i]) {
        if i < |first| {
          assert PairOf(q, keys[0], p[i]);
        } else {
          assert p[i] == rest[i - |first|];
          var j :| 0 <= j < |keys[1..]| && PairOf(q, keys[1..][j], rest[i - |first|]);
          assert PairOf(q, keys[j + 1], p[i]);
        }
      }
    }
  }

  /** Each listed field with a text is encoded. */
  lemma {:induction false} ListedEncoded(q: BillQuery, keys: seq<QueryKey>, k: QueryKey)
    requires k in keys && FieldText(q, k).Some?
    ensures (KeyName(k), FieldText(q, k).value) in EncodeKeys(q, keys)
    decreases |keys|
  {
    var head := FieldText(q, keys[0]);
    var first: Params := if head.Some? then [(KeyName(keys[0]), head.value)] else [];
    var rest := EncodeKeys(q, keys[1..]);
    assert EncodeKeys(q, keys) == first + rest;
    if keys[0] == k {
      assert first == [(KeyName(k), FieldText(q, k).value)];
    } else {
      ListedEncoded(q, keys[1..], k);
    }
  }

  /** The parameters a client sends for a query: every present field in schema order, `limit` and `offset` in decimal. */
  function EncodeQuery(q: BillQuery): Params
  {
    EncodeKeys(q, SchemaKeys)
  }

  lemma KeyNameInjective(k: QueryKey, k': QueryKey)
    requires KeyName(k) == KeyName(k')
    ensures k == k'
  {
  }

  /** A name all of whose pairs carry one value maps to that value. */
  lemma {:induction false} FromEntriesConsistent(params: Params, k: string, v: string)
    requires (k, v) in params
    requires forall i :: 0 <= i < |params| && params[i].0 == k ==> params[i].1 == v
    ensures k in FromEntries(params) && FromEntries(params)[k] == v
    decreases |params|
  {
    var init := params[..|params| - 1];
    var last := params[|params| - 1];
    if last.0 != k {
      var i :| 0 <= i < |params| && params[i] == (k, v);
      assert i < |params| - 1 && init[i] == params[i];
      assert forall i :: 0 <= i < |init| ==> init[i] == params[i];
      FromEntriesConsistent(init, k, v);
    }
  }

  /** The object built from an encoded query gives each field the query's own text. */
  lemma EncodedLookup(q: BillQuery, k: QueryKey)
    ensures Lookup(FromEntries(EncodeQuery(q)), k) == FieldText(q, k)
  {
    SchemaListsAll(k);
    EncodedLookupOver(q, SchemaKeys, k);
  }

  lemma SchemaListsAll(k: QueryKey)
    ensures k in SchemaKeys
  {
  }

  /** The object built from the encoded pairs of some fields gives each of them its own text. */
  lemma EncodedLookupOver(q: BillQuery, keys: seq<QueryKey>, k: QueryKey)
    requires k in keys
    ensures Lookup(FromEntries(EncodeKeys(q, keys)), k) == FieldText(q, k)
  {
    EncodedPairsAgree(q, keys, k);
    var p := EncodeKeys(q, keys);
    if FieldText(q, k).Some? {
      ListedEncoded(q, keys, k);
    }
    FromEntriesLookup(p, KeyName(k), FieldText(q, k));
  }

  /** Every encoded pair under a field's name is the field's own pair. */
  lemma EncodedPairsAgree(q: BillQuery, keys: seq<QueryKey>, k: QueryKey)
    ensures OwnPairsUnder(q, k, EncodeKeys(q, keys))
  {
    var p := EncodeKeys(q, keys);
    EncodedFromListed(q, keys);
    forall i | 0 <= i < |p| && p[i].0 == KeyName(k) ensures PairOf(q, k, p[i]) {
      var j :| 0 <= j < |keys| && PairOf(q, keys[j], p[i]);
      KeyNameInjective(keys[j], k);
    }
  }

  /** The object maps a name to `v` when every pair under the name carries `v`, and lacks it when there is none. */
  lemma FromEntriesLookup(params: Params, name: string, v: Option<string>)
    requires forall i :: 0 <= i < |params| && params[i].0 == name ==> v.Some? && params[i].1 == v.value
    requires v.Some? ==> (name, v.value) in params
    ensures (if name in FromEntries(params) then Some(FromEntries(params)[name]) else None) == v
  {
    if v.Some? {
      FromEntriesConsistent(params, name, v.value);
    }
  }

  /** The text a valid query gives for a field meets the field's constraint. */
  lemma FieldTextOk(q: BillQuery, k: QueryKey)
    requires ValidQuery(q) && FieldText(q, k).Some?
    ensures FieldOk(k, FieldText(q, k).value)
  {
    match k
    case HouseParam => assert HouseKey(q.house.value) == FieldText(q, k).value;
    case StatusParam => assert DbStatusKey(q.status.value) == FieldText(q, k).value;
    case CategoryParam => assert CategoryKey(q.category.value) == FieldText(q, k).value;
    case SortParam => assert SortKey(q.sort.value) == FieldText(q, k).value;
    case LimitParam => IntToNumber(q.limit);
    case OffsetParam => IntToNumber(q.offset);
    case _ =>
  }

  /** Only one query holds the values of a given object. */
  lemma ReflectsDetermines(m: map<string, string>, q: BillQuery, q': BillQuery)
    requires Reflects(m, q) && Reflects(m, q')
    ensures q == q'
  {
    ChoicesDetermined(m, q, q');
    NumbersDetermined(m, q, q');
  }

  lemma ChoicesDetermined(m: map<string, string>, q: BillQuery, q': BillQuery)
    requires ReflectsChoices(m, q) && ReflectsChoices(m, q')
    ensures q.house == q'.house && q.status == q'.status && q.category == q'.category && q.sort == q'.sort
  {
    DbStatusKeyInjective();
  }

  lemma NumbersDetermined(m: map<string, string>, q: BillQuery, q': BillQuery)
    requires ReflectsNumbers(m, q) && ReflectsNumbers(m, q')
    ensures q.limit == q'.limit && q.offset == q'.offset
  {
  }

  /** Every field a valid query sends is accepted. */
  lemma EncodedFieldsOk(q: BillQuery)
    requires ValidQuery(q)
    ensures AllFieldsOk(FromEntries(EncodeQuery(q)))
  {
    var m := FromEntries(EncodeQuery(q));
    forall k | KeyName(k) in m ensures FieldOk(k, m[KeyName(k)]) {
      EncodedLookup(q, k);
      FieldTextOk(q, k);
    }
  }

  /** An object that gives every field a query's own text holds the query's values. */
  lemma TextsReflect(m: map<string, string>, q: BillQuery)
    requires forall k :: Lookup(m, k) == FieldText(q, k)
    ensures Reflects(m, q)
  {
    ChoicesReflect(m, q, Lookup(m, HouseParam), Lookup(m, StatusParam), Lookup(m, CategoryParam), Lookup(m, SortParam));
    assert ReflectsTexts(m, q) by {
      assert Lookup(m, MinistryParam) == FieldText(q, MinistryParam);
      assert Lookup(m, YearParam) == FieldText(q, YearParam);
      assert Lookup(m, SearchParam) == FieldText(q, SearchParam);
    }
    NumberReflects(Lookup(m, LimitParam), LimitDefault, q.limit);
    NumberReflects(Lookup(m, OffsetParam), OffsetDefault, q.offset);
  }

  lemma ChoicesReflect(m: map<string, string>, q: BillQuery,
                       house: Option<string>, status: Option<string>, category: Option<string>, sort: Option<string>)
    requires house == Lookup(m, HouseParam) == FieldText(q, HouseParam)
    requires status == Lookup(m, StatusParam) == FieldText(q, StatusParam)
    requires category == Lookup(m, CategoryParam) == FieldText(q, CategoryParam)
    requires sort == Lookup(m, SortParam) == FieldText(q, SortParam)
    ensures ReflectsChoices(m, q)
  {
  }

  lemma NumberReflects(v: Option<string>, default: int, n: int)
    requires v == Some(IntToString(n))
    ensures ReadsAs(v, default, n)
  {
    IntToNumber(n);
  }

  /** The object built from an encoded query gives every field the query's own text. */
  lemma EncodedLookups(q: BillQuery)
    ensures forall k :: Lookup(FromEntries(EncodeQuery(q)), k) == FieldText(q, k)
  {
    forall k ensures Lookup(FromEntries(EncodeQuery(q)), k) == FieldText(q, k) {
      EncodedLookup(q, k);
    }
  }

  /** Every valid query survives being sent: validating its parameters gives it back. */
  lemma EncodeThenValidate(q: BillQuery)
    requires ValidQuery(q)
    ensures ValidateBillQuery(EncodeQuery(q)) == Success(q)
  {
    var m := FromEntries(EncodeQuery(q));
    EncodedFieldsOk(q);
    EncodedLookups(q);
    TextsReflect(m, q);
    ReflectsDetermines(m, Accepted(m), q);
  }

  /** With no parameters at all every field is absent and the defaults apply. */
  lemma EmptyQueryDefaults()
    ensures ValidateBillQuery([]) == Success(BillQuery(None, None, None, None, None, None, None, 25, 0))
  {
    var m := FromEntries([]);
    assert m == map[];
    var expected := BillQuery(None, None, None, None, None, None, None, 25, 0);
    assert Reflects(m, expected);
    ReflectsDetermines(m, Accepted(m), expected);
  }

  /** A `limit` that `Number` does not read as an integer is refused. */
  lemma NonIntegerLimitRefused(v: string)
    requires !IsInteger(StringToNumber(v))
    ensures ValidateBillQuery([("limit", v)]).Failure?
  {
    NonIntegerLimitFails(v);
    LimitName();
    SingleFieldRefused("limit", v, LimitParam);
  }

  lemma NonIntegerLimitFails(v: string)
    requires !IsInteger(StringToNumber(v))
    ensures !FieldOk(LimitParam, v)
  {
  }

  lemma LimitName()
    ensures KeyName(LimitParam) == "limit"
  {
  }

  /** A lone parameter whose value fails its field's constraint is refused. */
  lemma SingleFieldRefused(name: string, v: string, k: QueryKey)
    requires name == KeyName(k) && !FieldOk(k, v)
    ensures ValidateBillQuery([(name, v)]).Failure?
  {
    var m := FromEntries([(name, v)]);
    assert m == map[name := v];
    assert KeyName(k) in m && m[KeyName(k)] == v;
  }

  /** A fractional `limit` is refused: `Number` reads 2.5, which is not an integer. */
  lemma FractionalLimitRefused()
    ensures ValidateBillQuery([("limit", "2.5")]).Failure?
  {
    FractionSample();
    assert (2.5).Floor == 2;
    NonIntegerLimitRefused("2.5");
  }

  /** An empty `offset` is accepted as 0, since `Number("")` is 0. */
  lemma EmptyOffsetIsZero()
    ensures var r := ValidateBillQuery([("offset", "")]);
      r.Success? && r.value.offset == 0
  {
    var m := FromEntries([("offset", "")]);
    assert m == map["offset" := ""];
    assert Trim("", IsJsWhitespace) == [];
    assert StringToNumber("") == Finite(0.0);
    assert forall k :: KeyName(k) in m ==> k == OffsetParam;
    assert AllFieldsOk(m);
  }
}

=== FILE: auth.dfy ===
/** The demo accounts and the permission test of the demo sign-in (src/lib/auth.ts). */
module Auth {
  import opened Wrappers
  import Seqs
  import opened Types

  /** A signed-in user. */
  datatype SessionUser = SessionUser(
    id: string,
    name: string,
    nameNe: Option<string>,
    email: string,
    role: UserRole,
    house: Option<HouseType>,
    party: Option<string>)

  /** DEMO_USERS: one account per acting role, two for members of parliament. */
  const DemoUsers: seq<SessionUser> := [
    SessionUser("user-ministry-1", "Ram Prasad Sharma", Some("राम प्रसाद शर्मा"),
      "ministry@gov.np", Ministry, None, None),
    SessionUser("user-mp-1", "Sita Devi Thapa", Some("सीता देवी थापा"),
      "mp.hor@parliament.np", Mp, Some(Hor), Some("Nepal Democratic Party")),
    SessionUser("user-mp-2", "Bishnu Kumar KC", Some("बिष्णु कुमार केसी"),
      "mp.na@parliament.np", Mp, Some(Na), Some("National Unity Party")),
    SessionUser("user-committee-1", "Krishna Bahadur Magar", Some("कृष्ण बहादुर मगर"),
      "committee@parliament.np", CommitteeMember, Some(Hor), None),
    SessionUser("user-secretariat-1", "Ganesh Prasad Timilsina", Some("गणेश प्रसाद तिमिल्सिना"),
      "secretariat@parliament.np", Secretariat, None, None),
    SessionUser("user-speaker-1", "Dev Raj Ghimire", Some("देव राज घिमिरे"),
      "speaker@parliament.np", Speaker, None, None),
    SessionUser("user-president-1", "Ram Chandra Paudel", Some("राम चन्द्र पौडेल"),
      "president@rashtrapatibhawan.np", President, None, None),
    SessionUser("user-admin-1", "Admin User", None, "admin@parliament.np", Admin, None, None)
  ]

  function UserId(u: SessionUser): string { u.id }

  function UserEmail(u: SessionUser): string { u.email }

  /** No two demo accounts share an id. */
  lemma DemoUserIdsDistinct()
    ensures Seqs.DistinctKeys(DemoUsers, UserId)
  {
  }

  /** No two demo accounts share an e-mail address. */
  lemma DemoUserEmailsDistinct()
    ensures Seqs.DistinctKeys(DemoUsers, UserEmail)
  {
  }

  /** The role of each demo account, in order. */
  function DemoRoles(): (rs: seq<UserRole>)
    ensures |rs| == |DemoUsers| && forall i :: 0 <= i < |rs| ==> rs[i] == DemoUsers[i].role
  {
    seq(|DemoUsers|, i requires 0 <= i < |DemoUsers| => DemoUsers[i].role)
  }

  /** The demo accounts cover exactly the roles other than the public user. */
  lemma DemoUserRoles()
    ensures forall r :: r in DemoRoles() <==> r != Public
  {
    var rs := DemoRoles();
    assert rs == [Ministry, Mp, Mp, CommitteeMember, Secretariat, Speaker, President, Admin];
  }

  /**
   * `hasPermission`: nobody signed in has no permission; a role holding the
   * wildcard has every permission; otherwise the permission must be listed
   * for the user's role.
   */
  function HasPermission(user: Option<SessionUser>, permission: string): (b: bool)
    ensures user.None? ==> !b
    ensures user.Some? && "*" in RolePermissions(user.value.role) ==> b
    ensures user.Some? && "*" !in RolePermissions(user.value.role) ==>
      (b <==> permission in RolePermissions(user.value.role))
  {
    match user
    case None => false
    case Some(u) =>
      var permissions := RolePermissions(u.role);
      if "*" in permissions then true else permission in permissions
  }

  /**
   * Read against the role table: an administrator may do anything, a public
   * user may only view public bills, and any other user exactly what the
   * role lists.
   */
  lemma PermissionByRole(u: SessionUser, permission: string)
    ensures u.role == Admin ==> HasPermission(Some(u), permission)
    ensures u.role == Public ==> (HasPermission(Some(u), permission) <==> permission == "bills:view-public")
    ensures u.role != Admin ==> (HasPermission(Some(u), permission) <==> permission in RolePermissions(u.role))
  {
    RolePermissionsShape();
  }
}

=== FILE: bill_detail.dfy ===
/**
 * The legislative roadmap of the bill detail page
 * (src/components/bills/BillDetail.tsx): five phases of steps, the flat list
 * of their statuses, and the classification of each step and each phase as
 * done, current (active) or upcoming for the bill's current status.
 */
module BillDetail {
  import opened Wrappers
  import opened Seqs
  import opened LibTypes

  /** One step of the roadmap: the status it stands for and its caption. */
  datatype PhaseStep = PhaseStep(status: string, caption: string)

  /** A phase: its number, title and steps in order. */
  datatype Phase = Phase(number: nat, title: string, steps: seq<PhaseStep>)

  /** ROADMAP. */
  const Roadmap: seq<Phase> := [
    Phase(2, "Introduction", [
      PhaseStep("registered", "Registered"),
      PhaseStep("first_reading", "First Reading"),
      PhaseStep("general_discussion", "General Discussion"),
      PhaseStep("amendment_window", "Amendment Window")]),
    Phase(3, "Committee Scrutiny", [
      PhaseStep("committee_review", "Committee Review"),
      PhaseStep("clause_voting", "Clause Voting"),
      PhaseStep("first_house_passed", "First House Passed")]),
    Phase(4, "Second House", [
      PhaseStep("second_house", "Second House"),
      PhaseStep("joint_sitting", "Joint Sitting")]),
    Phase(5, "Authentication", [
      PhaseStep("speaker_certification", "Speaker Certification"),
      PhaseStep("assented", "Presidential Assent"),
      PhaseStep("gazette_published", "Gazette Published")]),
    Phase(6, "Post-Implementation", [
      PhaseStep("amendment_or_repeal", "Amendment / Repeal")])
  ]

  /** The statuses of a list of steps. */
  function StepStatuses(steps: seq<PhaseStep>): (r: seq<string>)
    ensures |r| == |steps| && forall i :: 0 <= i < |steps| ==> r[i] == steps[i].status
  {
    seq(|steps|, i requires 0 <= i < |steps| => steps[i].status)
  }

  /** `phases.flatMap(p => p.steps.map(s => s.status))`. */
  function FlatStatuses(phases: seq<Phase>): seq<string>
    decreases |phases|
  {
    if phases == [] then [] else StepStatuses(phases[0].steps) + FlatStatuses(phases[1..])
  }

  /** The position in the flat list of the first step of phase `k`. */
  function Start(phases: seq<Phase>, k: nat): nat
    requires k <= |phases|
    decreases k
  {
    if k == 0 then 0 else |phases[0].steps| + Start(phases[1..], k - 1)
  }

  /** Step `j` of phase `k` sits at `Start(phases, k) + j` of the flat list. */
  lemma {:induction false} FlatAt(phases: seq<Phase>, k: nat, j: nat)
    requires k < |phases| && j < |phases[k].steps|
    ensures Start(phases, k) + j < |FlatStatuses(phases)|
    ensures FlatStatuses(phases)[Start(phases, k) + j] == phases[k].steps[j].status
    decreases k
  {
    var head := StepStatuses(phases[0].steps);
    assert FlatStatuses(phases) == head + FlatStatuses(phases[1..]);
    if k > 0 {
      FlatAt(phases[1..], k - 1, j);
    }
  }

  /** ORDERED_STATUSES. */
  const OrderedStatuses: seq<string> := FlatStatuses(Roadmap)

  /** The flat list is the thirteen stored statuses in enum order. */
  lemma OrderedIsEnumOrder()
    ensures |OrderedStatuses| == 13
    ensures forall i :: 0 <= i < 13 ==> OrderedStatuses[i] == DbStatusKey(AllDbStatuses[i])
  {
    var expected := seq(13, i requires 0 <= i < 13 => DbStatusKey(AllDbStatuses[i]));
    assert OrderedStatuses == expected;
  }

  /** The thirteen statuses are pairwise distinct. */
  lemma OrderedDistinct()
    ensures Distinct(OrderedStatuses)
  {
    OrderedIsEnumOrder();
    DbStatusKeyInjective();
    assert forall i :: 0 <= i < 13 ==> DbOrdinal(AllDbStatuses[i]) == i;
  }

  /** Each stored status has its own place in the flat list: its enum position. */
  lemma OrderedPosition(s: DbStatus)
    ensures IndexOf(OrderedStatuses, DbStatusKey(s)) == DbOrdinal(s)
  {
    OrderedAtOrdinal(s);
    OrderedDistinct();
    IndexOfAt(OrderedStatuses, DbOrdinal(s), DbStatusKey(s));
  }

  lemma OrderedAtOrdinal(s: DbStatus)
    ensures DbOrdinal(s) < |OrderedStatuses| && OrderedStatuses[DbOrdinal(s)] == DbStatusKey(s)
  {
    OrderedIsEnumOrder();
    AllDbStatusesIndexed(s);
  }

  lemma IndexOfAt<T>(s: seq<T>, i: nat, x: T)
    requires Distinct(s) && i < |s| && s[i] == x
    ensures IndexOf(s, x) == i
  {
    IndexOfDistinct(s, i);
  }

  /** In a list without repeats, the first position of an element is its position. */
  lemma IndexOfDistinct<T>(s: seq<T>, i: nat)
    requires Distinct(s) && i < |s|
    ensures IndexOf(s, s[i]) == i
  {
    assert s[i] in s;
  }

  /** No status of the flat list is empty. */
  lemma OrderedNonEmpty(i: nat)
    requires i < |OrderedStatuses|
    ensures OrderedStatuses[i] != []
  {
    OrderedIsEnumOrder();
    assert OrderedStatuses[i] == DbStatusKey(AllDbStatuses[i]);
  }

  /** How a step is drawn. */
  datatype StepState = Done | Current | Upcoming

  /** JavaScript truthiness of the bill's current status. */
  predicate HasStatus(current: Option<string>)
  {
    current.Some? && current.value != []
  }

  /**
   * `getStepState`: with no current status every step is upcoming; otherwise
   * a step is done, current or upcoming as its position in the flat list is
   * before, at or after that of the current status (a status not in the list
   * has position -1).
   */
  function GetStepState(step: string, current: Option<string>): (r: StepState)
    ensures !HasStatus(current) ==> r == Upcoming
  {
    StepStateIn(OrderedStatuses, step, current)
  }

  /** `getStepState` against the flat list `order`. */
  function StepStateIn(order: seq<string>, step: string, current: Option<string>): StepState
  {
    if !HasStatus(current) then Upcoming
    else
      var currentIdx := IndexOf(order, current.value);
      var stepIdx := IndexOf(order, step);
      if stepIdx < currentIdx then Done
      else if stepIdx == currentIdx then Current
      else Upcoming
  }

  lemma StepStatesIn(order: seq<string>, c: nat, i: nat)
    requires Distinct(order) && c < |order| && i < |order| && order[c] != []
    ensures StepStateIn(order, order[i], Some(order[c])) ==
      if i < c then Done else if i == c then Current else Upcoming
  {
    IndexOfDistinct(order, c);
    IndexOfDistinct(order, i);
  }

  /**
   * For a current status in the list, the step at position `i` is done before
   * it, current at it and upcoming after it: exactly one step is current.
   */
  lemma StepStates(c: nat, i: nat)
    requires c < |OrderedStatuses| && i < |OrderedStatuses|
    ensures GetStepState(OrderedStatuses[i], Some(OrderedStatuses[c])) ==
      if i < c then Done else if i == c then Current else Upcoming
  {
    OrderedDistinct();
    OrderedNonEmpty(c);
    StepStatesIn(OrderedStatuses, c, i);
  }

  /** A current status that is not on the roadmap leaves every roadmap step upcoming. */
  lemma UnknownStatusAllUpcoming(current: string, i: nat)
    requires current !in OrderedStatuses && i < |OrderedStatuses|
    ensures GetStepState(OrderedStatuses[i], Some(current)) == Upcoming
  {
  }

  /** How a phase is drawn. */
  datatype PhaseState = PhaseDone | Active | PhaseUpcoming

  /** The position in `order` of the current status, -1 when there is none or it is not in the list. */
  function CurrentIndexIn(order: seq<string>, current: Option<string>): (i: int)
    ensures -1 <= i < |order|
    ensures i >= 0 ==> HasStatus(current) && order[i] == current.value
  {
    if HasStatus(current) then IndexOf(order, current.value) else -1
  }

  /** The position of a phase's first step (`indexOf(undefined)`, -1, for a phase without steps). */
  function FirstIndexIn(order: seq<string>, p: Phase): int
  {
    if p.steps == [] then -1 else IndexOf(order, p.steps[0].status)
  }

  /** The position of a phase's last step (-1 for a phase without steps). */
  function LastIndexIn(order: seq<string>, p: Phase): int
  {
    if p.steps == [] then -1 else IndexOf(order, p.steps[|p.steps| - 1].status)
  }

  /** A phase is done once the current status is past its last step, active from its first step to its last. */
  function PhaseStateIn(order: seq<string>, p: Phase, current: Option<string>): PhaseState
  {
    var c := CurrentIndexIn(order, current);
    if c > LastIndexIn(order, p) then PhaseDone
    else if c >= FirstIndexIn(order, p) then Active
    else PhaseUpcoming
  }

  /** The phase state of the detail page, against ORDERED_STATUSES. */
  function PhaseStateOf(p: Phase, current: Option<string>): PhaseState
  {
    PhaseStateIn(OrderedStatuses, p, current)
  }

  /** A phase whose steps sit at consecutive positions agrees with its steps. */
  lemma PhaseAgreesIn(order: seq<string>, p: Phase, current: Option<string>, start: nat)
    requires p.steps != []
    requires forall j :: 0 <= j < |p.steps| ==> IndexOf(order, p.steps[j].status) == start + j
    ensures (PhaseStateIn(order, p, current) == PhaseDone <==> forall j :: 0 <= j < |p.steps| ==> StepStateIn(order, p.steps[j].status, current) == Done)
    ensures (PhaseStateIn(order, p, current) == Active <==> exists j :: 0 <= j < |p.steps| && StepStateIn(order, p.steps[j].status, current) == Current)
    ensures (PhaseStateIn(order, p, current) == PhaseUpcoming <==> forall j :: 0 <= j < |p.steps| ==> StepStateIn(order, p.steps[j].status, current) == Upcoming)
  {
    var c := CurrentIndexIn(order, current);
    var last := |p.steps| - 1;
    assert forall j :: 0 <= j < |p.steps| ==>
      (StepStateIn(order, p.steps[j].status, current) == Current <==> HasStatus(current) && start + j == c);
    assert IndexOf(order, p.steps[0].status) == start;
    assert IndexOf(order, p.steps[last].status) == start + last;
    if c >= 0 {
      assert IndexOf(order, current.value) == c;
      if start <= c <= start + last {
        assert StepStateIn(order, p.steps[c - start].status, current) == Current;
      }
    }
    assert StepStateIn(order, p.steps[0].status, current) != Done ==> c <= start;
    assert StepStateIn(order, p.steps[last].status, current) == Done ==> c > start + last;
  }

  /** Step `j` of roadmap phase `k` has position `Start(Roadmap, k) + j`. */
  lemma StepIndex(k: nat, j: nat)
    requires k < |Roadmap| && j < |Roadmap[k].steps|
    ensures Start(Roadmap, k) + j < |OrderedStatuses|
    ensures IndexOf(OrderedStatuses, Roadmap[k].steps[j].status) == Start(Roadmap, k) + j
  {
    FlatAt(Roadmap, k, j);
    OrderedDistinct();
    IndexOfDistinct(OrderedStatuses, Start(Roadmap, k) + j);
  }

  /** The roadmap phases occupy consecutive, non-overlapping runs of the flat list. */
  lemma PhaseRuns(k: nat)
    requires k < |Roadmap|
    ensures Roadmap[k].steps != []
    ensures FirstIndexIn(OrderedStatuses, Roadmap[k]) == Start(Roadmap, k)
    ensures LastIndexIn(OrderedStatuses, Roadmap[k]) == Start(Roadmap, k) + |Roadmap[k].steps| - 1
    ensures k + 1 < |Roadmap| ==> Start(Roadmap, k + 1) == Start(Roadmap, k) + |Roadmap[k].steps|
  {
    assert forall m :: 0 <= m < |Roadmap| ==> Roadmap[m].steps != [];
    StepIndex(k, 0);
    StepIndex(k, |Roadmap[k].steps| - 1);
    if k + 1 < |Roadmap| {
      StartStep(Roadmap, k + 1);
    }
  }

  lemma {:induction false} StartStep(phases: seq<Phase>, k: nat)
    requires 0 < k <= |phases|
    ensures Start(phases, k) == Start(phases, k - 1) + |phases[k - 1].steps|
    decreases k
  {
    if k > 1 {
      StartStep(phases[1..], k - 1);
    }
  }

  /**
   * A roadmap phase is done exactly when all its steps are done, active
   * exactly when one of its steps is current, and upcoming exactly when all
   * its steps are upcoming.
   */
  lemma PhaseAgreesWithSteps(k: nat, current: Option<string>)
    requires k < |Roadmap|
    ensures var p := Roadmap[k];
      (PhaseStateOf(p, current) == PhaseDone <==> forall j :: 0 <= j < |p.steps| ==> GetStepState(p.steps[j].status, current) == Done)
      && (PhaseStateOf(p, current) == Active <==> exists j :: 0 <= j < |p.steps| && GetStepState(p.steps[j].status, current) == Current)
      && (PhaseStateOf(p, current) == PhaseUpcoming <==> forall j :: 0 <= j < |p.steps| ==> GetStepState(p.steps[j].status, current) == Upcoming)
  {
    StepPositions(k);
    PhaseAgreesIn(OrderedStatuses, Roadmap[k], current, Start(Roadmap, k));
  }

  lemma StepPositions(k: nat)
    requires k < |Roadmap|
    ensures Roadmap[k].steps != []
    ensures forall j :: 0 <= j < |Roadmap[k].steps| ==>
      IndexOf(OrderedStatuses, Roadmap[k].steps[j].status) == Start(Roadmap, k) + j
  {
    PhaseRuns(k);
    forall j | 0 <= j < |Roadmap[k].steps|
      ensures IndexOf(OrderedStatuses, Roadmap[k].steps[j].status) == Start(Roadmap, k) + j
    {
      StepIndex(k, j);
    }
  }

  /** At most one roadmap phase is active. */
  lemma AtMostOneActive(k1: nat, k2: nat, current: Option<string>)
    requires k1 < k2 < |Roadmap|
    ensures !(PhaseStateOf(Roadmap[k1], current) == Active && PhaseStateOf(Roadmap[k2], current) == Active)
  {
    PhaseRuns(k1);
    PhaseRuns(k2);
    StartsIncrease(k1, k2);
  }

  lemma StartsIncrease(k1: nat, k2: nat)
    requires k1 < k2 < |Roadmap|
    ensures Start(Roadmap, k2) >= Start(Roadmap, k1) + |Roadmap[k1].steps|
    decreases k2 - k1
  {
    PhaseRuns(k1);
    if k2 > k1 + 1 {
      StartsIncrease(k1 + 1, k2);
      PhaseRuns(k1 + 1);
    }
  }
}

=== FILE: bill_machine.dfy ===
/**
 * The bill lifecycle state machine: for every status, the outgoing
 * transitions with their role and bill-type guards, the side effects they
 * announce and the deadline specs attached to the status, together with the
 * two filters over it and the table of deadline durations
 * (src/lib/state-machine/bill-machine.ts).
 */
module BillMachine {
  import opened Wrappers
  import Seqs
  import opened Types

  /** The intents a transition announces; none of them is executed here. */
  datatype SideEffect =
    | LogTransition | NotifyLawMinistry | CreateNoticeDeadline | AssignBillNumber
    | NotifyAllMembers | NotifyCommittee | CreateAmendmentDeadline | NotifySecondHouse
    | CreateSecondHouseDeadline | NotifyJointSitting | CreatePresidentialDeadline
    | NotifyPresident | NotifyAll | IncrementReturnCount | CreateGazetteEntry

  /** Named validations a guard may ask for. */
  datatype CustomCheck = CheckNoDoubleReturn

  /**
   * A transition guard. Only `requiredRoles` and `billTypes` are evaluated by
   * the filters; the quorum, deadline-expiry and custom-check flags are data.
   * An absent optional flag is `false` / `None`.
   */
  datatype Guard = Guard(
    requiredRoles: seq<UserRole>,
    requiresQuorum: bool,
    requiresDeadlineExpiry: bool,
    billTypes: Option<seq<BillType>>,
    customCheck: Option<CustomCheck>)

  /**
   * An outgoing edge. Its button text (the source's `label`) is kept apart,
   * in `TransitionCaption`, since no status has two edges to one target.
   */
  datatype Transition = Transition(
    to: BillStatus,
    guards: Guard,
    sideEffects: seq<SideEffect>)

  /** A deadline started when a bill enters a status; `billTypes` absent means every type. */
  datatype DeadlineSpec = DeadlineSpec(
    kind: string,
    durationDays: nat,
    billTypes: Option<seq<BillType>>,
    autoTransitionTo: Option<BillStatus>)

  /** A status's entry in the catalogue (`caption` is the source's `label`); a missing `deadlines` list is empty. */
  datatype StateDefinition = StateDefinition(
    caption: string,
    description: string,
    transitions: seq<Transition>,
    deadlines: seq<DeadlineSpec>)

  /** The `label` of a status's entry in BILL_STATE_MACHINE. */
  function StateCaption(s: BillStatus): string
  {
    match s
    case Draft => "Draft"
    case LawMinistryReview => "Law Ministry Review"
    case CabinetApproved => "Cabinet Approved"
    case Registered => "Registered"
    case FirstReading => "First Reading"
    case GeneralDiscussion => "General Discussion"
    case AmendmentWindowOpen => "Amendment Window"
    case CommitteeReview => "Committee Review"
    case ClauseVoting => "Clause Voting"
    case FirstHousePassed => "First House Passed"
    case SecondHouseProcessing => "Second House Processing"
    case JointSitting => "Joint Sitting"
    case SpeakerCertification => "Speaker Certification"
    case PresidentialReview => "Presidential Review"
    case Assented => "Assented"
    case GazettePublished => "Gazette Published"
    case ImplementationMonitoring => "Implementation Monitoring"
    case Lapsed => "Lapsed"
    case Withdrawn => "Withdrawn"
    case FastTrack => "Fast Track"
  }

  /** The `description` of a status's entry in BILL_STATE_MACHINE. */
  function StateDescription(s: BillStatus): string
  {
    match s
    case Draft =>
      "Bill is being drafted by the sponsoring ministry or member."
    case LawMinistryReview =>
      "Bill is under review by the Law Ministry for legal compliance."
    case CabinetApproved =>
      "Bill has been approved by the cabinet and is ready for registration."
    case Registered =>
      "Bill has been officially registered by the Secretariat."
    case FirstReading =>
      "Bill is introduced and read for the first time in the house."
    case GeneralDiscussion =>
      "Bill is under general discussion in the house."
    case AmendmentWindowOpen =>
      "Members can propose amendments to the bill within the specified timeframe."
    case CommitteeReview =>
      "Bill is being reviewed by the assigned parliamentary committee."
    case ClauseVoting =>
      "Clause-by-clause voting in the house."
    case FirstHousePassed =>
      "Bill has passed in the first house and is being sent to the second house."
    case SecondHouseProcessing =>
      "Bill is being processed in the second house."
    case JointSitting =>
      "Joint sitting of both houses to resolve disagreement. HoR:NA ratio 5:1."
    case SpeakerCertification =>
      "Speaker certifies the bill before sending to President."
    case PresidentialReview =>
      "Bill is under review by the President for assent."
    case Assented =>
      "Bill has received Presidential assent and is now law."
    case GazettePublished =>
      "Bill has been published in the Nepal Gazette."
    case ImplementationMonitoring =>
      "Act is being monitored for implementation compliance."
    case Lapsed =>
      "Bill has lapsed due to rejection, session end, or deadline expiry."
    case Withdrawn =>
      "Bill has been voluntarily withdrawn by the sponsor."
    case FastTrack =>
      "Bill is on an expedited track with reduced timelines."
  }

  /** The outgoing transitions of a status's entry in BILL_STATE_MACHINE, in order. */
  function StateTransitions(s: BillStatus): seq<Transition>
  {
    match s
    case Draft =>
      [
        Transition(LawMinistryReview, Guard([Ministry], false, false, None, None),
          [LogTransition, NotifyLawMinistry]),
        Transition(Withdrawn, Guard([Ministry, Mp], false, false, None, None),
          [LogTransition])
      ]
    case LawMinistryReview =>
      [
        Transition(CabinetApproved, Guard([Ministry], false, false, Some([Government, Money]), None),
          [LogTransition]),
        Transition(Registered, Guard([Secretariat], false, false, Some([Private]), None),
          [LogTransition, CreateNoticeDeadline]),
        Transition(Draft, Guard([Ministry], false, false, None, None),
          [LogTransition])
      ]
    case CabinetApproved =>
      [
        Transition(Registered, Guard([Secretariat], false, false, None, None),
          [LogTransition, AssignBillNumber, CreateNoticeDeadline])
      ]
    case Registered =>
      [
        Transition(FirstReading, Guard([Secretariat], false, true, None, None),
          [LogTransition, NotifyAllMembers]),
        Transition(FastTrack, Guard([Speaker], false, false, None, None),
          [LogTransition])
      ]
    case FirstReading =>
      [
        Transition(GeneralDiscussion, Guard([Speaker, Secretariat], false, false, None, None),
          [LogTransition]),
        Transition(CommitteeReview, Guard([Speaker], false, false, None, None),
          [LogTransition, NotifyCommittee])
      ]
    case GeneralDiscussion =>
      [
        Transition(AmendmentWindowOpen, Guard([Speaker, Secretariat], false, false, None, None),
          [LogTransition, CreateAmendmentDeadline]),
        Transition(CommitteeReview, Guard([Speaker], false, false, None, None),
          [LogTransition, NotifyCommittee])
      ]
    case AmendmentWindowOpen =>
      [
        Transition(CommitteeReview, Guard([Speaker, Secretariat], false, false, None, None),
          [LogTransition, NotifyCommittee]),
        Transition(ClauseVoting, Guard([Speaker], false, true, None, None),
          [LogTransition])
      ]
    case CommitteeReview =>
      [
        Transition(ClauseVoting, Guard([Speaker, Secretariat], true, false, None, None),
          [LogTransition, NotifyAllMembers]),
        Transition(GeneralDiscussion, Guard([Speaker], false, false, None, None),
          [LogTransition])
      ]
    case ClauseVoting =>
      [
        Transition(FirstHousePassed, Guard([Speaker], true, false, None, None),
          [LogTransition, NotifySecondHouse]),
        Transition(Lapsed, Guard([Speaker], false, false, None, None),
          [LogTransition])
      ]
    case FirstHousePassed =>
      [
        Transition(SecondHouseProcessing, Guard([Secretariat], false, false, None, None),
          [LogTransition, CreateSecondHouseDeadline])
      ]
    case SecondHouseProcessing =>
      [
        Transition(SpeakerCertification, Guard([Speaker], false, false, None, None),
          [LogTransition]),
        Transition(JointSitting, Guard([Speaker], false, false, None, None),
          [LogTransition, NotifyJointSitting]),
        Transition(Lapsed, Guard([Speaker], false, false, None, None),
          [LogTransition])
      ]
    case JointSitting =>
      [
        Transition(SpeakerCertification, Guard([Speaker], true, false, None, None),
          [LogTransition]),
        Transition(Lapsed, Guard([Speaker], false, false, None, None),
          [LogTransition])
      ]
    case SpeakerCertification =>
      [
        Transition(PresidentialReview, Guard([Speaker], false, false, None, None),
          [LogTransition, CreatePresidentialDeadline, NotifyPresident])
      ]
    case PresidentialReview =>
      [
        Transition(Assented, Guard([President], false, false, None, None),
          [LogTransition, NotifyAll]),
        Transition(GeneralDiscussion, Guard([President], false, false, Some([Government, Private, ConstitutionalAmendment, OrdinanceReplacement]), Some(CheckNoDoubleReturn)),
          [LogTransition, IncrementReturnCount])
      ]
    case Assented =>
      [
        Transition(GazettePublished, Guard([Secretariat], false, false, None, None),
          [LogTransition, CreateGazetteEntry])
      ]
    case GazettePublished =>
      [
        Transition(ImplementationMonitoring, Guard([Secretariat, Admin], false, false, None, None),
          [LogTransition])
      ]
    case ImplementationMonitoring => []
    case Lapsed =>
      [
        Transition(Draft, Guard([Ministry, Mp], false, false, None, None),
          [LogTransition])
      ]
    case Withdrawn =>
      [
        Transition(Draft, Guard([Ministry, Mp], false, false, None, None),
          [LogTransition])
      ]
    case FastTrack =>
      [
        Transition(GeneralDiscussion, Guard([Speaker], false, false, None, None),
          [LogTransition]),
        Transition(CommitteeReview, Guard([Speaker], false, false, None, None),
          [LogTransition, NotifyCommittee]),
        Transition(ClauseVoting, Guard([Speaker], false, false, None, None),
          [LogTransition])
      ]
  }

  /** The deadline specs of a status's entry in BILL_STATE_MACHINE; none where the entry lists none. */
  function StateDeadlines(s: BillStatus): seq<DeadlineSpec>
  {
    match s
    case Draft => []
    case LawMinistryReview => []
    case CabinetApproved => []
    case Registered =>
      [
        DeadlineSpec("GOVERNMENT_BILL_NOTICE", 2, Some([Government, Money]), None),
        DeadlineSpec("PRIVATE_BILL_NOTICE", 4, Some([Private]), None)
      ]
    case FirstReading => []
    case GeneralDiscussion => []
    case AmendmentWindowOpen =>
      [
        DeadlineSpec("AMENDMENT_WINDOW", 3, None, None)
      ]
    case CommitteeReview => []
    case ClauseVoting => []
    case FirstHousePassed => []
    case SecondHouseProcessing =>
      [
        DeadlineSpec("NA_MONEY_BILL_RETURN", 15, Some([Money]), None),
        DeadlineSpec("NA_OTHER_BILL_RETURN", 60, None, None)
      ]
    case JointSitting => []
    case SpeakerCertification => []
    case PresidentialReview =>
      [
        DeadlineSpec("PRESIDENTIAL_ASSENT", 15, None, Some(Assented))
      ]
    case Assented => []
    case GazettePublished => []
    case ImplementationMonitoring => []
    case Lapsed => []
    case Withdrawn => []
    case FastTrack => []
  }

  /** The `label` of the transition from `from` to `to`, when the catalogue has one. */
  function TransitionCaption(from: BillStatus, to: BillStatus): Option<string>
  {
    match (from, to)
    case (Draft, LawMinistryReview) => Some("Submit for Law Ministry Review")
    case (Draft, Withdrawn) => Some("Withdraw Draft")
    case (LawMinistryReview, CabinetApproved) => Some("Approve for Cabinet")
    case (LawMinistryReview, Registered) => Some("Register Directly (Private)")
    case (LawMinistryReview, Draft) => Some("Return to Draft")
    case (CabinetApproved, Registered) => Some("Register Bill")
    case (Registered, FirstReading) => Some("Schedule First Reading")
    case (Registered, FastTrack) => Some("Mark as Fast Track")
    case (FirstReading, GeneralDiscussion) => Some("Move to General Discussion")
    case (FirstReading, CommitteeReview) => Some("Refer to Committee")
    case (GeneralDiscussion, AmendmentWindowOpen) => Some("Open Amendment Window")
    case (GeneralDiscussion, CommitteeReview) => Some("Refer to Committee")
    case (AmendmentWindowOpen, CommitteeReview) => Some("Send to Committee Review")
    case (AmendmentWindowOpen, ClauseVoting) => Some("Move to Clause Voting")
    case (CommitteeReview, ClauseVoting) => Some("Committee Report Accepted - Move to Voting")
    case (CommitteeReview, GeneralDiscussion) => Some("Return to General Discussion")
    case (ClauseVoting, FirstHousePassed) => Some("Bill Passed in First House")
    case (ClauseVoting, Lapsed) => Some("Bill Rejected")
    case (FirstHousePassed, SecondHouseProcessing) => Some("Send to Second House")
    case (SecondHouseProcessing, SpeakerCertification) => Some("Second House Passed (No Amendments)")
    case (SecondHouseProcessing, JointSitting) => Some("Disagreement - Initiate Joint Sitting")
    case (SecondHouseProcessing, Lapsed) => Some("Bill Rejected by Second House")
    case (JointSitting, SpeakerCertification) => Some("Joint Sitting Resolved - Bill Passed")
    case (JointSitting, Lapsed) => Some("Joint Sitting Rejected")
    case (SpeakerCertification, PresidentialReview) => Some("Certify and Send to President")
    case (PresidentialReview, Assented) => Some("Give Assent")
    case (PresidentialReview, GeneralDiscussion) => Some("Return Bill (Non-Money)")
    case (Assented, GazettePublished) => Some("Publish in Gazette")
    case (GazettePublished, ImplementationMonitoring) => Some("Begin Implementation Monitoring")
    case (Lapsed, Draft) => Some("Re-introduce as New Bill")
    case (Withdrawn, Draft) => Some("Re-submit as Draft")
    case (FastTrack, GeneralDiscussion) => Some("Move to General Discussion")
    case (FastTrack, CommitteeReview) => Some("Refer to Committee")
    case (FastTrack, ClauseVoting) => Some("Move Directly to Voting")
    case _ => None
  }

  /** A status's entry in BILL_STATE_MACHINE (`getStateDefinition`). */
  function GetStateDefinition(s: BillStatus): StateDefinition
  {
    StateDefinition(StateCaption(s), StateDescription(s), StateTransitions(s), StateDeadlines(s))
  }

  /** The guard lets `role` act on a bill of `billType`. */
  predicate Permits(g: Guard, role: UserRole, billType: BillType)
  {
    role in g.requiredRoles && (g.billTypes.None? || billType in g.billTypes.value)
  }

  /** The transitions of `ts`, in order, whose guard lets `role` act on a bill of `billType`. */
  function Permitted(ts: seq<Transition>, role: UserRole, billType: BillType): (r: seq<Transition>)
    ensures Seqs.IsSubsequence(r, ts)
    ensures forall t :: t in r <==> t in ts && Permits(t.guards, role, billType)
  {
    var p := (t: Transition) => Permits(t.guards, role, billType);
    Seqs.FilterIsSubsequence(ts, p);
    Seqs.Filter(ts, p)
  }

  /**
   * `getAvailableTransitions`: the transitions of `status`, in catalogue
   * order, whose guard lets `role` act on a bill of `billType`.
   */
  function AvailableTransitions(status: BillStatus, role: UserRole, billType: BillType): (r: seq<Transition>)
    ensures Seqs.IsSubsequence(r, StateTransitions(status))
    ensures forall t :: t in r <==> t in StateTransitions(status) && Permits(t.guards, role, billType)
  {
    Permitted(StateTransitions(status), role, billType)
  }

  /** Some transition of `ts` leads to `target`. */
  function LeadsTo(ts: seq<Transition>, target: BillStatus): (b: bool)
    ensures b <==> exists t :: t in ts && t.to == target
  {
    if ts == [] then false
    else ts[0].to == target || LeadsTo(ts[1..], target)
  }

  /** Filtering and then looking for a target is looking for a permitted transition to it. */
  lemma PermittedLeadsTo(ts: seq<Transition>, target: BillStatus, role: UserRole, billType: BillType)
    ensures LeadsTo(Permitted(ts, role, billType), target) <==>
      exists t :: t in ts && t.to == target && Permits(t.guards, role, billType)
  {
    var r := Permitted(ts, role, billType);
    if LeadsTo(r, target) {
      var t :| t in r && t.to == target;
      assert t in ts && Permits(t.guards, role, billType);
    }
    if exists t :: t in ts && t.to == target && Permits(t.guards, role, billType) {
      var t :| t in ts && t.to == target && Permits(t.guards, role, billType);
      assert t in r;
    }
  }

  /**
   * `canTransition`: some transition available to `role` for `billType`
   * leads to `target`, that is, some transition of `status` to `target`
   * has a guard letting `role` act on a bill of `billType`.
   */
  function CanTransition(status: BillStatus, target: BillStatus, role: UserRole, billType: BillType): (b: bool)
    ensures b <==> exists t :: t in AvailableTransitions(status, role, billType) && t.to == target
    ensures b <==> exists t :: t in StateTransitions(status) && t.to == target && Permits(t.guards, role, billType)
  {
    PermittedLeadsTo(StateTransitions(status), target, role, billType);
    LeadsTo(AvailableTransitions(status, role, billType), target)
  }

  /**
   * `getAvailableTransitions` called with a stored status identifier, looking
   * up own keys of the catalogue only: an identifier that is not a catalogue
   * key yields no transitions.
   */
  function AvailableForKey(key: string, role: UserRole, billType: BillType): (r: seq<Transition>)
    ensures ParseStatus(key).None? ==> r == []
    ensures forall s :: key == StatusKey(s) ==> r == AvailableTransitions(s, role, billType)
  {
    match ParseStatus(key)
    case None =>
      assert forall u :: key != StatusKey(u) by {
        forall u ensures key != StatusKey(u) {
          ParseStatusKey(u, key);
        }
      }
      []
    case Some(s) =>
      assert forall u :: key == StatusKey(u) ==> u == s by {
        forall u | key == StatusKey(u) ensures u == s {
          ParseStatusKey(u, key);
        }
      }
      AvailableTransitions(s, role, billType)
  }

  /** DEADLINE_DURATIONS, in days. */
  const DeadlineDurations: map<string, nat> := map[
    "GOVERNMENT_BILL_NOTICE" := 2,
    "PRIVATE_BILL_NOTICE" := 4,
    "AMENDMENT_WINDOW" := 3,
    "NA_MONEY_BILL_RETURN" := 15,
    "NA_OTHER_BILL_RETURN" := 60,
    "PRESIDENTIAL_ASSENT" := 15,
    "PRESIDENTIAL_RETURN_WINDOW" := 50
  ]

  /** A deadline spec applies to bills of `billType`. */
  predicate SpecApplies(d: DeadlineSpec, billType: BillType)
  {
    d.billTypes.None? || billType in d.billTypes.value
  }

  /** The specs of `ds` that apply to a bill of `billType`, in order. */
  function DeadlinesFor(ds: seq<DeadlineSpec>, billType: BillType): (r: seq<DeadlineSpec>)
    ensures Seqs.IsSubsequence(r, ds)
    ensures forall d :: d in r <==> d in ds && SpecApplies(d, billType)
  {
    var p := (d: DeadlineSpec) => SpecApplies(d, billType);
    Seqs.FilterIsSubsequence(ds, p);
    Seqs.Filter(ds, p)
  }

  /** The deadline specs of `status` that apply to a bill of `billType`, in catalogue order. */
  function ApplicableDeadlines(status: BillStatus, billType: BillType): (r: seq<DeadlineSpec>)
    ensures Seqs.IsSubsequence(r, StateDeadlines(status))
    ensures forall d :: d in r <==> d in StateDeadlines(status) && SpecApplies(d, billType)
  {
    DeadlinesFor(StateDeadlines(status), billType)
  }

  /** Selecting from a non-empty list of specs decides its head and selects from the rest. */
  lemma DeadlinesForUnfold(ds: seq<DeadlineSpec>, billType: BillType)
    requires ds != []
    ensures DeadlinesFor(ds, billType) ==
      (if SpecApplies(ds[0], billType) then [ds[0]] else []) + DeadlinesFor(ds[1..], billType)
  {
  }

  /** Selecting from a two-element list of specs decides each element. */
  lemma DeadlinesForPair(ds: seq<DeadlineSpec>, billType: BillType)
    requires |ds| == 2
    ensures DeadlinesFor(ds, billType) ==
      (if SpecApplies(ds[0], billType) then [ds[0]] else [])
      + (if SpecApplies(ds[1], billType) then [ds[1]] else [])
  {
    DeadlinesForUnfold(ds, billType);
    DeadlinesForUnfold(ds[1..], billType);
    assert ds[1..][1..] == [];
  }

  /** A government or money bill entering REGISTERED gets the 2-day government notice only. */
  lemma GovernmentNotice(billType: BillType)
    requires billType == Government || billType == Money
    ensures |ApplicableDeadlines(Registered, billType)| == 1
    ensures ApplicableDeadlines(Registered, billType)[0].kind == "GOVERNMENT_BILL_NOTICE"
    ensures ApplicableDeadlines(Registered, billType)[0].durationDays == 2
  {
    DeadlinesForPair(StateDeadlines(Registered), billType);
  }

  /** A private bill entering REGISTERED gets the 4-day private notice only. */
  lemma PrivateNotice()
    ensures |ApplicableDeadlines(Registered, Private)| == 1
    ensures ApplicableDeadlines(Registered, Private)[0].kind == "PRIVATE_BILL_NOTICE"
    ensures ApplicableDeadlines(Registered, Private)[0].durationDays == 4
  {
    DeadlinesForPair(StateDeadlines(Registered), Private);
  }

  /** Constitutional amendments and ordinance replacements get no notice period at REGISTERED. */
  lemma NoNoticeForOtherTypes(billType: BillType)
    requires billType == ConstitutionalAmendment || billType == OrdinanceReplacement
    ensures ApplicableDeadlines(Registered, billType) == []
  {
    DeadlinesForPair(StateDeadlines(Registered), billType);
  }

  /**
   * The spec `d` of status `s` agrees with DEADLINE_DURATIONS, is not the
   * presidential return window, and an automatic transition it names is an
   * edge of `s`.
   */
  predicate SpecAgrees(s: BillStatus, d: DeadlineSpec)
  {
    d.kind in DeadlineDurations && DeadlineDurations[d.kind] == d.durationDays
    && d.kind != "PRESIDENTIAL_RETURN_WINDOW"
    && (d.autoTransitionTo.Some? ==> LeadsTo(StateTransitions(s), d.autoTransitionTo.value))
  }

  lemma StateSpecsAgree(s: BillStatus)
    ensures forall d :: d in StateDeadlines(s) ==> SpecAgrees(s, d)
  {
    match s
    case Registered =>
      assert StateDeadlines(s) == [StateDeadlines(s)[0], StateDeadlines(s)[1]];
    case AmendmentWindowOpen =>
      assert StateDeadlines(s) == [StateDeadlines(s)[0]];
    case SecondHouseProcessing =>
      assert StateDeadlines(s) == [StateDeadlines(s)[0], StateDeadlines(s)[1]];
    case PresidentialReview =>
      assert StateDeadlines(s) == [StateDeadlines(s)[0]];
    case _ =>
  }

  /**
   * Every deadline spec's duration is the DEADLINE_DURATIONS entry of its
   * kind, the presidential return window is attached to no status, and an
   * automatic transition follows an edge of the catalogue.
   */
  lemma SpecDurationsAgree()
    ensures forall s, d :: d in StateDeadlines(s) ==> SpecAgrees(s, d)
  {
    forall s ensures forall d :: d in StateDeadlines(s) ==> SpecAgrees(s, d) {
      StateSpecsAgree(s);
    }
  }


  /**
   * The transition `t` is well formed at `s`: its guard names at least one
   * role and never PUBLIC, a bill-type restriction is never empty, it logs
   * itself first and it leaves `s`.
   */
  predicate WellFormedAt(s: BillStatus, t: Transition)
  {
    t.guards.requiredRoles != [] && Public !in t.guards.requiredRoles
    && (t.guards.billTypes.Some? ==> t.guards.billTypes.value != [])
    && t.sideEffects != [] && t.sideEffects[0] == LogTransition
    && t.to != s
  }

  lemma StateWellFormed(s: BillStatus)
    ensures forall t :: t in StateTransitions(s) ==> WellFormedAt(s, t)
  {
    match s
    case Draft => {}
    case LawMinistryReview => {}
    case CabinetApproved => {}
    case Registered => {}
    case FirstReading => {}
    case GeneralDiscussion => {}
    case AmendmentWindowOpen => {}
    case CommitteeReview => {}
    case ClauseVoting => {}
    case FirstHousePassed => {}
    case SecondHouseProcessing => {}
    case JointSitting => {}
    case SpeakerCertification => {}
    case PresidentialReview => {}
    case Assented => {}
    case GazettePublished => {}
    case ImplementationMonitoring => {}
    case Lapsed => {}
    case Withdrawn => {}
    case FastTrack => {}
  }

  /** Every transition of the catalogue is well formed and leads to a status whose identifier is a catalogue key. */
  lemma GuardsWellFormed()
    ensures forall s, t :: t in StateTransitions(s) ==> WellFormedAt(s, t) && ParseStatus(StatusKey(t.to)) == Some(t.to)
  {
    forall t: Transition ensures ParseStatus(StatusKey(t.to)) == Some(t.to) {
      ParseStatusKey(t.to, StatusKey(t.to));
    }
    forall s ensures forall t :: t in StateTransitions(s) ==> WellFormedAt(s, t) {
      StateWellFormed(s);
    }
  }

  /** IMPLEMENTATION_MONITORING is the one status without outgoing transitions. */
  lemma TerminalStatus()
    ensures forall s :: StateTransitions(s) == [] <==> s == ImplementationMonitoring
  {
  }

  /** A single transition can be taken only as its guard allows. */
  lemma SingleExit(ts: seq<Transition>, target: BillStatus, role: UserRole, billType: BillType)
    requires |ts| == 1
    ensures LeadsTo(Permitted(ts, role, billType), target) <==> ts[0].to == target && Permits(ts[0].guards, role, billType)
  {
    assert ts == [ts[0]];
    PermittedLeadsTo(ts, target, role, billType);
  }

  /**
   * Status `s` has one way out: back to DRAFT, taken by a ministry or an MP,
   * whatever the bill type.
   */
  predicate OnlyBackToDraft(s: BillStatus, target: BillStatus, role: UserRole, billType: BillType)
  {
    |StateTransitions(s)| == 1
    && StateTransitions(s)[0].to == Draft
    && StateTransitions(s)[0].guards.requiredRoles == [Ministry, Mp]
    && StateTransitions(s)[0].guards.billTypes.None?
    && (CanTransition(s, target, role, billType) <==> target == Draft && (role == Ministry || role == Mp))
  }

  /** A lapsed bill can only be reintroduced as a draft, by a ministry or an MP. */
  lemma LapsedOnlyBackToDraft(target: BillStatus, role: UserRole, billType: BillType)
    ensures OnlyBackToDraft(Lapsed, target, role, billType)
  {
    SingleExit(StateTransitions(Lapsed), target, role, billType);
  }

  /** A withdrawn bill can only be resubmitted as a draft, by a ministry or an MP. */
  lemma WithdrawnOnlyBackToDraft(target: BillStatus, role: UserRole, billType: BillType)
    ensures OnlyBackToDraft(Withdrawn, target, role, billType)
  {
    SingleExit(StateTransitions(Withdrawn), target, role, billType);
  }

  /** Filtering a non-empty list decides its head and filters the rest. */
  lemma PermittedUnfold(ts: seq<Transition>, role: UserRole, billType: BillType)
    requires ts != []
    ensures Permitted(ts, role, billType) ==
      (if Permits(ts[0].guards, role, billType) then [ts[0]] else []) + Permitted(ts[1..], role, billType)
  {
  }

  /** Filtering a two-element list decides each element. */
  lemma PermittedPair(ts: seq<Transition>, role: UserRole, billType: BillType)
    requires |ts| == 2
    ensures Permitted(ts, role, billType) ==
      (if Permits(ts[0].guards, role, billType) then [ts[0]] else [])
      + (if Permits(ts[1].guards, role, billType) then [ts[1]] else [])
  {
    PermittedUnfold(ts, role, billType);
    PermittedUnfold(ts[1..], role, billType);
    assert ts[1..][1..] == [];
  }

  /** At PRESIDENTIAL_REVIEW nobody but the President can act. */
  lemma OnlyPresidentActsOnReview(role: UserRole, billType: BillType)
    requires role != President
    ensures AvailableTransitions(PresidentialReview, role, billType) == []
  {
    PermittedPair(StateTransitions(PresidentialReview), role, billType);
  }

  /** A money bill under presidential review can only be assented. */
  lemma MoneyBillOnlyAssented()
    ensures |AvailableTransitions(PresidentialReview, President, Money)| == 1
    ensures AvailableTransitions(PresidentialReview, President, Money)[0].to == Assented
  {
    PermittedPair(StateTransitions(PresidentialReview), President, Money);
  }

  /**
   * Any other bill under presidential review can be assented or returned to
   * general discussion, the return being subject to the no-double-return check.
   */
  lemma OtherBillsMayBeReturned(billType: BillType)
    requires billType != Money
    ensures |AvailableTransitions(PresidentialReview, President, billType)| == 2
    ensures AvailableTransitions(PresidentialReview, President, billType)[0].to == Assented
    ensures AvailableTransitions(PresidentialReview, President, billType)[1].to == GeneralDiscussion
    ensures AvailableTransitions(PresidentialReview, President, billType)[1].guards.customCheck == Some(CheckNoDoubleReturn)
  {
    PermittedPair(StateTransitions(PresidentialReview), President, billType);
  }

  /** The catalogue has a transition from `a` to `b`. */
  predicate Edge(a: BillStatus, b: BillStatus)
  {
    LeadsTo(StateTransitions(a), b)
  }

  /** The status after `s` on the timeline, if `s` is on it and not last. */
  function NextInLifecycle(s: BillStatus): (r: Option<BillStatus>)
  {
    match s
    case Draft => Some(LawMinistryReview)
    case LawMinistryReview => Some(CabinetApproved)
    case CabinetApproved => Some(Registered)
    case Registered => Some(FirstReading)
    case FirstReading => Some(GeneralDiscussion)
    case GeneralDiscussion => Some(AmendmentWindowOpen)
    case AmendmentWindowOpen => Some(CommitteeReview)
    case CommitteeReview => Some(ClauseVoting)
    case ClauseVoting => Some(FirstHousePassed)
    case FirstHousePassed => Some(SecondHouseProcessing)
    case SecondHouseProcessing => Some(JointSitting)
    case JointSitting => Some(SpeakerCertification)
    case SpeakerCertification => Some(PresidentialReview)
    case PresidentialReview => Some(Assented)
    case Assented => Some(GazettePublished)
    case GazettePublished => Some(ImplementationMonitoring)
    case ImplementationMonitoring => None
    case Lapsed => None
    case Withdrawn => None
    case FastTrack => None
  }

  /** The timeline is the chain of `NextInLifecycle` steps from drafting to monitoring. */
  lemma NextInLifecycleFollowsOrder()
    ensures forall i :: 0 <= i < |LifecycleOrder| - 1 ==> NextInLifecycle(LifecycleOrder[i]) == Some(LifecycleOrder[i + 1])
    ensures NextInLifecycle(LifecycleOrder[|LifecycleOrder| - 1]).None?
  {
  }

  /** Each timeline step is a catalogue edge. */
  lemma NextInLifecycleIsEdge(s: BillStatus)
    ensures NextInLifecycle(s).Some? ==> Edge(s, NextInLifecycle(s).value)
  {
    match s
    case Draft => assert StateTransitions(Draft)[0].to == LawMinistryReview;
    case LawMinistryReview => assert StateTransitions(LawMinistryReview)[0].to == CabinetApproved;
    case CabinetApproved => assert StateTransitions(CabinetApproved)[0].to == Registered;
    case Registered => assert StateTransitions(Registered)[0].to == FirstReading;
    case FirstReading => assert StateTransitions(FirstReading)[0].to == GeneralDiscussion;
    case GeneralDiscussion => assert StateTransitions(GeneralDiscussion)[0].to == AmendmentWindowOpen;
    case AmendmentWindowOpen => assert StateTransitions(AmendmentWindowOpen)[0].to == CommitteeReview;
    case CommitteeReview => assert StateTransitions(CommitteeReview)[0].to == ClauseVoting;
    case ClauseVoting => assert StateTransitions(ClauseVoting)[0].to == FirstHousePassed;
    case FirstHousePassed => assert StateTransitions(FirstHousePassed)[0].to == SecondHouseProcessing;
    case SecondHouseProcessing => assert StateTransitions(SecondHouseProcessing)[1].to == JointSitting;
    case JointSitting => assert StateTransitions(JointSitting)[0].to == SpeakerCertification;
    case SpeakerCertification => assert StateTransitions(SpeakerCertification)[0].to == PresidentialReview;
    case PresidentialReview => assert StateTransitions(PresidentialReview)[0].to == Assented;
    case Assented => assert StateTransitions(Assented)[0].to == GazettePublished;
    case GazettePublished => assert StateTransitions(GazettePublished)[0].to == ImplementationMonitoring;
    case ImplementationMonitoring => {}
    case Lapsed => {}
    case Withdrawn => {}
    case FastTrack => {}
  }

  /**
   * BILL_LIFECYCLE_ORDER follows the catalogue: each status of the timeline
   * has a transition to the next one.
   */
  lemma LifecycleFollowsCatalogue()
    ensures forall i :: 0 <= i < |LifecycleOrder| - 1 ==> Edge(LifecycleOrder[i], LifecycleOrder[i + 1])
  {
    NextInLifecycleFollowsOrder();
    forall i | 0 <= i < |LifecycleOrder| - 1 ensures Edge(LifecycleOrder[i], LifecycleOrder[i + 1]) {
      NextInLifecycleIsEdge(LifecycleOrder[i]);
    }
  }
}

=== FILE: bills_client.dfy ===
/**
 * The paging and filter state of the bills list page
 * (src/components/bills/BillsClient.tsx): the filters object it asks for,
 * the page count, the clamped page changes, the seven-entry page-number
 * window and the reset button. React state is modelled as a value that each
 * user action maps to the next value.
 */
module BillsClient {
  import opened Wrappers
  import opened Strings
  import opened JsNum
  import opened JsNumber
  import ApiValidation
  import BillsRoute

  /** PAGE_SIZE: the bills shown per page. */
  const PageSize: nat := 25

  /** The most page numbers shown at once. */
  const WindowSize: nat := 7

  /** The component's state: the four filter texts (empty for "all"), the sort and the zero-based page. */
  datatype ClientState = ClientState(
    search: string, house: string, status: string, category: string,
    sort: ApiValidation.Sort, page: int)

  /** The state on first render, and after `resetFilters`. */
  const Initial: ClientState := ClientState("", "", "", "", ApiValidation.Newest, 0)

  /** `x || undefined` for a filter text. */
  function Defined(v: string): (r: Option<string>)
    ensures r.Some? <==> v != []
    ensures r.Some? ==> r.value == v
  {
    if v != [] then Some(v) else None
  }

  /** The filters object of one render. */
  datatype BillFilters = BillFilters(
    search: Option<string>, house: Option<string>, status: Option<string>, category: Option<string>,
    sort: ApiValidation.Sort, limit: nat, offset: int)

  /**
   * The filters object the list asks for; `deferredSearch` is the search text
   * React has caught up with, which lags behind what is typed.
   */
  function FiltersOf(s: ClientState, deferredSearch: string): (f: BillFilters)
    ensures f.limit == PageSize && f.offset == s.page * PageSize
    ensures f.sort == s.sort
    ensures f.search.Some? <==> deferredSearch != []
    ensures f.house.Some? <==> s.house != []
    ensures f.status.Some? <==> s.status != []
    ensures f.category.Some? <==> s.category != []
  {
    BillFilters(Defined(deferredSearch), Defined(s.house), Defined(s.status), Defined(s.category),
      s.sort, PageSize, s.page * PageSize)
  }

  /** `hasFilters`: a search or one of the three choices is set (the sort does not count). */
  predicate HasFilters(s: ClientState, deferredSearch: string)
  {
    deferredSearch != [] || s.house != [] || s.status != [] || s.category != []
  }

  /** `data?.meta.total ?? 0`. */
  function TotalOf(total: Option<int>): (t: int)
    ensures total.None? ==> t == 0
    ensures total.Some? ==> t == total.value
  {
    if total.Some? then total.value else 0
  }

  /** `Math.ceil(total / PAGE_SIZE)`: the fewest pages of 25 that hold `total` bills. */
  function TotalPages(total: int): (n: int)
    ensures (n - 1) * PageSize < total <= n * PageSize
  {
    CeilDiv(total, PageSize)
  }

  /** `Math.max(0, Math.min(p, totalPages - 1))`. */
  function ClampPage(p: int, totalPages: int): (r: int)
    ensures 0 <= r <= Max(0, totalPages - 1)
    ensures 0 <= p < totalPages ==> r == p
    ensures p < 0 ==> r == 0
    ensures totalPages > 0 && p >= totalPages ==> r == totalPages - 1
  {
    Max(0, Min(p, totalPages - 1))
  }

  /** The user actions that change the state. */
  datatype Action =
    | SearchTyped(text: string)
    | HouseChosen(house: string)
    | StatusChosen(status: string)
    | CategoryChosen(category: string)
    | SortChosen(sort: ApiValidation.Sort)
    | ResetFilters
    | Previous
    | Next
    | PageNumber(p: int)

  /**
   * The state after an action, with the page count of the current answer: a
   * filter or sort change sets the value and goes back to the first page,
   * reset restores the first-render state, and the page buttons go through
   * the clamp.
   */
  function Apply(s: ClientState, a: Action, totalPages: int): (r: ClientState)
  {
    match a
    case SearchTyped(t) => s.(search := t, page := 0)
    case HouseChosen(h) => s.(house := h, page := 0)
    case StatusChosen(t) => s.(status := t, page := 0)
    case CategoryChosen(c) => s.(category := c, page := 0)
    case SortChosen(o) => s.(sort := o, page := 0)
    case ResetFilters => Initial
    case Previous => s.(page := ClampPage(s.page - 1, totalPages))
    case Next => s.(page := ClampPage(s.page + 1, totalPages))
    case PageNumber(p) => s.(page := ClampPage(p, totalPages))
  }

  /** The page lies in the range the clamp allows. */
  predicate PageInRange(s: ClientState, totalPages: int)
  {
    0 <= s.page <= Max(0, totalPages - 1)
  }

  /** Every action keeps the page in range, whatever page it was on before. */
  lemma ApplyKeepsPageInRange(s: ClientState, a: Action, totalPages: int)
    ensures PageInRange(Apply(s, a, totalPages), totalPages)
  {
  }

  /** The state after a sequence of actions, all against one page count. */
  function ApplyAll(s: ClientState, actions: seq<Action>, totalPages: int): ClientState
    decreases |actions|
  {
    if actions == [] then s else ApplyAll(Apply(s, actions[0], totalPages), actions[1..], totalPages)
  }

  /** Starting from the first render, the page never leaves its range. */
  lemma {:induction false} PageStaysInRange(s: ClientState, actions: seq<Action>, totalPages: int)
    requires PageInRange(s, totalPages)
    ensures PageInRange(ApplyAll(s, actions, totalPages), totalPages)
    decreases |actions|
  {
    if actions != [] {
      var next := Apply(s, actions[0], totalPages);
      ApplyKeepsPageInRange(s, actions[0], totalPages);
      PageStaysInRange(next, actions[1..], totalPages);
    }
  }

  /** Reset clears the four filters, sorts newest first and goes to the first page. */
  lemma ResetClears(s: ClientState, totalPages: int)
    ensures var r := Apply(s, ResetFilters, totalPages);
      r.search == [] && r.house == [] && r.status == [] && r.category == []
      && r.sort == ApiValidation.Newest && r.page == 0
    ensures !HasFilters(Apply(s, ResetFilters, totalPages), "")
  {
  }

  /** A filter change sets only that filter and the page. */
  lemma FilterChangeGoesToFirstPage(s: ClientState, h: string, totalPages: int)
    ensures Apply(s, HouseChosen(h), totalPages) == ClientState(s.search, h, s.status, s.category, s.sort, 0)
  {
  }

  /** The page number shown in place `i` of the window. */
  function WindowEntry(totalPages: int, page: int, i: int): int
  {
    if totalPages <= WindowSize then i
    else if page < 4 then i
    else if page > totalPages - 5 then totalPages - 7 + i
    else page - 3 + i
  }

  /** The page numbers shown: `Math.min(totalPages, 7)` entries. */
  function PageWindow(totalPages: int, page: int): (w: seq<int>)
    ensures |w| == if totalPages <= 0 then 0 else Min(totalPages, WindowSize)
    ensures forall i :: 0 <= i < |w| ==> w[i] == WindowEntry(totalPages, page, i)
  {
    var n := if totalPages <= 0 then 0 else Min(totalPages, WindowSize);
    seq(n, i => WindowEntry(totalPages, page, i))
  }

  /**
   * The window is a run of consecutive page numbers that are all real pages,
   * whatever the current page, and it shows the current page whenever that is
   * a real page.
   */
  lemma PageWindowFacts(totalPages: int, page: int)
    ensures var w := PageWindow(totalPages, page);
      (forall i :: 0 <= i < |w| ==> 0 <= w[i] < totalPages)
      && (forall i :: 0 < i < |w| ==> w[i] == w[i - 1] + 1)
      && (0 <= page < totalPages <==> page in w)
  {
    var w := PageWindow(totalPages, page);
    if 0 <= page < totalPages {
      var j := page - WindowEntry(totalPages, page, 0);
      assert 0 <= j < |w| && w[j] == page;
    }
  }

  /** The pagination bar appears only when there is more than one page. */
  predicate ShowsPagination(totalPages: int)
  {
    totalPages > 1
  }

  predicate PreviousDisabled(s: ClientState)
  {
    s.page == 0
  }

  predicate NextDisabled(s: ClientState, totalPages: int)
  {
    s.page >= totalPages - 1
  }

  /** An enabled Previous or Next button moves exactly one page. */
  lemma ButtonsMoveOnePage(s: ClientState, totalPages: int)
    requires PageInRange(s, totalPages)
    ensures !PreviousDisabled(s) ==> Apply(s, Previous, totalPages).page == s.page - 1
    ensures !NextDisabled(s, totalPages) ==> Apply(s, Next, totalPages).page == s.page + 1
  {
  }

  /**
   * The route reads the client's page as decimal text: a page of 25 bills
   * starting at bill `page * 25`. This assumes a `useBills` that sends the
   * filters object's `limit` and `offset` as `String(n)` query parameters
   * and hands the whole response body back to the page; the hook in
   * src/lib/hooks/use-bills.ts does neither (see README, "Left out").
   */
  lemma RouteReadsClientPage(page: nat)
    ensures BillsRoute.EffectiveLimit(Some(NatToString(PageSize))) == Finite(PageSize as real)
    ensures BillsRoute.EffectiveOffset(Some(NatToString(page * PageSize))) == Finite((page * PageSize) as real)
  {
    BillsRoute.NaturalLimit(PageSize);
    BillsRoute.NaturalOffset(page * PageSize);
  }

  /**
   * On a real page, Next is enabled exactly when the route, returning the
   * page's rows of a table of `total` bills, reports that more rows follow.
   * Like the lemma above, this assumes a hook that forwards `offset` and
   * returns the response's `meta.total` to the page.
   */
  lemma NextEnabledIffHasMore(total: nat, s: ClientState)
    requires 0 <= s.page
    ensures var offset := s.page * PageSize;
      !NextDisabled(s, TotalPages(total))
      <==> BillsRoute.HasMore(Finite(offset as real), BillsRoute.WindowRows(total, offset, PageSize), total)
  {
    BillsRoute.HasMoreIffNextPage(total, s.page * PageSize, PageSize);
    var n := TotalPages(total);
    assert s.page + 1 < n <==> (s.page + 1) * PageSize < total;
  }
}

=== FILE: bills_route.dfy ===
/**
 * The arithmetic and filter handling of `GET /api/bills`
 * (src/app/api/bills/route.ts): how the search parameters become the filters,
 * the order, the page limit and the offset of the database query, and how the
 * response's `meta` object is filled in from what the database returns. The
 * SQL itself is not modelled: the query is described by its conditions and
 * order, and the rows and the count come back as parameters.
 */
module BillsRoute {
  import opened Wrappers
  import opened Strings
  import opened JsNum
  import opened JsNumber
  import ApiValidation

  /** The search parameters of the request URL, in order; a name may repeat. */
  type SearchParams = seq<(string, string)>

  /** `searchParams.get(name)`: the value of the FIRST pair with that name, `null` when there is none. */
  function Get(params: SearchParams, name: string): (r: Option<string>)
    ensures r.None? <==> forall i :: 0 <= i < |params| ==> params[i].0 != name
    ensures r.Some? ==> exists i :: (0 <= i < |params| && params[i] == (name, r.value)
      && forall j :: 0 <= j < i ==> params[j].0 != name)
    decreases |params|
  {
    if params == [] then None
    else if params[0].0 == name then
      assert params[0] == (name, params[0].1);
      Some(params[0].1)
    else
      var r := Get(params[1..], name);
      assert forall i :: 1 <= i < |params| ==> params[i] == params[1..][i - 1];
      if r.Some? then
        var i :| 0 <= i < |params[1..]| && params[1..][i] == (name, r.value)
          && forall j :: 0 <= j < i ==> params[1..][j].0 != name;
        assert params[i + 1] == (name, r.value);
        r
      else r
  }

  /** JavaScript truthiness of `searchParams.get(name)`: present and not empty. */
  predicate Given(v: Option<string>)
  {
    v.Some? && v.value != []
  }

  /** `v || fallback` for a parameter value. */
  function OrText(v: Option<string>, fallback: string): (r: string)
    ensures Given(v) ==> r == v.value
    ensures !Given(v) ==> r == fallback
  {
    if Given(v) then v.value else fallback
  }

  /** `n || fallback` for a number. */
  function OrNumber(n: Number, fallback: Number): (r: Number)
    ensures Truthy(n) ==> r == n
    ensures !Truthy(n) ==> r == fallback
  {
    if Truthy(n) then n else fallback
  }

  /** `Math.min(n, cap)` for a number that is not NaN. */
  function MinNumber(n: Number, cap: real): (r: Number)
    requires !n.NaN?
    ensures !r.PosInf?
    ensures r.Finite? ==> r.value <= cap
    ensures n.Finite? && n.value <= cap ==> r == n
    ensures n.NegInf? <==> r.NegInf?
  {
    match n
    case PosInf => Finite(cap)
    case NegInf => NegInf
    case Finite(v) => if v <= cap then n else Finite(cap)
  }

  /** The page size used when `limit` is missing, zero or not a number. */
  const DefaultLimit: real := 100.0

  /** The largest page size the route asks for. */
  const LimitCap: real := 500.0

  /**
   * `Math.min(Number(limit) || 100, 500)`. The result is never NaN and never
   * above 500; a negative or fractional text passes through unchanged.
   */
  function EffectiveLimit(limit: Option<string>): (r: Number)
    ensures !r.NaN? && !r.PosInf?
    ensures r.Finite? ==> r.value <= LimitCap
    ensures !Truthy(ToNumber(limit)) ==> r == Finite(DefaultLimit)
    ensures ToNumber(limit).Finite? && Truthy(ToNumber(limit)) ==>
      r == Finite(if ToNumber(limit).value <= LimitCap then ToNumber(limit).value else LimitCap)
  {
    MinNumber(OrNumber(ToNumber(limit), Finite(DefaultLimit)), LimitCap)
  }

  /** `Number(offset) || 0`: never NaN; zero when the text is missing, zero or not a number. */
  function EffectiveOffset(offset: Option<string>): (r: Number)
    ensures !r.NaN?
    ensures !Truthy(ToNumber(offset)) ==> r == Finite(0.0)
    ensures Truthy(ToNumber(offset)) ==> r == ToNumber(offset)
  {
    OrNumber(ToNumber(offset), Finite(0.0))
  }

  /** A column the bills may be ordered by. */
  datatype Column = RegisteredDateAd | CurrentPhase

  /** One ORDER BY term; every term of the route puts NULLs last. */
  datatype OrderTerm = OrderTerm(column: Column, ascending: bool, nullsLast: bool)

  /**
   * The order for a `sort` text: "oldest" is the registration date
   * ascending, "status" the phase ascending, and any other text (the default
   * "newest" among them) the registration date descending.
   */
  function OrderFor(sort: string): (r: OrderTerm)
    ensures r.nullsLast
    ensures r.column == CurrentPhase <==> sort == "status"
    ensures r.ascending <==> sort == "oldest" || sort == "status"
  {
    if sort == "oldest" then OrderTerm(RegisteredDateAd, true, true)
    else if sort == "status" then OrderTerm(CurrentPhase, true, true)
    else OrderTerm(RegisteredDateAd, false, true)
  }

  /** The six filter parameters. */
  datatype FilterKind = House | Status | Category | Ministry | Year | Search

  /** The filters in the order the route adds their conditions. */
  const FilterKinds: seq<FilterKind> := [House, Status, Category, Ministry, Year, Search]

  function FilterName(k: FilterKind): string
  {
    if k == House then "house"
    else if k == Status then "status"
    else if k == Category then "category"
    else if k == Ministry then "ministry"
    else if k == Year then "year"
    else "search"
  }

  /**
   * A WHERE condition: the column of the filter compared with the text.
   * Ministry and search are case-insensitive substring matches, search on
   * either title or the registration number; the others are equalities.
   */
  datatype Condition = Condition(kind: FilterKind, text: string)

  predicate IsPartialMatch(c: Condition)
  {
    c.kind == Ministry || c.kind == Search
  }

  /** The six filter parameters as read from the URL. */
  datatype FilterParams = FilterParams(
    house: Option<string>, status: Option<string>, category: Option<string>,
    ministry: Option<string>, year: Option<string>, search: Option<string>)

  function Param(f: FilterParams, k: FilterKind): Option<string>
  {
    if k == House then f.house
    else if k == Status then f.status
    else if k == Category then f.category
    else if k == Ministry then f.ministry
    else if k == Year then f.year
    else f.search
  }

  /** The condition of one filter: present exactly when the parameter is given. */
  function Optional(f: FilterParams, k: FilterKind): (r: seq<Condition>)
    ensures |r| <= 1
    ensures r != [] <==> Given(Param(f, k))
    ensures Given(Param(f, k)) ==> r == [Condition(k, Param(f, k).value)]
  {
    if Given(Param(f, k)) then [Condition(k, Param(f, k).value)] else []
  }

  /** The conditions of the filters `kinds`, in that order. */
  function ConditionsOver(f: FilterParams, kinds: seq<FilterKind>): seq<Condition>
    decreases |kinds|
  {
    if kinds == [] then [] else Optional(f, kinds[0]) + ConditionsOver(f, kinds[1..])
  }

  /** The WHERE conditions: one per given filter, in the order house, status, category, ministry, year, search. */
  function Conditions(f: FilterParams): seq<Condition>
  {
    ConditionsOver(f, FilterKinds)
  }

  /** The number of the filters `kinds` that are given. */
  function GivenCount(f: FilterParams, kinds: seq<FilterKind>): nat
    decreases |kinds|
  {
    if kinds == [] then 0 else (if Given(Param(f, kinds[0])) then 1 else 0) + GivenCount(f, kinds[1..])
  }

  /** The filters echoed in `meta.filters`: each one `value || null`. */
  datatype Filters = Filters(
    house: Option<string>, status: Option<string>, category: Option<string>,
    ministry: Option<string>, year: Option<string>, search: Option<string>)

  /** `x || null`: the value when given, `null` when missing or empty. */
  function Echo(v: Option<string>): (r: Option<string>)
    ensures r.Some? <==> Given(v)
    ensures r.Some? ==> r == v
  {
    if Given(v) then v else None
  }

  function EchoFilters(f: FilterParams): Filters
  {
    Filters(Echo(f.house), Echo(f.status), Echo(f.category), Echo(f.ministry), Echo(f.year), Echo(f.search))
  }

  function Echoed(e: Filters, k: FilterKind): Option<string>
  {
    if k == House then e.house
    else if k == Status then e.status
    else if k == Category then e.category
    else if k == Ministry then e.ministry
    else if k == Year then e.year
    else e.search
  }

  /** What the route asks of the database. */
  datatype Query = Query(conditions: seq<Condition>, order: OrderTerm, limit: Number, offset: Number)

  function FilterParamsOf(params: SearchParams): FilterParams
  {
    FilterParams(Get(params, FilterName(House)), Get(params, FilterName(Status)), Get(params, FilterName(Category)),
      Get(params, FilterName(Ministry)), Get(params, FilterName(Year)), Get(params, FilterName(Search)))
  }

  /** The database query a request's search parameters describe. */
  function QueryOf(params: SearchParams): (q: Query)
    ensures q.order == OrderFor(OrText(Get(params, "sort"), "newest"))
    ensures q.limit == EffectiveLimit(Get(params, "limit"))
    ensures q.offset == EffectiveOffset(Get(params, "offset"))
    ensures q.conditions == Conditions(FilterParamsOf(params))
  {
    Query(
      Conditions(FilterParamsOf(params)),
      OrderFor(OrText(Get(params, "sort"), "newest")),
      EffectiveLimit(Get(params, "limit")),
      EffectiveOffset(Get(params, "offset")))
  }

  /** `countResult[0]?.count ?? 0`: the count of the first row, 0 when there is no row. */
  function Total(countRows: seq<int>): (t: int)
    ensures countRows == [] ==> t == 0
    ensures countRows != [] ==> t == countRows[0]
  {
    if countRows == [] then 0 else countRows[0]
  }

  /** `offset + data.length < total` with a JavaScript number as offset. */
  predicate HasMore(offset: Number, count: nat, total: int)
  {
    match offset
    case Finite(v) => v + count as real < total as real
    case PosInf => false
    case NegInf => true
    case NaN => false
  }

  /** The `meta` object of a successful answer. */
  datatype Meta = Meta(total: int, count: nat, limit: Number, offset: Number, hasMore: bool, filters: Filters)

  /** The 200 answer's `meta` for the request's parameters, the rows returned and the count query's rows. */
  function MetaOf<T>(params: SearchParams, data: seq<T>, countRows: seq<int>): (m: Meta)
    ensures m.total == Total(countRows) && m.count == |data|
    ensures m.limit == QueryOf(params).limit && m.offset == QueryOf(params).offset
    ensures m.hasMore == HasMore(m.offset, m.count, m.total)
    ensures m.filters == EchoFilters(FilterParamsOf(params))
  {
    var q := QueryOf(params);
    var total := Total(countRows);
    Meta(total, |data|, q.limit, q.offset, HasMore(q.offset, |data|, total), EchoFilters(FilterParamsOf(params)))
  }

  /** What was thrown while answering: an `Error` with its message, or some other value. */
  datatype Thrown = ErrorValue(message: string) | OtherValue

  /** The 500 answer. */
  datatype Failed = Failed(status: int, error: string, message: string)

  function FailureOf(thrown: Thrown): (r: Failed)
    ensures r.status == 500 && r.error == "Failed to fetch bills"
    ensures thrown.ErrorValue? ==> r.message == thrown.message
    ensures thrown.OtherValue? ==> r.message == "Unknown error"
  {
    Failed(500, "Failed to fetch bills", if thrown.ErrorValue? then thrown.message else "Unknown error")
  }

  // ---------------------------------------------------------------------------
  // Properties

  /** A missing limit, or one that reads as zero or NaN, becomes 100. */
  lemma MissingLimitIsDefault(params: SearchParams)
    requires Get(params, "limit").None? || !Truthy(StringToNumber(Get(params, "limit").value))
    ensures QueryOf(params).limit == Finite(100.0)
  {
  }

  /** A positive whole-number limit is taken as it is, up to 500. */
  lemma NaturalLimit(n: nat)
    requires n > 0
    ensures EffectiveLimit(Some(NatToString(n))) == Finite(Min(n, 500) as real)
  {
    NatToNumber(n);
  }

  /** A whole-number offset is taken as it is, and a missing one is 0. */
  lemma NaturalOffset(n: nat)
    ensures EffectiveOffset(Some(NatToString(n))) == Finite(n as real)
    ensures EffectiveOffset(None) == Finite(0.0)
  {
    NatToNumber(n);
  }

  /** Each filter is read from the parameter of its own name, and echoed as `value || null`. */
  lemma FilterRead(params: SearchParams, k: FilterKind)
    ensures Param(FilterParamsOf(params), k) == Get(params, FilterName(k))
    ensures Echoed(EchoFilters(FilterParamsOf(params)), k) == Echo(Get(params, FilterName(k)))
  {
  }

  /** The conditions of `kinds` are one per given filter among them, each with that filter's text. */
  lemma {:induction false} ConditionsOverFacts(f: FilterParams, kinds: seq<FilterKind>)
    ensures |ConditionsOver(f, kinds)| == GivenCount(f, kinds)
    ensures forall c :: c in ConditionsOver(f, kinds) <==>
      c.kind in kinds && Given(Param(f, c.kind)) && c.text == Param(f, c.kind).value
    decreases |kinds|
  {
    if kinds != [] {
      ConditionsOverFacts(f, kinds[1..]);
      assert forall k :: k in kinds <==> k == kinds[0] || k in kinds[1..];
    }
  }

  /**
   * A filter is echoed with a text exactly when the query holds the condition
   * of that filter on that text, and there are as many conditions as given
   * filters.
   */
  lemma EchoMatchesConditions(f: FilterParams, k: FilterKind, text: string)
    ensures |Conditions(f)| == GivenCount(f, FilterKinds)
    ensures Condition(k, text) in Conditions(f) <==> Echoed(EchoFilters(f), k) == Some(text)
  {
    ConditionsOverFacts(f, FilterKinds);
    KindListed(k);
    EchoedIsEcho(f, k);
  }

  lemma KindListed(k: FilterKind)
    ensures k in FilterKinds
  {
  }

  lemma EchoedIsEcho(f: FilterParams, k: FilterKind)
    ensures Echoed(EchoFilters(f), k) == Echo(Param(f, k))
  {
  }

  /** Every sort value the validation schema accepts selects its own order; only "newest" sorts descending. */
  lemma SchemaSortsOrder(s: ApiValidation.Sort)
    ensures OrderFor(ApiValidation.SortKey(s)).ascending <==> s != ApiValidation.Newest
    ensures OrderFor(ApiValidation.SortKey(s)).column == CurrentPhase <==> s == ApiValidation.ByStatus
  {
  }

  /** A missing or empty `sort` orders by registration date, newest first. */
  lemma DefaultSortIsNewest(params: SearchParams)
    requires !Given(Get(params, "sort"))
    ensures QueryOf(params).order == OrderTerm(RegisteredDateAd, false, true)
  {
  }

  /** The rows a table of `total` rows returns for a window of `limit` rows starting at row `offset`. */
  function WindowRows(total: nat, offset: nat, limit: nat): (count: nat)
    ensures count <= limit
    ensures offset + count <= total || count == 0
  {
    Max(0, Min(limit, total - offset))
  }

  /**
   * When the database returns the full window it was asked for, `hasMore`
   * says whether a row lies beyond that window: there is a next page exactly
   * when the window does not reach the last row.
   */
  lemma HasMoreIffNextPage(total: nat, offset: nat, limit: nat)
    ensures HasMore(Finite(offset as real), WindowRows(total, offset, limit), total) <==> offset + limit < total
  {
  }
}

=== FILE: clean_bills.dfy ===
/**
 * The Python bill cleaner (services/python/scraper/bills/clean_and_insert_bills.py):
 * copies the scraped fields of every raw bill into the cleaned shape, drops
 * bills without an identifier or registration number, and keeps the first
 * bill for each (registration number, year) key.
 */
module CleanBills {
  import opened Seqs
  import opened PyJson

  /**
   * The keys of a scraped bill the cleaner reads. The English presenter and
   * ministry come under a camel-case and a snake-case key; the cleaned
   * dictionary uses the snake-case one.
   */
  datatype Field =
    | BillIdKey | TypeKey | TitleNpKey | TitleEnKey | RegistrationNumberKey | YearKey | SambatKey
    | PresenterKey | MinistryKey | PresenterEnCamel | PresenterEnSnake | MinistryEnCamel | MinistryEnSnake
    | SessionKey | GovernmentTypeKey | BillTypeKey | CategoryKey
    | GovernmentTypeEnKey | BillTypeEnKey | CategoryEnKey
    | CurrentStatusKey | CurrentStatusDateKey | StatusTimelineKey | ResourceLinkKey

  /** The JSON key of a field. */
  function FieldName(f: Field): string
  {
    match f
    case BillIdKey => "bill_id"
    case TypeKey => "type"
    case TitleNpKey => "titleNp"
    case TitleEnKey => "titleEn"
    case RegistrationNumberKey => "registration_number"
    case YearKey => "year"
    case SambatKey => "sambat"
    case PresenterKey => "presenter"
    case MinistryKey => "ministry"
    case PresenterEnCamel => "presenterEn"
    case PresenterEnSnake => "presenter_en"
    case MinistryEnCamel => "ministryEn"
    case MinistryEnSnake => "ministry_en"
    case SessionKey => "session"
    case GovernmentTypeKey => "government_type"
    case BillTypeKey => "bill_type"
    case CategoryKey => "category"
    case GovernmentTypeEnKey => "government_type_en"
    case BillTypeEnKey => "bill_type_en"
    case CategoryEnKey => "category_en"
    case CurrentStatusKey => "current_status"
    case CurrentStatusDateKey => "current_status_date"
    case StatusTimelineKey => "status_timeline"
    case ResourceLinkKey => "resource_link"
  }

  /** Distinct fields are distinct JSON keys, so a field map is a JSON object. */
  lemma FieldNamesDistinct()
    ensures forall f, g :: FieldName(f) == FieldName(g) ==> f == g
  {
  }

  /**
   * A scraped bill: the JSON object, keyed by the fields the cleaner reads
   * (a field it does not read is not modelled). The cleaned bill is a
   * dictionary of the same kind.
   */
  type Bill = imap<Field, Json>

  /** The keys of the cleaned dictionary: every field but the two camel-case ones. */
  predicate InCleaned(f: Field)
  {
    !f.PresenterEnCamel? && !f.MinistryEnCamel?
  }

  /**
   * The value the cleaner writes under a key of the cleaned dictionary: the
   * raw value of the same key, the titles defaulting to the empty string, and
   * the English presenter and ministry taken from the camel-case key when it
   * is truthy and from the snake-case key otherwise.
   */
  function CleanField(b: Bill, f: Field): Json
  {
    match f
    case TitleNpKey => GetOr(b, TitleNpKey, Str(""))
    case TitleEnKey => GetOr(b, TitleEnKey, Str(""))
    case PresenterEnSnake => Or(Get(b, PresenterEnCamel), Get(b, PresenterEnSnake))
    case MinistryEnSnake => Or(Get(b, MinistryEnCamel), Get(b, MinistryEnSnake))
    case _ => Get(b, f)
  }

  /** The cleaned copy of a bill. */
  function Clean(b: Bill): (c: Bill)
    ensures forall f :: f in c <==> InCleaned(f)
  {
    imap f | InCleaned(f) :: CleanField(b, f)
  }

  /** Cleaning is idempotent: a cleaned bill, cleaned again, is unchanged. */
  lemma CleanIsIdempotent(b: Bill)
    ensures Clean(Clean(b)) == Clean(b)
  {
    var c := Clean(b);
    forall f | InCleaned(f) ensures CleanField(c, f) == CleanField(b, f) {
    }
  }

  /** The fields other than the titles and the English presenter and ministry are copied, with `null` for a missing key. */
  lemma CleanCopies(b: Bill, f: Field)
    requires InCleaned(f) && !f.TitleNpKey? && !f.TitleEnKey? && !f.PresenterEnSnake? && !f.MinistryEnSnake?
    ensures Get(Clean(b), f) == (if f in b then b[f] else Null)
  {
  }

  /** A bill survives the first filter when its identifier and registration number are both truthy. */
  predicate Keep(c: Bill)
  {
    Truthy(Get(c, BillIdKey)) && Truthy(Get(c, RegistrationNumberKey))
  }

  /** The deduplication key: registration number, then the sambat year, or the plain year when the sambat is falsy. */
  function DedupKey(c: Bill): string
  {
    Format(Get(c, RegistrationNumberKey)) + "_" + Format(Or(Get(c, SambatKey), Get(c, YearKey)))
  }

  /** The year field decides nothing once a bill has a sambat year. */
  lemma SambatOverridesYear(c: Bill, d: Bill)
    requires Get(c, RegistrationNumberKey) == Get(d, RegistrationNumberKey)
    requires Get(c, SambatKey) == Get(d, SambatKey) && Truthy(Get(c, SambatKey))
    ensures DedupKey(c) == DedupKey(d)
  {
  }

  /** Without a sambat year, the plain year decides. */
  lemma YearWithoutSambat(c: Bill, d: Bill)
    requires Get(c, RegistrationNumberKey) == Get(d, RegistrationNumberKey)
    requires !Truthy(Get(c, SambatKey)) && !Truthy(Get(d, SambatKey)) && Get(c, YearKey) == Get(d, YearKey)
    ensures DedupKey(c) == DedupKey(d)
  {
  }

  /** Every raw bill, cleaned, in order. */
  function CleanAll(bills: seq<Bill>): (r: seq<Bill>)
    ensures |r| == |bills| && forall i :: 0 <= i < |r| ==> r[i] == Clean(bills[i])
  {
    seq(|bills|, i requires 0 <= i < |bills| => Clean(bills[i]))
  }

  /** The cleaner as one expression: clean, drop the unidentified bills, keep first occurrences. */
  function Reference(bills: seq<Bill>): seq<Bill>
  {
    DedupBy(Filter(CleanAll(bills), Keep), DedupKey)
  }

  /**
   * What the pipeline keeps: identified bills only, at most one per key,
   * every first occurrence of a key among the identified bills, in input order.
   */
  lemma ReferenceFacts(bills: seq<Bill>)
    ensures forall i :: 0 <= i < |Reference(bills)| ==> Keep(Reference(bills)[i])
    ensures DistinctKeys(Reference(bills), DedupKey)
    ensures IsSubsequence(Reference(bills), CleanAll(bills))
    ensures |Reference(bills)| <= |bills|
    ensures var kept := Filter(CleanAll(bills), Keep);
      forall i :: 0 <= i < |kept| && FirstWithKey(kept, DedupKey, i) ==> kept[i] in Reference(bills)
  {
    var all := CleanAll(bills);
    var kept := Filter(all, Keep);
    var r := Reference(bills);
    DedupByFacts(kept, DedupKey);
    forall i | 0 <= i < |r| ensures Keep(r[i]) {
      assert r[i] in kept;
    }
    FilterIsSubsequence(all, Keep);
    SubsequenceTransitive(r, kept, all);
    SubsequenceIsShorter(r, all);
  }

  /**
   * `clean_and_normalize`: the seen-set loop of the source computes the
   * reference pipeline, so it keeps only identified bills, at most one per
   * key, every first occurrence of a key, and the input order.
   */
  method CleanAndNormalize(bills: seq<Bill>) returns (cleaned: seq<Bill>)
    ensures cleaned == Reference(bills)
    ensures forall i :: 0 <= i < |cleaned| ==> Keep(cleaned[i])
    ensures DistinctKeys(cleaned, DedupKey)
    ensures IsSubsequence(cleaned, CleanAll(bills))
    ensures |cleaned| <= |bills|
  {
    ghost var all := CleanAll(bills);
    cleaned := [];
    var seen: set<string> := {};
    var i := 0;
    assert all[i..] == all;
    while i < |bills|
      invariant 0 <= i <= |bills|
      invariant cleaned + DedupFrom(Filter(all[i..], Keep), DedupKey, seen) == Reference(bills)
    {
      var c := Clean(bills[i]);
      assert c == all[i];
      ghost var rest := Filter(all[i + 1..], Keep);
      SuffixCons(all, i);
      FilterCons(c, all[i + 1..], Keep);
      if Keep(c) {
        DedupFromCons(c, rest, DedupKey, seen);
        var key := DedupKey(c);
        if key !in seen {
          AppendShift(cleaned, c, DedupFrom(rest, DedupKey, seen + {key}));
          seen := seen + {key};
          cleaned := cleaned + [c];
        }
      }
      i := i + 1;
    }
    assert all[i..] == [];
    assert cleaned == Reference(bills);
    ReferenceFacts(bills);
  }

  /** The summary `insert_to_database` returns: it no longer writes anything. */
  datatype InsertResult = InsertResult(success: bool, insertedCount: nat)

  /** `insert_to_database`: loading into the database moved to the importer, so nothing is inserted. */
  function InsertToDatabase(bills: seq<Bill>): (r: InsertResult)
    ensures r.success && r.insertedCount == 0
  {
    InsertResult(true, 0)
  }
}

=== FILE: clean_committees.dfy ===
/**
 * The Python committee cleaner (services/python/scraper/committees/clean_and_insert.py):
 * text clean-up with regular expressions, date normalisation, committee-name
 * and introduction normalisation, validation, and deduplication by name.
 *
 * Python's `\s`, `str.strip()` and `str.isspace()` share one whitespace class,
 * `Strings.IsPyWhitespace`. The calendar behind `datetime.strptime` and
 * `strftime`, and the Unicode digit class behind `\d`, are parameters.
 */
module CleanCommittees {
  import opened Wrappers
  import opened Seqs
  import opened Strings
  import opened PyJson

  predicate IsZeroWidth(c: char)
  {
    c == '\U{200B}' || c == '\U{200C}' || c == '\U{200D}'
  }

  predicate NotZeroWidth(c: char)
  {
    !IsZeroWidth(c)
  }

  predicate IsPunct(c: char)
  {
    c == ',' || c == '.'
  }

  /** Whitespace, in the class `ws`, occurs only as single spaces. */
  predicate SingleSpaced(s: string, ws: char -> bool)
  {
    forall i :: 0 <= i < |s| ==> SingleSpacedAt(s, ws, i)
  }

  /** Position `i` of `s` is not whitespace, or a space not followed by more whitespace. */
  predicate SingleSpacedAt(s: string, ws: char -> bool, i: int)
    requires 0 <= i < |s|
  {
    ws(s[i]) ==> s[i] == ' ' && (i + 1 == |s| || !ws(s[i + 1]))
  }

  /** A character the cleaned text may hold: no zero-width character, and no whitespace but the plain space. */
  predicate Tidy(c: char, ws: char -> bool)
  {
    NotZeroWidth(c) && (ws(c) ==> c == ' ')
  }

  predicate AllTidy(s: string, ws: char -> bool)
  {
    forall i :: 0 <= i < |s| ==> Tidy(s[i], ws)
  }

  /** `re.sub(r'\s+', ' ', s)`, for the whitespace class `ws`: every run of whitespace becomes one space. */
  function CollapseWhitespace(s: string, ws: char -> bool): (r: string)
    requires ws(' ')
    ensures |r| == 0 <==> |s| == 0
    ensures r != [] ==> (ws(r[0]) <==> ws(s[0]))
    decreases |s|
  {
    if s == [] then []
    else if ws(s[0]) then
      var t := TrimStart(s, ws);
      assert |t| < |s|;
      [' '] + CollapseWhitespace(t, ws)
    else [s[0]] + CollapseWhitespace(s[1..], ws)
  }

  /** Collapsing leaves whitespace only as single spaces. */
  lemma {:induction false} CollapseIsSingleSpaced(s: string, ws: char -> bool)
    requires ws(' ')
    ensures SingleSpaced(CollapseWhitespace(s, ws), ws)
    decreases |s|
  {
    if s != [] {
      var rest := if ws(s[0]) then TrimStart(s, ws) else s[1..];
      assert |rest| < |s|;
      CollapseIsSingleSpaced(rest, ws);
      var head := if ws(s[0]) then ' ' else s[0];
      assert CollapseWhitespace(s, ws) == [head] + CollapseWhitespace(rest, ws);
      SingleSpacedCons(head, CollapseWhitespace(rest, ws), ws);
    }
  }

  /** A character in front of a single-spaced text keeps it single-spaced unless it doubles a space. */
  lemma SingleSpacedCons(head: char, tail: string, ws: char -> bool)
    requires SingleSpaced(tail, ws)
    requires ws(head) ==> head == ' ' && (tail == [] || !ws(tail[0]))
    ensures SingleSpaced([head] + tail, ws)
  {
    var r := [head] + tail;
    forall i | 0 <= i < |r| ensures SingleSpacedAt(r, ws, i) {
      if i > 0 {
        assert SingleSpacedAt(tail, ws, i - 1);
      }
    }
  }

  /** Collapsing keeps any class of characters that holds the plain space. */
  lemma {:induction false} CollapseKeepsClass(s: string, ws: char -> bool, p: char -> bool)
    requires ws(' ') && p(' ') && AllOf(s, p)
    ensures AllOf(CollapseWhitespace(s, ws), p)
    decreases |s|
  {
    if s != [] {
      var r := CollapseWhitespace(s, ws);
      if ws(s[0]) {
        var t := TrimStart(s, ws);
        assert |t| < |s|;
        assert AllOf(t, p) by {
          forall i | 0 <= i < |t| ensures p(t[i]) {
            assert t[i] == s[|s| - |t| + i];
          }
        }
        CollapseKeepsClass(t, ws, p);
        assert r[1..] == CollapseWhitespace(t, ws);
      } else {
        assert AllOf(s[1..], p) by {
          forall i | 0 <= i < |s| - 1 ensures p(s[1..][i]) {
            assert s[1..][i] == s[i + 1];
          }
        }
        CollapseKeepsClass(s[1..], ws, p);
        assert r[1..] == CollapseWhitespace(s[1..], ws);
      }
    }
  }

  /** Text that is already single-spaced is left as it is. */
  lemma {:induction false} CollapseSingleSpaced(s: string, ws: char -> bool)
    requires ws(' ') && SingleSpaced(s, ws)
    ensures CollapseWhitespace(s, ws) == s
    decreases |s|
  {
    if s != [] {
      var tail := s[1..];
      SingleSpacedTail(s, ws);
      CollapseSingleSpaced(tail, ws);
      if ws(s[0]) {
        assert SingleSpacedAt(s, ws, 0);
        TrimStartOneSpace(s, ws);
        assert CollapseWhitespace(s, ws) == [' '] + CollapseWhitespace(tail, ws);
      } else {
        assert CollapseWhitespace(s, ws) == [s[0]] + CollapseWhitespace(tail, ws);
      }
      assert s == [s[0]] + tail;
    }
  }

  lemma SingleSpacedTail(s: string, ws: char -> bool)
    requires s != [] && SingleSpaced(s, ws)
    ensures SingleSpaced(s[1..], ws)
  {
    var tail := s[1..];
    forall i | 0 <= i < |tail| ensures SingleSpacedAt(tail, ws, i) {
      assert SingleSpacedAt(s, ws, i + 1);
    }
  }

  /** A single whitespace character in front is all `TrimStart` removes. */
  lemma TrimStartOneSpace(s: string, ws: char -> bool)
    requires s != [] && ws(s[0]) && (|s| == 1 || !ws(s[1]))
    ensures TrimStart(s, ws) == s[1..]
  {
    assert s[1..] == [] || !ws(s[1..][0]);
  }

  /**
   * `re.sub(r'[,\.]\s*$', '', s)`: removes a comma or full stop followed by
   * nothing but whitespace. At most one position can match, so the result is
   * `s` itself exactly when no position does.
   */
  function StripTrailingPunct(s: string, ws: char -> bool): (r: string)
    requires !ws(',') && !ws('.')
    ensures StartsWith(s, r)
    ensures r != s ==> |r| < |s| && IsPunct(s[|r|]) && AllOf(s[|r| + 1..], ws)
    ensures r == s ==> forall i :: 0 <= i < |s| && IsPunct(s[i]) ==> !AllOf(s[i + 1..], ws)
  {
    var t := TrimEnd(s, ws);
    if t != [] && IsPunct(t[|t| - 1]) then
      assert AllOf(s[|t|..], ws);
      assert s[|t| - 1..][1..] == s[|t|..];
      t[..|t| - 1]
    else
      assert forall i :: 0 <= i < |s| && IsPunct(s[i]) ==> !AllOf(s[i + 1..], ws) by {
        forall i | 0 <= i < |s| && IsPunct(s[i]) ensures !AllOf(s[i + 1..], ws) {
          assert i < |t|;
          if i < |t| - 1 {
            assert s[i + 1..][|t| - 1 - (i + 1)] == t[|t| - 1];
          }
        }
      }
      s
  }

  /** Dropping the zero-width characters of single-spaced text leaves only tidy characters. */
  lemma FilterTidy(a: string, ws: char -> bool)
    requires SingleSpaced(a, ws)
    ensures AllTidy(Filter(a, NotZeroWidth), ws)
  {
    var b := Filter(a, NotZeroWidth);
    forall i | 0 <= i < |b| ensures Tidy(b[i], ws) {
      assert b[i] in a;
      var k :| 0 <= k < |a| && a[k] == b[i];
      assert SingleSpacedAt(a, ws, k);
    }
  }

  /** A prefix of tidy text is tidy. */
  lemma PrefixTidy(b: string, c: string, ws: char -> bool)
    requires StartsWith(b, c) && AllTidy(b, ws)
    ensures AllTidy(c, ws)
  {
    forall i | 0 <= i < |c| ensures Tidy(c[i], ws) {
      assert c[i] == b[i];
    }
  }

  /** A slice of tidy text is tidy. */
  lemma SliceTidy(c: string, r: string, k: int, ws: char -> bool)
    requires OccursAt(c, r, k) && AllTidy(c, ws)
    ensures AllTidy(r, ws)
  {
    forall i | 0 <= i < |r| ensures Tidy(r[i], ws) {
      assert r[i] == c[k + i];
    }
  }

  /** Collapsing and then dropping the zero-width characters leaves only tidy characters. */
  lemma CollapsedTidy(x: string, ws: char -> bool)
    requires ws(' ')
    ensures AllTidy(Filter(CollapseWhitespace(x, ws), NotZeroWidth), ws)
  {
    CollapseIsSingleSpaced(x, ws);
    FilterTidy(CollapseWhitespace(x, ws), ws);
  }

  /** Stripping tidy text keeps it tidy. */
  lemma TrimTidy(c: string, ws: char -> bool)
    requires AllTidy(c, ws)
    ensures AllTidy(Trim(c, ws), ws)
  {
    var k :| OccursAt(c, Trim(c, ws), k);
    SliceTidy(c, Trim(c, ws), k, ws);
  }

  /** `clean_text` for the whitespace class `ws`. */
  function CleanTextWith(s: string, ws: char -> bool): (r: string)
    requires ws(' ') && !ws(',') && !ws('.')
    ensures s == [] ==> r == []
    ensures r == [] || (!ws(r[0]) && !ws(r[|r| - 1]))
    ensures AllTidy(r, ws)
  {
    if s == [] then []
    else
      var b := Filter(CollapseWhitespace(Trim(s, ws), ws), NotZeroWidth);
      var c := StripTrailingPunct(b, ws);
      CollapsedTidy(Trim(s, ws), ws);
      PrefixTidy(b, c, ws);
      TrimTidy(c, ws);
      Trim(c, ws)
  }

  lemma {:induction false} CleanTextWithFixedPoint(s: string, ws: char -> bool)
    requires ws(' ') && !ws(',') && !ws('.')
    requires s != [] && !ws(s[0]) && !ws(s[|s| - 1])
    requires SingleSpaced(s, ws)
    requires forall i :: 0 <= i < |s| ==> NotZeroWidth(s[i])
    requires !IsPunct(s[|s| - 1])
    ensures CleanTextWith(s, ws) == s
  {
    TrimOfTrimmed(s, ws);
    CollapseSingleSpaced(s, ws);
    FilterKeepsAll(s, NotZeroWidth);
    assert TrimEnd(s, ws) == s;
    TrimOfTrimmed(s, ws);
  }

  /**
   * `clean_text`: empty for empty text; otherwise strip, collapse whitespace,
   * drop zero-width characters, drop a final comma or full stop, strip again.
   */
  function CleanText(s: string): (r: string)
    ensures s == [] ==> r == []
    ensures r == [] || (!IsPyWhitespace(r[0]) && !IsPyWhitespace(r[|r| - 1]))
    ensures AllTidy(r, IsPyWhitespace)
  {
    CleanTextWith(s, IsPyWhitespace)
  }

  /** Text that is already clean is left as it is. */
  lemma CleanTextFixedPoint(s: string)
    requires s != [] && !IsPyWhitespace(s[0]) && !IsPyWhitespace(s[|s| - 1])
    requires SingleSpaced(s, IsPyWhitespace)
    requires forall i :: 0 <= i < |s| ==> NotZeroWidth(s[i])
    requires !IsPunct(s[|s| - 1])
    ensures CleanText(s) == s
  {
    CleanTextWithFixedPoint(s, IsPyWhitespace);
  }

  /** `re.sub(r'\s*\(\s*', ' (', s)`: the whitespace around every opening parenthesis becomes one space before it. */
  function SpaceBeforeOpen(s: string, ws: char -> bool): string
    decreases |s|
  {
    if s == [] then []
    else
      var t := TrimStart(s, ws);
      if t != [] && t[0] == '(' then " (" + SpaceBeforeOpen(TrimStart(t[1..], ws), ws)
      else [s[0]] + SpaceBeforeOpen(s[1..], ws)
  }

  /** `re.sub(r'\s*\)\s*', ') ', s)`: the whitespace around every closing parenthesis becomes one space after it. */
  function SpaceAfterClose(s: string, ws: char -> bool): string
    decreases |s|
  {
    if s == [] then []
    else
      var t := TrimStart(s, ws);
      if t != [] && t[0] == ')' then ") " + SpaceAfterClose(TrimStart(t[1..], ws), ws)
      else [s[0]] + SpaceAfterClose(s[1..], ws)
  }

  /** Every opening parenthesis of `s` is preceded by a space, or opens `s` when `lead` holds. */
  predicate OpenSpaced(s: string, lead: bool)
  {
    forall i :: 0 <= i < |s| ==> OpenSpacedAt(s, lead, i)
  }

  predicate OpenSpacedAt(s: string, lead: bool, i: int)
    requires 0 <= i < |s|
  {
    s[i] == '(' ==> (i > 0 && s[i - 1] == ' ') || (i == 0 && lead)
  }

  /** Every closing parenthesis of `s` is followed by a space, or ends `s` when `trail` holds. */
  predicate CloseSpaced(s: string, trail: bool)
  {
    forall i :: 0 <= i < |s| ==> CloseSpacedAt(s, trail, i)
  }

  predicate CloseSpacedAt(s: string, trail: bool, i: int)
    requires 0 <= i < |s|
  {
    s[i] == ')' ==> (i + 1 < |s| && s[i + 1] == ' ') || (i + 1 == |s| && trail)
  }

  /** A suffix keeps every class of characters its whole holds. */
  lemma SuffixKeepsClass(s: string, k: nat, p: char -> bool)
    requires k <= |s| && AllOf(s, p)
    ensures AllOf(s[k..], p)
  {
    forall i | 0 <= i < |s| - k ensures p(s[k..][i]) {
      assert s[k..][i] == s[k + i];
    }
  }

  /*
   * The facts below about a character put in front of a string are stated
   * on plain sequences, so the proofs about the two parenthesis passes only
   * unfold each pass once and hand the sequence reasoning to them.
   */

  lemma AllOfCons(r: string, c: char, tail: string, p: char -> bool)
    requires r == [c] + tail && p(c) && AllOf(tail, p)
    ensures AllOf(r, p)
  {
    forall i | 0 <= i < |r| ensures p(r[i]) {
      if i >= 1 {
        assert r[i] == tail[i - 1];
      }
    }
  }

  lemma OpenSpacedCons(r: string, c: char, tail: string, lead: bool, lead': bool)
    requires r == [c] + tail
    requires OpenSpaced(tail, lead') && (lead' ==> c == ' ') && (c == '(' ==> lead)
    ensures OpenSpaced(r, lead)
  {
    forall i | 0 <= i < |r| ensures OpenSpacedAt(r, lead, i) {
      if i >= 1 {
        assert r[i] == tail[i - 1];
        assert OpenSpacedAt(tail, lead', i - 1);
        if i >= 2 {
          assert r[i - 1] == tail[i - 2];
        }
      }
    }
  }

  lemma CloseSpacedCons(r: string, c: char, tail: string, trail: bool)
    requires r == [c] + tail && CloseSpaced(tail, trail)
    requires c == ')' ==> (tail != [] && tail[0] == ' ') || (tail == [] && trail)
    ensures CloseSpaced(r, trail)
  {
    forall i | 0 <= i < |r| ensures CloseSpacedAt(r, trail, i) {
      if i >= 1 {
        assert r[i] == tail[i - 1];
        assert CloseSpacedAt(tail, trail, i - 1);
        if i + 1 < |r| {
          assert r[i + 1] == tail[i];
        }
      }
    }
  }

  /** What putting `" ("` in front of a string keeps. */
  lemma PrefixOpen(r: string, tail: string, p: char -> bool)
    requires r == " (" + tail
    ensures OpenSpaced(tail, false) ==> OpenSpaced(r, false)
    ensures p(' ') && p('(') && AllOf(tail, p) ==> AllOf(r, p)
  {
    var mid := ['('] + tail;
    assert r == [' '] + mid;
    if OpenSpaced(tail, false) {
      OpenSpacedCons(mid, '(', tail, true, false);
      OpenSpacedCons(r, ' ', mid, false, true);
    }
    if p(' ') && p('(') && AllOf(tail, p) {
      AllOfCons(mid, '(', tail, p);
      AllOfCons(r, ' ', mid, p);
    }
  }

  /** What putting `") "` in front of a string keeps. */
  lemma PrefixClose(r: string, tail: string, p: char -> bool, lead: bool)
    requires r == ") " + tail
    ensures OpenSpaced(tail, true) ==> OpenSpaced(r, lead)
    ensures CloseSpaced(tail, false) ==> CloseSpaced(r, false)
    ensures p(' ') && p(')') && AllOf(tail, p) ==> AllOf(r, p)
  {
    var mid := [' '] + tail;
    assert r == [')'] + mid;
    if OpenSpaced(tail, true) {
      OpenSpacedCons(mid, ' ', tail, false, true);
      OpenSpacedCons(r, ')', mid, lead, false);
    }
    if CloseSpaced(tail, false) {
      CloseSpacedCons(mid, ' ', tail, false);
      CloseSpacedCons(r, ')', mid, false);
    }
    if p(' ') && p(')') && AllOf(tail, p) {
      AllOfCons(mid, ' ', tail, p);
      AllOfCons(r, ')', mid, p);
    }
  }

  /** `paren` is the first character after the leading whitespace of `s`. */
  predicate Leads(s: string, ws: char -> bool, paren: char)
  {
    TrimStart(s, ws) != [] && TrimStart(s, ws)[0] == paren
  }

  /** One step of the opening-parenthesis pass. */
  lemma SpaceBeforeOpenStep(s: string, ws: char -> bool)
    requires s != []
    ensures Leads(s, ws, '(') ==> SpaceBeforeOpen(s, ws) == " (" + SpaceBeforeOpen(TrimStart(TrimStart(s, ws)[1..], ws), ws)
    ensures !Leads(s, ws, '(') ==> SpaceBeforeOpen(s, ws) == [s[0]] + SpaceBeforeOpen(s[1..], ws)
  {
  }

  /** One step of the closing-parenthesis pass. */
  lemma SpaceAfterCloseStep(s: string, ws: char -> bool)
    requires s != []
    ensures Leads(s, ws, ')') ==> SpaceAfterClose(s, ws) == ") " + SpaceAfterClose(TrimStart(TrimStart(s, ws)[1..], ws), ws)
    ensures !Leads(s, ws, ')') ==> SpaceAfterClose(s, ws) == [s[0]] + SpaceAfterClose(s[1..], ws)
  {
  }

  /** When no parenthesis follows the leading whitespace, the first character is no parenthesis either. */
  lemma NoLeadingParen(s: string, ws: char -> bool, paren: char)
    requires s != [] && !ws(paren)
    requires var t := TrimStart(s, ws); !(t != [] && t[0] == paren)
    ensures s[0] != paren
  {
  }

  /** After the opening-parenthesis pass every `(` has a space before it. */
  lemma {:induction false} SpaceBeforeOpenSpaced(s: string, ws: char -> bool)
    requires !ws('(')
    ensures OpenSpaced(SpaceBeforeOpen(s, ws), false)
    decreases |s|
  {
    if s != [] {
      var t := TrimStart(s, ws);
      SpaceBeforeOpenStep(s, ws);
      if t != [] && t[0] == '(' {
        var u := TrimStart(t[1..], ws);
        SpaceBeforeOpenSpaced(u, ws);
        PrefixOpen(SpaceBeforeOpen(s, ws), SpaceBeforeOpen(u, ws), ws);
      } else {
        NoLeadingParen(s, ws, '(');
        SpaceBeforeOpenSpaced(s[1..], ws);
        OpenSpacedCons(SpaceBeforeOpen(s, ws), s[0], SpaceBeforeOpen(s[1..], ws), false, false);
      }
    }
  }

  /** The opening-parenthesis pass keeps any class of characters that holds the plain space. */
  lemma {:induction false} SpaceBeforeOpenKeepsClass(s: string, ws: char -> bool, p: char -> bool)
    requires p(' ') && AllOf(s, p)
    ensures AllOf(SpaceBeforeOpen(s, ws), p)
    decreases |s|
  {
    if s != [] {
      var t := TrimStart(s, ws);
      SpaceBeforeOpenStep(s, ws);
      if t != [] && t[0] == '(' {
        SuffixKeepsClass(s, |s| - |t|, p);
        assert p(t[0]);
        SuffixKeepsClass(t, 1, p);
        var u := TrimStart(t[1..], ws);
        SuffixKeepsClass(t[1..], |t[1..]| - |u|, p);
        SpaceBeforeOpenKeepsClass(u, ws, p);
        PrefixOpen(SpaceBeforeOpen(s, ws), SpaceBeforeOpen(u, ws), p);
      } else {
        SuffixKeepsClass(s, 1, p);
        SpaceBeforeOpenKeepsClass(s[1..], ws, p);
        AllOfCons(SpaceBeforeOpen(s, ws), s[0], SpaceBeforeOpen(s[1..], ws), p);
      }
    }
  }

  /** After the closing-parenthesis pass every `)` has a space after it. */
  lemma {:induction false} SpaceAfterCloseSpaced(s: string, ws: char -> bool)
    requires !ws(')')
    ensures CloseSpaced(SpaceAfterClose(s, ws), false)
    decreases |s|
  {
    if s != [] {
      var t := TrimStart(s, ws);
      SpaceAfterCloseStep(s, ws);
      if t != [] && t[0] == ')' {
        var u := TrimStart(t[1..], ws);
        SpaceAfterCloseSpaced(u, ws);
        PrefixClose(SpaceAfterClose(s, ws), SpaceAfterClose(u, ws), ws, false);
      } else {
        NoLeadingParen(s, ws, ')');
        SpaceAfterCloseSpaced(s[1..], ws);
        CloseSpacedCons(SpaceAfterClose(s, ws), s[0], SpaceAfterClose(s[1..], ws), false);
      }
    }
  }

  /** The closing-parenthesis pass keeps any class of characters that holds the plain space. */
  lemma {:induction false} SpaceAfterCloseKeepsClass(s: string, ws: char -> bool, p: char -> bool)
    requires p(' ') && AllOf(s, p)
    ensures AllOf(SpaceAfterClose(s, ws), p)
    decreases |s|
  {
    if s != [] {
      var t := TrimStart(s, ws);
      SpaceAfterCloseStep(s, ws);
      if t != [] && t[0] == ')' {
        SuffixKeepsClass(s, |s| - |t|, p);
        assert p(t[0]);
        SuffixKeepsClass(t, 1, p);
        var u := TrimStart(t[1..], ws);
        SuffixKeepsClass(t[1..], |t[1..]| - |u|, p);
        SpaceAfterCloseKeepsClass(u, ws, p);
        PrefixClose(SpaceAfterClose(s, ws), SpaceAfterClose(u, ws), p, false);
      } else {
        SuffixKeepsClass(s, 1, p);
        SpaceAfterCloseKeepsClass(s[1..], ws, p);
        AllOfCons(SpaceAfterClose(s, ws), s[0], SpaceAfterClose(s[1..], ws), p);
      }
    }
  }

  /** Dropping a prefix keeps the space before each `(`, a leading `(` aside. */
  lemma OpenSpacedEnd(s: string, u: string, lead: bool)
    requires EndsWith(s, u) && OpenSpaced(s, lead)
    ensures OpenSpaced(u, true)
  {
    OpenSpacedSuffix(s, |s| - |u|, u, lead);
  }

  lemma OpenSpacedSuffix(s: string, k: nat, r: string, lead: bool)
    requires k <= |s| && r == s[k..] && OpenSpaced(s, lead)
    ensures OpenSpaced(r, true)
  {
    forall i | 0 <= i < |r| ensures OpenSpacedAt(r, true, i) {
      assert r[i] == s[k + i];
      assert OpenSpacedAt(s, lead, k + i);
      if i > 0 {
        assert r[i - 1] == s[k + i - 1];
      }
    }
  }

  /** Dropping the first character keeps the space before each `(`; a leading `(` of the rest follows that character. */
  lemma OpenSpacedTail(s: string, lead: bool)
    requires s != [] && OpenSpaced(s, lead)
    ensures OpenSpaced(s[1..], s[0] == ' ')
  {
    var r := s[1..];
    var lead' := s[0] == ' ';
    forall i | 0 <= i < |r| ensures OpenSpacedAt(r, lead', i) {
      assert r[i] == s[i + 1];
      assert OpenSpacedAt(s, lead, i + 1);
      if i > 0 {
        assert r[i - 1] == s[i];
      }
    }
  }

  /** What follows a parenthesis and the whitespace around it is a suffix of the text. */
  lemma AfterParenIsSuffix(s: string, ws: char -> bool)
    requires TrimStart(s, ws) != []
    ensures var u := TrimStart(TrimStart(s, ws)[1..], ws);
      |u| < |s| && EndsWith(s, u)
  {
    var t := TrimStart(s, ws);
    var t1 := t[1..];
    var u := TrimStart(t1, ws);
    assert EndsWith(s, t) && EndsWith(t, t1) && EndsWith(t1, u);
    SuffixTransitive(s, t, t1);
    SuffixTransitive(s, t1, u);
  }

  /** `t` ends `s`. */
  predicate EndsWith(s: string, t: string)
  {
    |t| <= |s| && t == s[|s| - |t|..]
  }

  lemma SuffixTransitive(s: string, t: string, u: string)
    requires EndsWith(s, t) && EndsWith(t, u)
    ensures EndsWith(s, u)
  {
    forall i | 0 <= i < |u| ensures u[i] == s[|s| - |u| + i] {
      assert u[i] == t[|t| - |u| + i];
    }
  }

  /** The text after a `)` and its whitespace keeps the space before each `(`. */
  lemma OpenSpacedAfterParen(s: string, ws: char -> bool, lead: bool)
    requires TrimStart(s, ws) != [] && OpenSpaced(s, lead)
    ensures OpenSpaced(TrimStart(TrimStart(s, ws)[1..], ws), true)
  {
    var u := TrimStart(TrimStart(s, ws)[1..], ws);
    AfterParenIsSuffix(s, ws);
    OpenSpacedEnd(s, u, lead);
  }

  /** The closing-parenthesis pass keeps the space the opening-parenthesis pass put before each `(`. */
  lemma {:induction false} SpaceAfterCloseKeepsOpenSpacing(s: string, ws: char -> bool, lead: bool)
    requires !ws(')') && !ws('(')
    requires OpenSpaced(s, lead)
    ensures OpenSpaced(SpaceAfterClose(s, ws), lead)
    decreases |s|
  {
    if s != [] {
      var t := TrimStart(s, ws);
      SpaceAfterCloseStep(s, ws);
      if t != [] && t[0] == ')' {
        var u := TrimStart(t[1..], ws);
        OpenSpacedAfterParen(s, ws, lead);
        SpaceAfterCloseKeepsOpenSpacing(u, ws, true);
        PrefixClose(SpaceAfterClose(s, ws), SpaceAfterClose(u, ws), ws, lead);
      } else {
        NoLeadingParen(s, ws, ')');
        OpenSpacedTail(s, lead);
        SpaceAfterCloseKeepsOpenSpacing(s[1..], ws, s[0] == ' ');
        assert OpenSpacedAt(s, lead, 0);
        OpenSpacedCons(SpaceAfterClose(s, ws), s[0], SpaceAfterClose(s[1..], ws), lead, s[0] == ' ');
      }
    }
  }

  /** Trimming keeps the tidy characters and gives every parenthesis at an end the space it lost. */
  lemma TrimmedSpacing(d: string, n: string, k: int, ws: char -> bool)
    requires OccursAt(d, n, k) && AllTidy(d, ws)
    requires OpenSpaced(d, false) && CloseSpaced(d, false)
    ensures AllTidy(n, ws) && OpenSpaced(n, true) && CloseSpaced(n, true)
  {
    forall j | 0 <= j < |n| ensures Tidy(n[j], ws) && OpenSpacedAt(n, true, j) && CloseSpacedAt(n, true, j) {
      assert n[j] == d[k + j];
      assert Tidy(d[k + j], ws);
      assert OpenSpacedAt(d, false, k + j);
      assert CloseSpacedAt(d, false, k + j);
      if j > 0 {
        assert n[j - 1] == d[k + j - 1];
      }
      if j + 1 < |n| {
        assert n[j + 1] == d[k + j + 1];
      }
    }
  }

  /** The name pipeline before the final strip: collapse, then space the parentheses. */
  function Spaced(a: string, ws: char -> bool): string
    requires ws(' ') && !ws('(') && !ws(')')
  {
    SpaceAfterClose(SpaceBeforeOpen(CollapseWhitespace(a, ws), ws), ws)
  }

  /** The spaced text keeps tidy characters and holds a space before each `(` and after each `)`. */
  lemma SpacedFacts(a: string, ws: char -> bool)
    requires ws(' ') && !ws('(') && !ws(')')
    requires AllTidy(a, ws)
    ensures var d := Spaced(a, ws);
      AllTidy(d, ws) && OpenSpaced(d, false) && CloseSpaced(d, false)
  {
    var p := c => Tidy(c, ws);
    var b := CollapseWhitespace(a, ws);
    var c := SpaceBeforeOpen(b, ws);
    var d := SpaceAfterClose(c, ws);
    assert AllOf(a, p);
    CollapseKeepsClass(a, ws, p);
    SpaceBeforeOpenKeepsClass(b, ws, p);
    SpaceAfterCloseKeepsClass(c, ws, p);
    SpaceBeforeOpenSpaced(b, ws);
    SpaceAfterCloseKeepsOpenSpacing(c, ws, false);
    SpaceAfterCloseSpaced(c, ws);
    assert AllTidy(d, ws) by {
      assert forall j :: 0 <= j < |d| ==> p(d[j]);
    }
  }

  /** The stripped text keeps all of that, with no whitespace left at either end. */
  lemma StrippedFacts(d: string, ws: char -> bool)
    requires AllTidy(d, ws) && OpenSpaced(d, false) && CloseSpaced(d, false)
    ensures var n := Trim(d, ws);
      (n == [] || (!ws(n[0]) && !ws(n[|n| - 1])))
      && AllTidy(n, ws) && OpenSpaced(n, true) && CloseSpaced(n, true)
  {
    var n := Trim(d, ws);
    var k :| OccursAt(d, n, k);
    TrimmedSpacing(d, n, k, ws);
  }

  /** The name pipeline after `clean_text`, for the whitespace class `ws`. */
  function NormalizeCleaned(a: string, ws: char -> bool): (n: string)
    requires ws(' ') && !ws('(') && !ws(')')
    requires AllTidy(a, ws)
    ensures n == [] || (!ws(n[0]) && !ws(n[|n| - 1]))
    ensures AllTidy(n, ws)
    ensures OpenSpaced(n, true) && CloseSpaced(n, true)
  {
    SpacedFacts(a, ws);
    StrippedFacts(Spaced(a, ws), ws);
    Trim(Spaced(a, ws), ws)
  }

  /** `normalize_committee_name` on text, for the whitespace class `ws`. */
  function NormalizeText(s: string, ws: char -> bool): (n: string)
    requires ws(' ') && !ws(',') && !ws('.') && !ws('(') && !ws(')')
    ensures n == [] || (!ws(n[0]) && !ws(n[|n| - 1]))
    ensures AllTidy(n, ws)
    ensures OpenSpaced(n, true) && CloseSpaced(n, true)
  {
    var a := CleanTextWith(s, ws);
    NormalizeCleaned(a, ws)
  }

  /**
   * `normalize_committee_name`: an error for a falsy name; otherwise the
   * cleaned text, single-spaced, with a space before every opening and after
   * every closing parenthesis, stripped.
   */
  function NormalizeName(v: Json): (r: Result<string, CommitteeError>)
    ensures r.Success? <==> v.Str? && v.s != []
    ensures !Truthy(v) ==> r == Failure(EmptyName)
    ensures v.Str? && v.s != [] ==> r == Success(NormalizeText(v.s, IsPyWhitespace))
    ensures r.Success? ==> var n := r.value;
      (n == [] || (!IsPyWhitespace(n[0]) && !IsPyWhitespace(n[|n| - 1])))
      && AllTidy(n, IsPyWhitespace)
      && OpenSpaced(n, true) && CloseSpaced(n, true)
  {
    if !Truthy(v) then Failure(EmptyName)
    else if !v.Str? then Failure(NotAString)
    else Success(NormalizeText(v.s, IsPyWhitespace))
  }

  /**
   * Every `(` of `s` follows a space and comes before a character that is
   * not whitespace (or ends `s`): the opening-parenthesis pass has nothing
   * to change.
   */
  predicate OpenFixed(s: string, ws: char -> bool)
  {
    forall i :: 0 <= i < |s| ==> OpenFixedAt(s, ws, i)
  }

  predicate OpenFixedAt(s: string, ws: char -> bool, i: int)
    requires 0 <= i < |s|
  {
    s[i] == '(' ==> i > 0 && s[i - 1] == ' ' && (i + 1 == |s| || !ws(s[i + 1]))
  }

  /**
   * Every `)` of `s` comes after a character that is not whitespace (or
   * opens `s`) and before a space (or ends `s`): the closing-parenthesis pass
   * only adds a space after a final `)`.
   */
  predicate CloseFixed(s: string, ws: char -> bool)
  {
    forall i :: 0 <= i < |s| ==> CloseFixedAt(s, ws, i)
  }

  predicate CloseFixedAt(s: string, ws: char -> bool, i: int)
    requires 0 <= i < |s|
  {
    s[i] == ')' ==> (i == 0 || !ws(s[i - 1])) && (i + 1 == |s| || s[i + 1] == ' ')
  }

  /** A suffix that does not open with `(` keeps `OpenFixed`; every suffix keeps `CloseFixed` and single spacing. */
  lemma FixedSuffix(s: string, k: nat, ws: char -> bool)
    requires k <= |s|
    ensures OpenFixed(s, ws) && (k < |s| ==> s[k] != '(') ==> OpenFixed(s[k..], ws)
    ensures CloseFixed(s, ws) ==> CloseFixed(s[k..], ws)
    ensures SingleSpaced(s, ws) ==> SingleSpaced(s[k..], ws)
  {
    var r := s[k..];
    if OpenFixed(s, ws) && (k < |s| ==> s[k] != '(') {
      forall i | 0 <= i < |r| ensures OpenFixedAt(r, ws, i) {
        assert r[i] == s[k + i] && OpenFixedAt(s, ws, k + i);
        if i > 0 {
          assert r[i - 1] == s[k + i - 1];
        }
        if i + 1 < |r| {
          assert r[i + 1] == s[k + i + 1];
        }
      }
    }
    if CloseFixed(s, ws) {
      forall i | 0 <= i < |r| ensures CloseFixedAt(r, ws, i) {
        assert r[i] == s[k + i] && CloseFixedAt(s, ws, k + i);
        if i > 0 {
          assert r[i - 1] == s[k + i - 1];
        }
        if i + 1 < |r| {
          assert r[i + 1] == s[k + i + 1];
        }
      }
    }
    if SingleSpaced(s, ws) {
      forall i | 0 <= i < |r| ensures SingleSpacedAt(r, ws, i) {
        assert r[i] == s[k + i] && SingleSpacedAt(s, ws, k + i);
        if i + 1 < |r| {
          assert r[i + 1] == s[k + i + 1];
        }
      }
    }
  }

  /** Text that does not open with whitespace is its own `TrimStart`. */
  lemma TrimStartNone(s: string, ws: char -> bool)
    requires s == [] || !ws(s[0])
    ensures TrimStart(s, ws) == s
  {
  }

  /** What `SingleSpaced` and `OpenFixed` say about the first three characters. */
  lemma OpenFixedHead(s: string, ws: char -> bool)
    requires ws(' ') && s != [] && SingleSpaced(s, ws) && OpenFixed(s, ws)
    ensures ws(s[0]) ==> s[0] == ' ' && (|s| == 1 || !ws(s[1]))
    ensures s[0] != '('
    ensures !ws(s[0]) && |s| > 1 ==> s[1] != '('
    ensures |s| > 1 && s[1] == '(' ==> |s| == 2 || (!ws(s[2]) && s[2] != '(')
  {
    assert OpenFixedAt(s, ws, 0) && SingleSpacedAt(s, ws, 0);
    if |s| > 1 {
      assert OpenFixedAt(s, ws, 1);
    }
    if |s| > 2 {
      assert OpenFixedAt(s, ws, 2);
    }
  }

  lemma Rejoin(s: string, k: nat)
    requires k <= |s|
    ensures s[..k] + s[k..] == s
  {
  }

  /** The opening-parenthesis pass leaves single-spaced text whose parentheses are spaced as it is. */
  lemma {:induction false} SpaceBeforeOpenFixed(s: string, ws: char -> bool)
    requires ws(' ') && !ws('(')
    requires SingleSpaced(s, ws) && OpenFixed(s, ws)
    ensures SpaceBeforeOpen(s, ws) == s
    decreases |s|
  {
    if s != [] {
      OpenFixedHead(s, ws);
      var opens := ws(s[0]) && |s| > 1 && s[1] == '(';
      var k := if opens then 2 else 1;
      FixedSuffix(s, k, ws);
      SpaceBeforeOpenFixed(s[k..], ws);
      if opens {
        SpaceBeforeOpenOpens(s, ws);
      } else {
        SpaceBeforeOpenKeeps(s, ws);
      }
      Rejoin(s, k);
    }
  }

  /** A space and a `(` are kept, and the pass goes on after them. */
  lemma SpaceBeforeOpenOpens(s: string, ws: char -> bool)
    requires |s| > 1 && s[0] == ' ' && ws(' ') && s[1] == '(' && !ws('(') && (|s| == 2 || !ws(s[2]))
    ensures SpaceBeforeOpen(s, ws) == s[..2] + SpaceBeforeOpen(s[2..], ws)
  {
    assert s[..2] == " (";
    SpaceBeforeOpenStep(s, ws);
    TrimStartOneSpace(s, ws);
    assert s[1..][1..] == s[2..];
    TrimStartNone(s[2..], ws);
  }

  /** A character that does not start `\s*(` is kept, and the pass goes on after it. */
  lemma SpaceBeforeOpenKeeps(s: string, ws: char -> bool)
    requires s != [] && s[0] != '(' && !ws('(')
    requires ws(s[0]) ==> |s| == 1 || (!ws(s[1]) && s[1] != '(')
    ensures SpaceBeforeOpen(s, ws) == s[..1] + SpaceBeforeOpen(s[1..], ws)
  {
    assert s[..1] == [s[0]];
    SpaceBeforeOpenStep(s, ws);
    if ws(s[0]) && |s| > 1 {
      TrimStartOneSpace(s, ws);
    } else if !ws(s[0]) {
      TrimStartNone(s, ws);
    }
  }

  /** The space the closing-parenthesis pass puts after a final `)`. */
  function CloseTail(s: string): string
  {
    if s != [] && s[|s| - 1] == ')' then " " else []
  }

  /** What `SingleSpaced` and `CloseFixed` say about the first three characters. */
  lemma CloseFixedHead(s: string, ws: char -> bool)
    requires ws(' ') && s != [] && SingleSpaced(s, ws) && CloseFixed(s, ws)
    ensures ws(s[0]) ==> s[0] == ' ' && (|s| == 1 || (!ws(s[1]) && s[1] != ')'))
    ensures s[0] == ')' && |s| > 1 ==> s[1] == ' ' && (|s| == 2 || !ws(s[2]))
  {
    assert CloseFixedAt(s, ws, 0) && SingleSpacedAt(s, ws, 0);
    if |s| > 1 {
      assert CloseFixedAt(s, ws, 1) && SingleSpacedAt(s, ws, 1);
    }
  }

  /** The closing-parenthesis pass leaves single-spaced text whose parentheses are spaced as it is, but for a space after a final `)`. */
  lemma {:induction false} SpaceAfterCloseFixed(s: string, ws: char -> bool)
    requires ws(' ') && !ws(')')
    requires SingleSpaced(s, ws) && CloseFixed(s, ws)
    ensures SpaceAfterClose(s, ws) == s + CloseTail(s)
    decreases |s|
  {
    if s == [')'] {
      SpaceAfterCloseLone(s, ws);
    } else if s != [] {
      CloseFixedHead(s, ws);
      var k := if s[0] == ')' then 2 else 1;
      FixedSuffix(s, k, ws);
      SpaceAfterCloseFixed(s[k..], ws);
      if s[0] == ')' {
        SpaceAfterCloseCloses(s, ws);
      } else {
        SpaceAfterCloseKeeps(s, ws);
      }
      CloseTailRegroup(s, k, SpaceAfterClose(s[k..], ws));
    }
  }

  lemma SpaceAfterCloseLone(s: string, ws: char -> bool)
    requires s == [')'] && !ws(')')
    ensures SpaceAfterClose(s, ws) == ") "
  {
    SpaceAfterCloseStep(s, ws);
    assert TrimStart(s[1..], ws) == [];
  }

  /** Putting back the first `k` characters in front of the rest and its tail gives `s` and its tail. */
  lemma CloseTailRegroup(s: string, k: nat, rest: string)
    requires 0 < k <= |s| && (k == |s| ==> s[|s| - 1] != ')')
    requires rest == s[k..] + CloseTail(s[k..])
    ensures s[..k] + rest == s + CloseTail(s)
  {
    assert s == s[..k] + s[k..];
  }

  /** A `)` and the space after it are kept, and the pass goes on after them. */
  lemma SpaceAfterCloseCloses(s: string, ws: char -> bool)
    requires |s| > 1 && s[0] == ')' && !ws(')') && s[1] == ' ' && ws(' ') && (|s| == 2 || !ws(s[2]))
    ensures SpaceAfterClose(s, ws) == s[..2] + SpaceAfterClose(s[2..], ws)
  {
    assert s[..2] == ") ";
    SpaceAfterCloseStep(s, ws);
    TrimStartNone(s, ws);
    TrimStartOneSpace(s[1..], ws);
    assert s[1..][1..] == s[2..];
  }

  /** A character that does not start `\s*)` is kept, and the pass goes on after it. */
  lemma SpaceAfterCloseKeeps(s: string, ws: char -> bool)
    requires s != [] && s[0] != ')' && !ws(')')
    requires ws(s[0]) ==> |s| == 1 || (!ws(s[1]) && s[1] != ')')
    ensures SpaceAfterClose(s, ws) == s[..1] + SpaceAfterClose(s[1..], ws)
  {
    assert s[..1] == [s[0]];
    SpaceAfterCloseStep(s, ws);
    if ws(s[0]) && |s| > 1 {
      TrimStartOneSpace(s, ws);
    } else if !ws(s[0]) {
      TrimStartNone(s, ws);
    }
  }

  lemma CloseTailIsWhitespace(s: string, ws: char -> bool)
    requires ws(' ')
    ensures AllOf(CloseTail(s), ws)
  {
    if CloseTail(s) != [] {
      assert CloseTail(s) == [' '];
    }
  }

  /** Stripped text with a space after it strips back to itself. */
  lemma TrimWithSpace(s: string, tail: string, ws: char -> bool)
    requires s != [] && !ws(s[0]) && !ws(s[|s| - 1])
    requires AllOf(tail, ws)
    ensures Trim(s + tail, ws) == s
  {
    TrimStartNone(s + tail, ws);
    TrimEndSkipsSuffix(s, tail, ws);
    assert TrimEnd(s, ws) == s;
  }

  /** `NormalizeText` leaves a name that is already normalised as it is. */
  lemma NormalizeTextFixedPoint(s: string, ws: char -> bool)
    requires ws(' ') && !ws(',') && !ws('.') && !ws('(') && !ws(')')
    requires s != [] && !ws(s[0]) && !ws(s[|s| - 1])
    requires SingleSpaced(s, ws)
    requires forall i :: 0 <= i < |s| ==> NotZeroWidth(s[i])
    requires !IsPunct(s[|s| - 1])
    requires OpenFixed(s, ws) && CloseFixed(s, ws)
    ensures NormalizeText(s, ws) == s
  {
    assert CleanTextWith(s, ws) == s by {
      CleanTextWithFixedPoint(s, ws);
    }
    assert CollapseWhitespace(s, ws) == s by {
      CollapseSingleSpaced(s, ws);
    }
    NormalizeTextOfClean(s, ws);
    assert SpaceBeforeOpen(s, ws) == s by {
      SpaceBeforeOpenFixed(s, ws);
    }
    assert Trim(SpaceAfterClose(s, ws), ws) == s by {
      SpaceAfterCloseFixed(s, ws);
      CloseTailIsWhitespace(s, ws);
      TrimWithSpace(s, CloseTail(s), ws);
    }
  }

  /**
   * A committee name that is already stripped, single-spaced, free of
   * zero-width characters and of a final comma or full stop, and whose
   * parentheses are spaced, is returned unchanged.
   */
  lemma NormalizeNameFixedPoint(s: string)
    requires s != [] && !IsPyWhitespace(s[0]) && !IsPyWhitespace(s[|s| - 1])
    requires SingleSpaced(s, IsPyWhitespace)
    requires forall i :: 0 <= i < |s| ==> NotZeroWidth(s[i])
    requires !IsPunct(s[|s| - 1])
    requires OpenFixed(s, IsPyWhitespace) && CloseFixed(s, IsPyWhitespace)
    ensures NormalizeName(Str(s)) == Success(s)
  {
    NormalizeTextFixedPoint(s, IsPyWhitespace);
  }

  /** A word: non-empty, with no whitespace, parenthesis or zero-width character. */
  predicate Word(w: string, ws: char -> bool)
  {
    w != [] && forall i :: 0 <= i < |w| ==> WordChar(w[i], ws)
  }

  predicate WordChar(c: char, ws: char -> bool)
  {
    !ws(c) && c != '(' && c != ')' && NotZeroWidth(c)
  }

  /** What a non-empty run of word characters in front of `x` gives. */
  lemma WordCharsHead(w: string, x: string, ws: char -> bool)
    requires w != [] && forall i :: 0 <= i < |w| ==> WordChar(w[i], ws)
    ensures (w + x)[0] == w[0] && WordChar(w[0], ws) && (w + x)[1..] == w[1..] + x
    ensures forall i :: 0 <= i < |w[1..]| ==> WordChar(w[1..][i], ws)
  {
    assert WordChar(w[0], ws);
    forall i | 0 <= i < |w[1..]| ensures WordChar(w[1..][i], ws) {
      assert w[1..][i] == w[i + 1];
    }
  }

  lemma ConsRegroup(w: string, t: string)
    requires w != []
    ensures [w[0]] + (w[1..] + t) == w + t
  {
    assert w == [w[0]] + w[1..];
  }

  lemma Assoc(a: string, b: string, c: string)
    ensures a + (b + c) == a + b + c
  {
  }

  lemma Regroup(a: string, b: string, c: string, d: string)
    ensures a + (b + c + d) == a + b + c + d
  {
  }

  /** The opening-parenthesis pass copies a leading word. */
  lemma {:induction false} SpaceBeforeOpenSkipsWord(w: string, x: string, ws: char -> bool)
    requires !ws('(') && forall i :: 0 <= i < |w| ==> WordChar(w[i], ws)
    ensures SpaceBeforeOpen(w + x, ws) == w + SpaceBeforeOpen(x, ws)
    decreases |w|
  {
    if w == [] {
      assert w + x == x;
    } else {
      var s := w + x;
      WordCharsHead(w, x, ws);
      SpaceBeforeOpenKeeps(s, ws);
      var rest := s[1..];
      assert rest == w[1..] + x;
      SpaceBeforeOpenSkipsWord(w[1..], x, ws);
      var t := SpaceBeforeOpen(x, ws);
      assert SpaceBeforeOpen(rest, ws) == w[1..] + t;
      ConsRegroup(w, t);
      assert s[..1] == [w[0]];
      assert SpaceBeforeOpen(s, ws) == [w[0]] + (w[1..] + t);
    }
  }

  /** A word and a `)` after it: single-spaced, no `(`, and nothing for `TrimStart` to drop. */
  lemma WordCloseFacts(b: string, ws: char -> bool)
    requires !ws(')') && Word(b, ws)
    ensures var y := b + ")";
      TrimStart(y, ws) == y && SingleSpaced(y, ws) && OpenFixed(y, ws)
  {
    var y := b + ")";
    assert WordChar(b[0], ws);
    TrimStartNone(y, ws);
    forall i | 0 <= i < |y| ensures !ws(y[i]) && y[i] != '(' {
      if i < |b| {
        assert y[i] == b[i] && WordChar(b[i], ws);
      }
    }
    assert SingleSpaced(y, ws) && OpenFixed(y, ws);
  }

  /** A `(` right before a word gets a space in front of it and the word is copied. */
  lemma SpaceBeforeOpenWord(b: string, ws: char -> bool)
    requires ws(' ') && !ws('(') && !ws(')') && Word(b, ws)
    ensures SpaceBeforeOpen("(" + b + ")", ws) == " (" + b + ")"
  {
    var y := b + ")";
    var x := "(" + y;
    assert SpaceBeforeOpen(x, ws) == " (" + SpaceBeforeOpen(y, ws) by {
      SpaceBeforeOpenStep(x, ws);
      TrimStartNone(x, ws);
      assert x[0] == '(' && x[1..] == y;
      WordCloseFacts(b, ws);
    }
    assert SpaceBeforeOpen(y, ws) == y by {
      WordCloseFacts(b, ws);
      SpaceBeforeOpenFixed(y, ws);
    }
    Assoc("(", b, ")");
    Assoc(" (", b, ")");
  }

  /** The text with the space put in: single-spaced, with its parentheses spaced. */
  lemma SpacedParenFacts(w: string, b: string, ws: char -> bool)
    requires ws(' ') && !ws('(') && !ws(')') && Word(w, ws) && Word(b, ws)
    ensures var n := w + " (" + b + ")";
      !ws(n[0]) && SingleSpaced(n, ws) && OpenFixed(n, ws) && CloseFixed(n, ws)
      && forall i :: 0 <= i < |n| ==> NotZeroWidth(n[i])
  {
    var n := w + " (" + b + ")";
    var m := |w|;
    assert WordChar(w[0], ws);
    forall i | 0 <= i < |n|
      ensures SingleSpacedAt(n, ws, i) && OpenFixedAt(n, ws, i) && CloseFixedAt(n, ws, i) && NotZeroWidth(n[i])
    {
      if i < m {
        assert n[i] == w[i] && WordChar(w[i], ws);
      } else if m + 2 <= i < m + 2 + |b| {
        assert n[i] == b[i - m - 2] && WordChar(b[i - m - 2], ws);
        if i == m + 2 + |b| - 1 {
          assert n[i + 1] == ')';
        }
      }
      if i == m {
        assert n[i + 1] == '(';
      }
      if i == m + 1 {
        assert n[i - 1] == ' ' && n[i + 1] == b[0] && WordChar(b[0], ws);
      }
      if i == m + 2 + |b| {
        assert n[i - 1] == b[|b| - 1] && WordChar(b[|b| - 1], ws);
      }
    }
  }

  /** The text as given: stripped, with no whitespace at all and no final comma or full stop. */
  lemma GluedParenFacts(w: string, b: string, ws: char -> bool)
    requires ws(' ') && !ws('(') && !ws(')') && Word(w, ws) && Word(b, ws)
    ensures var s := w + "(" + b + ")";
      !ws(s[0]) && SingleSpaced(s, ws) && forall i :: 0 <= i < |s| ==> NotZeroWidth(s[i])
  {
    var s := w + "(" + b + ")";
    var m := |w|;
    assert WordChar(w[0], ws);
    forall i | 0 <= i < |s| ensures !ws(s[i]) && NotZeroWidth(s[i]) {
      if i < m {
        assert s[i] == w[i] && WordChar(w[i], ws);
      } else if m + 1 <= i < m + 1 + |b| {
        assert s[i] == b[i - m - 1] && WordChar(b[i - m - 1], ws);
      }
    }
  }

  /** On text that cleaning and collapsing leave alone, only the parenthesis passes and the strip are left. */
  lemma NormalizeTextOfClean(s: string, ws: char -> bool)
    requires ws(' ') && !ws(',') && !ws('.') && !ws('(') && !ws(')')
    requires CleanTextWith(s, ws) == s && CollapseWhitespace(s, ws) == s
    ensures NormalizeText(s, ws) == Trim(SpaceAfterClose(SpaceBeforeOpen(s, ws), ws), ws)
  {
  }

  /** Cleaning and collapsing leave the glued text alone. */
  lemma GluedParenClean(w: string, b: string, ws: char -> bool)
    requires ws(' ') && !ws(',') && !ws('.') && !ws('(') && !ws(')')
    requires Word(w, ws) && Word(b, ws)
    ensures var s := w + "(" + b + ")";
      CleanTextWith(s, ws) == s && CollapseWhitespace(s, ws) == s
  {
    var s := w + "(" + b + ")";
    GluedParenFacts(w, b, ws);
    CleanTextWithFixedPoint(s, ws);
    CollapseSingleSpaced(s, ws);
  }

  /** The closing-parenthesis pass and the strip leave the spaced text alone. */
  lemma SpacedParenStays(w: string, b: string, ws: char -> bool)
    requires ws(' ') && !ws('(') && !ws(')')
    requires Word(w, ws) && Word(b, ws)
    ensures var n := w + " (" + b + ")";
      Trim(SpaceAfterClose(n, ws), ws) == n
  {
    var n := w + " (" + b + ")";
    SpacedParenFacts(w, b, ws);
    SpaceAfterCloseFixed(n, ws);
    CloseTailIsWhitespace(n, ws);
    TrimWithSpace(n, CloseTail(n), ws);
  }

  /** A `(` glued to the word before it gets a space in front of it. */
  lemma NormalizeTextSpacesParen(w: string, b: string, ws: char -> bool)
    requires ws(' ') && !ws(',') && !ws('.') && !ws('(') && !ws(')')
    requires Word(w, ws) && Word(b, ws)
    ensures NormalizeText(w + "(" + b + ")", ws) == w + " (" + b + ")"
  {
    var x := "(" + b + ")";
    var s := w + x;
    Regroup(w, "(", b, ")");
    GluedParenClean(w, b, ws);
    NormalizeTextOfClean(s, ws);
    SpaceBeforeOpenSkipsWord(w, x, ws);
    SpaceBeforeOpenWord(b, ws);
    var n := w + " (" + b + ")";
    Regroup(w, " (", b, ")");
    SpacedParenStays(w, b, ws);
    assert Trim(SpaceAfterClose(n, ws), ws) == n;
  }

  /**
   * A committee name whose parenthesis is glued to the word before it, as in
   * "Committee(Finance)", is returned with a space before the parenthesis.
   */
  lemma NormalizeNameSpacesParen(w: string, b: string)
    requires Word(w, IsPyWhitespace) && Word(b, IsPyWhitespace)
    ensures NormalizeName(Str(w + "(" + b + ")")) == Success(w + " (" + b + ")")
  {
    NormalizeTextSpacesParen(w, b, IsPyWhitespace);
  }

  /** What can go wrong while cleaning one committee; the record is then skipped. */
  datatype CommitteeError =
    | EmptyName                          // the name is missing or falsy
    | NotAString                         // a value that must be text is some other truthy value
    | MissingFields(fields: seq<string>) // validation: falsy required fields, in check order
    | InvalidType(value: Json)           // validation: a type other than "HoR" or "NA"

  /** The headers an introduction may open with. */
  const IntroWord: string := "परिचय"
  const BriefIntroHeader: string := "संक्षिप्\U{200D}त " + IntroWord + ":"

  /** The second header: the introduction word and a colon. */
  const IntroColonHeader: string := IntroWord + ":"

  /** `re.sub(r'^<header>\s*', '', s)`, for the whitespace class `ws`: drops the header and the whitespace after it when `s` opens with it. */
  function DropHeader(s: string, header: string, ws: char -> bool): (r: string)
    ensures StartsWith(s, header) ==> r == TrimStart(s[|header|..], ws)
    ensures !StartsWith(s, header) ==> r == s
  {
    if StartsWith(s, header) then TrimStart(s[|header|..], ws) else s
  }

  /** The three header substitutions of `clean_introduction`, in order. */
  function DropHeaders(s: string, ws: char -> bool): string
  {
    DropHeader(DropHeader(DropHeader(s, BriefIntroHeader, ws), IntroColonHeader, ws), IntroWord, ws)
  }

  /** `clean_introduction` on text, for the whitespace class `ws`. */
  function CleanIntroductionWith(s: string, ws: char -> bool): (r: string)
    requires ws(' ') && !ws(',') && !ws('.')
    ensures s == [] ==> r == []
    ensures r == [] || (!ws(r[0]) && !ws(r[|r| - 1]))
    ensures AllTidy(r, ws)
  {
    if s == [] then [] else CleanTextWith(DropHeaders(s, ws), ws)
  }

  /**
   * `clean_introduction`: empty for empty text; otherwise the brief-introduction
   * header, then "परिचय:", then "परिचय" are each dropped from the front when
   * present, and the rest is cleaned.
   */
  function CleanIntroductionText(s: string): (r: string)
    ensures s == [] ==> r == []
    ensures r == [] || (!IsPyWhitespace(r[0]) && !IsPyWhitespace(r[|r| - 1]))
    ensures AllTidy(r, IsPyWhitespace)
  {
    CleanIntroductionWith(s, IsPyWhitespace)
  }

  lemma StartsWithPrefix(s: string, a: string, b: string)
    requires StartsWith(s, a + b)
    ensures StartsWith(s, a)
  {
    assert s[..|a|] == (a + b)[..|a|];
  }

  /** A header followed by whitespace and then by text that does not open with whitespace is dropped with that whitespace. */
  lemma DropPaddedHeader(header: string, pad: string, body: string, ws: char -> bool)
    requires AllOf(pad, ws) && (body == [] || !ws(body[0]))
    ensures DropHeader(header + pad + body, header, ws) == body
  {
    var s := header + pad + body;
    assert s[..|header|] == header;
    assert s[|header|..] == pad + body;
    TrimStartSkipsPrefix(pad, body, ws);
  }

  /** Text that opens with no header word passes the header substitutions unchanged. */
  lemma PlainHeaders(body: string, ws: char -> bool)
    requires !StartsWith(body, IntroWord) && !StartsWith(body, BriefIntroHeader)
    ensures DropHeaders(body, ws) == body
  {
    if StartsWith(body, IntroColonHeader) {
      StartsWithPrefix(body, IntroWord, ":");
    }
  }

  /** An introduction that does not open with a header word is only cleaned. */
  lemma PlainIntroduction(body: string, ws: char -> bool)
    requires ws(' ') && !ws(',') && !ws('.')
    requires body != [] && !StartsWith(body, IntroWord) && !StartsWith(body, BriefIntroHeader)
    ensures CleanIntroductionWith(body, ws) == CleanTextWith(body, ws)
  {
    PlainHeaders(body, ws);
  }

  /** Text opening with the introduction word does not open with the brief-introduction header. */
  lemma IntroWordIsNotBrief(s: string)
    requires StartsWith(s, IntroWord)
    ensures !StartsWith(s, BriefIntroHeader)
  {
    assert s[0] == IntroWord[0];
  }

  /** After the bare introduction word, whitespace or text not opening with a colon rules the colon header out. */
  lemma ColonAfterIntroWord(pad: string, body: string, ws: char -> bool)
    requires !ws(':') && AllOf(pad, ws) && body != [] && body[0] != ':'
    ensures !StartsWith(IntroWord + pad + body, IntroColonHeader)
  {
    var s := IntroWord + pad + body;
    var n := |IntroWord|;
    assert s[n] != ':' by {
      if pad != [] {
        assert s[n] == pad[0];
      } else {
        assert s[n] == body[0];
      }
    }
    assert IntroColonHeader[n] == ':';
  }

  /** The brief-introduction header and the whitespace after it are dropped. */
  lemma BriefHeaderDropped(pad: string, body: string, ws: char -> bool)
    requires AllOf(pad, ws) && body != [] && !ws(body[0])
    requires !StartsWith(body, IntroWord) && !StartsWith(body, BriefIntroHeader)
    ensures DropHeaders(BriefIntroHeader + pad + body, ws) == body
  {
    DropPaddedHeader(BriefIntroHeader, pad, body, ws);
    PlainHeaders(body, ws);
  }

  /** The colon header and the whitespace after it are dropped. */
  lemma ColonHeaderDropped(pad: string, body: string, ws: char -> bool)
    requires AllOf(pad, ws) && body != [] && !ws(body[0])
    requires !StartsWith(body, IntroWord)
    ensures DropHeaders(IntroColonHeader + pad + body, ws) == body
  {
    var s := IntroColonHeader + pad + body;
    assert s == IntroWord + (":" + pad + body);
    assert s[..|IntroWord|] == IntroWord;
    IntroWordIsNotBrief(s);
    DropPaddedHeader(IntroColonHeader, pad, body, ws);
  }

  /** The bare introduction word and the whitespace after it are dropped. */
  lemma WordHeaderDropped(pad: string, body: string, ws: char -> bool)
    requires !ws(':') && AllOf(pad, ws) && body != [] && !ws(body[0]) && body[0] != ':'
    requires !StartsWith(body, IntroWord)
    ensures DropHeaders(IntroWord + pad + body, ws) == body
  {
    var s := IntroWord + pad + body;
    assert s[..|IntroWord|] == IntroWord;
    IntroWordIsNotBrief(s);
    ColonAfterIntroWord(pad, body, ws);
    DropPaddedHeader(IntroWord, pad, body, ws);
  }

  /**
   * A header and the whitespace after it make no difference to the cleaned
   * introduction, when the text after them opens with neither whitespace, a
   * colon, nor a header word.
   */
  lemma HeaderIsDroppedWith(header: string, pad: string, body: string, ws: char -> bool)
    requires ws(' ') && !ws(',') && !ws('.') && !ws(':')
    requires header == BriefIntroHeader || header == IntroColonHeader || header == IntroWord
    requires AllOf(pad, ws)
    requires body != [] && !ws(body[0]) && body[0] != ':'
    requires !StartsWith(body, IntroWord) && !StartsWith(body, BriefIntroHeader)
    ensures CleanIntroductionWith(header + pad + body, ws) == CleanIntroductionWith(body, ws)
  {
    PlainHeaders(body, ws);
    if header == BriefIntroHeader {
      BriefHeaderDropped(pad, body, ws);
    } else if header == IntroColonHeader {
      ColonHeaderDropped(pad, body, ws);
    } else {
      WordHeaderDropped(pad, body, ws);
    }
  }

  /** `HeaderIsDroppedWith` for Python's whitespace class. */
  lemma HeaderIsDropped(header: string, pad: string, body: string)
    requires header == BriefIntroHeader || header == IntroColonHeader || header == IntroWord
    requires AllOf(pad, IsPyWhitespace)
    requires body != [] && !IsPyWhitespace(body[0]) && body[0] != ':'
    requires !StartsWith(body, IntroWord) && !StartsWith(body, BriefIntroHeader)
    ensures CleanIntroductionText(header + pad + body) == CleanIntroductionText(body)
  {
    HeaderIsDroppedWith(header, pad, body, IsPyWhitespace);
  }

  /** `clean_introduction` on a loaded value: falsy values clean to the empty text. */
  function CleanIntroduction(v: Json): (r: Result<string, CommitteeError>)
    ensures !Truthy(v) ==> r == Success([])
    ensures r.Failure? <==> Truthy(v) && !v.Str?
    ensures v.Str? ==> r == Success(CleanIntroductionText(v.s))
  {
    if !Truthy(v) then Success([])
    else if v.Str? then Success(CleanIntroductionText(v.s))
    else Failure(NotAString)
  }

  /** The formats tried for a date that is not already `YYYY-MM-DD`, in order. */
  datatype DateFormat = YmdSlash | YmdDash | DmySlash | DmyDash | YmdDot | DmyDot

  const DateFormats: seq<DateFormat> := [YmdSlash, YmdDash, DmySlash, DmyDash, YmdDot, DmyDot]

  datatype Date = Date(year: int, month: int, day: int)

  /**
   * The platform behind `parse_date`: the characters `\d` accepts,
   * `datetime.strptime` (with `None` for a `ValueError`), and
   * `strftime('%Y-%m-%d')`.
   */
  datatype Calendar = Calendar(
    isDigit: char -> bool,
    strptime: (string, DateFormat) -> Option<Date>,
    strftime: Date -> string)

  /** `re.match(r'^\d{4}-\d{2}-\d{2}$', s)` on a stripped string. */
  predicate IsoShaped(cal: Calendar, s: string)
  {
    |s| == 10 && s[4] == '-' && s[7] == '-'
    && forall i :: 0 <= i < 10 && i != 4 && i != 7 ==> cal.isDigit(s[i])
  }

  /** The first of `formats` that parses `s`, rendered as `YYYY-MM-DD`. */
  function FirstParse(cal: Calendar, s: string, formats: seq<DateFormat>): (r: Option<string>)
    ensures r.None? <==> forall i :: 0 <= i < |formats| ==> cal.strptime(s, formats[i]).None?
    ensures r.Some? ==> exists i :: (0 <= i < |formats| && cal.strptime(s, formats[i]).Some?
      && r.value == cal.strftime(cal.strptime(s, formats[i]).value)
      && forall j :: 0 <= j < i ==> cal.strptime(s, formats[j]).None?)
    decreases |formats|
  {
    if formats == [] then None
    else match cal.strptime(s, formats[0])
      case Some(d) => Some(cal.strftime(d))
      case None =>
        var r := FirstParse(cal, s, formats[1..]);
        assert forall i :: 1 <= i < |formats| ==> formats[i] == formats[1..][i - 1];
        r
  }

  /**
   * `parse_date` on a stripped string: a valid `YYYY-MM-DD` date is kept as
   * written; anything else is the first format that parses, reformatted;
   * `None` when no format parses.
   */
  function ParseDateText(cal: Calendar, s: string): (r: Option<string>)
    ensures IsoShaped(cal, s) && cal.strptime(s, YmdDash).Some? ==> r == Some(s)
    ensures r.None? <==> forall i :: 0 <= i < |DateFormats| ==> cal.strptime(s, DateFormats[i]).None?
    ensures r.Some? && r.value != s ==> exists f :: (f in DateFormats && cal.strptime(s, f).Some?
      && r.value == cal.strftime(cal.strptime(s, f).value))
    ensures !(IsoShaped(cal, s) && cal.strptime(s, YmdDash).Some?) ==> r == FirstParse(cal, s, DateFormats)
  {
    if IsoShaped(cal, s) && cal.strptime(s, YmdDash).Some? then
      assert DateFormats[1] == YmdDash;
      Some(s)
    else FirstParse(cal, s, DateFormats)
  }

  /**
   * `parse_date` on a loaded value: no date for a falsy value or any casing of
   * "null"; an error for a truthy value that is not text (it has no `lower`).
   */
  function ParseDate(cal: Calendar, v: Json): (r: Result<Option<string>, CommitteeError>)
    ensures !Truthy(v) ==> r == Success(None)
    ensures v.Str? && ToLowerAscii(v.s) == "null" ==> r == Success(None)
    ensures r.Failure? <==> Truthy(v) && !v.Str?
    ensures v.Str? && Truthy(v) && ToLowerAscii(v.s) != "null" ==>
      r == Success(ParseDateText(cal, Trim(v.s, IsPyWhitespace)))
  {
    if !Truthy(v) then Success(None)
    else if !v.Str? then Failure(NotAString)
    else if ToLowerAscii(v.s) == "null" then Success(None)
    else Success(ParseDateText(cal, Trim(v.s, IsPyWhitespace)))
  }

  /** A cleaned committee record. */
  datatype Committee = Committee(
    committeeType: Json,
    name: string,
    startDate: Option<string>,
    endDate: Option<string>,
    introduction: string)

  /** VALID_COMMITTEE_TYPES. */
  predicate ValidType(t: Json)
  {
    t == Str("HoR") || t == Str("NA")
  }

  /** The required fields a committee lacks, in the order `validate_committee` checks them. */
  function MissingOf(c: Committee): seq<string>
  {
    (if c.name == [] then ["name"] else [])
    + (if !Truthy(c.committeeType) then ["type"] else [])
    + (if c.introduction == [] then ["introduction"] else [])
  }

  /**
   * `validate_committee`: the committee itself when its name, type and
   * introduction are present and its type is a house; otherwise the missing
   * fields, or else the invalid type.
   */
  function ValidateCommittee(c: Committee): (r: Result<Committee, CommitteeError>)
    ensures r.Success? <==> c.name != [] && c.introduction != [] && ValidType(c.committeeType)
    ensures r.Success? ==> r.value == c
    ensures r.Failure? && r.error.MissingFields? ==>
      r.error.fields != []
      && ("name" in r.error.fields <==> c.name == [])
      && ("type" in r.error.fields <==> !Truthy(c.committeeType))
      && ("introduction" in r.error.fields <==> c.introduction == [])
    ensures r.Failure? && !r.error.MissingFields? ==> r == Failure(InvalidType(c.committeeType))
  {
    var missing := MissingOf(c);
    if missing != [] then Failure(MissingFields(missing))
    else if !ValidType(c.committeeType) then Failure(InvalidType(c.committeeType))
    else Success(c)
  }

  /** The keys of a scraped committee the cleaner reads. */
  datatype CommitteeField = NameKey | TypeKey | StartDateKey | EndDateKey | IntroductionKey

  type RawCommittee = imap<CommitteeField, Json>

  /** Each field of a scraped committee cleans without error. */
  predicate PartsClean(cal: Calendar, raw: RawCommittee)
  {
    NormalizeName(GetOr(raw, NameKey, Str(""))).Success?
    && ParseDate(cal, Get(raw, StartDateKey)).Success?
    && ParseDate(cal, Get(raw, EndDateKey)).Success?
    && CleanIntroduction(GetOr(raw, IntroductionKey, Str(""))).Success?
  }

  /** The cleaned name and introduction are non-empty and the type is a house, so validation passes. */
  predicate Acceptable(cal: Calendar, raw: RawCommittee)
    requires PartsClean(cal, raw)
  {
    NormalizeName(GetOr(raw, NameKey, Str(""))).value != []
    && CleanIntroduction(GetOr(raw, IntroductionKey, Str(""))).value != []
    && ValidType(GetOr(raw, TypeKey, Str("")))
  }

  /** The body of the loop of `clean_committee_data`, for one scraped committee; an error skips it. */
  function CleanCommittee(cal: Calendar, raw: RawCommittee): (r: Result<Committee, CommitteeError>)
    ensures r.Success? ==> ValidateCommittee(r.value) == r
    ensures r.Success? ==> NormalizeName(GetOr(raw, NameKey, Str(""))) == Success(r.value.name)
    ensures r.Success? ==> r.value.committeeType == GetOr(raw, TypeKey, Str(""))
    ensures r.Success? <==> PartsClean(cal, raw) && Acceptable(cal, raw)
    ensures r.Success? ==>
      r.value.startDate == ParseDate(cal, Get(raw, StartDateKey)).value
      && r.value.endDate == ParseDate(cal, Get(raw, EndDateKey)).value
      && r.value.introduction == CleanIntroduction(GetOr(raw, IntroductionKey, Str(""))).value
  {
    var name :- NormalizeName(GetOr(raw, NameKey, Str("")));
    var committeeType := GetOr(raw, TypeKey, Str(""));
    var startDate :- ParseDate(cal, Get(raw, StartDateKey));
    var endDate :- ParseDate(cal, Get(raw, EndDateKey));
    var introduction :- CleanIntroduction(GetOr(raw, IntroductionKey, Str("")));
    ValidateCommittee(Committee(committeeType, name, startDate, endDate, introduction))
  }

  /** A committee without a name, or with a type other than a house, never survives cleaning. */
  lemma CleanCommitteeRejects(cal: Calendar, raw: RawCommittee)
    ensures !Truthy(GetOr(raw, NameKey, Str(""))) ==> CleanCommittee(cal, raw) == Failure(EmptyName)
    ensures !ValidType(GetOr(raw, TypeKey, Str(""))) ==> CleanCommittee(cal, raw).Failure?
  {
  }

  predicate Cleans(cal: Calendar, raw: RawCommittee)
  {
    CleanCommittee(cal, raw).Success?
  }

  /** `clean_committee_data`: the committees that clean without error, in input order. */
  function CleanCommitteeData(cal: Calendar, raws: seq<RawCommittee>): (r: seq<Committee>)
    ensures forall i :: 0 <= i < |r| ==> ValidateCommittee(r[i]) == Success(r[i])
    ensures forall i :: 0 <= i < |raws| && Cleans(cal, raws[i]) ==> CleanCommittee(cal, raws[i]).value in r
    ensures forall c :: c in r ==> exists i :: 0 <= i < |raws| && CleanCommittee(cal, raws[i]) == Success(c)
  {
    var r := Successes(raws, raw => CleanCommittee(cal, raw));
    assert forall i :: 0 <= i < |r| ==> ValidateCommittee(r[i]) == Success(r[i]) by {
      forall i | 0 <= i < |r| ensures ValidateCommittee(r[i]) == Success(r[i]) {
        assert r[i] in r;
        var j :| 0 <= j < |raws| && CleanCommittee(cal, raws[j]) == Success(r[i]);
      }
    }
    r
  }

  /** One committee is kept for every scraped committee that cleans. */
  lemma CleanCommitteeDataCount(cal: Calendar, raws: seq<RawCommittee>)
    ensures |CleanCommitteeData(cal, raws)| == Count(raws, raw => Cleans(cal, raw))
  {
    SuccessesCount(raws, raw => CleanCommittee(cal, raw), raw => Cleans(cal, raw));
  }

  /**
   * The cleaned committees keep input order: over a concatenation of scraped
   * lists they are those of the first list followed by those of the second.
   */
  lemma CleanCommitteeDataAppend(cal: Calendar, a: seq<RawCommittee>, b: seq<RawCommittee>)
    ensures CleanCommitteeData(cal, a + b) == CleanCommitteeData(cal, a) + CleanCommitteeData(cal, b)
  {
    SuccessesAppend(a, b, raw => CleanCommittee(cal, raw));
  }

  /** One scraped committee gives its cleaned record when it cleans, and nothing otherwise. */
  lemma CleanCommitteeDataOne(cal: Calendar, raw: RawCommittee)
    ensures CleanCommitteeData(cal, [raw]) == if Cleans(cal, raw) then [CleanCommittee(cal, raw).value] else []
  {
    SuccessesOne(raw, raw => CleanCommittee(cal, raw));
  }

  /** `raws[i]` cleans, and no earlier scraped committee cleans to a committee of the same name. */
  predicate FirstToClean(cal: Calendar, raws: seq<RawCommittee>, i: int)
    requires 0 <= i < |raws|
  {
    Cleans(cal, raws[i])
    && forall j :: 0 <= j < i && Cleans(cal, raws[j]) ==>
         CleanCommittee(cal, raws[j]).value.name != CleanCommittee(cal, raws[i]).value.name
  }

  /**
   * The first scraped committee that cleans to a name is the one loaded for
   * that name: its cleaned record survives deduplication, and no other
   * loaded committee has its name.
   */
  lemma FirstToCleanIsLoaded(cal: Calendar, raws: seq<RawCommittee>, i: int)
    requires 0 <= i < |raws| && FirstToClean(cal, raws, i)
    ensures var r := DeduplicateCommittees(CleanCommitteeData(cal, raws));
      var v := CleanCommittee(cal, raws[i]).value;
      v in r && forall c :: c in r && c.name == v.name ==> c == v
  {
    FirstSuccessKept(raws, raw => CleanCommittee(cal, raw), CommitteeName, i);
  }

  function CommitteeName(c: Committee): string
  {
    c.name
  }

  /**
   * `deduplicate_committees`: the first committee of each name, in order;
   * later committees with a name already seen are dropped.
   */
  function DeduplicateCommittees(cs: seq<Committee>): (r: seq<Committee>)
    ensures IsSubsequence(r, cs)
    ensures DistinctKeys(r, CommitteeName)
    ensures forall i :: 0 <= i < |cs| && FirstWithKey(cs, CommitteeName, i) ==> cs[i] in r
    ensures forall c :: c in r ==> c in cs
  {
    DedupByFacts(cs, CommitteeName);
    DedupBy(cs, CommitteeName)
  }

  /**
   * The committees the script loads: valid, with distinct names, every name
   * that cleans is represented, and the committee loaded for a name is the
   * one cleaned from the first scraped committee with that name.
   */
  lemma CleanedCommitteesAreValid(cal: Calendar, raws: seq<RawCommittee>)
    ensures var r := DeduplicateCommittees(CleanCommitteeData(cal, raws));
      (forall i :: 0 <= i < |r| ==> ValidateCommittee(r[i]) == Success(r[i]))
      && DistinctKeys(r, CommitteeName)
      && forall i :: 0 <= i < |raws| && Cleans(cal, raws[i]) ==>
           exists c :: c in r && c.name == CleanCommittee(cal, raws[i]).value.name
    ensures var r := DeduplicateCommittees(CleanCommitteeData(cal, raws));
      forall i :: 0 <= i < |raws| && FirstToClean(cal, raws, i) ==>
        CleanCommittee(cal, raws[i]).value in r
        && forall c :: c in r && c.name == CleanCommittee(cal, raws[i]).value.name ==> c == CleanCommittee(cal, raws[i]).value
  {
    var cs := CleanCommitteeData(cal, raws);
    var r := DeduplicateCommittees(cs);
    forall i | 0 <= i < |r| ensures ValidateCommittee(r[i]) == Success(r[i]) {
      assert r[i] in cs;
    }
    forall i | 0 <= i < |raws| && Cleans(cal, raws[i])
      ensures exists c :: c in r && c.name == CleanCommittee(cal, raws[i]).value.name
    {
      DedupByKeepsKey(cs, CommitteeName, CleanCommittee(cal, raws[i]).value);
    }
    forall i | 0 <= i < |raws| && FirstToClean(cal, raws, i)
      ensures CleanCommittee(cal, raws[i]).value in r
      ensures forall c :: c in r && c.name == CleanCommittee(cal, raws[i]).value.name ==> c == CleanCommittee(cal, raws[i]).value
    {
      FirstToCleanIsLoaded(cal, raws, i);
    }
  }
}

=== FILE: deadlines.dfy ===
/**
 * The deadline engine (src/lib/rules-engine/deadlines.ts): creating a
 * deadline from its kind, splitting the time left into days, hours and
 * minutes, rendering it as text and ranking its urgency. Instants are
 * milliseconds since the epoch; the current instant is a parameter.
 */
module Deadlines {
  import opened Wrappers
  import opened JsNum
  import Strings
  import BillMachine
  import Types

  const MsPerMinute: nat := 60000
  const MsPerHour: nat := 3600000
  const MsPerDay: nat := 86400000

  /** A created deadline: its kind, start and expiry instants and length in days. */
  datatype DeadlineInfo = DeadlineInfo(
    kind: string,
    startsAt: int,
    expiresAt: int,
    durationDays: nat,
    autoAction: Option<string>)

  /** The time left until a deadline, as `checkDeadline` reports it (the elapsed percentage aside). */
  datatype DeadlineCheck = DeadlineCheck(
    isExpired: bool,
    remainingMs: nat,
    remainingDays: nat,
    remainingHours: nat,
    remainingMinutes: nat)

  /** No kind in the duration table has a zero (falsy) length. */
  lemma DurationsPositive()
    ensures forall k :: k in BillMachine.DeadlineDurations ==> BillMachine.DeadlineDurations[k] > 0
  {
  }

  /**
   * The length in days of a deadline kind: its table entry, and 7 for a kind
   * the table lacks. This is the own-property reading of the lookup; the
   * as-written one is in JsLookup.
   */
  function DurationFor(kind: string): (d: nat)
    ensures d > 0
    ensures kind in BillMachine.DeadlineDurations ==> d == BillMachine.DeadlineDurations[kind]
    ensures kind !in BillMachine.DeadlineDurations ==> d == 7
  {
    DurationsPositive();
    if kind in BillMachine.DeadlineDurations && BillMachine.DeadlineDurations[kind] != 0
    then BillMachine.DeadlineDurations[kind]
    else 7
  }

  /** `addDays` taken as whole days of milliseconds. */
  function AddDays(instant: int, days: nat): (r: int)
    ensures r >= instant
    ensures FloorDiv(r - instant, MsPerDay) == days && JsRem(r - instant, MsPerDay) == 0
  {
    instant + days * MsPerDay
  }

  /** `createDeadline`: the deadline of `kind` that starts at `start`. */
  function CreateDeadline(kind: string, start: int, autoAction: Option<string>): (r: DeadlineInfo)
    ensures r.kind == kind && r.startsAt == start && r.autoAction == autoAction
    ensures r.durationDays == DurationFor(kind)
    ensures r.expiresAt - r.startsAt == r.durationDays * MsPerDay
  {
    var days := DurationFor(kind);
    DeadlineInfo(kind, start, AddDays(start, days), days, autoAction)
  }

  /** Every deadline a status declares is created with the length the status declares for it. */
  lemma CreatedLengthMatchesSpec(s: Types.BillStatus, billType: Types.BillType, start: int)
    ensures forall d :: d in BillMachine.ApplicableDeadlines(s, billType) ==>
      CreateDeadline(d.kind, start, None).durationDays == d.durationDays
  {
    BillMachine.SpecDurationsAgree();
  }

  /** A deadline of a kind the table lacks lasts a week. */
  lemma UnknownKindLastsAWeek(kind: string, start: int)
    requires kind !in BillMachine.DeadlineDurations
    ensures CreateDeadline(kind, start, None).expiresAt == start + 7 * MsPerDay
  {
  }

  /** Days, hours and minutes put back together, in milliseconds. */
  function Composed(c: DeadlineCheck): nat
  {
    c.remainingDays * MsPerDay + c.remainingHours * MsPerHour + c.remainingMinutes * MsPerMinute
  }

  /**
   * `checkDeadline` at instant `now`: expired once the expiry is reached; the
   * time left is never negative and is split into whole days, hours below 24
   * and minutes below 60 that add up to it to within a minute.
   */
  function CheckDeadline(expiresAt: int, now: int): (r: DeadlineCheck)
    ensures r.isExpired <==> expiresAt <= now
    ensures r.remainingMs == if expiresAt <= now then 0 else expiresAt - now
    ensures r.isExpired ==> r.remainingDays == 0 && r.remainingHours == 0 && r.remainingMinutes == 0
    ensures !r.isExpired ==> r.remainingHours < 24 && r.remainingMinutes < 60
    ensures !r.isExpired ==> Composed(r) <= r.remainingMs < Composed(r) + MsPerMinute
  {
    var remaining := expiresAt - now;
    var days := Max(0, FloorDiv(remaining, MsPerDay));
    var hours := Max(0, FloorDiv(JsRem(remaining, MsPerDay), MsPerHour));
    var minutes := Max(0, FloorDiv(JsRem(remaining, MsPerHour), MsPerMinute));
    if remaining <= 0 then
      NothingLeft(remaining);
      DeadlineCheck(true, 0, days, hours, minutes)
    else
      Breakdown(remaining);
      DeadlineCheck(false, remaining, days, hours, minutes)
  }

  /** Nothing is left of a non-positive time: every unit is clamped to zero. */
  lemma NothingLeft(remaining: int)
    requires remaining <= 0
    ensures Max(0, FloorDiv(remaining, MsPerDay)) == 0
    ensures Max(0, FloorDiv(JsRem(remaining, MsPerDay), MsPerHour)) == 0
    ensures Max(0, FloorDiv(JsRem(remaining, MsPerHour), MsPerMinute)) == 0
  {
  }

  /**
   * A positive time splits into whole days, hours below 24 and minutes below
   * 60 that add up to it to within a minute.
   */
  lemma Breakdown(a: int)
    requires a > 0
    ensures var days := FloorDiv(a, MsPerDay);
      var hours := FloorDiv(JsRem(a, MsPerDay), MsPerHour);
      var minutes := FloorDiv(JsRem(a, MsPerHour), MsPerMinute);
      days >= 0 && 0 <= hours < 24 && 0 <= minutes < 60
      && days * MsPerDay + hours * MsPerHour + minutes * MsPerMinute <= a
      && a < days * MsPerDay + hours * MsPerHour + minutes * MsPerMinute + MsPerMinute
  {
    var rd := a % MsPerDay;
    var hours := rd / MsPerHour;
    assert a == (a / MsPerDay) * MsPerDay + rd;
    assert rd % MsPerHour == a % MsPerHour;
    assert hours < 24;
  }

  /** "<a><u> <b><v> remaining", the two-unit form of the remaining-time text. */
  function TwoUnits(a: nat, u: char, b: nat, v: char): string
  {
    Strings.NatToString(a) + ([u, ' '] + (Strings.NatToString(b) + ([v] + " remaining")))
  }

  /** `formatRemainingTime` of a check. */
  function FormatRemaining(c: DeadlineCheck): string
  {
    if c.isExpired then "Expired"
    else if c.remainingDays > 0 then
      TwoUnits(c.remainingDays, 'd', c.remainingHours, 'h')
    else if c.remainingHours > 0 then
      TwoUnits(c.remainingHours, 'h', c.remainingMinutes, 'm')
    else
      Strings.NatToString(c.remainingMinutes) + "m remaining"
  }

  /** `formatRemainingTime(expiresAt)` at instant `now`. */
  function RemainingText(expiresAt: int, now: int): string
  {
    FormatRemaining(CheckDeadline(expiresAt, now))
  }

  /**
   * The text reads back: it is "Expired" exactly for an expired deadline,
   * and otherwise starts with the largest non-zero unit among days and
   * hours (minutes when both are zero), whose number is the one reported,
   * followed by the next smaller unit's number (hours after "d ", minutes
   * after "h ").
   */
  lemma RemainingTextReadsBack(expiresAt: int, now: int)
    ensures RemainingText(expiresAt, now) == "Expired" <==> expiresAt <= now
    ensures var c := CheckDeadline(expiresAt, now);
      !c.isExpired && c.remainingDays > 0 ==>
        Strings.ParseNat(Strings.BeforeFirst(RemainingText(expiresAt, now), "d")) == Some(c.remainingDays)
    ensures var c := CheckDeadline(expiresAt, now);
      !c.isExpired && c.remainingDays > 0 ==>
        Strings.ParseNat(Strings.BeforeFirst(Strings.AfterSep(RemainingText(expiresAt, now), "d "), "h"))
          == Some(c.remainingHours)
    ensures var c := CheckDeadline(expiresAt, now);
      !c.isExpired && c.remainingDays == 0 && c.remainingHours > 0 ==>
        Strings.ParseNat(Strings.BeforeFirst(RemainingText(expiresAt, now), "h")) == Some(c.remainingHours)
    ensures var c := CheckDeadline(expiresAt, now);
      !c.isExpired && c.remainingDays == 0 && c.remainingHours > 0 ==>
        Strings.ParseNat(Strings.BeforeFirst(Strings.AfterSep(RemainingText(expiresAt, now), "h "), "m"))
          == Some(c.remainingMinutes)
    ensures var c := CheckDeadline(expiresAt, now);
      !c.isExpired && c.remainingDays == 0 && c.remainingHours == 0 ==>
        Strings.ParseNat(Strings.BeforeFirst(RemainingText(expiresAt, now), "m")) == Some(c.remainingMinutes)
  {
    var c := CheckDeadline(expiresAt, now);
    var text := RemainingText(expiresAt, now);
    if !c.isExpired {
      assert Strings.IsAsciiDigit(text[0]);
      if c.remainingDays > 0 {
        TwoNumbersReadBack(c.remainingDays, c.remainingHours, 'd', 'h');
      } else if c.remainingHours > 0 {
        TwoNumbersReadBack(c.remainingHours, c.remainingMinutes, 'h', 'm');
      } else {
        Strings.BeforeFirstAfterNumber(c.remainingMinutes, "m remaining", "m");
        Strings.ParseNatToString(c.remainingMinutes);
      }
    }
  }

  /** Two numbers, each followed by a non-digit unit letter, read back one after the other. */
  lemma TwoNumbersReadBack(a: nat, b: nat, u: char, v: char)
    requires !Strings.IsAsciiDigit(u) && !Strings.IsAsciiDigit(v)
    ensures Strings.ParseNat(Strings.BeforeFirst(TwoUnits(a, u, b, v), [u])) == Some(a)
    ensures Strings.ParseNat(Strings.BeforeFirst(Strings.AfterSep(TwoUnits(a, u, b, v), [u, ' ']), [v])) == Some(b)
  {
    var tail := Strings.NatToString(b) + ([v] + " remaining");
    Strings.NumberReadsBack(a, [u, ' '] + tail, [u]);
    Strings.AfterSepAfterNumber(a, [u, ' '], tail);
    Strings.NumberReadsBack(b, [v] + " remaining", [v]);
  }

  datatype Urgency = Expired | Critical | Warning | Normal

  /** `getDeadlineUrgency` of a check. */
  function UrgencyOf(c: DeadlineCheck): Urgency
  {
    if c.isExpired then Expired
    else if c.remainingDays == 0 && c.remainingHours < 6 then Critical
    else if c.remainingDays <= 1 then Warning
    else Normal
  }

  /** `getDeadlineUrgency(expiresAt)` at instant `now`. */
  function DeadlineUrgency(expiresAt: int, now: int): Urgency
  {
    UrgencyOf(CheckDeadline(expiresAt, now))
  }

  /**
   * The tiers in terms of the time left: critical below six hours, warning
   * below two days, normal from two days on.
   */
  lemma UrgencyTiers(expiresAt: int, now: int)
    ensures DeadlineUrgency(expiresAt, now) == Expired <==> expiresAt - now <= 0
    ensures DeadlineUrgency(expiresAt, now) == Critical <==> 0 < expiresAt - now < 6 * MsPerHour
    ensures DeadlineUrgency(expiresAt, now) == Warning <==> 6 * MsPerHour <= expiresAt - now < 2 * MsPerDay
    ensures DeadlineUrgency(expiresAt, now) == Normal <==> 2 * MsPerDay <= expiresAt - now
  {
  }

  /** How pressing a tier is: 0 for normal up to 3 for expired. */
  function Rank(u: Urgency): nat
  {
    match u
    case Normal => 0
    case Warning => 1
    case Critical => 2
    case Expired => 3
  }

  /** As time passes a deadline never becomes less urgent. */
  lemma UrgencyMonotone(expiresAt: int, now: int, later: int)
    requires now <= later
    ensures Rank(DeadlineUrgency(expiresAt, now)) <= Rank(DeadlineUrgency(expiresAt, later))
  {
    UrgencyTiers(expiresAt, now);
    UrgencyTiers(expiresAt, later);
  }

  /** One row of `getDeadlineRulesDescription`. */
  datatype DeadlineRule = DeadlineRule(rule: string, duration: string, description: string)

  /** `getDeadlineRulesDescription`: the seven constitutional time limits, in display order. */
  const DeadlineRules: seq<DeadlineRule> := [
    DeadlineRule("Government Bill Notice", "2 days", "Notice period before first reading of a government bill"),
    DeadlineRule("Private Bill Notice", "4 days", "Notice period before first reading of a private member bill"),
    DeadlineRule("Amendment Window", "72 hours", "Duration for members to propose amendments"),
    DeadlineRule("NA Money Bill Return", "15 days", "National Assembly must return money bills within 15 days"),
    DeadlineRule("NA Other Bill Return", "2 months", "National Assembly must return non-money bills within 2 months"),
    DeadlineRule("Presidential Assent", "15 days", "President must act on a bill within 15 days"),
    DeadlineRule("Presidential Return Window", "50 days", "Window for returning a non-money bill to the house")
  ]

  /** A length as the rules phrase it. */
  datatype Span = Days(n: nat) | Hours(n: nat) | Months(n: nat)

  function SpanText(d: Span): string
  {
    match d
    case Days(n) => Strings.NatToString(n) + " days"
    case Hours(n) => Strings.NatToString(n) + " hours"
    case Months(n) => Strings.NatToString(n) + " months"
  }

  /** A span in days, reading a month as 30 days as the duration table does. */
  function SpanDays(d: Span): nat
  {
    match d
    case Days(n) => n
    case Hours(n) => n / 24
    case Months(n) => 30 * n
  }

  /** The table kind each rule row describes, row by row. */
  const RuleKinds: seq<string> := [
    "GOVERNMENT_BILL_NOTICE", "PRIVATE_BILL_NOTICE", "AMENDMENT_WINDOW", "NA_MONEY_BILL_RETURN",
    "NA_OTHER_BILL_RETURN", "PRESIDENTIAL_ASSENT", "PRESIDENTIAL_RETURN_WINDOW"
  ]

  /** The span each rule row states, row by row. */
  const RuleSpans: seq<Span> := [Days(2), Days(4), Hours(72), Days(15), Months(2), Days(15), Days(50)]

  /** Each rule row describes one distinct table kind. */
  lemma RuleKindsCoverTable()
    ensures |RuleKinds| == |DeadlineRules| == |RuleSpans| == 7
    ensures forall k :: k in BillMachine.DeadlineDurations <==> k in RuleKinds
  {
  }

  /** Each rule row states its length as its span, a whole number of days. */
  lemma RuleTextsAreSpans(i: nat)
    requires i < 7
    ensures DeadlineRules[i].duration == SpanText(RuleSpans[i])
    ensures RuleSpans[i].Hours? ==> RuleSpans[i].n % 24 == 0
  {
    match i
    case 0 => assert SpanText(Days(2)) == "2 days";
    case 1 => assert SpanText(Days(4)) == "4 days";
    case 2 => assert SpanText(Hours(72)) == "72 hours";
    case 3 => assert SpanText(Days(15)) == "15 days";
    case 4 => assert SpanText(Months(2)) == "2 months";
    case 5 => assert SpanText(Days(15)) == "15 days";
    case 6 => assert SpanText(Days(50)) == "50 days";
  }

  /** Each rule row's span, in days, is the table's duration for its kind. */
  lemma RuleSpansMatchTable(i: nat)
    requires i < 7
    ensures SpanDays(RuleSpans[i]) == DurationFor(RuleKinds[i])
  {
  }
}

=== FILE: import_bills.dfy ===
/**
 * The mapping layer of the bill import (src/scripts/importBillsFromJson.ts):
 * how one cleaned, scraped bill record becomes a stored bill row and its
 * status-history rows. The database upsert itself is not modelled.
 */
module ImportBills {
  import opened Wrappers
  import Seqs
  import Strings
  import opened LibTypes

  /** A cleaned record as the scraper writes it; absent keys are `None`. */
  datatype CleanedBill = CleanedBill(
    billId: string,
    house: Option<string>,
    titleNp: Option<string>,
    titleEn: Option<string>,
    registrationNumber: Option<string>,
    year: Option<string>,
    sambat: Option<string>,
    presenter: Option<string>,
    ministry: Option<string>,
    session: Option<string>,
    governmentType: Option<string>,
    billType: Option<string>,
    resourceLink: Option<string>,
    currentStatus: Option<string>,
    statusTimeline: Option<seq<TimelineEntry>>)

  datatype TimelineEntry = TimelineEntry(text: string, date: string)

  /** A JavaScript string value that is present and non-empty, i.e. truthy. */
  predicate Truthy(s: Option<string>)
  {
    s.Some? && s.value != ""
  }

  /**
   * `part` is what `year.split("-")[0].split("/")[0]` yields: a prefix of
   * `year` holding neither separator that ends at the end of `year` or at
   * a separator.
   */
  predicate YearPart(year: string, part: string)
  {
    Strings.StartsWith(year, part) && '-' !in part && '/' !in part &&
    (|part| == |year| || year[|part|] == '-' || year[|part|] == '/')
  }

  /** There is only one such part: it stops at the first separator. */
  lemma YearPartUnique(year: string, p: string, q: string)
    requires YearPart(year, p) && YearPart(year, q)
    ensures p == q
  {
  }

  /** `year.split("-")[0].split("/")[0]`. */
  function YearPartText(year: string): string
  {
    Strings.BeforeFirst(Strings.BeforeFirst(year, "-"), "/")
  }

  lemma YearPartTextFacts(year: string)
    requires year != []
    ensures var part := YearPartText(year);
      YearPart(year, part)
      && !Strings.Contains(part, "-") && !Strings.Contains(part, "/")
      && (part == [] <==> year[0] == '-' || year[0] == '/')
  {
    var part := YearPartText(year);
    YearPartHasNoDash(year);
    Strings.ContainsChar(part, '-');
    Strings.ContainsChar(part, '/');
    YearPartEnds(year);
  }

  /** Cutting at the first "/" keeps the text free of "-". */
  lemma YearPartHasNoDash(year: string)
    ensures !Strings.Contains(YearPartText(year), "-")
  {
    var a := Strings.BeforeFirst(year, "-");
    var part := Strings.BeforeFirst(a, "/");
    Strings.ContainsChar(a, '-');
    Strings.ContainsChar(part, '-');
    assert forall i :: 0 <= i < |part| ==> part[i] == a[i];
  }

  /** The cut text opens the year and stops at its end or at a separator. */
  lemma YearPartEnds(year: string)
    ensures var part := YearPartText(year);
      Strings.StartsWith(year, part)
      && (|part| == |year| || year[|part|] == '-' || year[|part|] == '/')
  {
    var a := Strings.BeforeFirst(year, "-");
    var part := Strings.BeforeFirst(a, "/");
    assert part == year[..|part|] by {
      assert a == year[..|a|];
      assert part == a[..|part|];
    }
    if Strings.Contains(a, "/") {
      assert a[|part|..|part| + 1] == "/";
      assert year[|part|] == a[|part|];
    } else if Strings.Contains(year, "-") {
      assert year[|a|..|a| + 1] == "-";
    }
  }

  /**
   * `normalizeYear`: a non-empty Bikram Sambat year wins; otherwise the part
   * of `year` before the first '-' and then before the first '/', or nothing
   * when that part is empty.
   */
  function NormalizeYear(year: Option<string>, sambat: Option<string>): (r: Option<string>)
    ensures Truthy(sambat) ==> r == sambat
    ensures !Truthy(sambat) && !Truthy(year) ==> r.None?
    ensures r.Some? ==> r.value != []
    ensures !Truthy(sambat) && r.Some? ==>
      Strings.StartsWith(year.value, r.value) && !Strings.Contains(r.value, "-") && !Strings.Contains(r.value, "/")
    ensures !Truthy(sambat) && r.Some? ==> YearPart(year.value, r.value)
    ensures !Truthy(sambat) && Truthy(year) ==> (r.None? <==> year.value[0] == '-' || year.value[0] == '/')
  {
    if Truthy(sambat) then sambat
    else if !Truthy(year) then None
    else
      var part := YearPartText(year.value);
      YearPartTextFacts(year.value);
      if part == [] then None else Some(part)
  }

  /** A year with no separator is kept whole. */
  lemma NormalizeYearPlain(year: string)
    requires year != [] && !Strings.Contains(year, "-") && !Strings.Contains(year, "/")
    ensures NormalizeYear(Some(year), None) == Some(year)
  {
  }

  /** `mapHouse`: only the scraper's exact house codes are recognised. */
  function MapHouse(t: Option<string>): (r: Option<BillHouse>)
    ensures r == Some(PratinidhiSabha) <==> t == Some("HoR")
    ensures r == Some(RastriyaSabha) <==> t == Some("NA")
  {
    if t == Some("HoR") then Some(PratinidhiSabha)
    else if t == Some("NA") then Some(RastriyaSabha)
    else None
  }

  /** `mapHouse` reads back what `formatHouseShort` writes. */
  lemma MapHouseInvertsShortName(h: BillHouse)
    ensures MapHouse(Some(FormatHouseShort(Some(h)))) == Some(h)
  {
  }

  /** The Nepali words the bill-kind and category fields are searched for. */
  const OriginalWord: string := "मूल"
  const AmendmentWord: string := "संशोधन"
  const NonGovernmentalWord: string := "गैर"

  /** `mapBillType`: "original" wins over "amendment" when both words occur. */
  function MapBillType(raw: Option<string>): (r: Option<DbBillType>)
    ensures r == Some(Original) <==> raw.Some? && Strings.Contains(raw.value, OriginalWord)
    ensures r == Some(Amendment) <==>
      raw.Some? && !Strings.Contains(raw.value, OriginalWord) && Strings.Contains(raw.value, AmendmentWord)
  {
    if !Truthy(raw) then None
    else if Strings.Contains(raw.value, OriginalWord) then Some(Original)
    else if Strings.Contains(raw.value, AmendmentWord) then Some(Amendment)
    else None
  }

  /** `mapCategory`: any non-empty text is a category, non-governmental when it says so. */
  function MapCategory(governmentType: Option<string>): (r: Option<BillCategory>)
    ensures r.None? <==> !Truthy(governmentType)
    ensures r == Some(NonGovernmental) <==> governmentType.Some? && Strings.Contains(governmentType.value, NonGovernmentalWord)
  {
    if !Truthy(governmentType) then None
    else if Strings.Contains(governmentType.value, NonGovernmentalWord) then Some(NonGovernmental)
    else Some(Governmental)
  }

  /** RAW_STATUS_MAP as an own-key lookup: the status a trimmed, lower-cased scraped label names. */
  function LookupRawStatus(key: string): Option<DbStatus>
  {
    if key == "distribution to member" then Some(Registered)
    else if key == "present in house of representatives" then Some(FirstReading)
    else if key == "general discussion" then Some(GeneralDiscussion)
    else if key == "discussion in house" then Some(AmendmentWindow)
    else if key == "discussion in committee" then Some(CommitteeReview)
    else if key == "report submitted by committee" then Some(ClauseVoting)
    else if key == "passed by house" then Some(FirstHousePassed)
    else if key == "passed/return by national assembly" then Some(SecondHouse)
    else if key == "homepage.present_in_assembly" then Some(SecondHouse)
    else if key == "homepage.assembly_passed" then Some(SecondHouse)
    else if key == "repassed" then Some(JointSitting)
    else None
  }

  /** The scraped labels never reach the authentication or post-implementation steps. */
  lemma RawStatusMapStopsAtJointSitting()
    ensures forall key :: LookupRawStatus(key).Some? ==> DbOrdinal(LookupRawStatus(key).value) <= DbOrdinal(JointSitting)
  {
  }

  /** Three labels name the second house, every other status has at most one label. */
  lemma RawStatusLabelsOfSecondHouse(key: string)
    ensures LookupRawStatus(key) == Some(SecondHouse) <==>
      key == "passed/return by national assembly" || key == "homepage.present_in_assembly" || key == "homepage.assembly_passed"
  {
  }

  /** The lookup key of a raw label: trimmed of JavaScript whitespace, then lower-cased. */
  function RawStatusKey(raw: string): string
  {
    Strings.ToLowerAscii(Strings.Trim(raw, Strings.IsJsWhitespace))
  }

  /**
   * `mapRawStatus`: a missing or empty label maps to nothing; otherwise the
   * trimmed, lower-cased label is looked up, and only a listed label maps.
   */
  function MapRawStatus(raw: Option<string>): (r: Option<DbStatus>)
    ensures !Truthy(raw) ==> r.None?
    ensures Truthy(raw) ==> r == LookupRawStatus(RawStatusKey(raw.value))
    ensures r.Some? ==> LookupRawStatus(RawStatusKey(raw.value)) == r
    ensures r.Some? ==> DbOrdinal(r.value) <= DbOrdinal(JointSitting)
  {
    RawStatusMapStopsAtJointSitting();
    if !Truthy(raw) then None else LookupRawStatus(RawStatusKey(raw.value))
  }

  /** Surrounding whitespace does not change the mapped status. */
  lemma MapRawStatusIgnoresPadding(pre: string, s: string, post: string)
    requires Strings.AllOf(pre, Strings.IsJsWhitespace) && Strings.AllOf(post, Strings.IsJsWhitespace)
    ensures MapRawStatus(Some(pre + s + post)) == MapRawStatus(Some(s))
  {
    Strings.TrimIgnoresPadding(pre, s, post, Strings.IsJsWhitespace);
    if s == [] {
      assert Strings.Trim(s, Strings.IsJsWhitespace) == [];
    }
  }

  /** Letter case does not change the mapped status. */
  lemma MapRawStatusIgnoresCase(s: string)
    ensures MapRawStatus(Some(Strings.ToLowerAscii(s))) == MapRawStatus(Some(s))
  {
    Strings.TrimLower(s, Strings.IsJsWhitespace);
    Strings.LowerIdempotent(Strings.Trim(s, Strings.IsJsWhitespace));
  }

  /**
   * A label whose lower-cased form is a listed key maps to that key's
   * status, whatever its capitalisation and surrounding whitespace.
   */
  lemma ListedLabelMaps(pre: string, text: string, post: string)
    requires Strings.AllOf(pre, Strings.IsJsWhitespace) && Strings.AllOf(post, Strings.IsJsWhitespace)
    requires text != [] && !Strings.IsJsWhitespace(text[0]) && !Strings.IsJsWhitespace(text[|text| - 1])
    requires LookupRawStatus(Strings.ToLowerAscii(text)).Some?
    ensures MapRawStatus(Some(pre + text + post)) == LookupRawStatus(Strings.ToLowerAscii(text))
  {
    MapRawStatusIgnoresPadding(pre, text, post);
    Strings.TrimOfTrimmed(text, Strings.IsJsWhitespace);
  }

  /** `statusToPhase`: the roadmap phase (2 to 6) a stored status belongs to. */
  function StatusToPhase(s: DbStatus): (p: nat)
    ensures 2 <= p <= 6
  {
    match s
    case Registered => 2
    case FirstReading => 2
    case GeneralDiscussion => 2
    case AmendmentWindow => 2
    case CommitteeReview => 3
    case ClauseVoting => 3
    case FirstHousePassed => 3
    case SecondHouse => 4
    case JointSitting => 4
    case SpeakerCertification => 5
    case Assented => 5
    case GazettePublished => 5
    case AmendmentOrRepeal => 6
  }

  /** The phase never decreases along the enum order. */
  lemma StatusToPhaseMonotone(a: DbStatus, b: DbStatus)
    requires DbOrdinal(a) <= DbOrdinal(b)
    ensures StatusToPhase(a) <= StatusToPhase(b)
  {
  }

  /** A record is imported only with a non-empty bill id and registration number. */
  predicate IsImportable(b: CleanedBill)
  {
    b.billId != "" && Truthy(b.registrationNumber)
  }

  /** The records the import goes on with, in input order. */
  function ImportableBills(data: seq<CleanedBill>): (r: seq<CleanedBill>)
    ensures Seqs.IsSubsequence(r, data)
    ensures forall b :: b in r <==> b in data && IsImportable(b)
  {
    Seqs.FilterIsSubsequence(data, IsImportable);
    Seqs.Filter(data, IsImportable)
  }

  /** The stored bill row built from one record (timestamps left out). */
  datatype BillRow = BillRow(
    parliamentId: string,
    registrationNo: string,
    year: string,
    session: Option<string>,
    titleNp: string,
    titleEn: string,
    presenter: Option<string>,
    ministry: Option<string>,
    house: Option<BillHouse>,
    billType: Option<DbBillType>,
    category: Option<BillCategory>,
    registeredDateBs: Option<string>,
    registeredBillUrl: Option<string>,
    currentStatus: Option<DbStatus>,
    currentPhase: Option<nat>)

  /** The row upserted for an importable record. */
  function ToBillRow(b: CleanedBill): (row: BillRow)
    requires IsImportable(b)
    ensures row.parliamentId == b.billId && row.registrationNo == b.registrationNumber.value
    ensures row.currentPhase.None? <==> row.currentStatus.None?
    ensures row.currentPhase.Some? ==> 2 <= row.currentPhase.value <= 6
    ensures row.currentStatus == MapRawStatus(b.currentStatus)
    ensures row.house == MapHouse(b.house) && row.registeredDateBs == b.year
    ensures row.year == NormalizeYear(b.year, b.sambat).GetOr("")
    ensures row.titleNp == b.titleNp.GetOr("") && row.titleEn == b.titleEn.GetOr("")
    ensures row.billType == MapBillType(b.billType) && row.category == MapCategory(b.governmentType)
    ensures row.session == b.session && row.presenter == b.presenter && row.ministry == b.ministry
    ensures row.registeredBillUrl == b.resourceLink
    ensures row.currentStatus.Some? ==> row.currentPhase == Some(StatusToPhase(row.currentStatus.value))
  {
    var status := MapRawStatus(b.currentStatus);
    BillRow(
      b.billId, b.registrationNumber.value, NormalizeYear(b.year, b.sambat).GetOr(""),
      b.session, b.titleNp.GetOr(""), b.titleEn.GetOr(""), b.presenter, b.ministry,
      MapHouse(b.house), MapBillType(b.billType), MapCategory(b.governmentType),
      b.year, b.resourceLink, status,
      if status.Some? then Some(StatusToPhase(status.value)) else None)
  }

  /** One status-history row. */
  datatype HistoryRow = HistoryRow(status: DbStatus, rawStatus: string, statusDateBs: Option<string>)

  /** A timeline entry whose label maps to a status. */
  predicate EntryMaps(e: TimelineEntry)
  {
    MapRawStatus(Some(e.text)).Some?
  }

  /** The history row stored for a timeline entry whose label maps; an empty date is stored as none. */
  function RowOf(e: TimelineEntry): (row: HistoryRow)
    requires EntryMaps(e)
    ensures Some(row.status) == MapRawStatus(Some(e.text)) && row.rawStatus == e.text
    ensures row.statusDateBs.None? <==> e.date == ""
  {
    HistoryRow(MapRawStatus(Some(e.text)).value, e.text, if e.date == "" then None else Some(e.date))
  }

  /**
   * The history rows of a timeline: exactly the entries whose label maps,
   * in timeline order, one row each.
   */
  function TimelineHistory(entries: seq<TimelineEntry>): (rows: seq<HistoryRow>)
    ensures |rows| == Seqs.Count(entries, EntryMaps)
    ensures forall i :: 0 <= i < |rows| ==>
      EntryMaps(Seqs.Filter(entries, EntryMaps)[i]) && rows[i] == RowOf(Seqs.Filter(entries, EntryMaps)[i])
    decreases |entries|
  {
    if entries == [] then []
    else if EntryMaps(entries[0]) then [RowOf(entries[0])] + TimelineHistory(entries[1..])
    else TimelineHistory(entries[1..])
  }
}

=== FILE: js_lookup.dfy ===
/**
 * Property lookup on a JavaScript object literal. Four lookups in the system
 * index a plain object with a text that comes from outside: `obj[key]` finds
 * the object's own entries, and also the members every plain object inherits
 * from `Object.prototype`. This module models that lookup as written, shows
 * for each of the four what an inherited name does, and proves that for every
 * other key the as-written lookup agrees with the own-key lookup the rest of
 * the model uses.
 */
module JsLookup {
  import opened Wrappers
  import opened Types
  import opened LibTypes
  import BillMachine
  import Deadlines
  import ImportBills
  import LandingShared
  import Strings

  /** The names a plain object inherits from `Object.prototype`. */
  const PrototypeNames: set<string> := {
    "constructor", "hasOwnProperty", "isPrototypeOf", "propertyIsEnumerable",
    "toString", "toLocaleString", "valueOf", "__proto__",
    "__defineGetter__", "__defineSetter__", "__lookupGetter__", "__lookupSetter__"
  }

  /** What `obj[key]` reads: an own entry, an inherited member (a function, or the prototype object), or `undefined`. */
  datatype Looked<V> = Own(v: V) | Inherited(name: string) | Missing

  /** `obj[key]` on a plain object whose own entry for `key` is `own`. */
  function Lookup<V>(own: Option<V>, key: string): (r: Looked<V>)
    ensures r.Own? <==> own.Some?
    ensures r.Own? ==> r.v == own.value
    ensures r.Inherited? <==> own.None? && key in PrototypeNames
  {
    if own.Some? then Own(own.value)
    else if key in PrototypeNames then Inherited(key)
    else Missing
  }

  /** Outside the inherited names the lookup reads exactly the own entries. */
  lemma LookupIsOwnElsewhere<V>(own: Option<V>, key: string)
    requires key !in PrototypeNames
    ensures own.Some? ==> Lookup(own, key) == Own(own.value)
    ensures own.None? ==> Lookup(own, key) == Missing
  {
  }

  // ---- getAvailableTransitions (src/lib/state-machine/bill-machine.ts) ----

  /** The catalogue entry of a status identifier, as an own entry of BILL_STATE_MACHINE. */
  function StateEntry(key: string): Option<BillStatus>
  {
    ParseStatus(key)
  }

  /**
   * `getAvailableTransitions` as written: a missing entry gives no
   * transitions, and an inherited member has no `transitions` list, so
   * filtering it throws a TypeError.
   */
  function AvailableAsWritten(key: string, role: UserRole, billType: BillType): (r: Result<seq<BillMachine.Transition>, string>)
    ensures r.Failure? <==> key in PrototypeNames
    ensures r.Failure? ==> r.error == "TypeError"
    ensures forall s :: key == StatusKey(s) ==> r == Success(BillMachine.AvailableTransitions(s, role, billType))
  {
    match ParseStatus(key)
    case Some(s) =>
      ParseStatusKey(s, key);
      StatusKeysNotInherited(s);
      assert forall u :: key == StatusKey(u) ==> u == s by {
        forall u | key == StatusKey(u) ensures u == s {
          ParseStatusKey(u, key);
        }
      }
      Success(BillMachine.AvailableTransitions(s, role, billType))
    case None =>
      assert forall u :: key != StatusKey(u) by {
        forall u ensures key != StatusKey(u) {
          ParseStatusKey(u, key);
        }
      }
      if key in PrototypeNames then Failure("TypeError") else Success([])
  }

  /** The as-written lookup reads an own entry, an inherited member or nothing, as `Lookup` says. */
  lemma AvailableFollowsLookup(key: string, role: UserRole, billType: BillType)
    ensures Lookup(StateEntry(key), key).Inherited? <==> AvailableAsWritten(key, role, billType).Failure?
    ensures Lookup(StateEntry(key), key).Missing? ==> AvailableAsWritten(key, role, billType) == Success([])
  {
    if ParseStatus(key).Some? {
      ParseStatusKey(ParseStatus(key).value, key);
      StatusKeysNotInherited(ParseStatus(key).value);
    }
  }

  /** No status identifier is an inherited name. */
  lemma StatusKeysNotInherited(s: BillStatus)
    ensures StatusKey(s) !in PrototypeNames
  {
  }

  /** "toString" is no status, yet the lookup as written throws where the own-key lookup gives no transitions. */
  lemma ToStringStatusThrows(role: UserRole, billType: BillType)
    ensures AvailableAsWritten("toString", role, billType).Failure?
    ensures BillMachine.AvailableForKey("toString", role, billType) == []
  {
    forall u ensures "toString" != StatusKey(u) {
      StatusKeysNotInherited(u);
    }
    assert ParseStatus("toString").None? by {
      if ParseStatus("toString").Some? {
        ParseStatusKey(ParseStatus("toString").value, "toString");
      }
    }
  }

  /** For every key outside the inherited names the as-written lookup agrees with the own-key one. */
  lemma AvailableAgreesElsewhere(key: string, role: UserRole, billType: BillType)
    requires key !in PrototypeNames
    ensures AvailableAsWritten(key, role, billType) == Success(BillMachine.AvailableForKey(key, role, billType))
  {
    match ParseStatus(key)
    case None =>
    case Some(s) => ParseStatusKey(s, key);
  }

  // ---- createDeadline (src/lib/rules-engine/deadlines.ts) ----

  /** The own entry of DEADLINE_DURATIONS for a deadline kind. */
  function DurationEntry(kind: string): Option<nat>
  {
    if kind in BillMachine.DeadlineDurations then Some(BillMachine.DeadlineDurations[kind]) else None
  }

  /** The `durationDays` value of a created deadline: a number of days, or the inherited member itself. */
  datatype DurationValue = Days(n: nat) | MemberValue(name: string)

  /**
   * `DEADLINE_DURATIONS[type] || 7` as written: an own entry of zero and a
   * missing one fall back to 7, and an inherited member is truthy, so it is
   * kept.
   */
  function DurationAsWritten(kind: string): (d: DurationValue)
    ensures d.MemberValue? <==> Lookup(DurationEntry(kind), kind).Inherited?
    ensures d.Days? ==> d.n > 0
  {
    match Lookup(DurationEntry(kind), kind)
    case Own(n) => if n != 0 then Days(n) else Days(7)
    case Inherited(name) => MemberValue(name)
    case Missing => Days(7)
  }

  /** `addDays` of that value: the instant some days on, or an invalid date (`None`) for a value that is no number. */
  function ExpiryAsWritten(kind: string, start: int): (r: Option<int>)
    ensures r.None? <==> DurationAsWritten(kind).MemberValue?
    ensures r.Some? ==> r.value == start + DurationAsWritten(kind).n * Deadlines.MsPerDay
  {
    match DurationAsWritten(kind)
    case Days(n) => Some(Deadlines.AddDays(start, n))
    case MemberValue(_) => None
  }

  /** A deadline of kind "constructor" gets no expiry as written, and a week with the own-key lookup. */
  lemma ConstructorKindHasNoExpiry(start: int)
    ensures ExpiryAsWritten("constructor", start).None?
    ensures Deadlines.CreateDeadline("constructor", start, None).durationDays == 7
  {
    assert "constructor" !in BillMachine.DeadlineDurations;
  }

  /** For every kind outside the inherited names the as-written duration and expiry are the own-key ones. */
  lemma DurationAgreesElsewhere(kind: string, start: int)
    requires kind !in PrototypeNames
    ensures DurationAsWritten(kind) == Days(Deadlines.DurationFor(kind))
    ensures ExpiryAsWritten(kind, start) == Some(Deadlines.CreateDeadline(kind, start, None).expiresAt)
  {
  }

  // ---- mapRawStatus (src/scripts/importBillsFromJson.ts) ----

  /** The result of `mapRawStatus`: a status, `null`, or an inherited member. */
  datatype MappedStatus = Status(s: DbStatus) | NoStatus | MemberStatus(name: string)

  /**
   * `mapRawStatus` as written: the trimmed, lower-cased label indexes
   * RAW_STATUS_MAP, and `?? null` lets an inherited member through.
   */
  function MapRawStatusAsWritten(raw: Option<string>): (r: MappedStatus)
    ensures r.MemberStatus? <==> (ImportBills.Truthy(raw) && ImportBills.RawStatusKey(raw.value) in PrototypeNames
      && ImportBills.LookupRawStatus(ImportBills.RawStatusKey(raw.value)).None?)
  {
    if !ImportBills.Truthy(raw) then NoStatus
    else
      var key := ImportBills.RawStatusKey(raw.value);
      match Lookup(ImportBills.LookupRawStatus(key), key)
      case Own(s) => Status(s)
      case Inherited(name) => MemberStatus(name)
      case Missing => NoStatus
  }

  /** A label whose key is an inherited name maps, as written, to that member rather than to nothing. */
  lemma InheritedLabelMapsToMember(raw: string)
    requires raw != [] && ImportBills.RawStatusKey(raw) in PrototypeNames
    requires ImportBills.LookupRawStatus(ImportBills.RawStatusKey(raw)).None?
    ensures MapRawStatusAsWritten(Some(raw)) == MemberStatus(ImportBills.RawStatusKey(raw))
    ensures ImportBills.MapRawStatus(Some(raw)).None?
  {
  }

  /** The label "constructor" is one of them. */
  lemma ConstructorLabelMapsToMember(raw: string)
    requires raw == "constructor"
    ensures MapRawStatusAsWritten(Some(raw)) == MemberStatus(raw)
    ensures ImportBills.MapRawStatus(Some(raw)).None?
  {
    PlainLabelIsItsKey(raw);
    ConstructorIsNoLabel();
    InheritedLabelMapsToMember(raw);
  }

  lemma ConstructorIsNoLabel()
    ensures ImportBills.LookupRawStatus("constructor").None? && "constructor" in PrototypeNames
  {
  }

  /** A lower-case label without surrounding whitespace is its own lookup key. */
  lemma PlainLabelIsItsKey(s: string)
    requires s != [] && !Strings.IsJsWhitespace(s[0]) && !Strings.IsJsWhitespace(s[|s| - 1])
    requires forall i :: 0 <= i < |s| ==> !('A' <= s[i] <= 'Z')
    ensures ImportBills.RawStatusKey(s) == s
  {
    Strings.TrimOfTrimmed(s, Strings.IsJsWhitespace);
    Strings.LowerKeepsLower(s);
  }

  /** For every label whose key is no inherited name the as-written mapping is the own-key one. */
  lemma MapRawStatusAgreesElsewhere(raw: Option<string>)
    requires raw.Some? ==> ImportBills.RawStatusKey(raw.value) !in PrototypeNames
    ensures MapRawStatusAsWritten(raw) == (if ImportBills.MapRawStatus(raw).Some? then Status(ImportBills.MapRawStatus(raw).value) else NoStatus)
  {
  }

  // ---- sourceDisplayName (src/components/landingpage/shared.tsx) ----

  /** What `sourceDisplayName` returns: a text, or an inherited member. */
  datatype Shown = Text(text: string) | MemberShown(name: string)

  /**
   * `sourceDisplayName` as written: `src ?? ""` indexes the caption object,
   * and `?? String(src ?? "Unknown")` falls back only when the lookup is
   * `undefined`, so an inherited member is returned itself.
   */
  function SourceDisplayNameAsWritten(src: Option<string>): (r: Shown)
    ensures r.MemberShown? <==> src.Some? && src.value in PrototypeNames && LandingShared.SourceCaption(src.value).None?
  {
    var key := if src.Some? then src.value else "";
    match Lookup(LandingShared.SourceCaption(key), key)
    case Own(c) => Text(c)
    case Inherited(name) => MemberShown(name)
    case Missing => Text(if src.Some? then src.value else "Unknown")
  }

  /** The source "toString" shows, as written, a function instead of a text. */
  lemma ToStringSourceShowsMember()
    ensures SourceDisplayNameAsWritten(Some("toString")) == MemberShown("toString")
    ensures LandingShared.SourceDisplayName(Some("toString")) == "toString"
  {
    assert LandingShared.SourceCaption("toString").None?;
  }

  /** For every source outside the inherited names the as-written text is the own-key one. */
  lemma SourceDisplayNameAgreesElsewhere(src: Option<string>)
    requires src.Some? ==> src.value !in PrototypeNames
    ensures SourceDisplayNameAsWritten(src) == Text(LandingShared.SourceDisplayName(src))
  {
  }
}

=== FILE: js_num.dfy ===
/**
 * The JavaScript integer operations the model relies on, over unbounded
 * integers: `%` (which truncates toward zero), `Math.floor`/`Math.ceil` of a
 * quotient by a positive divisor, and `Math.max`/`Math.min`.
 */
module JsNum {

  function Max(a: int, b: int): (r: int)
    ensures r >= a && r >= b && (r == a || r == b)
  {
    if a >= b then a else b
  }

  function Min(a: int, b: int): (r: int)
    ensures r <= a && r <= b && (r == a || r == b)
  {
    if a <= b then a else b
  }

  /** JavaScript `a % b` for a positive divisor: the remainder takes the sign of `a`. */
  function JsRem(a: int, b: int): (r: int)
    requires b > 0
    ensures -b < r < b
    ensures a >= 0 ==> 0 <= r
    ensures a <= 0 ==> r <= 0
    ensures a >= 0 ==> r == a % b
  {
    if a >= 0 then a % b else -((-a) % b)
  }

  /** The JavaScript remainder is odd in its dividend, unlike the Euclidean one. */
  lemma JsRemOdd(a: int, b: int)
    requires b > 0
    ensures JsRem(-a, b) == -JsRem(a, b)
  {
  }

  /** `Math.floor(a / b)` for a positive divisor. */
  function FloorDiv(a: int, b: int): (q: int)
    requires b > 0
    ensures q * b <= a < q * b + b
  {
    a / b
  }

  /** `Math.ceil(a / b)` for a positive divisor. */
  function CeilDiv(a: int, b: int): (q: int)
    requires b > 0
    ensures q * b - b < a <= q * b
  {
    -((-a) / b)
  }
}

=== FILE: js_number.dfy ===
/**
 * JavaScript's `Number(text)` (the StringToNumber conversion of ECMAScript
 * section 7.1.4.1.1) over exact values: the text, trimmed of white space, is
 * empty (zero), a decimal literal with optional sign, fraction and exponent,
 * `Infinity` with optional sign, or a `0x`/`0o`/`0b` integer; anything else
 * is NaN. A finite result is kept as an exact `real`, without the rounding to
 * a double.
 */
module JsNumber {
  import opened Wrappers
  import opened Strings

  /** A JavaScript number value (negative zero is not told apart from zero). */
  datatype Number = NaN | PosInf | NegInf | Finite(value: real)

  /** JavaScript truthiness of a number: everything but NaN and zero. */
  predicate Truthy(n: Number)
  {
    !n.NaN? && n != Finite(0.0)
  }

  /** `Number.isInteger`. */
  predicate IsInteger(n: Number)
  {
    n.Finite? && n.value.Floor as real == n.value
  }

  /** Unary minus. */
  function Negate(n: Number): (r: Number)
    ensures r.Finite? <==> n.Finite?
    ensures n.Finite? ==> r.value == -n.value
  {
    match n
    case NaN => NaN
    case PosInf => NegInf
    case NegInf => PosInf
    case Finite(v) => Finite(-v)
  }

  function Pow10(n: nat): (p: nat)
    ensures p >= 1
  {
    if n == 0 then 1 else 10 * Pow10(n - 1)
  }

  /** The value of a digit or letter as a digit of radix up to 36. */
  function RadixDigitValue(c: char): nat
  {
    if '0' <= c <= '9' then c as int - '0' as int
    else if 'a' <= c <= 'z' then c as int - 'a' as int + 10
    else if 'A' <= c <= 'Z' then c as int - 'A' as int + 10
    else 36
  }

  predicate IsRadixDigit(c: char, radix: nat)
  {
    RadixDigitValue(c) < radix
  }

  predicate AllRadixDigits(s: string, radix: nat)
  {
    forall i :: 0 <= i < |s| ==> IsRadixDigit(s[i], radix)
  }

  /** The value of a string of radix digits read left to right. */
  function RadixValue(s: string, radix: nat): nat
    decreases |s|
  {
    if s == [] then 0 else RadixValue(s[..|s| - 1], radix) * radix + RadixDigitValue(s[|s| - 1])
  }

  /** The radix a `0x`, `0o` or `0b` prefix announces by its letter; 0 for any other character. */
  function RadixMark(c: char): nat
  {
    if c == 'x' || c == 'X' then 16
    else if c == 'o' || c == 'O' then 8
    else if c == 'b' || c == 'B' then 2
    else 0
  }

  /** A `0x`, `0o` or `0b` literal (no sign, at least one digit); `None` for any other text. */
  function NonDecimal(t: string): (r: Option<nat>)
    ensures r.Some? ==> |t| >= 3 && t[0] == '0'
  {
    if |t| >= 3 && t[0] == '0' then
      var radix := RadixMark(t[1]);
      if radix > 0 && AllRadixDigits(t[2..], radix) then Some(RadixValue(t[2..], radix)) else None
    else None
  }

  /** The position of the first character satisfying `p`, or the length of the text when there is none. */
  function FirstWhere(s: string, p: char -> bool): (k: nat)
    ensures k <= |s|
    ensures k < |s| ==> p(s[k])
    ensures forall i :: 0 <= i < k ==> !p(s[i])
    decreases |s|
  {
    if s == [] then 0
    else if p(s[0]) then 0
    else
      var k := FirstWhere(s[1..], p);
      assert forall i :: 1 <= i < |s| ==> s[i] == s[1..][i - 1];
      k + 1
  }

  predicate IsExponentMark(c: char)
  {
    c == 'e' || c == 'E'
  }

  predicate IsDot(c: char)
  {
    c == '.'
  }

  /** An exponent: an optional sign and at least one decimal digit. */
  function Exponent(s: string): Option<int>
  {
    var neg := s != [] && s[0] == '-';
    var digits := if s != [] && (s[0] == '+' || s[0] == '-') then s[1..] else s;
    var v: int := if digits != [] && AllAsciiDigits(digits) then DigitsValue(digits) else 0;
    if digits != [] && AllAsciiDigits(digits) then Some(if neg then -v else v) else None
  }

  /** The value of the digits after a decimal point: `d1 d2 ...` is `d1/10 + d2/100 + ...`. */
  function FractionValue(s: string): real
    requires AllAsciiDigits(s)
    decreases |s|
  {
    if s == [] then 0.0 else (DigitValue(s[0]) as real + FractionValue(s[1..])) / 10.0
  }

  /** A mantissa: decimal digits with at most one `.`, and at least one digit. */
  function Mantissa(s: string): Option<real>
  {
    var dot := FirstWhere(s, IsDot);
    if dot == |s| then
      if s != [] && AllAsciiDigits(s) then Some(DigitsValue(s) as real) else None
    else
      var whole := s[..dot];
      var frac := s[dot + 1..];
      if (whole != [] || frac != []) && AllAsciiDigits(whole) && AllAsciiDigits(frac) then
        Some(DigitsValue(whole) as real + FractionValue(frac))
      else None
  }

  /** A mantissa scaled by a power of ten. */
  function Scale(m: real, e: int): real
    decreases if e >= 0 then e else -e
  {
    if e == 0 then m
    else if e > 0 then Scale(m, e - 1) * 10.0
    else Scale(m, e + 1) / 10.0
  }

  /** StrUnsignedDecimalLiteral: `Infinity`, or a mantissa with an optional exponent. */
  function UnsignedDecimal(s: string): Option<Number>
  {
    if s == "Infinity" then Some(PosInf)
    else
      var k := FirstWhere(s, IsExponentMark);
      var m := Mantissa(s[..k]);
      if m.None? then None
      else if k == |s| then Some(Finite(m.value))
      else
        var e := Exponent(s[k + 1..]);
        if e.None? then None else Some(Finite(Scale(m.value, e.value)))
  }

  /** StrDecimalLiteral: an unsigned decimal literal after an optional sign. */
  function SignedDecimal(s: string): Option<Number>
  {
    if s != [] && s[0] == '+' then UnsignedDecimal(s[1..])
    else if s != [] && s[0] == '-' then
      match UnsignedDecimal(s[1..])
      case Some(n) => Some(Negate(n))
      case None => None
    else UnsignedDecimal(s)
  }

  /** `Number(text)`. */
  function StringToNumber(s: string): (r: Number)
    ensures Trim(s, IsJsWhitespace) == [] ==> r == Finite(0.0)
    ensures !r.NaN? && Trim(s, IsJsWhitespace) != [] ==>
      NonDecimal(Trim(s, IsJsWhitespace)).Some? || SignedDecimal(Trim(s, IsJsWhitespace)).Some?
  {
    var t := Trim(s, IsJsWhitespace);
    if t == [] then Finite(0.0)
    else
      match NonDecimal(t)
      case Some(v) => Finite(v as real)
      case None =>
        match SignedDecimal(t)
        case Some(n) => n
        case None => NaN
  }

  /** `Number(null)`, and `Number` of a present text. */
  function ToNumber(s: Option<string>): (r: Number)
    ensures s.None? ==> r == Finite(0.0)
  {
    match s
    case None => Finite(0.0)
    case Some(t) => StringToNumber(t)
  }

  lemma DigitsAreNotWhitespace(s: string)
    requires AllAsciiDigits(s)
    ensures s == [] || (!IsJsWhitespace(s[0]) && !IsJsWhitespace(s[|s| - 1]))
  {
  }

  /** A plain run of digits is read as its decimal value. */
  lemma DigitsToNumber(s: string)
    requires s != [] && AllAsciiDigits(s)
    requires |s| > 1 ==> s[0] != '0'
    ensures UnsignedDecimal(s) == Some(Finite(DigitsValue(s) as real))
    ensures NonDecimal(s).None?
  {
    assert s != "Infinity" by {
      assert IsAsciiDigit(s[0]);
    }
    assert forall i :: 0 <= i < |s| ==> !IsExponentMark(s[i]) && !IsDot(s[i]);
    assert FirstWhere(s, IsExponentMark) == |s|;
    assert FirstWhere(s, IsDot) == |s|;
    assert s[..|s|] == s;
  }

  /** `Number` reads back the rendering of a natural number. */
  lemma NatToNumber(n: nat)
    ensures StringToNumber(NatToString(n)) == Finite(n as real)
  {
    var s := NatToString(n);
    DigitsAreNotWhitespace(s);
    TrimOfTrimmed(s, IsJsWhitespace);
    DigitsToNumber(s);
    ParseNatToString(n);
  }

  /** `Number` reads back the rendering of any integer, a negative one through its sign. */
  lemma IntToNumber(i: int)
    ensures StringToNumber(IntToString(i)) == Finite(i as real)
  {
    if i >= 0 {
      NatToNumber(i);
    } else {
      var d := NatToString(-i);
      assert IntToString(i) == "-" + d;
      DigitsToNumber(d);
      NegatedDigitsToNumber(IntToString(i), d);
      ParseNatToString(-i);
    }
  }

  /** A minus sign before a plain run of digits reads as the negated value. */
  lemma NegatedDigitsToNumber(s: string, d: string)
    requires d != [] && AllAsciiDigits(d)
    requires |d| > 1 ==> d[0] != '0'
    requires s == "-" + d
    ensures StringToNumber(s) == Negate(Finite(DigitsValue(d) as real))
  {
    assert s[1..] == d;
    DigitsAreNotWhitespace(d);
    assert s[|s| - 1] == d[|d| - 1];
    TrimOfTrimmed(s, IsJsWhitespace);
    DigitsToNumber(d);
    assert NonDecimal(s).None?;
    assert SignedDecimal(s) == Some(Negate(Finite(DigitsValue(d) as real)));
    DecimalToNumber(s, Negate(Finite(DigitsValue(d) as real)));
  }

  /** A trimmed text that is a signed decimal literal reads as that literal. */
  lemma DecimalToNumber(s: string, v: Number)
    requires Trim(s, IsJsWhitespace) == s && s != []
    requires NonDecimal(s).None? && SignedDecimal(s) == Some(v)
    ensures StringToNumber(s) == v
  {
  }

  /** White space around the text changes nothing. */
  lemma PaddingIgnored(pre: string, s: string, post: string)
    requires AllOf(pre, IsJsWhitespace) && AllOf(post, IsJsWhitespace)
    ensures StringToNumber(pre + s + post) == StringToNumber(s)
  {
    TrimIgnoresPadding(pre, s, post, IsJsWhitespace);
  }

  /** A fraction is read exactly. */
  lemma FractionSample()
    ensures StringToNumber("2.5") == Finite(2.5)
  {
    var s := "2.5";
    TrimOfTrimmed(s, IsJsWhitespace);
    assert FirstWhere(s, IsExponentMark) == 3;
    assert s[..3] == s;
    FractionMantissa();
  }

  lemma FractionMantissa()
    ensures Mantissa("2.5") == Some(2.5)
  {
    var s := "2.5";
    assert FirstWhere(s, IsDot) == 1;
    assert s[..1] == "2" && s[2..] == "5";
    assert DigitsValue("2") == 2 by {
      assert "2"[..0] == [];
    }
    assert FractionValue("5") == 0.5 by {
      assert "5"[1..] == [];
    }
  }

  /** A word is not a number. */
  lemma WordSample()
    ensures StringToNumber("abc") == NaN
  {
    var s := "abc";
    TrimOfTrimmed(s, IsJsWhitespace);
    assert FirstWhere(s, IsExponentMark) == 3;
    assert FirstWhere(s, IsDot) == 3;
    assert s[..3] == s;
  }

  /** A `0x` literal is read as its hexadecimal value, whatever white space surrounds it. */
  lemma HexToNumber(digits: string)
    requires digits != [] && AllRadixDigits(digits, 16)
    ensures StringToNumber("0x" + digits) == Finite(RadixValue(digits, 16) as real)
  {
    var s := "0x" + digits;
    assert s[0] == '0' && s[1] == 'x' && s[2..] == digits;
    assert !IsJsWhitespace(s[|s| - 1]) by {
      assert s[|s| - 1] == digits[|digits| - 1];
      assert IsRadixDigit(digits[|digits| - 1], 16);
    }
    TrimOfTrimmed(s, IsJsWhitespace);
  }
}

=== FILE: landing_shared.dfy ===
/**
 * The helpers the landing page shares (src/components/landingpage/shared.tsx):
 * the status table with its captions and phases, the position of a status in
 * it, the display name of a status source and the "time ago" text. The clock
 * reading is the parameter `now`, and the instant a date text stands for is
 * given with it, since the date parser is not part of this model.
 */
module LandingShared {
  import opened Wrappers
  import opened Seqs
  import opened Strings
  import opened JsNum
  import opened LibTypes
  import BillDetail

  /** One row of ALL_STATUSES. */
  datatype StatusEntry = StatusEntry(key: string, caption: string, phase: string)

  /** ALL_STATUSES. */
  const AllStatuses: seq<StatusEntry> := [
    StatusEntry("registered", "Registered", "Introduction"),
    StatusEntry("first_reading", "First Reading", "Introduction"),
    StatusEntry("general_discussion", "General Discussion", "Introduction"),
    StatusEntry("amendment_window", "Amendment Window", "Introduction"),
    StatusEntry("committee_review", "Committee Review", "Deep Scrutiny"),
    StatusEntry("clause_voting", "Clause Voting", "Deep Scrutiny"),
    StatusEntry("first_house_passed", "House Passed", "Deep Scrutiny"),
    StatusEntry("second_house", "Second House", "Second House"),
    StatusEntry("joint_sitting", "Joint Sitting", "Second House"),
    StatusEntry("speaker_certification", "Speaker Cert.", "Authentication"),
    StatusEntry("assented", "Assented", "Authentication"),
    StatusEntry("gazette_published", "Gazette", "Authentication"),
    StatusEntry("amendment_or_repeal", "Amend/Repeal", "Post-Implementation")
  ]

  /** The keys of the table, in order. */
  function Keys(entries: seq<StatusEntry>): (r: seq<string>)
    ensures |r| == |entries| && forall i :: 0 <= i < |entries| ==> r[i] == entries[i].key
  {
    seq(|entries|, i requires 0 <= i < |entries| => entries[i].key)
  }

  /** The table's keys are the roadmap's flat list of statuses, in the same order. */
  lemma KeysAreRoadmapOrder()
    ensures Keys(AllStatuses) == BillDetail.OrderedStatuses
  {
    BillDetail.OrderedIsEnumOrder();
    KeysInEnumOrder();
  }

  lemma KeysInEnumOrder()
    ensures |Keys(AllStatuses)| == 13
    ensures forall i :: 0 <= i < 13 ==> Keys(AllStatuses)[i] == DbStatusKey(AllDbStatuses[i])
  {
    var expected := seq(13, i requires 0 <= i < 13 => DbStatusKey(AllDbStatuses[i]));
    assert Keys(AllStatuses) == expected;
  }

  /** JavaScript truthiness of a status. */
  predicate Given(status: Option<string>)
  {
    status.Some? && status.value != []
  }

  /**
   * `statusToStepIndex`: -1 for no status; otherwise the position of the
   * first row with that key, -1 when there is none.
   */
  function StatusToStepIndex(status: Option<string>): (i: int)
    ensures !Given(status) ==> i == -1
    ensures -1 <= i < |AllStatuses|
    ensures i >= 0 ==> AllStatuses[i].key == status.value
    ensures Given(status) && i == -1 ==> forall j :: 0 <= j < |AllStatuses| ==> AllStatuses[j].key != status.value
  {
    if !Given(status) then -1 else IndexOf(Keys(AllStatuses), status.value)
  }

  /** A stored status is found at its enum position, the same place it has on the roadmap. */
  lemma StepIndexOfStatus(s: DbStatus)
    ensures StatusToStepIndex(Some(DbStatusKey(s))) == DbOrdinal(s)
    ensures StatusToStepIndex(Some(DbStatusKey(s))) == IndexOf(BillDetail.OrderedStatuses, DbStatusKey(s))
  {
    KeysAreRoadmapOrder();
    BillDetail.OrderedPosition(s);
    BillDetail.OrderedNonEmpty(DbOrdinal(s));
    BillDetail.OrderedAtOrdinal(s);
  }

  /** The identifier each status source is stored under. */
  function SourceKey(s: StatusSource): string
  {
    match s
    case ParliamentScrape => "parliament_scrape"
    case GazetteScrape => "gazette_scrape"
    case ManualEntry => "manual_entry"
  }

  /** The caption of a source identifier, when it is one of the three. */
  function SourceCaption(key: string): (r: Option<string>)
    ensures r.Some? <==> exists s :: SourceKey(s) == key
  {
    assert SourceKey(ParliamentScrape) == "parliament_scrape";
    assert SourceKey(GazetteScrape) == "gazette_scrape";
    assert SourceKey(ManualEntry) == "manual_entry";
    if key == "parliament_scrape" then Some("Parliament Scrape")
    else if key == "gazette_scrape" then Some("Gazette Scrape")
    else if key == "manual_entry" then Some("Manual Entry")
    else None
  }

  /**
   * `sourceDisplayName` with an own-key lookup: the caption of one of the
   * three sources, any other text unchanged, and "Unknown" for no source.
   */
  function SourceDisplayName(src: Option<string>): (r: string)
    ensures src.None? ==> r == "Unknown"
    ensures src.Some? && SourceCaption(src.value).Some? ==> r == SourceCaption(src.value).value
    ensures src.Some? && SourceCaption(src.value).None? ==> r == src.value
  {
    match src
    case None => "Unknown"
    case Some(k) => if SourceCaption(k).Some? then SourceCaption(k).value else k
  }

  /** The three sources get three different captions, none of them a source identifier. */
  lemma SourceNamesDistinct(s: StatusSource, t: StatusSource)
    ensures SourceDisplayName(Some(SourceKey(s))) == SourceDisplayName(Some(SourceKey(t))) ==> s == t
    ensures SourceDisplayName(Some(SourceKey(s))) != SourceKey(t)
    ensures SourceDisplayName(Some(SourceKey(s))) != "Unknown"
  {
  }

  /** The date argument of `timeAgo`. */
  datatype DateArg =
    | NullDate
      /** A date text and the instant `new Date(text)` reads from it (`None` for an invalid date). */
    | DateText(text: string, time: Option<int>)
      /** A `Date` object, with its instant (`None` for an invalid date). */
    | DateObject(time: Option<int>)

  const MinuteMs: nat := 60000
  const HourMs: nat := 3600000
  const DayMs: nat := 86400000

  /**
   * `timeAgo`: "" for no date; otherwise whole minutes under an hour, whole
   * hours under a day, else whole days, each rounded down (a date in the
   * future gives a negative count of minutes). An invalid date reads NaN
   * through every step and ends as "NaNd ago".
   */
  function TimeAgo(d: DateArg, now: int): (r: string)
    ensures d.NullDate? || (d.DateText? && d.text == []) ==> r == []
    ensures !d.NullDate? && !(d.DateText? && d.text == []) && d.time.None? ==> r == "NaNd ago"
  {
    if d.NullDate? || (d.DateText? && d.text == []) then ""
    else
      match d.time
      case None => "NaNd ago"
      case Some(at) =>
        var diff := now - at;
        var minutes := FloorDiv(diff, MinuteMs);
        if minutes < 60 then IntToString(minutes) + "m ago"
        else
          var hrs := FloorDiv(minutes, 60);
          if hrs < 24 then IntToString(hrs) + "h ago"
          else
            var days := FloorDiv(hrs, 24);
            IntToString(days) + "d ago"
  }

  /** `floor(floor(a / b) / c)` is `floor(a / (b * c))`. */
  lemma FloorOfFloor(a: int, b: nat, c: nat)
    requires b > 0 && c > 0
    ensures FloorDiv(FloorDiv(a, b), c) == FloorDiv(a, b * c)
  {
    var q := FloorDiv(a, b);
    var r := FloorDiv(q, c);
    MulMono(r * c, q, b);
    MulMono(q, r * c + c - 1, b);
    Regroup(r, b, c);
    FloorDivUnique(a, b * c, r);
  }

  lemma MulMono(x: int, y: int, b: nat)
    requires x <= y
    ensures x * b <= y * b
  {
    assert y * b - x * b == (y - x) * b;
  }

  lemma Regroup(r: int, b: int, c: int)
    ensures r * c * b == r * (b * c)
    ensures (r * c + c - 1) * b + b == r * (b * c) + b * c
  {
  }

  lemma FloorDivUnique(a: int, b: nat, q: int)
    requires b > 0 && q * b <= a < q * b + b
    ensures FloorDiv(a, b) == q
  {
    var f := FloorDiv(a, b);
    var d := f - q;
    assert d * b == f * b - q * b;
    SmallMultiple(d, b);
  }

  lemma SmallMultiple(d: int, b: int)
    requires b > 0 && -b < d * b < b
    ensures d == 0
  {
  }

  /**
   * For a valid date, the text counts whole minutes when the date is less
   * than an hour ago, whole hours when it is less than a day ago, and whole
   * days otherwise, each measured directly from the difference.
   */
  lemma TimeAgoUnits(d: DateArg, now: int)
    requires !d.NullDate? && !(d.DateText? && d.text == []) && d.time.Some?
    ensures var diff := now - d.time.value;
      TimeAgo(d, now) ==
        if diff < HourMs then IntToString(FloorDiv(diff, MinuteMs)) + "m ago"
        else if diff < DayMs then IntToString(FloorDiv(diff, HourMs)) + "h ago"
        else IntToString(FloorDiv(diff, DayMs)) + "d ago"
  {
    var diff := now - d.time.value;
    FloorOfFloor(diff, MinuteMs, 60);
    FloorOfFloor(diff, HourMs, 24);
    FloorOfFloor(diff, MinuteMs * 60, 24);
    var minutes := FloorDiv(diff, MinuteMs);
    assert minutes < 60 <==> diff < HourMs;
    assert FloorDiv(minutes, 60) < 24 <==> diff < DayMs;
  }
}

=== FILE: lib_types.dfy ===
/**
 * The stored side of the bill record (src/lib/types.ts): the thirteen
 * scraped statuses, houses, bill kinds, categories and status sources,
 * with the display formatters the bill pages use.
 */
module LibTypes {
  import opened Wrappers
  import Seqs

  /** A scraped bill status, in the order of the stored enum. */
  datatype DbStatus =
    | Registered | FirstReading | GeneralDiscussion | AmendmentWindow
    | CommitteeReview | ClauseVoting | FirstHousePassed
    | SecondHouse | JointSitting
    | SpeakerCertification | Assented | GazettePublished
    | AmendmentOrRepeal

  datatype BillHouse = PratinidhiSabha | RastriyaSabha

  datatype DbBillType = Original | Amendment

  datatype BillCategory = Governmental | NonGovernmental

  datatype StatusSource = ParliamentScrape | GazetteScrape | ManualEntry

  /** Every stored status, in enum order. */
  const AllDbStatuses: seq<DbStatus> := [
    Registered, FirstReading, GeneralDiscussion, AmendmentWindow,
    CommitteeReview, ClauseVoting, FirstHousePassed,
    SecondHouse, JointSitting,
    SpeakerCertification, Assented, GazettePublished,
    AmendmentOrRepeal
  ]

  /** The stored identifier of a status ('registered', ...). */
  function DbStatusKey(s: DbStatus): string
  {
    match s
    case Registered => "registered"
    case FirstReading => "first_reading"
    case GeneralDiscussion => "general_discussion"
    case AmendmentWindow => "amendment_window"
    case CommitteeReview => "committee_review"
    case ClauseVoting => "clause_voting"
    case FirstHousePassed => "first_house_passed"
    case SecondHouse => "second_house"
    case JointSitting => "joint_sitting"
    case SpeakerCertification => "speaker_certification"
    case Assented => "assented"
    case GazettePublished => "gazette_published"
    case AmendmentOrRepeal => "amendment_or_repeal"
  }

  /** The position of a status in enum order. */
  function DbOrdinal(s: DbStatus): nat
  {
    match s
    case Registered => 0
    case FirstReading => 1
    case GeneralDiscussion => 2
    case AmendmentWindow => 3
    case CommitteeReview => 4
    case ClauseVoting => 5
    case FirstHousePassed => 6
    case SecondHouse => 7
    case JointSitting => 8
    case SpeakerCertification => 9
    case Assented => 10
    case GazettePublished => 11
    case AmendmentOrRepeal => 12
  }

  /** `AllDbStatuses` lists the thirteen statuses once each, each at its ordinal. */
  lemma AllDbStatusesIndexed(s: DbStatus)
    ensures |AllDbStatuses| == 13
    ensures DbOrdinal(s) < 13 && AllDbStatuses[DbOrdinal(s)] == s
  {
  }

  /** No two stored statuses share an identifier. */
  lemma DbStatusKeyInjective()
    ensures forall s, t :: DbStatusKey(s) == DbStatusKey(t) ==> s == t
  {
  }

  /** The stored status an identifier names, if any. */
  function ParseDbStatus(key: string): (r: Option<DbStatus>)
    ensures r.Some? ==> DbStatusKey(r.value) == key
    ensures r.None? ==> forall s :: DbStatusKey(s) != key
  {
    var r := Seqs.FindKey(AllDbStatuses, DbStatusKey, key);
    assert r.None? ==> forall s :: DbStatusKey(s) != key by {
      if r.None? {
        forall s ensures DbStatusKey(s) != key {
          AllDbStatusesIndexed(s);
        }
      }
    }
    r
  }

  /** Parsing a status identifier recovers the status. */
  lemma ParseDbStatusKey(s: DbStatus)
    ensures ParseDbStatus(DbStatusKey(s)) == Some(s)
  {
    DbStatusKeyInjective();
  }

  /** The placeholder every formatter shows for a missing value. */
  const Dash: string := "—"

  function StatusText(s: DbStatus): string
  {
    match s
    case Registered => "Registered"
    case FirstReading => "First Reading"
    case GeneralDiscussion => "General Discussion"
    case AmendmentWindow => "Amendment Window"
    case CommitteeReview => "Committee Review"
    case ClauseVoting => "Clause Voting"
    case FirstHousePassed => "First House Passed"
    case SecondHouse => "Second House"
    case JointSitting => "Joint Sitting"
    case SpeakerCertification => "Speaker Certification"
    case Assented => "Assented"
    case GazettePublished => "Gazette Published"
    case AmendmentOrRepeal => "Amendment/Repeal"
  }

  /** No two statuses are shown alike, and none is shown as the placeholder. */
  lemma StatusTextsDistinct()
    ensures forall s, t :: StatusText(s) == StatusText(t) ==> s == t
    ensures forall s :: StatusText(s) != Dash
  {
  }

  /** `formatBillStatus`: the placeholder exactly when there is no status. */
  function FormatBillStatus(s: Option<DbStatus>): (r: string)
    ensures r == Dash <==> s.None?
  {
    StatusTextsDistinct();
    match s
    case None => Dash
    case Some(st) => StatusText(st)
  }

  /** Distinct statuses are formatted differently. */
  lemma FormatBillStatusInjective(s: Option<DbStatus>, t: Option<DbStatus>)
    requires FormatBillStatus(s) == FormatBillStatus(t)
    ensures s == t
  {
    StatusTextsDistinct();
  }

  /**
   * A colour-class string of the status badges, by its parts: one hue and
   * the shade of each of the six classes.
   */
  datatype Palette = Palette(
    hue: string, bg: string, text: string, border: string,
    darkBg: string, darkText: string, darkBorder: string)

  /** The class string a palette stands for. */
  function PaletteClasses(p: Palette): string
  {
    "bg-" + p.hue + "-" + p.bg + " text-" + p.hue + "-" + p.text + " border-" + p.hue + "-" + p.border
    + " dark:bg-" + p.hue + "-" + p.darkBg + " dark:text-" + p.hue + "-" + p.darkText
    + " dark:border-" + p.hue + "-" + p.darkBorder
  }

  /** The neutral palette used when a status has no colour of its own. */
  const SlatePalette: Palette := Palette("slate", "100", "600", "300", "800", "300", "700/50")

  /** The palette the (partial) colour table lists for a status. */
  function PaletteEntry(s: DbStatus): Option<Palette>
  {
    match s
    case Registered => Some(Palette("blue", "100", "700", "300", "900/50", "200", "700/50"))
    case FirstReading => Some(Palette("cyan", "100", "700", "300", "900/50", "200", "700/50"))
    case GeneralDiscussion => Some(Palette("teal", "100", "700", "300", "900/50", "200", "700/50"))
    case AmendmentWindow => Some(Palette("amber", "100", "700", "300", "900/50", "200", "700/50"))
    case CommitteeReview => Some(Palette("purple", "100", "700", "300", "900/50", "200", "700/50"))
    case ClauseVoting => Some(Palette("pink", "100", "700", "300", "900/50", "200", "700/50"))
    case FirstHousePassed => Some(Palette("green", "100", "700", "300", "900/50", "200", "700/50"))
    case SecondHouse => Some(Palette("emerald", "100", "700", "300", "900/50", "200", "700/50"))
    case JointSitting => Some(Palette("indigo", "100", "700", "300", "900/50", "200", "700/50"))
    case SpeakerCertification => Some(Palette("violet", "100", "700", "300", "900/50", "200", "700/50"))
    case Assented => Some(Palette("lime", "100", "700", "300", "900/50", "200", "700/50"))
    case GazettePublished => Some(Palette("green", "100", "800", "400", "700/50", "100", "600/50"))
    case AmendmentOrRepeal => Some(Palette("orange", "100", "700", "300", "900/50", "200", "700/50"))
  }

  /** Every status has a palette of its own, none of it slate. */
  lemma ColorTableTotal(s: DbStatus)
    ensures PaletteEntry(s).Some? && PaletteEntry(s).value.hue != "slate"
  {
  }

  /** The palette `getStatusColor` picks: the table entry, else the neutral one. */
  function StatusPalette(s: Option<DbStatus>): (p: Palette)
    ensures s.None? ==> p == SlatePalette
    ensures s.Some? && PaletteEntry(s.value).Some? ==> p == PaletteEntry(s.value).value
  {
    match s
    case None => SlatePalette
    case Some(st) =>
      match PaletteEntry(st)
      case Some(c) => c
      case None => SlatePalette
  }

  /** `getStatusColor`: the class string of the picked palette. */
  function GetStatusColor(s: Option<DbStatus>): string
  {
    PaletteClasses(StatusPalette(s))
  }

  /** The neutral colour is used exactly for a missing status. */
  lemma NeutralColorIffMissing(s: Option<DbStatus>)
    ensures StatusPalette(s).hue == "slate" <==> s.None?
  {
    if s.Some? {
      ColorTableTotal(s.value);
    }
  }

  /** `formatHouse`. */
  function FormatHouse(h: Option<BillHouse>): (r: string)
    ensures r == Dash <==> h.None?
    ensures h.Some? && h.value == PratinidhiSabha ==> r == "House of Representatives"
    ensures h.Some? && h.value == RastriyaSabha ==> r == "National Assembly"
  {
    match h
    case None => Dash
    case Some(PratinidhiSabha) => "House of Representatives"
    case Some(RastriyaSabha) => "National Assembly"
  }

  /** `formatHouseShort`: the scraper's own abbreviations "HoR" and "NA". */
  function FormatHouseShort(h: Option<BillHouse>): (r: string)
    ensures r == Dash <==> h.None?
    ensures h.Some? && h.value == PratinidhiSabha ==> r == "HoR"
    ensures h.Some? && h.value == RastriyaSabha ==> r == "NA"
  {
    match h
    case None => Dash
    case Some(PratinidhiSabha) => "HoR"
    case Some(RastriyaSabha) => "NA"
  }

  /** `formatBillType`. */
  function FormatBillType(t: Option<DbBillType>): (r: string)
    ensures r == Dash <==> t.None?
  {
    match t
    case None => Dash
    case Some(Original) => "Original"
    case Some(Amendment) => "Amendment"
  }

  /** `formatCategory`; the non-governmental label is written with a non-breaking hyphen (U+2011). */
  function FormatCategory(c: Option<BillCategory>): (r: string)
    ensures r == Dash <==> c.None?
  {
    match c
    case None => Dash
    case Some(Governmental) => "Governmental"
    case Some(NonGovernmental) => "Non\U{2011}governmental"
  }

  /** Each of the four house, type and category formatters tells its values apart. */
  lemma FormattersInjective(h: Option<BillHouse>, h': Option<BillHouse>, t: Option<DbBillType>, t': Option<DbBillType>,
                            c: Option<BillCategory>, c': Option<BillCategory>)
    ensures FormatHouse(h) == FormatHouse(h') ==> h == h'
    ensures FormatHouseShort(h) == FormatHouseShort(h') ==> h == h'
    ensures FormatBillType(t) == FormatBillType(t') ==> t == t'
    ensures FormatCategory(c) == FormatCategory(c') ==> c == c'
  {
  }
}

=== FILE: mock_data.dfy ===
/**
 * The dashboard figures computed over the development mock data
 * (src/lib/mock-data.ts, `getDashboardStats`). The five mock lists are
 * parameters, and each record keeps the fields the figures read.
 */
module MockData {
  import opened Seqs
  import opened JsNum
  import opened Types

  datatype MockBill = MockBill(id: string, title: string, status: BillStatus)

  datatype MockTransition = MockTransition(id: string, billId: string, fromStatus: BillStatus, toStatus: BillStatus)

  datatype MockDeadline = MockDeadline(id: string, billId: string, kind: string, isExpired: bool, isCompleted: bool)

  datatype MockCommittee = MockCommittee(id: string, name: string, isActive: bool)

  datatype MockVoteSession = MockVoteSession(id: string, billId: string, isActive: bool, isCompleted: bool)

  /** The statuses after which a bill has become law. */
  predicate IsPassedStatus(s: BillStatus)
  {
    s == Assented || s == GazettePublished || s == ImplementationMonitoring
  }

  /** The statuses of a bill that died before becoming law. */
  predicate IsDeadStatus(s: BillStatus)
  {
    s == Lapsed || s == Withdrawn
  }

  /** A bill still on its way: neither dead nor passed. */
  predicate IsActiveBill(b: MockBill)
  {
    !IsDeadStatus(b.status) && !IsPassedStatus(b.status)
  }

  predicate IsPassedBill(b: MockBill)
  {
    IsPassedStatus(b.status)
  }

  predicate IsDeadBill(b: MockBill)
  {
    IsDeadStatus(b.status)
  }

  predicate IsUpcoming(d: MockDeadline)
  {
    !d.isExpired && !d.isCompleted
  }

  predicate IsPendingVote(v: MockVoteSession)
  {
    v.isActive
  }

  predicate IsActiveCommittee(c: MockCommittee)
  {
    c.isActive
  }

  /** Members of both houses: 275 in the House of Representatives and 59 in the National Assembly. */
  const TotalMembers: nat := 275 + 59

  datatype DashboardStats = DashboardStats(
    totalBills: nat, activeBills: nat, passedBills: nat, pendingVotes: nat,
    activeCommittees: nat, upcomingDeadlines: nat, totalMembers: nat,
    recentTransitions: seq<MockTransition>)

  /** `transitions.slice(-5).reverse()`: the last five (or fewer), newest first. */
  function RecentTransitions(transitions: seq<MockTransition>): (r: seq<MockTransition>)
    ensures |r| == Min(5, |transitions|)
    ensures forall i :: 0 <= i < |r| ==> r[i] == transitions[|transitions| - 1 - i]
  {
    var tail := transitions[|transitions| - Min(5, |transitions|)..];
    seq(|tail|, i requires 0 <= i < |tail| => tail[|tail| - 1 - i])
  }

  /** `getDashboardStats` over the five mock lists. */
  function GetDashboardStats(
    bills: seq<MockBill>, votes: seq<MockVoteSession>, deadlines: seq<MockDeadline>,
    committees: seq<MockCommittee>, transitions: seq<MockTransition>): (r: DashboardStats)
    ensures r.totalBills == |bills|
    ensures r.activeBills <= |bills| && r.passedBills <= |bills|
    ensures r.upcomingDeadlines <= |deadlines| && r.pendingVotes <= |votes| && r.activeCommittees <= |committees|
    ensures r.totalMembers == 334
    ensures |r.recentTransitions| <= 5
  {
    DashboardStats(
      |bills|,
      Count(bills, IsActiveBill),
      Count(bills, IsPassedBill),
      Count(votes, IsPendingVote),
      Count(committees, IsActiveCommittee),
      Count(deadlines, IsUpcoming),
      TotalMembers,
      RecentTransitions(transitions))
  }

  /**
   * One more mock bill raises the total by one, the active count by one
   * exactly when the bill is active and the passed count by one exactly
   * when it has passed; every other figure is unchanged.
   */
  lemma AddBillStats(bills: seq<MockBill>, b: MockBill, votes: seq<MockVoteSession>, deadlines: seq<MockDeadline>,
    committees: seq<MockCommittee>, transitions: seq<MockTransition>)
    ensures var r := GetDashboardStats(bills, votes, deadlines, committees, transitions);
      var r' := GetDashboardStats(bills + [b], votes, deadlines, committees, transitions);
      r'.totalBills == r.totalBills + 1 &&
      r'.activeBills == r.activeBills + (if IsActiveBill(b) then 1 else 0) &&
      r'.passedBills == r.passedBills + (if IsPassedBill(b) then 1 else 0) &&
      r' == r.(totalBills := r'.totalBills, activeBills := r'.activeBills, passedBills := r'.passedBills)
  {
    CountSnoc(bills, b, IsActiveBill);
    CountSnoc(bills, b, IsPassedBill);
  }

  /** One more vote session raises the pending count by one exactly when it is active, and nothing else. */
  lemma AddVoteStats(bills: seq<MockBill>, votes: seq<MockVoteSession>, v: MockVoteSession,
    deadlines: seq<MockDeadline>, committees: seq<MockCommittee>, transitions: seq<MockTransition>)
    ensures var r := GetDashboardStats(bills, votes, deadlines, committees, transitions);
      var r' := GetDashboardStats(bills, votes + [v], deadlines, committees, transitions);
      r' == r.(pendingVotes := r.pendingVotes + if v.isActive then 1 else 0)
  {
    CountSnoc(votes, v, IsPendingVote);
  }

  /** One more committee raises the active count by one exactly when it is active, and nothing else. */
  lemma AddCommitteeStats(bills: seq<MockBill>, votes: seq<MockVoteSession>, deadlines: seq<MockDeadline>,
    committees: seq<MockCommittee>, c: MockCommittee, transitions: seq<MockTransition>)
    ensures var r := GetDashboardStats(bills, votes, deadlines, committees, transitions);
      var r' := GetDashboardStats(bills, votes, deadlines, committees + [c], transitions);
      r' == r.(activeCommittees := r.activeCommittees + if c.isActive then 1 else 0)
  {
    CountSnoc(committees, c, IsActiveCommittee);
  }

  /**
   * One more deadline raises the upcoming count by one exactly when it is
   * neither expired nor completed, and nothing else.
   */
  lemma AddDeadlineStats(bills: seq<MockBill>, votes: seq<MockVoteSession>, deadlines: seq<MockDeadline>,
    d: MockDeadline, committees: seq<MockCommittee>, transitions: seq<MockTransition>)
    ensures var r := GetDashboardStats(bills, votes, deadlines, committees, transitions);
      var r' := GetDashboardStats(bills, votes, deadlines + [d], committees, transitions);
      r' == r.(upcomingDeadlines := r.upcomingDeadlines + if !d.isExpired && !d.isCompleted then 1 else 0)
  {
    CountSnoc(deadlines, d, IsUpcoming);
  }

  /** Every bill is exactly one of active, passed, lapsed or withdrawn. */
  lemma BillsPartition(bills: seq<MockBill>, votes: seq<MockVoteSession>, deadlines: seq<MockDeadline>,
    committees: seq<MockCommittee>, transitions: seq<MockTransition>)
    ensures var r := GetDashboardStats(bills, votes, deadlines, committees, transitions);
      r.activeBills + r.passedBills + Count(bills, IsDeadBill) == r.totalBills
  {
    var closed := (b: MockBill) => IsPassedBill(b) || IsDeadBill(b);
    CountDisjoint(bills, IsPassedBill, IsDeadBill, closed);
    CountComplement(bills, closed, IsActiveBill);
  }

  /** A deadline is upcoming exactly when it is neither expired nor completed, so the rest are one of those. */
  lemma DeadlinesSplit(deadlines: seq<MockDeadline>)
    ensures Count(deadlines, IsUpcoming) + Count(deadlines, (d: MockDeadline) => d.isExpired || d.isCompleted) == |deadlines|
  {
    CountComplement(deadlines, (d: MockDeadline) => d.isExpired || d.isCompleted, IsUpcoming);
  }

  /** The recent transitions are a newest-first run of the list's last entries. */
  lemma RecentTransitionsAreLast(transitions: seq<MockTransition>)
    requires |transitions| >= 5
    ensures RecentTransitions(transitions) == [transitions[|transitions| - 1], transitions[|transitions| - 2],
      transitions[|transitions| - 3], transitions[|transitions| - 4], transitions[|transitions| - 5]]
  {
  }
}

=== FILE: py_json.dfy ===
/** The Python view of values loaded by `json.load`, shared by the two cleaners. */
module PyJson {

  /**
   * A loaded value, as far as the cleaners look at it: `null`, a string, or
   * anything else with its `str()` rendering and its Python truthiness.
   */
  datatype Json = Null | Str(s: string) | Other(repr: string, truthy: bool)

  /** Python truthiness of a loaded value. */
  predicate Truthy(v: Json)
  {
    match v
    case Null => false
    case Str(s) => s != []
    case Other(_, t) => t
  }

  /** `d.get(k)`: a missing key reads as `None`. */
  function Get<K>(d: imap<K, Json>, k: K): (v: Json)
    ensures k !in d ==> v == Null
  {
    if k in d then d[k] else Null
  }

  /** `d.get(k, default)`: the default replaces a missing key only, not a `null` one. */
  function GetOr<K>(d: imap<K, Json>, k: K, default: Json): (v: Json)
    ensures k !in d ==> v == default
    ensures k in d ==> v == d[k]
  {
    if k in d then d[k] else default
  }

  /** Python `a or b`. */
  function Or(a: Json, b: Json): (v: Json)
    ensures Truthy(a) ==> v == a
    ensures !Truthy(a) ==> v == b
  {
    if Truthy(a) then a else b
  }

  /** `str(v)` inside an f-string: `None` for null. */
  function Format(v: Json): string
  {
    match v
    case Null => "None"
    case Str(s) => s
    case Other(r, _) => r
  }
}

=== FILE: rate_limit.dfy ===
/**
 * The fixed-window rate limiter of the API routes (src/lib/server/rate-limit.ts):
 * one bucket per client identifier, counting the requests of the current
 * window, and the response headers that report it. The bucket map is passed
 * in and returned instead of living in a process-wide global, and the clock
 * reading is the parameter `now` (milliseconds).
 */
module RateLimit {
  import opened Wrappers
  import opened Strings
  import opened JsNum

  /** The requests counted so far in the current window, and the instant the window ends. */
  datatype Bucket = Bucket(count: int, resetAt: int)

  /** The window length in milliseconds and the number of requests a window allows. */
  datatype Options = Options(windowMs: int, max: int)

  /** DEFAULT_OPTS: 60 requests per minute per identifier. */
  const DefaultOptions: Options := Options(60000, 60)

  type Buckets = map<string, Bucket>

  /** The `X-RateLimit-*` headers, and `Retry-After` when the request is refused. */
  datatype Headers = Headers(limit: string, remaining: string, reset: string, retryAfter: Option<string>)

  /** What `rateLimit` returns, with the bucket map after the request. */
  datatype Step = Step(limited: bool, headers: Headers, buckets: Buckets)

  /** A request opens a new window when its identifier has no bucket or the window has passed. */
  predicate OpensWindow(buckets: Buckets, identifier: string, now: int)
  {
    identifier !in buckets || now > buckets[identifier].resetAt
  }

  /** The bucket of `identifier` after one more request. */
  function Counted(buckets: Buckets, identifier: string, now: int, opts: Options): Bucket
  {
    if OpensWindow(buckets, identifier, now) then Bucket(1, now + opts.windowMs)
    else Bucket(buckets[identifier].count + 1, buckets[identifier].resetAt)
  }

  /** `Math.max(0, Math.ceil((resetAt - now) / 1000))`: whole seconds left in the window, rounded up. */
  function RetryAfterSeconds(resetAt: int, now: int): (secs: nat)
    ensures resetAt <= now ==> secs == 0
    ensures resetAt > now ==> (secs - 1) * 1000 < resetAt - now <= secs * 1000
  {
    Max(0, CeilDiv(resetAt - now, 1000))
  }

  /**
   * `rateLimit`: counts the request in its identifier's bucket and reports the
   * limit, the requests left (never negative), the end of the window, and,
   * only when the count is over the limit, the seconds until the window ends.
   */
  function RateLimit(buckets: Buckets, identifier: string, now: int, opts: Options): (r: Step)
    ensures identifier in r.buckets && r.buckets[identifier] == Counted(buckets, identifier, now, opts)
    ensures forall k :: k != identifier ==> (k in r.buckets <==> k in buckets)
    ensures forall k :: k != identifier && k in buckets ==> r.buckets[k] == buckets[k]
    ensures r.limited <==> r.buckets[identifier].count > opts.max
    ensures r.headers.limit == IntToString(opts.max)
    ensures r.headers.remaining == NatToString(Max(opts.max - r.buckets[identifier].count, 0))
    ensures r.headers.reset == IntToString(r.buckets[identifier].resetAt)
    ensures r.headers.retryAfter.Some? <==> r.limited
    ensures r.limited ==> r.headers.retryAfter == Some(NatToString(RetryAfterSeconds(r.buckets[identifier].resetAt, now)))
  {
    var current := Counted(buckets, identifier, now, opts);
    var limited := current.count > opts.max;
    var headers := Headers(
      IntToString(opts.max),
      NatToString(Max(opts.max - current.count, 0)),
      IntToString(current.resetAt),
      if limited then Some(NatToString(RetryAfterSeconds(current.resetAt, now))) else None);
    Step(limited, headers, buckets[identifier := current])
  }

  /** A request that opens a window counts 1 and ends the window `windowMs` from now. */
  lemma FreshWindow(buckets: Buckets, identifier: string, now: int, opts: Options)
    requires OpensWindow(buckets, identifier, now)
    ensures RateLimit(buckets, identifier, now, opts).buckets[identifier] == Bucket(1, now + opts.windowMs)
  {
  }

  /**
   * Inside a window, up to and including its last instant (the reset test is
   * strict), a request raises the count by exactly one and keeps the window.
   */
  lemma SameWindow(buckets: Buckets, identifier: string, now: int, opts: Options)
    requires identifier in buckets && now <= buckets[identifier].resetAt
    ensures var b := RateLimit(buckets, identifier, now, opts).buckets[identifier];
      b.count == buckets[identifier].count + 1 && b.resetAt == buckets[identifier].resetAt
  {
  }

  /** The `limited` flags of a run of requests from one identifier at the instants `times`. */
  function Flags(buckets: Buckets, identifier: string, times: seq<int>, opts: Options): (flags: seq<bool>)
    ensures |flags| == |times|
    decreases |times|
  {
    if times == [] then []
    else
      var step := RateLimit(buckets, identifier, times[0], opts);
      [step.limited] + Flags(step.buckets, identifier, times[1..], opts)
  }

  /** The bucket map after a run of requests from one identifier. */
  function Run(buckets: Buckets, identifier: string, times: seq<int>, opts: Options): Buckets
    decreases |times|
  {
    if times == [] then buckets
    else Run(RateLimit(buckets, identifier, times[0], opts).buckets, identifier, times[1..], opts)
  }

  /**
   * Requests that all fall inside an open window: the i-th of them (from 0)
   * brings the count to `count + i + 1` and is refused exactly when that
   * exceeds the limit; the window's end never moves.
   */
  lemma {:induction false} RunInWindow(buckets: Buckets, identifier: string, times: seq<int>, opts: Options)
    requires identifier in buckets
    requires forall i :: 0 <= i < |times| ==> times[i] <= buckets[identifier].resetAt
    ensures var b := buckets[identifier];
      identifier in Run(buckets, identifier, times, opts)
      && Run(buckets, identifier, times, opts)[identifier] == Bucket(b.count + |times|, b.resetAt)
    ensures forall i :: 0 <= i < |times| ==>
      (Flags(buckets, identifier, times, opts)[i] <==> buckets[identifier].count + i + 1 > opts.max)
    decreases |times|
  {
    if times != [] {
      var b := buckets[identifier];
      var next := RateLimit(buckets, identifier, times[0], opts).buckets;
      SameWindow(buckets, identifier, times[0], opts);
      assert next[identifier] == Bucket(b.count + 1, b.resetAt);
      assert forall i :: 0 <= i < |times| - 1 ==> times[1..][i] == times[i + 1];
      RunInWindow(next, identifier, times[1..], opts);
      var flags := Flags(buckets, identifier, times, opts);
      var rest := Flags(next, identifier, times[1..], opts);
      assert flags == [b.count + 1 > opts.max] + rest;
      forall i | 0 <= i < |times| ensures flags[i] <==> b.count + i + 1 > opts.max {
        if i > 0 {
          assert flags[i] == rest[i - 1];
        }
      }
    }
  }

  /**
   * A client that starts a window at `times[0]` and sends every later request
   * before that window ends has its first `max` requests let through and
   * every further one refused.
   */
  lemma FirstMaxRequestsAllowed(buckets: Buckets, identifier: string, times: seq<int>, opts: Options)
    requires times != [] && OpensWindow(buckets, identifier, times[0])
    requires forall i :: 0 <= i < |times| ==> times[i] <= times[0] + opts.windowMs
    ensures forall i :: 0 <= i < |times| ==> (Flags(buckets, identifier, times, opts)[i] <==> i + 1 > opts.max)
  {
    var next := RateLimit(buckets, identifier, times[0], opts).buckets;
    FreshWindow(buckets, identifier, times[0], opts);
    assert forall i :: 0 <= i < |times| - 1 ==> times[1..][i] == times[i + 1];
    RunInWindow(next, identifier, times[1..], opts);
    var flags := Flags(buckets, identifier, times, opts);
    var rest := Flags(next, identifier, times[1..], opts);
    assert flags == [1 > opts.max] + rest;
    forall i | 0 <= i < |times| ensures flags[i] <==> i + 1 > opts.max {
      if i > 0 {
        assert flags[i] == rest[i - 1];
      }
    }
  }

  /** A run of requests from one identifier leaves every other identifier's bucket as it was. */
  lemma {:induction false} RunKeepsOthers(buckets: Buckets, identifier: string, times: seq<int>, opts: Options, other: string)
    requires other != identifier
    ensures other in Run(buckets, identifier, times, opts) <==> other in buckets
    ensures other in buckets ==> Run(buckets, identifier, times, opts)[other] == buckets[other]
    decreases |times|
  {
    if times != [] {
      RunKeepsOthers(RateLimit(buckets, identifier, times[0], opts).buckets, identifier, times[1..], opts, other);
    }
  }

  /** The 429 answer of `rateLimitOrJson`, with the rate-limit headers. */
  datatype Refusal = Refusal(status: int, error: string, headers: Headers)

  /** `rateLimitOrJson` for a known identifier: nothing when the request is allowed, a 429 answer otherwise. */
  function RateLimitOrJson(buckets: Buckets, identifier: string, now: int, opts: Options): (r: (Option<Refusal>, Buckets))
    ensures r.1 == RateLimit(buckets, identifier, now, opts).buckets
    ensures r.0.Some? <==> RateLimit(buckets, identifier, now, opts).limited
    ensures r.0.Some? ==> r.0.value.status == 429 && r.0.value.headers.retryAfter.Some?
  {
    var step := RateLimit(buckets, identifier, now, opts);
    if step.limited then (Some(Refusal(429, "Too many requests", step.headers)), step.buckets)
    else (None, step.buckets)
  }

  /**
   * `getClientIdentifier`: the request's own address when it is non-empty;
   * otherwise the first entry of `x-forwarded-for`, trimmed; "unknown" when
   * that is missing or empty.
   */
  function ClientIdentifier(ip: Option<string>, forwarded: Option<string>): (r: string)
    ensures r != []
    ensures ip.Some? && ip.value != [] ==> r == ip.value
    ensures (ip.None? || ip.value == []) && forwarded.None? ==> r == "unknown"
    ensures (ip.None? || ip.value == []) && forwarded.Some? && r != "unknown" ==>
      !Contains(r, ",") && !IsJsWhitespace(r[0]) && !IsJsWhitespace(r[|r| - 1])
  {
    if ip.Some? && ip.value != [] then ip.value
    else if forwarded.None? then "unknown"
    else
      var entry := BeforeFirst(forwarded.value, ",");
      var first := Trim(entry, IsJsWhitespace);
      TrimKeepsChars(entry, IsJsWhitespace);
      ContainsChar(entry, ',');
      ContainsChar(first, ',');
      if first == [] then "unknown" else first
  }

  /** The first forwarded entry is found whatever follows the first comma. */
  lemma ForwardedFirstEntry(entry: string, rest: string)
    requires entry != [] && !Contains(entry, ",")
    requires !IsJsWhitespace(entry[0]) && !IsJsWhitespace(entry[|entry| - 1])
    ensures ClientIdentifier(None, Some(entry + "," + rest)) == entry
  {
    var s := entry + "," + rest;
    ContainsChar(entry, ',');
    ContainsChar(s, ',');
    assert s[|entry|] == ',';
    var b := BeforeFirst(s, ",");
    ContainsChar(b, ',');
    assert s[|b|] == ',';
    assert forall k :: 0 <= k < |entry| ==> s[k] == entry[k];
    assert forall k :: 0 <= k < |b| ==> s[k] == b[k];
    assert |b| == |entry|;
    assert b == entry;
    TrimOfTrimmed(entry, IsJsWhitespace);
  }

  /**
   * The first forwarded entry comes back trimmed: JavaScript whitespace
   * around a non-empty entry is dropped, whether a comma or the end follows.
   */
  lemma ForwardedEntryTrimmed(pre: string, entry: string, post: string, tail: string)
    requires AllOf(pre, IsJsWhitespace) && AllOf(post, IsJsWhitespace)
    requires entry != [] && ',' !in entry
    requires !IsJsWhitespace(entry[0]) && !IsJsWhitespace(entry[|entry| - 1])
    requires tail == [] || tail[0] == ','
    ensures ClientIdentifier(None, Some(pre + entry + post + tail)) == entry
  {
    var u := pre + entry + post;
    assert ',' !in u by {
      assert forall i :: 0 <= i < |pre| ==> u[i] == pre[i];
      assert forall i :: 0 <= i < |post| ==> u[|pre| + |entry| + i] == post[i];
    }
    BeforeFirstChar(u, ',', tail);
    TrimIgnoresPadding(pre, entry, post, IsJsWhitespace);
    TrimOfTrimmed(entry, IsJsWhitespace);
  }

  /** A first forwarded entry that is blank, or all whitespace, gives "unknown". */
  lemma BlankForwardedEntry(pre: string, tail: string)
    requires AllOf(pre, IsJsWhitespace)
    requires tail == [] || tail[0] == ','
    ensures ClientIdentifier(None, Some(pre + tail)) == "unknown"
  {
    assert ',' !in pre;
    BeforeFirstChar(pre, ',', tail);
    TrimIgnoresPadding(pre, [], [], IsJsWhitespace);
    assert pre + [] + [] == pre;
  }

}

=== FILE: scraper_ids.dfy ===
/**
 * The bill identifiers the parliament list scraper collects
 * (services/python/scraper/bills/scraper_bills.py): the identifier cut out of
 * a bill link, and the first-seen collection of identifiers over the links of
 * every row. Fetching and parsing the pages is left out; the links arrive in
 * page and row order as a parameter.
 */
module ScraperIds {
  import opened Wrappers
  import opened Seqs
  import opened Strings

  /** The path segment in front of a bill identifier. */
  const Marker: string := "/np/bills/"

  lemma PrefixOfPrefix(s: string, p: string, q: string)
    requires StartsWith(s, p) && StartsWith(p, q)
    ensures StartsWith(s, q)
  {
    assert s[..|q|] == p[..|q|];
  }

  /** A text that starts with `p` keeps every absence of `sub` in `p`. */
  lemma PrefixLacks(s: string, p: string, sub: string)
    requires StartsWith(s, p) && !Contains(s, sub)
    ensures !Contains(p, sub)
  {
    ContainsIffOccurs(p, sub);
    ContainsIffOccurs(s, sub);
    forall k | OccursAt(p, sub, k) ensures OccursAt(s, sub, k) {
      assert s[k..k + |sub|] == p[k..k + |sub|];
    }
  }

  /**
   * `_extract_bill_id`: for a non-empty link holding "/np/bills/", the text
   * after the first marker, cut at the next marker and then at the first "?";
   * `None` otherwise.
   */
  function ExtractBillId(href: Option<string>): (r: Option<string>)
    ensures r.None? <==> !(href.Some? && href.value != [] && Contains(href.value, Marker))
    ensures r.Some? ==> !Contains(r.value, "?") && !Contains(r.value, Marker)
    ensures r.Some? ==> StartsWith(AfterFirst(href.value, Marker), r.value)
    ensures r.Some? ==> Cut(AfterFirst(href.value, Marker), r.value, Marker)
  {
    if href.Some? && href.value != [] && Contains(href.value, Marker) then
      Some(Segment(href.value, Marker))
    else None
  }

  /** The text after the first `sep`, cut at the next `sep` and then at the first "?". */
  function Segment(href: string, sep: string): (id: string)
    requires sep != [] && Contains(href, sep)
    ensures !Contains(id, "?") && !Contains(id, sep)
    ensures StartsWith(AfterFirst(href, sep), id)
    ensures Cut(AfterFirst(href, sep), id, sep)
  {
    var after := AfterFirst(href, sep);
    var segment := BeforeFirst(after, sep);
    var id := BeforeFirst(segment, "?");
    PrefixOfPrefix(after, segment, id);
    PrefixLacks(segment, id, sep);
    CutOfSegment(after, sep);
    id
  }

  /**
   * `id` is where `a` is cut: a "?"-free start of `a` in which no `sep`
   * begins, followed by the end of `a`, a "?" or a `sep`. The check on every
   * start position matters because "/np/bills/" overlaps itself.
   */
  predicate Cut(a: string, id: string, sep: string)
  {
    StartsWith(a, id) && '?' !in id
    && (forall k :: 0 <= k < |id| ==> !OccursAt(a, sep, k))
    && (|id| == |a| || a[|id|] == '?' || OccursAt(a, sep, |id|))
  }

  /** Cutting at the first `sep` and then at the first "?" stops where `Cut` says. */
  lemma CutOfSegment(a: string, sep: string)
    requires sep != []
    ensures Cut(a, BeforeFirst(BeforeFirst(a, sep), "?"), sep)
  {
    var seg := BeforeFirst(a, sep);
    var id := BeforeFirst(seg, "?");
    PrefixOfPrefix(a, seg, id);
    ContainsChar(id, '?');
    assert Contains(a, sep) ==> |seg| == Find(a, sep);
    if Contains(seg, "?") {
      assert seg[|id|] == seg[|id|..|id| + 1][0];
      assert a[|id|] == seg[|id|];
    }
  }

  /** At most one start of a text is a cut. */
  lemma CutUnique(a: string, x: string, y: string, sep: string)
    requires Cut(a, x, sep) && Cut(a, y, sep)
    ensures x == y
  {
  }

  /** The identifier of a link is the cut of the text after its first marker, whatever that cut is. */
  lemma ExtractIsCut(href: string, id: string)
    requires href != [] && Contains(href, Marker)
    requires Cut(AfterFirst(href, Marker), id, Marker)
    ensures ExtractBillId(Some(href)) == Some(id)
  {
    CutUnique(AfterFirst(href, Marker), Segment(href, Marker), id, Marker);
  }

  lemma Regroup4(a: string, b: string, c: string, d: string)
    ensures a + b + c + d == a + b + (c + d)
  {
  }

  lemma Regroup5(a: string, b: string, c: string, d: string, e: string)
    ensures a + b + c + d + e == a + b + (c + (d + e))
  {
  }

  /** A second separator ends the segment, when the identifier in front of it lacks the separator's first character. */
  lemma SegmentBeforeSecond(base: string, sep: string, id: string, rest: string)
    requires sep != [] && Find(base + sep, sep) == |base|
    requires sep[0] !in id && '?' !in id
    ensures Contains(base + sep + id + sep + rest, sep)
    ensures Segment(base + sep + id + sep + rest, sep) == id
  {
    Regroup5(base, sep, id, sep, rest);
    CutBeforeSep(id, sep, rest);
    SegmentAfterBase(base, sep, id + (sep + rest), id);
  }

  /** After a base whose first separator is the one that follows it, the segment is the cut of the rest. */
  lemma SegmentAfterBase(base: string, sep: string, a: string, id: string)
    requires sep != [] && Find(base + sep, sep) == |base| && Cut(a, id, sep)
    ensures Contains(base + sep + a, sep)
    ensures Segment(base + sep + a, sep) == id
  {
    FirstAfterBase(base, sep, a);
    CutUnique(a, Segment(base + sep + a, sep), id, sep);
  }

  /** A "?"-free text holding no separator is cut at the end or at a following query. */
  lemma CutAtQueryOrEnd(id: string, tail: string, sep: string)
    requires sep != [] && '?' !in sep && '?' !in id && !Contains(id, sep)
    requires tail == [] || tail[0] == '?'
    ensures Cut(id + tail, id, sep)
  {
    var a := id + tail;
    assert a[..|id|] == id;
    ContainsIffOccurs(id, sep);
    forall k | 0 <= k < |id| ensures !OccursAt(a, sep, k) {
      if k + |sep| <= |id| {
        assert a[k..k + |sep|] == id[k..k + |sep|];
        assert !OccursAt(id, sep, k);
      } else if k + |sep| <= |a| {
        assert a[k..k + |sep|][|id| - k] == a[|id|] == '?';
      }
    }
  }

  /** With no separator in it, the identifier runs to a following query or the end. */
  lemma SegmentKeepsPath(base: string, sep: string, id: string, tail: string)
    requires sep != [] && '?' !in sep && Find(base + sep, sep) == |base|
    requires '?' !in id && !Contains(id, sep)
    requires tail == [] || tail[0] == '?'
    ensures Contains(base + sep + id + tail, sep)
    ensures Segment(base + sep + id + tail, sep) == id
  {
    Regroup4(base, sep, id, tail);
    CutAtQueryOrEnd(id, tail, sep);
    SegmentAfterBase(base, sep, id + tail, id);
  }

  lemma MarkerHasNoQuery()
    ensures '?' !in Marker
  {
    assert forall i :: 0 <= i < |Marker| ==> Marker[i] != '?';
  }

  /**
   * An identifier may hold "/": a base, the marker, an identifier without
   * "?" and without the marker, and an optional query give back the
   * identifier, when the marker after the base is the first one.
   */
  lemma ExtractKeepsPath(base: string, id: string, tail: string)
    requires Find(base + Marker, Marker) == |base|
    requires '?' !in id && !Contains(id, Marker)
    requires tail == [] || tail[0] == '?'
    ensures ExtractBillId(Some(base + Marker + id + tail)) == Some(id)
  {
    var s := base + Marker + id + tail;
    MarkerHasNoQuery();
    SegmentKeepsPath(base, Marker, id, tail);
    assert |s| >= |Marker|;
    ExtractIsSegment(s);
  }

  /** A text without "?" and without the separator's first character is cut just before the separator. */
  lemma CutBeforeSep(id: string, sep: string, rest: string)
    requires sep != [] && sep[0] !in id && '?' !in id
    ensures Cut(id + (sep + rest), id, sep)
  {
    var a := id + (sep + rest);
    assert a[|id|..|id| + |sep|] == sep;
    forall k | 0 <= k < |id| ensures !OccursAt(a, sep, k) {
      assert a[k] == id[k];
    }
    assert a[..|id|] == id;
  }

  /**
   * A second marker ends the identifier: a base, the marker, an identifier
   * without "/" or "?", the marker again and anything after it give back the
   * identifier, when the marker after the base is the first one.
   */
  lemma SecondMarkerEndsId(base: string, id: string, rest: string)
    requires Find(base + Marker, Marker) == |base|
    requires '/' !in id && '?' !in id
    ensures ExtractBillId(Some(base + Marker + id + Marker + rest)) == Some(id)
  {
    var s := base + Marker + id + Marker + rest;
    SegmentBeforeSecond(base, Marker, id, rest);
    assert |s| >= |Marker|;
    ExtractIsSegment(s);
  }

  /** `Find` gives the one position where `sub` occurs first. */
  lemma FindAt(s: string, sub: string, i: nat)
    requires OccursAt(s, sub, i) && forall k :: 0 <= k < i ==> !OccursAt(s, sub, k)
    ensures Find(s, sub) == i
  {
  }

  /** The text around the first separator, at the position `Find` gives. */
  lemma SplitAt(s: string, sep: string, i: nat)
    requires sep != [] && Find(s, sep) == i
    ensures Contains(s, sep)
    ensures BeforeFirst(s, sep) == s[..i] && AfterFirst(s, sep) == s[i + |sep|..]
  {
  }

  /** A separator that comes first in `base + sep` comes first whatever follows it. */
  lemma FirstAfterBase(base: string, sep: string, rest: string)
    requires sep != [] && Find(base + sep, sep) == |base|
    ensures Find(base + sep + rest, sep) == |base|
    ensures AfterFirst(base + sep + rest, sep) == rest
  {
    var s := base + sep + rest;
    var bs := base + sep;
    assert s[|base|..|base| + |sep|] == sep;
    forall k | 0 <= k < |base| ensures !OccursAt(s, sep, k) {
      assert !OccursAt(bs, sep, k);
      assert s[k..k + |sep|] == bs[k..k + |sep|];
    }
    FindAt(s, sep, |base|);
    SplitAt(s, sep, |base|);
    assert s[|base| + |sep|..] == rest;
  }

  /**
   * Cutting at a separator whose first character is missing from `id` and
   * does not start `tail` keeps `id` whole, followed by the start of `tail`.
   */
  lemma CutBefore(id: string, tail: string, sep: string)
    requires sep != [] && sep[0] !in id && (tail == [] || tail[0] != sep[0])
    ensures var seg := BeforeFirst(id + tail, sep);
      |seg| >= |id| && seg[..|id|] == id && (|seg| > |id| ==> seg[|id|] == tail[0])
  {
    var u := id + tail;
    var seg := BeforeFirst(u, sep);
    if Contains(u, sep) {
      var i := Find(u, sep);
      SplitAt(u, sep, i);
      assert u[i] == sep[0] by {
        assert u[i..i + |sep|][0] == sep[0];
      }
      assert i >= |id| by {
        assert forall k :: 0 <= k < |id| ==> u[k] == id[k];
      }
    }
  }

  /** The segment after the first separator of a built link is the identifier in it. */
  lemma SegmentOfLink(base: string, sep: string, id: string, tail: string)
    requires sep != [] && sep[0] != '?' && Find(base + sep, sep) == |base|
    requires sep[0] !in id && '?' !in id
    requires tail == [] || tail[0] == '?'
    ensures Contains(base + sep + id + tail, sep)
    ensures Segment(base + sep + id + tail, sep) == id
  {
    var s := base + sep + id + tail;
    assert s == base + sep + (id + tail);
    FirstAfterBase(base, sep, id + tail);
    CutBefore(id, tail, sep);
    var seg := BeforeFirst(id + tail, sep);
    assert seg == id + seg[|id|..];
    BeforeFirstChar(id, '?', seg[|id|..]);
  }

  /**
   * A link built as a base, the marker, an identifier without "/" or "?" and
   * an optional query gives back the identifier, when the marker after the
   * base is the first one.
   */
  lemma ExtractFromLink(base: string, id: string, tail: string)
    requires Find(base + Marker, Marker) == |base|
    requires '/' !in id && '?' !in id
    requires tail == [] || tail[0] == '?'
    ensures ExtractBillId(Some(base + Marker + id + tail)) == Some(id)
  {
    var s := base + Marker + id + tail;
    SegmentOfLink(base, Marker, id, tail);
    assert |s| >= |Marker|;
    ExtractIsSegment(s);
  }

  lemma ExtractIsSegment(href: string)
    requires href != [] && Contains(href, Marker)
    ensures ExtractBillId(Some(href)) == Some(Segment(href, Marker))
  {
  }

  /** The identifier the link of each row gives, in row order. */
  function Found(hrefs: seq<Option<string>>): (r: seq<Option<string>>)
    ensures |r| == |hrefs| && forall i :: 0 <= i < |hrefs| ==> r[i] == ExtractBillId(hrefs[i])
  {
    seq(|hrefs|, i requires 0 <= i < |hrefs| => ExtractBillId(hrefs[i]))
  }

  /** Row `i` gives the identifier `x`. */
  predicate YieldsAt(found: seq<Option<string>>, i: int, x: string)
  {
    0 <= i < |found| && found[i] == Some(x)
  }

  /** Row `i` is the first that gives `x`. */
  predicate FirstYield(found: seq<Option<string>>, i: int, x: string)
  {
    YieldsAt(found, i, x) && forall k :: 0 <= k < i ==> !YieldsAt(found, k, x)
  }

  lemma FirstYieldUnique(found: seq<Option<string>>, a: int, b: int, x: string)
    requires FirstYield(found, a, x) && FirstYield(found, b, x)
    ensures a == b
  {
  }

  /**
   * What the collection loop knows after the first `i` rows: every kept
   * identifier is first given at the row recorded for it, those rows are
   * increasing, and the kept identifiers are the non-empty ones given so far.
   */
  ghost predicate Collected(found: seq<Option<string>>, ids: seq<string>, firsts: seq<int>, i: int)
  {
    0 <= i <= |found| && |firsts| == |ids|
    && (forall j :: 0 <= j < |ids| ==> FirstYield(found, firsts[j], ids[j]) && firsts[j] < i)
    && (forall j, k :: 0 <= j < k < |ids| ==> firsts[j] < firsts[k])
    && (forall x :: x in ids <==> x != [] && exists k :: 0 <= k < i && YieldsAt(found, k, x))
  }

  /** One more row: a new non-empty identifier is appended, anything else is skipped. */
  lemma {:induction false} CollectStep(found: seq<Option<string>>, ids: seq<string>, firsts: seq<int>, i: int)
    requires Collected(found, ids, firsts, i) && i < |found|
    ensures found[i].Some? && found[i].value != [] && found[i].value !in ids
      ==> Collected(found, ids + [found[i].value], firsts + [i], i + 1)
    ensures !(found[i].Some? && found[i].value != [] && found[i].value !in ids)
      ==> Collected(found, ids, firsts, i + 1)
  {
    if found[i].Some? && found[i].value != [] && found[i].value !in ids {
      var x := found[i].value;
      assert FirstYield(found, i, x);
      var ids', firsts' := ids + [x], firsts + [i];
      forall y ensures y in ids' <==> y != [] && exists k :: 0 <= k < i + 1 && YieldsAt(found, k, y) {
        if y == x {
          assert YieldsAt(found, i, y);
        }
      }
    } else {
      forall y ensures y in ids <==> y != [] && exists k :: 0 <= k < i + 1 && YieldsAt(found, k, y) {
        if y != [] && YieldsAt(found, i, y) {
          assert y in ids;
        }
      }
    }
  }

  /** After the last row the kept identifiers are distinct and in the order of their first rows. */
  lemma CollectDone(found: seq<Option<string>>, ids: seq<string>, firsts: seq<int>)
    requires Collected(found, ids, firsts, |found|)
    ensures Distinct(ids)
    ensures forall x :: x in ids <==> x != [] && exists i :: YieldsAt(found, i, x)
    ensures forall j, k, a, b :: (0 <= j < k < |ids| && FirstYield(found, a, ids[j])
      && FirstYield(found, b, ids[k])) ==> a < b
  {
    forall j, k | 0 <= j < k < |ids| ensures ids[j] != ids[k] {
      if ids[j] == ids[k] {
        FirstYieldUnique(found, firsts[j], firsts[k], ids[j]);
      }
    }
    forall j, k, a, b | 0 <= j < k < |ids| && FirstYield(found, a, ids[j]) && FirstYield(found, b, ids[k])
      ensures a < b
    {
      FirstYieldUnique(found, a, firsts[j], ids[j]);
      FirstYieldUnique(found, b, firsts[k], ids[k]);
    }
  }

  /**
   * The collection loop of `get_all_bill_ids` over the links of all rows in
   * order: each non-empty identifier is kept the first time it turns up. The
   * result holds every non-empty identifier once, in the order of first
   * appearance.
   */
  method CollectBillIds(hrefs: seq<Option<string>>) returns (ids: seq<string>)
    ensures Distinct(ids)
    ensures forall x :: x in ids <==> x != [] && exists i :: YieldsAt(Found(hrefs), i, x)
    ensures forall j, k, a, b :: (0 <= j < k < |ids| && FirstYield(Found(hrefs), a, ids[j])
      && FirstYield(Found(hrefs), b, ids[k])) ==> a < b
  {
    ghost var found := Found(hrefs);
    ids := [];
    ghost var firsts: seq<int> := [];
    var i := 0;
    while i < |hrefs|
      invariant Collected(found, ids, firsts, i)
    {
      var r := ExtractBillId(hrefs[i]);
      assert r == found[i];
      CollectStep(found, ids, firsts, i);
      if r.Some? && r.value != [] && r.value !in ids {
        ids := ids + [r.value];
        firsts := firsts + [i];
      }
      i := i + 1;
    }
    CollectDone(found, ids, firsts);
  }
}

=== FILE: seqs.dfy ===
/** Sequence helpers shared by the filters, cleaners and lookups of the model. */
module Seqs {
  import opened Wrappers

  /** `a` can be obtained from `b` by deleting elements, keeping the order of the rest. */
  predicate IsSubsequence<T(==)>(a: seq<T>, b: seq<T>)
    decreases |b|
  {
    if a == [] then true
    else if b == [] then false
    else if a[0] == b[0] then IsSubsequence(a[1..], b[1..])
    else IsSubsequence(a, b[1..])
  }

  lemma {:induction false} SubsequenceIsShorter<T>(a: seq<T>, b: seq<T>)
    requires IsSubsequence(a, b)
    ensures |a| <= |b|
    decreases |b|
  {
    if a != [] {
      if a[0] == b[0] {
        SubsequenceIsShorter(a[1..], b[1..]);
      } else {
        SubsequenceIsShorter(a, b[1..]);
      }
    }
  }

  lemma {:induction false} SubsequenceOfSelf<T>(a: seq<T>)
    ensures IsSubsequence(a, a)
    decreases |a|
  {
    if a != [] {
      SubsequenceOfSelf(a[1..]);
    }
  }

  /** Dropping a leading element of `b` keeps `a` a subsequence of `b`'s tail only if it was not used. */
  lemma {:induction false} SubsequenceOfTail<T>(a: seq<T>, b: seq<T>)
    requires b != [] && IsSubsequence(a, b[1..])
    ensures IsSubsequence(a, b)
  {
    if a != [] && a[0] == b[0] {
      SubsequenceDropHead(a, b[1..]);
    }
  }

  lemma {:induction false} SubsequenceDropHead<T>(a: seq<T>, b: seq<T>)
    requires a != [] && IsSubsequence(a, b)
    ensures IsSubsequence(a[1..], b)
    decreases |b|
  {
    if a[0] != b[0] {
      SubsequenceDropHead(a, b[1..]);
    }
    // now IsSubsequence(a[1..], b[1..]) holds in both cases
    if a[1..] != [] && a[1..][0] == b[0] {
      SubsequenceDropHead(a[1..], b[1..]);
    }
  }

  /** Being a subsequence is transitive. */
  lemma {:induction false} SubsequenceTransitive<T>(a: seq<T>, b: seq<T>, c: seq<T>)
    requires IsSubsequence(a, b) && IsSubsequence(b, c)
    ensures IsSubsequence(a, c)
    decreases |c|
  {
    if a != [] {
      assert b != [] && c != [];
      if b[0] == c[0] {
        if a[0] == b[0] {
          SubsequenceTransitive(a[1..], b[1..], c[1..]);
        } else {
          SubsequenceTransitive(a, b[1..], c[1..]);
          SubsequenceOfTail(a, c);
        }
      } else {
        SubsequenceTransitive(a, b, c[1..]);
        SubsequenceOfTail(a, c);
      }
    }
  }

  /** Appending to the longer sequence keeps a subsequence. */
  lemma {:induction false} SubsequenceAppendRight<T>(a: seq<T>, b: seq<T>, x: T)
    requires IsSubsequence(a, b)
    ensures IsSubsequence(a, b + [x])
    decreases |b|
  {
    if a != [] {
      assert (b + [x])[1..] == b[1..] + [x];
      if a[0] == b[0] {
        SubsequenceAppendRight(a[1..], b[1..], x);
      } else {
        SubsequenceAppendRight(a, b[1..], x);
      }
    }
  }

  /** Appending the same element to both sides keeps a subsequence. */
  lemma {:induction false} SubsequenceAppendBoth<T>(a: seq<T>, b: seq<T>, x: T)
    requires IsSubsequence(a, b)
    ensures IsSubsequence(a + [x], b + [x])
    decreases |b|
  {
    if a == [] {
      assert a + [x] == [x] && (b + [x])[|b|..] == [x];
      SubsequenceOfSelf([x]);
      SubsequenceOfTailN([x], b + [x], |b|);
    } else {
      assert (a + [x])[1..] == a[1..] + [x];
      assert (b + [x])[1..] == b[1..] + [x];
      if a[0] == b[0] {
        SubsequenceAppendBoth(a[1..], b[1..], x);
      } else {
        SubsequenceAppendBoth(a, b[1..], x);
      }
    }
  }

  /** A subsequence of a suffix of `b` is a subsequence of `b`. */
  lemma {:induction false} SubsequenceOfTailN<T>(a: seq<T>, b: seq<T>, n: nat)
    requires n <= |b| && IsSubsequence(a, b[n..])
    ensures IsSubsequence(a, b)
    decreases n
  {
    if n > 0 {
      assert b[1..][n - 1..] == b[n..];
      SubsequenceOfTailN(a, b[1..], n - 1);
      SubsequenceOfTail(a, b);
    }
  }

  /** A suffix from `i` is its first element followed by the suffix from `i + 1`. */
  lemma SuffixCons<T>(s: seq<T>, i: nat)
    requires i < |s|
    ensures s[i..] == [s[i]] + s[i + 1..]
  {
  }

  /** Moving an element across a concatenation. */
  lemma AppendShift<T>(a: seq<T>, x: T, b: seq<T>)
    ensures a + ([x] + b) == (a + [x]) + b
  {
  }

  /** The elements of `s` satisfying `p`, in their original order (JavaScript `filter`). */
  function Filter<T(!new)>(s: seq<T>, p: T -> bool): (r: seq<T>)
    ensures |r| <= |s|
    ensures forall x :: x in r <==> x in s && p(x)
    ensures forall i :: 0 <= i < |r| ==> p(r[i])
    decreases |s|
  {
    if s == [] then []
    else if p(s[0]) then [s[0]] + Filter(s[1..], p)
    else Filter(s[1..], p)
  }

  /** Filtering a sequence with a known head. */
  lemma FilterCons<T(!new)>(x: T, s: seq<T>, p: T -> bool)
    ensures Filter([x] + s, p) == if p(x) then [x] + Filter(s, p) else Filter(s, p)
  {
    assert ([x] + s)[1..] == s;
  }

  /** Filtering keeps a sequence whose every element passes. */
  lemma {:induction false} FilterKeepsAll<T(!new)>(s: seq<T>, p: T -> bool)
    requires forall i :: 0 <= i < |s| ==> p(s[i])
    ensures Filter(s, p) == s
    decreases |s|
  {
    if s != [] {
      FilterKeepsAll(s[1..], p);
    }
  }

  lemma {:induction false} FilterIsSubsequence<T(!new)>(s: seq<T>, p: T -> bool)
    ensures IsSubsequence(Filter(s, p), s)
    decreases |s|
  {
    if s != [] {
      FilterIsSubsequence(s[1..], p);
      if !p(s[0]) {
        SubsequenceOfTail(Filter(s, p), s);
      }
    }
  }

  /** The values of the successful results of `f` over `s`, in order; the failures are skipped. */
  function Successes<A, B(!new), E>(s: seq<A>, f: A -> Result<B, E>): (r: seq<B>)
    ensures |r| <= |s|
    ensures forall y :: y in r <==> exists i :: 0 <= i < |s| && f(s[i]) == Success(y)
    decreases |s|
  {
    if s == [] then []
    else
      var rest := Successes(s[1..], f);
      assert forall i :: 1 <= i < |s| ==> s[i] == s[1..][i - 1];
      match f(s[0])
      case Success(v) => [v] + rest
      case Failure(_) => rest
  }

  /** The values of a sequence with a known head: the head's value, if any, then the rest's. */
  lemma SuccessesCons<A, B(!new), E>(x: A, s: seq<A>, f: A -> Result<B, E>)
    ensures Successes([x] + s, f) == (if f(x).Success? then [f(x).value] else []) + Successes(s, f)
  {
    assert ([x] + s)[0] == x;
    assert ([x] + s)[1..] == s;
  }

  /**
   * `Successes` keeps input order: over a concatenation it is the values of
   * the first part followed by those of the second.
   */
  lemma {:induction false} SuccessesAppend<A, B(!new), E>(a: seq<A>, b: seq<A>, f: A -> Result<B, E>)
    ensures Successes(a + b, f) == Successes(a, f) + Successes(b, f)
    decreases |a|
  {
    if a == [] {
      assert a + b == b;
    } else {
      var head := if f(a[0]).Success? then [f(a[0]).value] else [];
      var t := a[1..];
      assert a == [a[0]] + t;
      calc {
        Successes(a + b, f);
        { assert a + b == [a[0]] + (t + b); }
        Successes([a[0]] + (t + b), f);
        { SuccessesCons(a[0], t + b, f); }
        head + Successes(t + b, f);
        { SuccessesAppend(t, b, f); }
        head + (Successes(t, f) + Successes(b, f));
        (head + Successes(t, f)) + Successes(b, f);
        { SuccessesCons(a[0], t, f); }
        Successes(a, f) + Successes(b, f);
      }
    }
  }

  /** The values of one element: its value when it succeeds, and nothing otherwise. */
  lemma SuccessesOne<A, B(!new), E>(x: A, f: A -> Result<B, E>)
    ensures Successes([x], f) == if f(x).Success? then [f(x).value] else []
  {
    assert [x][1..] == [];
  }

  /** `Successes` keeps exactly as many values as there are successful results. */
  lemma {:induction false} SuccessesCount<A(!new), B(!new), E>(s: seq<A>, f: A -> Result<B, E>, p: A -> bool)
    requires forall x :: p(x) == f(x).Success?
    ensures |Successes(s, f)| == Count(s, p)
    decreases |s|
  {
    if s != [] {
      SuccessesCount(s[1..], f, p);
      FilterCons(s[0], s[1..], p);
      assert [s[0]] + s[1..] == s;
    }
  }

  /** Number of elements satisfying `p`. */
  function Count<T(!new)>(s: seq<T>, p: T -> bool): nat
  {
    |Filter(s, p)|
  }

  /** Appending one element raises the count by one exactly when the element satisfies `p`. */
  lemma {:induction false} CountSnoc<T(!new)>(s: seq<T>, x: T, p: T -> bool)
    ensures Count(s + [x], p) == Count(s, p) + (if p(x) then 1 else 0)
    decreases |s|
  {
    if s == [] {
      assert [] + [x] == [x];
      assert [x][1..] == [];
    } else {
      CountSnoc(s[1..], x, p);
      assert (s + [x])[1..] == s[1..] + [x];
    }
  }

  /** Every element satisfies exactly one of `p` and its negation, so the two counts add up. */
  lemma {:induction false} CountComplement<T(!new)>(s: seq<T>, p: T -> bool, q: T -> bool)
    requires forall x :: q(x) == !p(x)
    ensures Count(s, p) + Count(s, q) == |s|
    decreases |s|
  {
    if s != [] {
      CountComplement(s[1..], p, q);
    }
  }

  /** Counting with two predicates that agree everywhere gives the same number. */
  lemma {:induction false} CountSamePredicate<T(!new)>(s: seq<T>, p: T -> bool, q: T -> bool)
    requires forall x :: q(x) == p(x)
    ensures Count(s, p) == Count(s, q)
    decreases |s|
  {
    if s != [] {
      CountSamePredicate(s[1..], p, q);
    }
  }

  /** Counting the disjunction of two exclusive predicates adds their counts. */
  lemma {:induction false} CountDisjoint<T(!new)>(s: seq<T>, p: T -> bool, q: T -> bool, pq: T -> bool)
    requires forall x :: !(p(x) && q(x))
    requires forall x :: pq(x) == (p(x) || q(x))
    ensures Count(s, pq) == Count(s, p) + Count(s, q)
    decreases |s|
  {
    if s != [] {
      CountDisjoint(s[1..], p, q, pq);
    }
  }

  /** First position of `x` in `s`, or -1 (JavaScript `indexOf` / `findIndex`). */
  function IndexOf<T(==)>(s: seq<T>, x: T): (i: int)
    ensures -1 <= i < |s|
    ensures i == -1 <==> x !in s
    ensures 0 <= i ==> s[i] == x && x !in s[..i]
    decreases |s|
  {
    if s == [] then -1
    else if s[0] == x then 0
    else
      var j := IndexOf(s[1..], x);
      assert j >= 0 ==> s[..j + 1] == [s[0]] + s[1..][..j];
      if j == -1 then -1 else j + 1
  }

  /** The elements of `s` are pairwise distinct. */
  predicate Distinct<T(==)>(s: seq<T>)
  {
    forall i, j :: 0 <= i < j < |s| ==> s[i] != s[j]
  }

  /** No two elements of `s` share a key. */
  predicate DistinctKeys<T, K(==)>(s: seq<T>, key: T -> K)
  {
    forall i, j :: 0 <= i < j < |s| ==> key(s[i]) != key(s[j])
  }

  /** `s[i]` is the first element of `s` with its key. */
  predicate FirstWithKey<T, K(==)>(s: seq<T>, key: T -> K, i: int)
    requires 0 <= i < |s|
  {
    forall k :: 0 <= k < i ==> key(s[k]) != key(s[i])
  }

  /** The position of the first element sharing `s[j]`'s key. */
  function FirstIndexWithKey<T, K(==)>(s: seq<T>, key: T -> K, j: int): (k: int)
    requires 0 <= j < |s|
    ensures 0 <= k <= j && key(s[k]) == key(s[j]) && FirstWithKey(s, key, k)
    decreases j
  {
    if FirstWithKey(s, key, j) then j
    else
      var i :| 0 <= i < j && key(s[i]) == key(s[j]);
      FirstIndexWithKey(s, key, i)
  }

  /**
   * Keeps each element whose key is neither in `seen` nor carried by an earlier
   * element — the "seen set" loop of the Python cleaners and the scraper.
   */
  function DedupFrom<T(==,!new), K(==)>(s: seq<T>, key: T -> K, seen: set<K>): (r: seq<T>)
    ensures forall x :: x in r ==> x in s && key(x) !in seen
    ensures DistinctKeys(r, key)
    ensures forall i :: 0 <= i < |s| && key(s[i]) !in seen && FirstWithKey(s, key, i) ==> s[i] in r
    decreases |s|
  {
    if s == [] then []
    else if key(s[0]) in seen then DedupFrom(s[1..], key, seen)
    else
      var rest := DedupFrom(s[1..], key, seen + {key(s[0])});
      assert forall i :: 1 <= i < |s| && FirstWithKey(s, key, i) ==> FirstWithKey(s[1..], key, i - 1) by {
        forall i | 1 <= i < |s| && FirstWithKey(s, key, i)
          ensures FirstWithKey(s[1..], key, i - 1)
        {
          forall k | 0 <= k < i - 1 ensures key(s[1..][k]) != key(s[1..][i - 1]) {
            assert s[1..][k] == s[k + 1];
          }
        }
      }
      [s[0]] + rest
  }

  /** Deduplicating a sequence with a known head. */
  lemma DedupFromCons<T(!new), K>(x: T, s: seq<T>, key: T -> K, seen: set<K>)
    ensures DedupFrom([x] + s, key, seen)
      == if key(x) in seen then DedupFrom(s, key, seen) else [x] + DedupFrom(s, key, seen + {key(x)})
  {
    assert ([x] + s)[1..] == s;
  }

  /** Keeps the first element of `s` for each key, in order. */
  function DedupBy<T(==,!new), K(==)>(s: seq<T>, key: T -> K): seq<T>
  {
    DedupFrom(s, key, {})
  }

  lemma {:induction false} DedupFromIsSubsequence<T(!new), K>(s: seq<T>, key: T -> K, seen: set<K>)
    ensures IsSubsequence(DedupFrom(s, key, seen), s)
    decreases |s|
  {
    if s != [] {
      if key(s[0]) in seen {
        DedupFromIsSubsequence(s[1..], key, seen);
        SubsequenceOfTail(DedupFrom(s, key, seen), s);
      } else {
        DedupFromIsSubsequence(s[1..], key, seen + {key(s[0])});
      }
    }
  }

  /** Deduplication keeps first occurrences only, in order, with distinct keys, and never grows. */
  lemma DedupByFacts<T(!new), K>(s: seq<T>, key: T -> K)
    ensures IsSubsequence(DedupBy(s, key), s)
    ensures |DedupBy(s, key)| <= |s|
    ensures DistinctKeys(DedupBy(s, key), key)
    ensures forall i :: 0 <= i < |s| && FirstWithKey(s, key, i) ==> s[i] in DedupBy(s, key)
  {
    DedupFromIsSubsequence(s, key, {});
    SubsequenceIsShorter(DedupBy(s, key), s);
  }

  /** Every key of `s` is still carried by some element after deduplication. */
  /**
   * When `s[i]` succeeds and no earlier success shares its key, its value
   * sits in `Successes(s, f)` at a position no value with that key precedes.
   */
  lemma SuccessesFirstWithKey<A, B(!new), E, K>(s: seq<A>, f: A -> Result<B, E>, key: B -> K, i: int)
    requires 0 <= i < |s| && f(s[i]).Success?
    requires forall j :: 0 <= j < i && f(s[j]).Success? ==> key(f(s[j]).value) != key(f(s[i]).value)
    ensures var r := Successes(s, f);
      exists m :: 0 <= m < |r| && r[m] == f(s[i]).value && FirstWithKey(r, key, m)
  {
    var v := f(s[i]).value;
    var before := s[..i];
    var after := s[i + 1..];
    var pre := Successes(before, f);
    var r := Successes(s, f);
    assert s == before + ([s[i]] + after);
    SuccessesAppend(before, [s[i]] + after, f);
    SuccessesAppend([s[i]], after, f);
    SuccessesOne(s[i], f);
    assert r == pre + ([v] + Successes(after, f));
    var m := |pre|;
    assert r[m] == v;
    forall k | 0 <= k < m ensures key(r[k]) != key(r[m]) {
      assert r[k] == pre[k] && pre[k] in pre;
      var j :| 0 <= j < |before| && f(before[j]) == Success(pre[k]);
      assert before[j] == s[j];
    }
  }

  /**
   * Keeping the first value of each key among the successes keeps the value
   * of the first element that succeeds with that key, and no other value
   * with that key.
   */
  lemma FirstSuccessKept<A, B(!new), E, K>(s: seq<A>, f: A -> Result<B, E>, key: B -> K, i: int)
    requires 0 <= i < |s| && f(s[i]).Success?
    requires forall j :: 0 <= j < i && f(s[j]).Success? ==> key(f(s[j]).value) != key(f(s[i]).value)
    ensures var d := DedupBy(Successes(s, f), key);
      f(s[i]).value in d && forall y :: y in d && key(y) == key(f(s[i]).value) ==> y == f(s[i]).value
  {
    var v := f(s[i]).value;
    var r := Successes(s, f);
    var d := DedupBy(r, key);
    SuccessesFirstWithKey(s, f, key, i);
    DedupByFacts(r, key);
    var m :| 0 <= m < |r| && r[m] == v && FirstWithKey(r, key, m);
    assert v in d;
    forall y | y in d && key(y) == key(v) ensures y == v {
      var p :| 0 <= p < |d| && d[p] == y;
      var q :| 0 <= q < |d| && d[q] == v;
      assert key(d[p]) == key(d[q]);
    }
  }

  lemma DedupByKeepsKey<T(!new), K>(s: seq<T>, key: T -> K, x: T)
    requires x in s
    ensures exists y :: y in DedupBy(s, key) && key(y) == key(x)
  {
    DedupByFacts(s, key);
    var j :| 0 <= j < |s| && s[j] == x;
    var k := FirstIndexWithKey(s, key, j);
    assert s[k] in DedupBy(s, key);
  }

  /** The first element of `s` whose key is `k`, if any (JavaScript `find`). */
  function FindKey<T, K(==)>(s: seq<T>, key: T -> K, k: K): (r: Option<T>)
    ensures r.Some? ==> r.value in s && key(r.value) == k
    ensures r.None? ==> forall i :: 0 <= i < |s| ==> key(s[i]) != k
    decreases |s|
  {
    if s == [] then None
    else if key(s[0]) == k then Some(s[0])
    else FindKey(s[1..], key, k)
  }
}

=== FILE: strings.dfy ===
/** Character classes, trimming, substring search and decimal rendering over `string` (= `seq<char>`). */
module Strings {
  import opened Wrappers

  /** Python's `str.isspace`, which is also what `re`'s `\s` and `str.strip()` use. */
  predicate IsPyWhitespace(c: char)
  {
    c == ' ' || ('\U{0009}' <= c <= '\U{000D}') || ('\U{001C}' <= c <= '\U{001F}')
    || c == '\U{0085}' || c == '\U{00A0}' || c == '\U{1680}' || ('\U{2000}' <= c <= '\U{200A}')
    || c == '\U{2028}' || c == '\U{2029}' || c == '\U{202F}' || c == '\U{205F}' || c == '\U{3000}'
  }

  /** ECMAScript WhiteSpace and LineTerminator, the set `String.prototype.trim` removes. */
  predicate IsJsWhitespace(c: char)
  {
    c == ' ' || ('\U{0009}' <= c <= '\U{000D}') || c == '\U{00A0}' || c == '\U{FEFF}'
    || c == '\U{1680}' || ('\U{2000}' <= c <= '\U{200A}')
    || c == '\U{2028}' || c == '\U{2029}' || c == '\U{202F}' || c == '\U{205F}' || c == '\U{3000}'
  }

  predicate IsAsciiDigit(c: char)
  {
    '0' <= c <= '9'
  }

  predicate AllAsciiDigits(s: string)
  {
    forall i :: 0 <= i < |s| ==> IsAsciiDigit(s[i])
  }

  /** Drops the leading characters satisfying `ws`. */
  function TrimStart(s: string, ws: char -> bool): (r: string)
    ensures |r| <= |s| && r == s[|s| - |r|..]
    ensures r == [] || !ws(r[0])
    ensures forall i :: 0 <= i < |s| - |r| ==> ws(s[i])
    decreases |s|
  {
    if s != [] && ws(s[0]) then TrimStart(s[1..], ws) else s
  }

  /** Drops the trailing characters satisfying `ws`. */
  function TrimEnd(s: string, ws: char -> bool): (r: string)
    ensures |r| <= |s| && r == s[..|r|]
    ensures r == [] || !ws(r[|r| - 1])
    ensures forall i :: |r| <= i < |s| ==> ws(s[i])
    decreases |s|
  {
    if s != [] && ws(s[|s| - 1]) then TrimEnd(s[..|s| - 1], ws) else s
  }

  /** Drops leading and trailing characters satisfying `ws` (`strip()` / `trim()`). */
  function Trim(s: string, ws: char -> bool): (r: string)
    ensures r == [] || (!ws(r[0]) && !ws(r[|r| - 1]))
    ensures exists i :: OccursAt(s, r, i)
  {
    var a := TrimStart(s, ws);
    var r := TrimEnd(a, ws);
    assert r == s[|s| - |a|..|s| - |a| + |r|];
    assert OccursAt(s, r, |s| - |a|);
    r
  }

  /** Every character of `s` satisfies `ws`. */
  predicate AllOf(s: string, ws: char -> bool)
  {
    forall i :: 0 <= i < |s| ==> ws(s[i])
  }

  /** Leading characters that `TrimStart` drops anyway change nothing. */
  lemma {:induction false} TrimStartSkipsPrefix(pre: string, s: string, ws: char -> bool)
    requires AllOf(pre, ws)
    ensures TrimStart(pre + s, ws) == TrimStart(s, ws)
    decreases |pre|
  {
    if pre == [] {
      assert pre + s == s;
    } else {
      assert (pre + s)[1..] == pre[1..] + s;
      TrimStartSkipsPrefix(pre[1..], s, ws);
    }
  }

  /** Trailing characters that `TrimEnd` drops anyway change nothing. */
  lemma {:induction false} TrimEndSkipsSuffix(s: string, post: string, ws: char -> bool)
    requires AllOf(post, ws)
    ensures TrimEnd(s + post, ws) == TrimEnd(s, ws)
    decreases |post|
  {
    if post == [] {
      assert s + post == s;
    } else {
      var p := post[..|post| - 1];
      assert (s + post)[..|s + post| - 1] == s + p;
      TrimEndSkipsSuffix(s, p, ws);
    }
  }

  /** Appending droppable characters either survives `TrimStart` whole or vanishes with the rest. */
  lemma {:induction false} TrimStartAppend(s: string, post: string, ws: char -> bool)
    requires AllOf(post, ws)
    ensures TrimStart(s + post, ws) == TrimStart(s, ws) + post
         || (TrimStart(s, ws) == [] && TrimStart(s + post, ws) == [])
    decreases |s|
  {
    if s == [] {
      assert s + post == post;
    } else if ws(s[0]) {
      assert (s + post)[1..] == s[1..] + post;
      TrimStartAppend(s[1..], post, ws);
    }
  }

  /** `Trim` ignores any droppable characters around its argument. */
  lemma TrimIgnoresPadding(pre: string, s: string, post: string, ws: char -> bool)
    requires AllOf(pre, ws) && AllOf(post, ws)
    ensures Trim(pre + s + post, ws) == Trim(s, ws)
  {
    assert pre + s + post == pre + (s + post);
    TrimStartSkipsPrefix(pre, s + post, ws);
    TrimStartAppend(s, post, ws);
    if TrimStart(s + post, ws) == TrimStart(s, ws) + post {
      TrimEndSkipsSuffix(TrimStart(s, ws), post, ws);
    }
  }

  /** Trimming only removes characters. */
  lemma TrimKeepsChars(s: string, ws: char -> bool)
    ensures forall x :: x in Trim(s, ws) ==> x in s
  {
    var r := Trim(s, ws);
    var i :| OccursAt(s, r, i);
    forall x | x in r ensures x in s {
      var k :| 0 <= k < |r| && r[k] == x;
      assert s[i + k] == x;
    }
  }

  /** A string without droppable ends is its own trim. */
  lemma TrimOfTrimmed(s: string, ws: char -> bool)
    requires s == [] || (!ws(s[0]) && !ws(s[|s| - 1]))
    ensures Trim(s, ws) == s
  {
  }

  /** Lower-casing commutes with `TrimStart` when it keeps the class of every character. */
  lemma {:induction false} TrimStartLower(s: string, ws: char -> bool)
    requires forall c :: ws(LowerChar(c)) == ws(c)
    ensures TrimStart(ToLowerAscii(s), ws) == ToLowerAscii(TrimStart(s, ws))
    decreases |s|
  {
    if s != [] {
      assert ToLowerAscii(s)[1..] == ToLowerAscii(s[1..]);
      TrimStartLower(s[1..], ws);
    }
  }

  /** Lower-casing commutes with `TrimEnd` when it keeps the class of every character. */
  lemma {:induction false} TrimEndLower(s: string, ws: char -> bool)
    requires forall c :: ws(LowerChar(c)) == ws(c)
    ensures TrimEnd(ToLowerAscii(s), ws) == ToLowerAscii(TrimEnd(s, ws))
    decreases |s|
  {
    if s != [] {
      assert ToLowerAscii(s)[..|s| - 1] == ToLowerAscii(s[..|s| - 1]);
      TrimEndLower(s[..|s| - 1], ws);
    }
  }

  /** Lower-casing commutes with `Trim` when it keeps the class of every character. */
  lemma TrimLower(s: string, ws: char -> bool)
    requires forall c :: ws(LowerChar(c)) == ws(c)
    ensures Trim(ToLowerAscii(s), ws) == ToLowerAscii(Trim(s, ws))
  {
    TrimStartLower(s, ws);
    TrimEndLower(TrimStart(s, ws), ws);
  }

  /** A text without ASCII capitals is its own lower-casing. */
  lemma LowerKeepsLower(s: string)
    requires forall i :: 0 <= i < |s| ==> !('A' <= s[i] <= 'Z')
    ensures ToLowerAscii(s) == s
  {
  }

  /** Lower-casing twice is lower-casing once. */
  lemma LowerIdempotent(s: string)
    ensures ToLowerAscii(ToLowerAscii(s)) == ToLowerAscii(s)
  {
  }

  /** `s` begins with `pre`. */
  predicate StartsWith(s: string, pre: string)
  {
    |pre| <= |s| && s[..|pre|] == pre
  }

  /** `sub` occurs in `s` starting at position `i`. */
  predicate OccursAt(s: string, sub: string, i: int)
  {
    0 <= i && i + |sub| <= |s| && s[i..i + |sub|] == sub
  }

  lemma OccursInTail(s: string, sub: string, k: int)
    requires s != [] && 0 <= k
    ensures OccursAt(s[1..], sub, k) <==> OccursAt(s, sub, k + 1)
  {
    if k + |sub| <= |s[1..]| {
      assert s[1..][k..k + |sub|] == s[k + 1..k + 1 + |sub|];
    }
  }

  /** Position of the first occurrence of `sub` in `s`, or -1 (`indexOf` / `str.find`). */
  function Find(s: string, sub: string): (i: int)
    ensures -1 <= i <= |s|
    ensures i == -1 <==> forall k :: !OccursAt(s, sub, k)
    ensures 0 <= i ==> OccursAt(s, sub, i) && forall k :: 0 <= k < i ==> !OccursAt(s, sub, k)
    decreases |s|
  {
    if StartsWith(s, sub) then
      assert OccursAt(s, sub, 0);
      0
    else if s == [] then
      assert forall k :: !OccursAt(s, sub, k);
      -1
    else
      var j := Find(s[1..], sub);
      assert forall k :: 0 <= k ==> (OccursAt(s[1..], sub, k) <==> OccursAt(s, sub, k + 1)) by {
        forall k | 0 <= k ensures OccursAt(s[1..], sub, k) <==> OccursAt(s, sub, k + 1) {
          OccursInTail(s, sub, k);
        }
      }
      assert forall k :: OccursAt(s, sub, k) ==> k == 0 || OccursAt(s[1..], sub, k - 1);
      if j == -1 then -1 else j + 1
  }

  /** `sub` occurs somewhere in `s` (JavaScript `includes`, Python `in`). */
  predicate Contains(s: string, sub: string)
  {
    Find(s, sub) >= 0
  }

  lemma ContainsIffOccurs(s: string, sub: string)
    ensures Contains(s, sub) <==> exists k :: OccursAt(s, sub, k)
  {
  }

  /** A one-character string occurs exactly when the character does. */
  lemma ContainsChar(s: string, c: char)
    ensures Contains(s, [c]) <==> c in s
  {
    ContainsIffOccurs(s, [c]);
    if c in s {
      var k :| 0 <= k < |s| && s[k] == c;
      assert s[k..k + 1] == [c];
      assert OccursAt(s, [c], k);
    }
    forall k | OccursAt(s, [c], k) ensures c in s {
      assert s[k] == s[k..k + 1][0];
    }
  }

  /** The text before the first `sep`, or all of `s` (`s.split(sep)[0]`). */
  function BeforeFirst(s: string, sep: string): (r: string)
    requires sep != []
    ensures StartsWith(s, r)
    ensures !Contains(r, sep)
    ensures Contains(s, sep) ==> OccursAt(s, sep, |r|)
    ensures !Contains(s, sep) ==> r == s
  {
    var i := Find(s, sep);
    var r := if i < 0 then s else s[..i];
    assert forall k :: OccursAt(r, sep, k) ==> OccursAt(s, sep, k) && k < |r| by {
      forall k | OccursAt(r, sep, k) ensures OccursAt(s, sep, k) && k < |r| {
        assert s[k..k + |sep|] == r[k..k + |sep|];
      }
    }
    r
  }

  /** Cutting at a character that `s` lacks and that starts whatever follows gives back `s`. */
  lemma BeforeFirstChar(s: string, c: char, rest: string)
    requires c !in s && (rest == [] || rest[0] == c)
    ensures BeforeFirst(s + rest, [c]) == s
  {
    var u := s + rest;
    var r := BeforeFirst(u, [c]);
    ContainsChar(r, c);
    ContainsChar(u, c);
    assert forall k :: 0 <= k < |s| ==> u[k] == s[k];
    assert forall k :: 0 <= k < |r| ==> u[k] == r[k];
    if rest != [] {
      assert u[|s|] == c;
    }
    if Contains(u, [c]) {
      assert u[|r|] == u[|r|..|r| + 1][0];
    }
    assert |r| == |s|;
  }

  /** A rendered number followed by a separator that starts with a non-digit reads back as that number. */
  lemma BeforeFirstAfterNumber(n: nat, rest: string, sep: string)
    requires sep != [] && !IsAsciiDigit(sep[0]) && StartsWith(rest, sep)
    ensures BeforeFirst(NatToString(n) + rest, sep) == NatToString(n)
  {
    var a := NatToString(n);
    var s := a + rest;
    assert s[|a|..|a| + |sep|] == rest[..|sep|];
    assert OccursAt(s, sep, |a|);
    forall k | 0 <= k < |a| ensures !OccursAt(s, sep, k) {
      assert s[k] == a[k];
    }
    assert s[..|a|] == a;
  }

  /** The same, read as a number: it parses back to `n`. */
  lemma NumberReadsBack(n: nat, rest: string, sep: string)
    requires sep != [] && !IsAsciiDigit(sep[0]) && StartsWith(rest, sep)
    ensures ParseNat(BeforeFirst(NatToString(n) + rest, sep)) == Some(n)
  {
    BeforeFirstAfterNumber(n, rest, sep);
    ParseNatToString(n);
  }

  /** The text after the first `sep`, when `sep` occurs (`s.split(sep, 1)[1]`). */
  function AfterFirst(s: string, sep: string): (r: string)
    requires sep != [] && Contains(s, sep)
    ensures s == BeforeFirst(s, sep) + sep + r
  {
    var i := Find(s, sep);
    assert s == s[..i] + s[i..i + |sep|] + s[i + |sep|..];
    s[i + |sep|..]
  }

  /** ASCII lower-casing of one character. */
  function LowerChar(c: char): char
  {
    if 'A' <= c <= 'Z' then (c as int + 32) as char else c
  }

  /** ASCII lower-casing; other characters are kept. */
  function ToLowerAscii(s: string): (r: string)
    ensures |r| == |s|
    ensures forall i :: 0 <= i < |s| ==> r[i] == LowerChar(s[i])
  {
    seq(|s|, i requires 0 <= i < |s| => LowerChar(s[i]))
  }

  function DigitChar(d: nat): char
    requires d < 10
  {
    ('0' as int + d) as char
  }

  function DigitValue(c: char): nat
    requires IsAsciiDigit(c)
  {
    c as int - '0' as int
  }

  /** Decimal rendering of a natural number, without leading zeros (`${n}`). */
  function NatToString(n: nat): (r: string)
    ensures |r| >= 1 && AllAsciiDigits(r)
    ensures |r| > 1 ==> r[0] != '0'
    decreases n
  {
    if n < 10 then [DigitChar(n)] else NatToString(n / 10) + [DigitChar(n % 10)]
  }

  /** Decimal rendering of an integer, with a leading '-' for negatives. */
  function IntToString(i: int): (r: string)
    ensures |r| >= 1
    ensures 0 <= i <==> IsAsciiDigit(r[0])
  {
    if i < 0 then "-" + NatToString(-i) else NatToString(i)
  }

  /** Value of a string of decimal digits read left to right. */
  function DigitsValue(s: string): nat
    requires AllAsciiDigits(s)
    decreases |s|
  {
    if s == [] then 0 else DigitsValue(s[..|s| - 1]) * 10 + DigitValue(s[|s| - 1])
  }

  /** A non-empty string of ASCII digits read as a number; anything else is rejected. */
  function ParseNat(s: string): (r: Option<nat>)
    ensures r.Some? <==> s != [] && AllAsciiDigits(s)
  {
    if s != [] && AllAsciiDigits(s) then Some(DigitsValue(s)) else None
  }

  /** The text after the first `sep` when it occurs, and nothing otherwise. */
  function AfterSep(s: string, sep: string): (r: string)
    requires sep != []
    ensures Contains(s, sep) ==> s == BeforeFirst(s, sep) + sep + r
    ensures !Contains(s, sep) ==> r == []
  {
    if Contains(s, sep) then AfterFirst(s, sep) else []
  }

  /** What follows a rendered number and a separator that starts with a non-digit is the rest. */
  lemma AfterSepAfterNumber(n: nat, sep: string, rest: string)
    requires sep != [] && !IsAsciiDigit(sep[0])
    ensures AfterSep(NatToString(n) + (sep + rest), sep) == rest
  {
    var a := NatToString(n);
    var s := a + (sep + rest);
    assert StartsWith(sep + rest, sep) by { assert (sep + rest)[..|sep|] == sep; }
    BeforeFirstAfterNumber(n, sep + rest, sep);
    var r := AfterSep(s, sep);
    assert s == a + sep + r;
    assert r == s[|a| + |sep|..];
  }

  /** Reading back a rendered number gives the number. */
  lemma {:induction false} ParseNatToString(n: nat)
    ensures ParseNat(NatToString(n)) == Some(n)
    decreases n
  {
    var r := NatToString(n);
    if n < 10 {
      assert r[..|r| - 1] == [];
      assert DigitsValue(r) == DigitValue(DigitChar(n));
    } else {
      ParseNatToString(n / 10);
      assert r[..|r| - 1] == NatToString(n / 10);
      assert DigitsValue(r) == DigitsValue(NatToString(n / 10)) * 10 + DigitValue(DigitChar(n % 10));
    }
  }

  /** Distinct numbers render to distinct strings. */
  lemma NatToStringInjective(m: nat, n: nat)
    requires NatToString(m) == NatToString(n)
    ensures m == n
  {
    ParseNatToString(m);
    ParseNatToString(n);
  }
}

=== FILE: types.dfy ===
/**
 * The closed enumerations of the legislature workflow — actor roles, houses,
 * bill types and the twenty bill statuses — with their display tables, the
 * timeline order and the route permissions of each role (src/types/index.ts).
 */
module Types {
  import opened Wrappers
  import Seqs
  import Strings

  datatype UserRole =
    | Ministry | Mp | CommitteeMember | Secretariat
    | Speaker | President | Admin | Public

  datatype HouseType = Hor | Na

  datatype BillType =
    | Government | Private | Money
    | ConstitutionalAmendment | OrdinanceReplacement

  datatype BillStatus =
    | Draft | LawMinistryReview | CabinetApproved
    | Registered | FirstReading | GeneralDiscussion
    | AmendmentWindowOpen | CommitteeReview | ClauseVoting
    | FirstHousePassed | SecondHouseProcessing
    | JointSitting | SpeakerCertification
    | PresidentialReview | Assented | GazettePublished
    | ImplementationMonitoring | Lapsed | Withdrawn | FastTrack

  /** Every status, in declaration order. */
  const AllStatuses: seq<BillStatus> := [
    Draft, LawMinistryReview, CabinetApproved,
    Registered, FirstReading, GeneralDiscussion,
    AmendmentWindowOpen, CommitteeReview, ClauseVoting,
    FirstHousePassed, SecondHouseProcessing,
    JointSitting, SpeakerCertification,
    PresidentialReview, Assented, GazettePublished,
    ImplementationMonitoring, Lapsed, Withdrawn, FastTrack
  ]

  const AllRoles: seq<UserRole> := [
    Ministry, Mp, CommitteeMember, Secretariat, Speaker, President, Admin, Public
  ]

  const AllBillTypes: seq<BillType> := [
    Government, Private, Money, ConstitutionalAmendment, OrdinanceReplacement
  ]

  /** The identifier under which a status is stored and keyed ('DRAFT', ...). */
  function StatusKey(s: BillStatus): string
  {
    match s
    case Draft => "DRAFT"
    case LawMinistryReview => "LAW_MINISTRY_REVIEW"
    case CabinetApproved => "CABINET_APPROVED"
    case Registered => "REGISTERED"
    case FirstReading => "FIRST_READING"
    case GeneralDiscussion => "GENERAL_DISCUSSION"
    case AmendmentWindowOpen => "AMENDMENT_WINDOW_OPEN"
    case CommitteeReview => "COMMITTEE_REVIEW"
    case ClauseVoting => "CLAUSE_VOTING"
    case FirstHousePassed => "FIRST_HOUSE_PASSED"
    case SecondHouseProcessing => "SECOND_HOUSE_PROCESSING"
    case JointSitting => "JOINT_SITTING"
    case SpeakerCertification => "SPEAKER_CERTIFICATION"
    case PresidentialReview => "PRESIDENTIAL_REVIEW"
    case Assented => "ASSENTED"
    case GazettePublished => "GAZETTE_PUBLISHED"
    case ImplementationMonitoring => "IMPLEMENTATION_MONITORING"
    case Lapsed => "LAPSED"
    case Withdrawn => "WITHDRAWN"
    case FastTrack => "FAST_TRACK"
  }

  /** No two statuses share an identifier. */
  lemma StatusKeyInjective()
    ensures forall s, t :: StatusKey(s) == StatusKey(t) ==> s == t
  {
  }

  /** The position of a status in declaration order. */
  function Ordinal(s: BillStatus): nat
  {
    match s
    case Draft => 0
    case LawMinistryReview => 1
    case CabinetApproved => 2
    case Registered => 3
    case FirstReading => 4
    case GeneralDiscussion => 5
    case AmendmentWindowOpen => 6
    case CommitteeReview => 7
    case ClauseVoting => 8
    case FirstHousePassed => 9
    case SecondHouseProcessing => 10
    case JointSitting => 11
    case SpeakerCertification => 12
    case PresidentialReview => 13
    case Assented => 14
    case GazettePublished => 15
    case ImplementationMonitoring => 16
    case Lapsed => 17
    case Withdrawn => 18
    case FastTrack => 19
  }

  /** `AllStatuses` lists every status, each at its ordinal. */
  lemma OrdinalIndexes(s: BillStatus)
    ensures Ordinal(s) < |AllStatuses| && AllStatuses[Ordinal(s)] == s
  {
  }

  /** Every status value occurs in `AllStatuses`. */
  lemma AllStatusesComplete()
    ensures forall s :: s in AllStatuses
  {
    forall s ensures s in AllStatuses {
      OrdinalIndexes(s);
    }
  }

  /** The first status of `ss` whose identifier is `key`. */
  function FindStatus(ss: seq<BillStatus>, key: string): (r: Option<BillStatus>)
    ensures r.Some? ==> r.value in ss && StatusKey(r.value) == key
    ensures r.None? ==> forall s :: s in ss ==> StatusKey(s) != key
  {
    if ss == [] then None
    else if StatusKey(ss[0]) == key then Some(ss[0])
    else FindStatus(ss[1..], key)
  }

  /** The status a stored identifier names, if any. */
  function ParseStatus(key: string): Option<BillStatus>
  {
    FindStatus(AllStatuses, key)
  }

  /** Parsing an identifier recovers its status, and only identifiers parse. */
  lemma ParseStatusKey(s: BillStatus, key: string)
    ensures ParseStatus(StatusKey(s)) == Some(s)
    ensures ParseStatus(key) == Some(s) <==> key == StatusKey(s)
  {
    AllStatusesComplete();
    StatusKeyInjective();
  }

  /** BILL_STATUS_LABELS */
  function StatusLabel(s: BillStatus): string
  {
    match s
    case Draft => "Draft"
    case LawMinistryReview => "Law Ministry Review"
    case CabinetApproved => "Cabinet Approved"
    case Registered => "Registered"
    case FirstReading => "First Reading"
    case GeneralDiscussion => "General Discussion"
    case AmendmentWindowOpen => "Amendment Window"
    case CommitteeReview => "Committee Review"
    case ClauseVoting => "Clause Voting"
    case FirstHousePassed => "First House Passed"
    case SecondHouseProcessing => "Second House"
    case JointSitting => "Joint Sitting"
    case SpeakerCertification => "Speaker Certification"
    case PresidentialReview => "Presidential Review"
    case Assented => "Assented"
    case GazettePublished => "Gazette Published"
    case ImplementationMonitoring => "Implementation"
    case Lapsed => "Lapsed"
    case Withdrawn => "Withdrawn"
    case FastTrack => "Fast Track"
  }

  /** BILL_STATUS_BADGE_CLASS */
  function StatusBadgeClass(s: BillStatus): string
  {
    match s
    case Draft => "badge-draft"
    case LawMinistryReview => "badge-review"
    case CabinetApproved => "badge-review"
    case Registered => "badge-active"
    case FirstReading => "badge-active"
    case GeneralDiscussion => "badge-active"
    case AmendmentWindowOpen => "badge-voting"
    case CommitteeReview => "badge-review"
    case ClauseVoting => "badge-voting"
    case FirstHousePassed => "badge-passed"
    case SecondHouseProcessing => "badge-active"
    case JointSitting => "badge-voting"
    case SpeakerCertification => "badge-review"
    case PresidentialReview => "badge-review"
    case Assented => "badge-assented"
    case GazettePublished => "badge-assented"
    case ImplementationMonitoring => "badge-passed"
    case Lapsed => "badge-lapsed"
    case Withdrawn => "badge-withdrawn"
    case FastTrack => "badge-urgent"
  }

  /** BILL_TYPE_LABELS */
  function BillTypeLabel(t: BillType): string
  {
    match t
    case Government => "Government Bill"
    case Private => "Private Member Bill"
    case Money => "Money Bill"
    case ConstitutionalAmendment => "Constitutional Amendment"
    case OrdinanceReplacement => "Ordinance Replacement"
  }

  /** HOUSE_LABELS */
  function HouseLabel(h: HouseType): string
  {
    match h
    case Hor => "House of Representatives"
    case Na => "National Assembly"
  }

  /** ROLE_LABELS */
  function RoleLabel(r: UserRole): string
  {
    match r
    case Ministry => "Ministry"
    case Mp => "Member of Parliament"
    case CommitteeMember => "Committee Member"
    case Secretariat => "Secretariat"
    case Speaker => "Speaker"
    case President => "President"
    case Admin => "System Admin"
    case Public => "Public User"
  }

  /** There are twenty statuses, listed once each. */
  lemma AllStatusesDistinct()
    ensures |AllStatuses| == 20 && Seqs.Distinct(AllStatuses)
  {
  }

  /** No two statuses share a display label. */
  lemma StatusLabelsDistinct()
    ensures forall s, t :: StatusLabel(s) == StatusLabel(t) ==> s == t
  {
  }

  /** Every status has a badge class, all of the `badge-` family. */
  lemma BadgeClassesWellFormed()
    ensures forall s :: Strings.StartsWith(StatusBadgeClass(s), "badge-") && |StatusBadgeClass(s)| > 6
  {
  }

  /** No two roles, bill types or houses share a display label. */
  lemma OtherLabelsDistinct()
    ensures forall r, q :: RoleLabel(r) == RoleLabel(q) ==> r == q
    ensures forall t, u :: BillTypeLabel(t) == BillTypeLabel(u) ==> t == u
    ensures HouseLabel(Hor) != HouseLabel(Na)
  {
  }

  /** BILL_LIFECYCLE_ORDER: the main path shown on a bill's timeline. */
  const LifecycleOrder: seq<BillStatus> := [
    Draft, LawMinistryReview, CabinetApproved, Registered, FirstReading,
    GeneralDiscussion, AmendmentWindowOpen, CommitteeReview, ClauseVoting,
    FirstHousePassed, SecondHouseProcessing, JointSitting, SpeakerCertification,
    PresidentialReview, Assented, GazettePublished, ImplementationMonitoring
  ]

  /** The timeline lists 17 distinct statuses from drafting to monitoring and skips the three side states. */
  lemma LifecycleOrderShape()
    ensures |LifecycleOrder| == 17 && Seqs.Distinct(LifecycleOrder)
    ensures LifecycleOrder[0] == Draft && LifecycleOrder[16] == ImplementationMonitoring
    ensures forall s :: s !in LifecycleOrder <==> s == Lapsed || s == Withdrawn || s == FastTrack
  {
  }

  /** ROLE_PERMISSIONS: the route permissions each role holds; "*" grants everything. */
  function RolePermissions(r: UserRole): seq<string>
  {
    match r
    case Ministry => ["bills:create", "bills:edit", "bills:view", "comments:create"]
    case Mp => ["bills:view", "comments:create", "amendments:propose", "votes:cast"]
    case CommitteeMember => ["bills:view", "clauses:edit", "reports:create", "comments:create"]
    case Secretariat => ["bills:register", "bills:view", "sessions:manage", "agenda:manage", "gazette:publish"]
    case Speaker => ["bills:certify", "bills:view", "joint-sitting:initiate"]
    case President => ["bills:assent", "bills:return", "bills:view"]
    case Admin => ["*"]
    case Public => ["bills:view-public"]
  }

  /** Only ADMIN holds the wildcard, PUBLIC may only view public bills, and every role has some permission. */
  lemma RolePermissionsShape()
    ensures RolePermissions(Admin) == ["*"]
    ensures RolePermissions(Public) == ["bills:view-public"]
    ensures forall r :: "*" in RolePermissions(r) <==> r == Admin
    ensures forall r :: |RolePermissions(r)| >= 1
    ensures forall r :: r != Public ==> "bills:view-public" !in RolePermissions(r)
  {
  }
}

=== FILE: wrappers.dfy ===
/** Failure-compatible wrappers standing in for the source's `null` results and thrown errors. */
module Wrappers {

  /** A value that may be absent: JavaScript `null`/`undefined`, Python `None`. */
  datatype Option<+T> = None | Some(value: T) {

    /** The wrapped value, or `default` when absent (the `??` operator). */
    function GetOr(default: T): T {
      match this
      case Some(v) => v
      case None => default
    }
  }

  /** A computation that either yields a value or raises an error. */
  datatype Result<+R, +E> = Success(value: R) | Failure(error: E) {

    predicate IsFailure() {
      Failure?
    }

    function PropagateFailure<U>(): Result<U, E>
      requires Failure?
    {
      Failure(error)
    }

    function Extract(): R
      requires Success?
    {
      value
    }
  }
}
